=== FILE: README.md ===
# A verified model of an AI coding workspace

This project is a Dafny model of a browser-based AI coding workspace. The workspace combines a file tree, a code editor, a chat panel, a simulated terminal and a live preview. Behind it sit a pluggable AI backend (OpenAI, Anthropic, or a local Ollama / LM Studio server) and a local IndexedDB store. Each source file of the core becomes one Dafny module of pure functions over immutable datatypes. Contracts and lemmas state what the code promises.

**The streaming-chat pipeline.**
- `AITypes` holds the shared message shapes and `formatMessages`.
- `Stream` holds the two read loops the application uses:
  - the buffered loop keeps the unterminated tail of each read for the next one;
  - the unbuffered loop splits every read on its own.
- `OpenAI`, `Anthropic` and `LocalLLM` are the three adapters: their request bodies, response mapping and stream decoders.
- `Factory` is the provider factory.
- `ChatRoute` is the `POST /api/ai/chat` endpoint. It resolves credentials, assembles the messages and re-encodes the chunks as Server-Sent Events.
- `ChatClient` is the chat panel's sender and reader.
- `Json` models the parsed JSON values with JavaScript truthiness, and `JSON.stringify` of a content event together with its inverse.
- A network read is a string. An async generator is the finite sequence of chunks it yields, plus the error it throws, if any.

**The workspace logic.**
- `Memory`: the memory manager's row mapping and prompt formatting.
- `LocalStore`: the IndexedDB adapter's create/update merges, message ordering and memory keying, over stores modelled as maps.
- `GlobalSearch`, `CommandPalette`, `Terminal`, `Pomodoro`, `LivePreview`, `FileUpload`, `FileTree`, `CodeEditor`, `ApiKeys`, `Agents`, `Deploy`, `UserMenu`, `Signup` and `Plugins`: one module for each of these components.
- Each UI handler is a state-transition function.
- Asynchronous outcomes (a file read, a deploy callback, a database write) are inputs.

**Shared modules.**
- `Text` models the JavaScript string built-ins the code relies on: `split`, `trim`, `indexOf`, `substring`, `padStart` and `replace` with its `$` patterns.
- `Wrappers` holds `Option` and `Result`.

**Where the model keeps the code as written.** Where the code looks unintended, the model follows the code and the corrected behaviour is stated next to it (see Findings). In particular:
- the chat panel's reader and the Ollama adapter use the per-read loop without carry-over exactly as written;
- the buffered variants are proved to agree with it on line-aligned reads;
- the buffered variants are proved independent of how the bytes are cut.

**Upstream failures are reported inside the event stream.** Once the adapter is built, the route returns a 200 response whose body is a `text/event-stream` (app/api/ai/chat/route.ts:119-125). The provider is called only while that stream is being read. A failed provider call, whether thrown or yielded as an error chunk, errors the stream (lines 98-115). The route's outer `catch`, which answers 500 with a JSON error (lines 126-131), therefore sees only failures that happen before the stream is built. `ChatRoute.UpstreamFailureErrorsStream` states this for a non-2xx provider reply.

## Model

| member | source | states |
|---|---|---|
| AITypes.FormatMessages | lib/ai/base.ts:13-18 | one message out per message in, in order, each keeping exactly its role and content and nothing else |
| AITypes.FormatMessagesIdempotent | lib/ai/base.ts:13-18 | formatting twice is formatting once, and messages that carry no further fields come out unchanged |
| AITypes.FirstContent | lib/ai/providers/anthropic.ts:14 | absent exactly when no message has the role; otherwise the content of the first message that has it |
| AITypes.LastContent | lib/ai/providers/local.ts:27 | absent exactly when no message has the role; otherwise the content of the last message that has it |
| AITypes.LastContentAppend | lib/ai/providers/local.ts:27 | a message followed only by messages of other roles is the one whose content is picked |
| AITypes.NonSystem | lib/ai/providers/anthropic.ts:15 | keeps no system message, keeps every other message, and adds nothing |
| AITypes.NonSystemAppend | lib/ai/providers/anthropic.ts:55 | the system filter distributes over concatenation |
| Factory.CreateProvider | lib/ai/factory.ts:7-31 | succeeds exactly for `local`, or for `openai`/`anthropic` with a non-empty key; the adapter built answers to the requested tag and keeps the configuration, the key and the base URL (defaulted for local); the two missing-key errors and the unsupported-provider error carry the source's messages |
| Factory.CustomUnsupported | lib/ai/factory.ts:28-29 | the `custom` provider the type admits is rejected as unsupported |
| OpenAI.ChatRequest | lib/ai/providers/openai.ts:19-27 | the body carries the model, the formatted messages, temperature defaulted to 0.7 and the other sampling options as given, and no `stream` field |
| OpenAI.StreamRequest | lib/ai/providers/openai.ts:54-60 | the streaming body always has `stream: true`, defaults the temperature, passes `max_tokens` and drops top-p and the penalties |
| OpenAI.StreamRequestFromChat | lib/ai/providers/openai.ts:54-60 | the streaming body is the chat body with `stream` set and the three extra options removed |
| OpenAI.CompletionContent | lib/ai/providers/openai.ts:38 | throws exactly when the payload is `null` or its `choices` is missing or `null`; otherwise the content is the first choice's `message.content` when that is a string, and `''` when it is not |
| OpenAI.CompletionUsage | lib/ai/providers/openai.ts:39-43 | a usage block is reported exactly when `data.usage` is truthy, and its three counts are the `prompt_tokens`, `completion_tokens` and `total_tokens` members of that block |
| OpenAI.ChatResponse | lib/ai/providers/openai.ts:30-44 | a non-2xx reply fails with the prefixed body text and a body that is not JSON rejects; with a parsed body it succeeds exactly when `choices[0].message.content` can be read, the content is that value (or `''` when it is not a string), and usage is present exactly when `data.usage` is truthy, holding its `prompt_tokens`, `completion_tokens` and `total_tokens` members |
| OpenAI.ChatResponseExample | lib/ai/providers/openai.ts:35-44 | a one-choice completion without usage yields that choice's message content and no usage |
| OpenAI.DeltaText | lib/ai/providers/openai.ts:99-100 | the text is the first choice's `delta.content` when that is a string, and `''` for every other payload, `null` included |
| OpenAI.DeltaTextDelivers | lib/ai/providers/openai.ts:100 | a chunk whose `choices` array starts with a choice whose `delta.content` is a string yields that string, whatever other choices follow |
| OpenAI.DataLineDelivers | lib/ai/providers/openai.ts:91-103 | a `data:` line whose payload is such a chunk with non-empty text yields exactly that text as one content chunk and does not end the stream |
| OpenAI.StreamChat | lib/ai/providers/openai.ts:63-113 | a non-2xx status throws the prefixed body text before anything is yielded; otherwise the generator is well formed (content chunks, then one terminal chunk or a throw) |
| OpenAI.StreamChatIsWhole | lib/ai/providers/openai.ts:86-88 | what is yielded depends only on the concatenated body, not on where the reads split it |
| OpenAI.StreamChatStopsAtDone | lib/ai/providers/openai.ts:93-96 | after a `data: [DONE]` line nothing later in the body matters, and the generator does not throw |
| OpenAI.StreamChatDropsTail | lib/ai/providers/openai.ts:81-88 | text after the last line break when the body ends is never decoded |
| Anthropic.WireRoleOf | lib/ai/providers/anthropic.ts:70 | a message goes out as `assistant` exactly when its role is assistant, as `user` otherwise |
| Anthropic.Conversation | lib/ai/providers/anthropic.ts:69-72 | one wire message per non-system message, in order, same content, narrowed role |
| Anthropic.Request | lib/ai/providers/anthropic.ts:64-74 | `max_tokens` defaults to 4096 and temperature to 0.7, `system` is the first system message's content, and `stream` is as requested |
| Anthropic.RequestSplitsSystem | lib/ai/providers/anthropic.ts:54-55 | with a system message in front, `system` is its content and the conversation is exactly the non-system rest: no system message is lost into or duplicated in the conversation |
| Anthropic.TokenSum | lib/ai/providers/anthropic.ts:48 | a total is reported exactly when both counts are numbers, and it is their sum |
| Anthropic.ChatResponse | lib/ai/providers/anthropic.ts:36-50 | a non-2xx reply fails with the prefixed body text and a body that is not JSON rejects; otherwise it succeeds exactly when the body can be read, with the first block's text as content, and usage reported exactly when `data.usage` is truthy, holding `input_tokens`, `output_tokens` and their sum |
| Anthropic.ReplyContent | lib/ai/providers/anthropic.ts:44 | throws exactly when the payload is `null` or its `content` is missing or `null`; otherwise the first content block's `text` when that is a string, and `''` when it is not |
| Anthropic.DeltaText | lib/ai/providers/anthropic.ts:114-115 | a frame whose `type` is `content_block_delta` gives its `delta.text` when that is a string; every other frame gives `''` |
| Anthropic.DataLineDelivers | lib/ai/providers/anthropic.ts:105-118 | a `data:` line carrying a `content_block_delta` frame with non-empty `delta.text` yields exactly that text as one content chunk and does not end the stream |
| Anthropic.StreamChat | lib/ai/providers/anthropic.ts:77-128 | a non-2xx status throws the prefixed body text before anything is yielded; otherwise the generator is well formed |
| Anthropic.StreamChatIsWhole | lib/ai/providers/anthropic.ts:100-102 | what is yielded depends only on the concatenated body, not on the read boundaries |
| Anthropic.OtherEventsSilent | lib/ai/providers/anthropic.ts:112-119 | a data line of any other event type yields nothing and does not end the stream |
| LocalLLM.DefaultIsOllama | lib/ai/providers/local.ts:7 | the default base URL selects the Ollama API |
| LocalLLM.ContextMessages | lib/ai/providers/local.ts:25-28 | the non-system messages without the last one, and nothing when there are none |
| LocalLLM.Contents | lib/ai/providers/local.ts:39 | the message contents, one per message, in order |
| LocalLLM.Context | lib/ai/providers/local.ts:39 | history is sent exactly when there are at least two non-system messages, as their contents (all but the last) joined by line breaks |
| LocalLLM.GenerateRequest | lib/ai/providers/local.ts:35-45 | the prompt is the last user message's content or empty, the system field the first system message, the temperature defaulted to 0.7, `num_predict` the token limit; history only in the non-streaming body (lines 111-120) |
| LocalLLM.PromptIsLastUser | lib/ai/providers/local.ts:27 | messages after the last user message, of any other role, do not change the prompt |
| LocalLLM.LMStudioChatRequest | lib/ai/providers/local.ts:66-71 | LM Studio's non-streaming body is the OpenAI streaming body without the `stream` flag |
| LocalLLM.LMStudioStreamRequest | lib/ai/providers/local.ts:174-180 | LM Studio's streaming body is exactly the OpenAI streaming body |
| LocalLLM.OllamaChatResponse | lib/ai/providers/local.ts:48-57 | a non-2xx reply fails with the Ollama prefix and body text, a body that is not JSON rejects, a `null` payload throws; otherwise the content is `data.response` when it is a string and `''` when it is not, with no usage |
| LocalLLM.ChatResponse | lib/ai/providers/local.ts:12-21 | the Ollama test picks the Ollama reader; otherwise the OpenAI reader with the LM Studio prefix (lines 74-88) |
| LocalLLM.NdjsonLine | lib/ai/providers/local.ts:148-160 | an unparsable or `null` line yields nothing; otherwise it yields the frame's `response` when that is a non-empty string, followed by the terminal chunk exactly when `done` is truthy, which is exactly when the line stops the stream |
| LocalLLM.DoneFrame | lib/ai/providers/local.ts:149-157 | a final frame carrying text yields that text and then the terminal chunk, and stops |
| LocalLLM.NdjsonGood | lib/ai/providers/local.ts:148-160 | every line yields content chunks and at most one terminal chunk, last |
| LocalLLM.ResponseBeforeDone | lib/ai/providers/local.ts:150-156 | a frame carrying both text and `done: true` yields the text and then the terminal chunk |
| LocalLLM.OllamaStream | lib/ai/providers/local.ts:123-166 | a non-2xx status throws the prefixed body text before anything is yielded; otherwise the generator is well formed |
| LocalLLM.OllamaStreamAligned | lib/ai/providers/local.ts:144-145 | when every read ends on a line break, the decoder sees exactly the non-blank lines of the whole body |
| LocalLLM.OllamaSplitFrameLost | lib/ai/providers/local.ts:144-145 | a frame split over two reads is dropped: only the terminal chunk comes out, while the buffered decoder yields the frame's text |
| LocalLLM.SplitHalvesSkipped | lib/ai/providers/local.ts:144-161 | two halves that each fail to parse yield nothing, then the end of the body yields the terminal chunk |
| LocalLLM.SplitFrameRecovered | lib/ai/providers/local.ts:144-157 | with a carry-over buffer the two halves are joined and the frame's text and terminal chunk come out |
| LocalLLM.OllamaStreamBuffered | lib/ai/providers/local.ts:123-166 | the corrected decoder keeps the error behaviour and is well formed |
| LocalLLM.OllamaBufferedSplitInvariant | lib/ai/providers/local.ts:144-145 | the corrected decoder's output depends only on the concatenated body |
| LocalLLM.OllamaBufferedAgreesAligned | lib/ai/providers/local.ts:144-145 | on line-aligned reads the corrected decoder and the code as written agree |
| LocalLLM.LMStudioStream | lib/ai/providers/local.ts:183-233 | a non-2xx status throws with the LM Studio prefix; otherwise the stream is decoded exactly as the OpenAI adapter decodes it |
| LocalLLM.StreamChat | lib/ai/providers/local.ts:91-99 | the same Ollama test as `chat` picks the decoder, and the result is well formed |
| Stream.RunLinesAppend | lib/ai/providers/openai.ts:90-108 | handling two runs of lines in turn is handling their concatenation, unless the first run already returned |
| Stream.EndOfReads | lib/ai/providers/openai.ts:79-83 | a normal end of the body yields exactly one terminal chunk; a failing read throws and yields nothing more |
| Stream.BufferedIsWhole | lib/ai/providers/openai.ts:86-88 | the carry-over loop handles exactly the complete lines of the concatenated body, each once |
| Stream.BufferedSplitInvariant | lib/ai/providers/openai.ts:86-88 | two ways of cutting the same body into reads give the same chunks and the same error |
| Stream.UnbufferedAligned | lib/ai/providers/local.ts:144-145 | when every read ends with a line break, the per-read loop sees exactly the non-blank lines of the whole body |
| Stream.NonBlankAligned | lib/ai/providers/local.ts:144-145 | after a read ending in a line break, the lines of the next read start afresh |
| Stream.RunLinesSkipBlank | lib/ai/providers/local.ts:145 | skipping blank lines inside the handler is filtering them out beforehand |
| Stream.BufferedAgreesUnbuffered | lib/ai/providers/local.ts:144-145 | on line-aligned reads the carry-over loop with the blank filter and the per-read loop agree |
| Stream.BufferedWellFormed | lib/ai/providers/openai.ts:77-113 | over a handler that yields only non-empty deltas and at most one final terminal chunk, the carry-over loop's output is well formed |
| Stream.UnbufferedWellFormed | lib/ai/providers/local.ts:135-165 | the same for the per-read loop |
| Stream.SseLine | lib/ai/providers/openai.ts:91-107 | a line without the `data: ` prefix yields nothing; `[DONE]` yields the terminal chunk and stops; any other `data:` line yields the delta of its parsed payload when that is non-empty, and nothing when the payload does not parse or the delta is empty |
| Stream.SseLineGood | lib/ai/providers/openai.ts:91-107 | the SSE handler never yields an empty delta and yields the terminal chunk only when it stops |
| Stream.RunLinesStop | lib/ai/providers/openai.ts:93-96 | lines after the one that returns are never handled |
| Stream.WholeStopsAt | lib/ai/providers/openai.ts:93-96 | once a complete line returns, neither the rest of the body nor how it ends changes the output, and nothing is thrown |
| Stream.WholeDropsTail | lib/ai/providers/openai.ts:81-88 | an unterminated last line is never handed to the handler |
| ChatRoute.ResolveProvider | app/api/ai/chat/route.ts:40 | the agent's provider when set, else the configured default, else `openai`; never empty |
| ChatRoute.ResolveModel | app/api/ai/chat/route.ts:41 | the agent's model name when set, else `gpt-4`; never empty |
| ChatRoute.ActiveKeys | app/api/ai/chat/route.ts:21-25 | at most ten key rows, each active and taken from the table |
| ChatRoute.FindKey | app/api/ai/chat/route.ts:44 | absent exactly when no row has the provider; otherwise the key of the first row that has it |
| ChatRoute.ResolveKey | app/api/ai/chat/route.ts:44-52 | a non-empty stored key wins; only `openai` and `anthropic` fall back to their environment variables |
| ChatRoute.MemoryContext | app/api/ai/chat/route.ts:35-37 | no rows give no context; otherwise one `key: value` line per row, joined by line breaks |
| ChatRoute.MemoryLines | app/api/ai/chat/route.ts:36 | one `key: value` line per memory row, in order |
| ChatRoute.SystemContent | app/api/ai/chat/route.ts:69-72 | the agent's prompt (or the default one), followed by the project-context block only when there is context |
| ChatRoute.BuildMessages | app/api/ai/chat/route.ts:74-84 | the system message first, the history unchanged in the middle, the user's message last |
| ChatRoute.ConfigFor | app/api/ai/chat/route.ts:61-66 | the resolved provider and model, with the agent's temperature and token limit when set and 0.7 and 2000 otherwise |
| ChatRoute.ContentEvents | app/api/ai/chat/route.ts:104-106 | one `data: {"content":…}` event per chunk, in order |
| ChatRoute.EncodeWellFormed | app/api/ai/chat/route.ts:96-116 | for a well-formed generator every chunk becomes one event and the stream closes after `[DONE]`; a generator that threw errors the stream after the events of what it yielded, without `[DONE]` |
| ChatRoute.ContentEventsCons | app/api/ai/chat/route.ts:98-106 | the events of a chunk list are the first chunk's event followed by the rest's |
| ChatRoute.EncodeCons | app/api/ai/chat/route.ts:98-112 | an ordinary first chunk contributes its event and the loop continues with the rest |
| ChatRoute.WellFormedTail | app/api/ai/chat/route.ts:98-112 | dropping a leading ordinary chunk keeps the generator well formed |
| ChatRoute.AdapterStream | lib/ai/factory.ts:13-27 | whichever adapter was built, the generator it yields is well formed |
| ChatRoute.RouteAdapter | app/api/ai/chat/route.ts:87-91 | the adapter built is configured with the resolved provider and model |
| ChatRoute.Post | app/api/ai/chat/route.ts:6-133 | a body that is not JSON answers 500 with the parse error; every JSON error answer is a 400 or a 500 with a non-empty message |
| ChatRoute.RouteMessages | app/api/ai/chat/route.ts:69-84 | the upstream receives the system content built from the agent and memory, then the history, then the user's message |
| ChatRoute.MissingKeyIs400 | app/api/ai/chat/route.ts:54-59 | a provider other than `local` without a key answers 400 with the message naming the provider |
| ChatRoute.PostStreams | app/api/ai/chat/route.ts:54-119 | the route answers with an event stream exactly when a key was found (or the provider is `local`) and the factory succeeded |
| ChatRoute.PostAsksRouteMessages | app/api/ai/chat/route.ts:74-98 | the answer depends on the upstream only through what it returns for the built adapter and the route's own message list |
| ChatRoute.UpstreamFailureErrorsStream | app/api/ai/chat/route.ts:96-116 | when the upstream answers non-2xx, the event stream errors at once with the adapter's error prefix and the upstream body, and carries no event |
| ChatRoute.StreamEndsWithDone | app/api/ai/chat/route.ts:104-111 | an event stream is never left open; when it closes, its last two events are the terminal chunk's empty content event and `[DONE]` |
| ChatClient.ClientLine | components/workspace/chat-panel.tsx:215-236 | a line never ends the read; a `data: ` line whose payload parses delivers that payload's `content` exactly when it is a non-empty string, and `[DONE]`, a payload that does not parse and every other line deliver nothing |
| ChatClient.ReceivedAppend | components/workspace/chat-panel.tsx:223 | the text accumulated over two runs of chunks is the first run's text followed by the second's |
| ChatClient.History | components/workspace/chat-panel.tsx:182-185 | the posted history has one entry per message on screen, with its role and content |
| ChatClient.SetContent | components/workspace/chat-panel.tsx:225-231 | exactly the messages with the placeholder's id get the new content; ids, roles and every other message are unchanged |
| ChatClient.ErrorToast | components/workspace/chat-panel.tsx:262 | the caught error's message when it has one, else the generic advice; never empty |
| ChatClient.SendIgnored | components/workspace/chat-panel.tsx:138 | nothing is sent exactly when the input is blank or a request is in flight, and then nothing changes |
| ChatClient.SendDelivers | components/workspace/chat-panel.tsx:138-140 | otherwise the trimmed input, which is non-empty, is what is sent, and the reply body is read as it arrives |
| ChatClient.DeliverRequest | components/workspace/chat-panel.tsx:140-187 | the request carries the message and the conversation as it was before the turn; the input is cleared and loading ends (line 266) |
| ChatClient.DeliverAppendsUser | components/workspace/chat-panel.tsx:145-151 | the earlier messages stay in place and the user's message follows them |
| ChatClient.DeliverPersists | components/workspace/chat-panel.tsx:154-170 | the user's row is inserted exactly when there is a conversation and a backend; the assistant's row, with all the received text, exactly when also the status was 2xx, the stream ended normally and some text arrived (lines 241-257) |
| ChatClient.DeliverToast | components/workspace/chat-panel.tsx:189-191 | a failed status toasts the fixed message, an errored stream its own message (lines 258-264), a normal end nothing |
| ChatClient.DeliverShowsReply | components/workspace/chat-panel.tsx:197-231 | after a 2xx status the last message on screen is the assistant placeholder holding all the text received |
| ChatClient.SameIdOverwritesUser | components/workspace/chat-panel.tsx:146 | when the two `Date.now()` ids coincide, the reply's text also replaces the user's own message on screen |
| ChatClient.EventSplit | components/workspace/chat-panel.tsx:213 | a line followed by a blank line reads as that one line |
| ChatClient.EventLine | app/api/ai/chat/route.ts:104-106 | a content event is one non-blank `data:` line and a blank line |
| ChatClient.EventLines | components/workspace/chat-panel.tsx:213 | one content event read on its own is one line |
| ChatClient.EventText | components/workspace/chat-panel.tsx:216-223 | the line of a content event contributes exactly its text |
| ChatClient.DoneEventSilent | components/workspace/chat-panel.tsx:218 | `[DONE]` contributes nothing |
| ChatClient.ReadOneLine | components/workspace/chat-panel.tsx:208-238 | a read holding one line contributes exactly that line's text before the later reads |
| ChatClient.ReadEvents | components/workspace/chat-panel.tsx:208-238 | content events read one per read contribute their texts in order |
| ChatClient.ReadFirstEvent | components/workspace/chat-panel.tsx:208-238 | the first content event's text comes first and the rest is read as if alone |
| ChatClient.ReadEvent | components/workspace/chat-panel.tsx:208-238 | reading one content event puts its text in front of what the following reads carry |
| ChatClient.RouteToClient | components/workspace/chat-panel.tsx:208-238 | when each event of the route arrives in its own read, the panel receives exactly the text the adapter yielded; its read fails exactly when the adapter threw, with the transport's error |
| ChatClient.EventsAligned | app/api/ai/chat/route.ts:104-109 | every event the route writes ends with a line break |
| ChatClient.BufferedRouteToClient | app/api/ai/chat/route.ts:104-109 | with a carry-over buffer the panel receives the adapter's text however the bytes are cut into reads, and its read fails exactly when the adapter threw |
| ChatClient.ReadAgreesAligned | components/workspace/chat-panel.tsx:212-213 | on line-aligned reads the reader as written and the buffered reader agree |
| ChatClient.SplitEventLost | components/workspace/chat-panel.tsx:212-213 | an event cut after its opening brace is lost by the reader as written and kept by the buffered one |
| ChatClient.HalvesSkipped | components/workspace/chat-panel.tsx:212-235 | neither half of an event cut after its opening brace contributes text |
| ChatClient.OpenBraceSkipped | components/workspace/chat-panel.tsx:220-235 | the first half is a data line whose payload fails to parse and is skipped |
| ChatClient.NoDataLines | components/workspace/chat-panel.tsx:216 | the second half holds no data line, so it contributes nothing |
| ChatClient.BufferedRouteToClientOne | components/workspace/chat-panel.tsx:212-223 | the buffered reader recovers a single event's text however it is cut |
| Json.Prop | lib/ai/providers/openai.ts:100 | an object member is read exactly when the key is present; scalars read as `undefined` |
| Json.ArrayProp | lib/ai/providers/openai.ts:100 | an array element is found only under its decimal index |
| Json.OptProp | lib/ai/providers/openai.ts:100 | `?.` on `null` or `undefined` gives `undefined`, and otherwise reads the property |
| Json.StrictProp | lib/ai/providers/openai.ts:38 | plain `.` throws exactly on `null` or `undefined`, and otherwise reads the property |
| Json.TextOr | lib/ai/providers/openai.ts:100 | a non-empty result is the string that was read; a string value is returned as is |
| Json.EscapeBodyPrintable | app/api/ai/chat/route.ts:105 | the escaped string holds no control character |
| Json.ContentJsonOneLine | app/api/ai/chat/route.ts:105 | the `{"content":…}` payload never contains a line break, so each event is one SSE line |
| Json.UnescapeChar | app/api/ai/chat/route.ts:105 | decoding one escaped character followed by more text yields that character in front of the rest |
| Json.UnescapeEscape | app/api/ai/chat/route.ts:105 | decoding inverts the escaping of `JSON.stringify` for every string |
| Json.ParseContentEvent | components/workspace/chat-panel.tsx:221-222 | text is read back only from text laid out as `{"content":"…"}` |
| Json.ContentJsonRoundTrip | components/workspace/chat-panel.tsx:221-223 | the payload the route writes reads back as exactly the chunk's content |
| Json.ContentJsonInjective | app/api/ai/chat/route.ts:105 | two different contents never encode to the same payload |
| Memory.Entries | lib/memory/manager.ts:30-34 | no data gives no entries; otherwise one entry per row, in order, with its key and value and the metadata defaulting to `{}` |
| Memory.Format | lib/memory/manager.ts:81-89 | an empty list formats to `''`, and a single entry to `**key**: value` |
| Memory.FormatAppend | lib/memory/manager.ts:86-88 | two non-empty lists format to their two texts joined by a blank line, so entries appear in input order |
| Memory.FormatIgnoresMetadata | lib/memory/manager.ts:86-88 | lists with the same keys and values in the same order format identically, whatever their metadata |
| Memory.FormatContains | lib/memory/manager.ts:86-88 | every entry's rendering occurs in the formatted text |
| LocalStore.Add | lib/storage/local.ts:109 | `add` succeeds exactly when the record has a valid key not yet in the store, and then stores it under that key |
| LocalStore.Put | lib/storage/local.ts:125 | `put` succeeds exactly when the record has a valid key, and then inserts or replaces it under that key |
| LocalStore.ParentField | lib/storage/local.ts:98-101 | each kind's parent field is distinct from the id and the timestamps |
| LocalStore.NewRecord | lib/storage/local.ts:98-104 | the caller's fields override the generated id and parent id; `created_at` is always the adapter's, as is `updated_at` except for messages (lines 269-274), which get none unless the caller supplies it; no other field appears |
| LocalStore.Create | lib/storage/local.ts:96-114 | on success the record returned is the one built and is stored under its key; a fresh generated id with no caller id always succeeds |
| LocalStore.Update | lib/storage/local.ts:116-131 | the record returned is the merged one and is put back under its own key, which succeeds exactly when that record has a valid key |
| LocalStore.UpdatedRecord | lib/storage/local.ts:124 | the caller's fields win, the stored record's other fields are kept, projects and documents get a fresh `updated_at` (line 198), messages do not (line 294), and no other field appears |
| LocalStore.UpdateInPlace | lib/storage/local.ts:116-131 | updating a stored record without touching its id replaces just that record and leaves every other record alone |
| LocalStore.UpdateIdempotent | lib/storage/local.ts:124-125 | applying the same update twice at the same time is applying it once |
| LocalStore.UpdateMessageUnstamped | lib/storage/local.ts:294 | a message update never adds `updated_at` |
| LocalStore.InsertByTime | lib/storage/local.ts:260-262 | inserting into a time-ordered list keeps it ordered and adds exactly the one record |
| LocalStore.InsertStep | lib/storage/local.ts:260-262 | an earlier first record stays in front of the rest with the new record inserted |
| LocalStore.SortedTail | lib/storage/local.ts:260-262 | the tail of an ordered list is ordered |
| LocalStore.SortByTime | lib/storage/local.ts:260-262 | the sort returns a permutation of its input ordered by creation time |
| LocalStore.InsertAtTime | lib/storage/local.ts:260-262 | inserting a record puts it before the records that share its time |
| LocalStore.AtTimeCons | lib/storage/local.ts:260-262 | the records at one time in a list with a new head start with the head if it has that time |
| LocalStore.SortStable | lib/storage/local.ts:260-262 | the sort is stable: records sharing a time keep their relative order |
| LocalStore.WithField | lib/storage/local.ts:258 | the index lookup returns exactly the records with that field value |
| LocalStore.GetMessages | lib/storage/local.ts:252-265 | the conversation's messages, each exactly once, ordered by creation time |
| LocalStore.FilterVisible | lib/storage/local.ts:377-379 | a record is kept exactly when it is global or, with a project given, belongs to that project; nothing else is added |
| LocalStore.GetMemory | lib/storage/local.ts:367-384 | only the workspace's entries, global ones only when no project is given, and every visible entry of the workspace |
| LocalStore.MemoryRecord | lib/storage/local.ts:388-396 | the record has exactly the seven fields, the composite id, and `project_id` null when no project is given |
| LocalStore.SetMemory | lib/storage/local.ts:386-406 | the new record is stored under its composite id, which is the only key added, and every other record is unchanged |
| LocalStore.SetMemoryOverwrites | lib/storage/local.ts:389-401 | setting the same triple twice leaves one entry holding the later value |
| LocalStore.SetThenGet | lib/storage/local.ts:367-398 | for any store, the entry `setMemory` writes is among what `getMemory` returns for the same workspace and project, given an index read that sees the store's records after the write |
| LocalStore.MemoryIdCollision | lib/storage/local.ts:389 | the composite id is not injective: a dash inside the project id or the key lets two different entries share an id, and the second set replaces the first |
| GlobalSearch.AllMatches | components/workspace/global-search.tsx:43-57 | every position listed is an occurrence at or after the start, in strictly increasing order |
| GlobalSearch.AllMatchesComplete | components/workspace/global-search.tsx:43-57 | no occurrence at or after the start is missed, overlapping ones included |
| GlobalSearch.AllMatchesSkip | components/workspace/global-search.tsx:56 | positions before the next occurrence contribute nothing |
| GlobalSearch.LineMatches | components/workspace/global-search.tsx:43-57 | the `indexOf` loop, restarting one past each match, yields exactly all occurrences of the term in the lowercased line |
| GlobalSearch.FirstMatch | components/workspace/global-search.tsx:43 | the first `indexOf` finds the first occurrence, or reports that there is none |
| GlobalSearch.NextMatch | components/workspace/global-search.tsx:56 | searching again one past a match finds the next occurrence, or none is left |
| GlobalSearch.LineResults | components/workspace/global-search.tsx:46-53 | one result per match, with the file's id and name, the 1-based line number, the line, and the span of the term's length |
| GlobalSearch.Search | components/workspace/global-search.tsx:30-63 | the effect's loops compute the reference search over files, lines and matches |
| GlobalSearch.FileSearch | components/workspace/global-search.tsx:39-58 | the loop over one file's lines computes that file's reference results |
| GlobalSearch.FileResultsSound | components/workspace/global-search.tsx:39-58 | every result of a file names one of its lines and an occurrence of the term there, with a span of the term's length |
| GlobalSearch.LineResultsSound | components/workspace/global-search.tsx:46-53 | every result of a line carries that line, its number, the file, and an occurrence of the term |
| GlobalSearch.FileResultsComplete | components/workspace/global-search.tsx:39-58 | every occurrence in every line of a file is reported |
| GlobalSearch.LineResultsComplete | components/workspace/global-search.tsx:43-57 | every occurrence in a line is reported |
| GlobalSearch.FileResultsOrdered | components/workspace/global-search.tsx:41-57 | within a file, results are ordered by line and then by position |
| GlobalSearch.LineResultsOrdered | components/workspace/global-search.tsx:45-57 | within a line, results are ordered by position |
| GlobalSearch.OrderedAppend | components/workspace/global-search.tsx:41 | a later line's results follow the earlier lines' in order |
| GlobalSearch.IncreasingTransitive | components/workspace/global-search.tsx:56 | the match positions strictly increase across the whole list |
| GlobalSearch.FilesResultsSound | components/workspace/global-search.tsx:39-59 | every result comes from an occurrence in one of the files |
| GlobalSearch.FilesResultsComplete | components/workspace/global-search.tsx:39-59 | every occurrence in every file is reported |
| GlobalSearch.SearchSound | components/workspace/global-search.tsx:30-59 | results exist only for a non-blank query, and each is an occurrence of the lowercased query in a line of some file |
| GlobalSearch.SearchComplete | components/workspace/global-search.tsx:30-59 | for a non-blank query every occurrence of its lowercased form in every line of every file is a result |
| GlobalSearch.BlankQueryFindsNothing | components/workspace/global-search.tsx:31-34 | a blank query yields no results |
| GlobalSearch.HighlightSpellsText | components/workspace/global-search.tsx:106-116 | for ordered offsets the three rendered pieces spell the text, however `substring` clamps them |
| GlobalSearch.ShownHighlightMisplaced | components/workspace/global-search.tsx:50-52 | searching `foo` in the line `  foo` gives offsets 2..5, which the row applies to the trimmed `foo` and so marks only its last `o` |
| GlobalSearch.IndentedFooFound | components/workspace/global-search.tsx:43-53 | the indented line yields the result with offsets 2..5 |
| GlobalSearch.IndentedFooTrim | components/workspace/global-search.tsx:50 | the row's content is the trimmed line `foo` |
| GlobalSearch.FooHighlight | components/workspace/global-search.tsx:106-116 | offsets 2..5 applied to `foo` mark `o` after `fo` |
| GlobalSearch.Indent | components/workspace/global-search.tsx:50 | the whitespace `trim` removes in front is no longer than the line |
| GlobalSearch.TrimIsSlice | components/workspace/global-search.tsx:50 | the trimmed content is the line from its indent on, cut to length |
| GlobalSearch.LowerSlice | components/workspace/global-search.tsx:42 | lowercasing a span is the span of the lowercased line |
| GlobalSearch.CorrectedHighlightMarksMatch | components/workspace/global-search.tsx:50-52 | with the offsets moved back by the indent, the mark is the occurrence of the query, and the pieces still spell the content |
| GlobalSearch.ResultOccurs | components/workspace/global-search.tsx:46-53 | a result marks an occurrence of the lowercased query in its own line |
| GlobalSearch.CorrectedMark | components/workspace/global-search.tsx:50-52 | the corrected mark lowercases to the term found |
| GlobalSearch.CorrectedIsShifted | components/workspace/global-search.tsx:50-52 | the corrected row is the trimmed content with the offsets shifted back by the indent |
| GlobalSearch.TrimmedSpan | components/workspace/global-search.tsx:50-52 | inside the trimmed part, the shifted mark is exactly the line's span |
| GlobalSearch.LowerOfMatch | components/workspace/global-search.tsx:42-43 | the line's span at a match lowercases to the term |
| GlobalSearch.WindowMark | components/workspace/global-search.tsx:106-116 | marking inside a window of the line marks the same characters of the line |
| GlobalSearch.ShiftedSpellsText | components/workspace/global-search.tsx:106-116 | whatever the shift, ordered offsets cut the content into pieces that spell it |
| GlobalSearch.Typed | components/workspace/global-search.tsx:30-63 | typing sets the query and its results; a blank query keeps the selection, any other selects the first result |
| GlobalSearch.Close | components/workspace/global-search.tsx:77-80 | closing clears the query and with it the results, keeping the selection |
| GlobalSearch.KeyDown | components/workspace/global-search.tsx:67-100 | the shortcut toggles the dialog and nothing else; a closed dialog ignores other keys; a result is opened exactly on Enter with the selection in range, with its file id and line, and then, as on Escape, the dialog closes |
| GlobalSearch.SelectionStaysInRange | components/workspace/global-search.tsx:83-91 | the arrows keep the results and the selection on one of them |
| GlobalSearch.ArrowDownStep | components/workspace/global-search.tsx:83-86 | ArrowDown moves one result down and stops at the last |
| GlobalSearch.ArrowsInverse | components/workspace/global-search.tsx:83-91 | away from the ends, ArrowUp and ArrowDown undo each other |
| GlobalSearch.ArrowDownOnNoResults | components/workspace/global-search.tsx:85-93 | with no results ArrowDown selects -1, and Enter then opens nothing |
| GlobalSearch.ReopenAfterEscapeIsEmpty | components/workspace/global-search.tsx:69-80 | after Escape, reopening shows an empty query and no results |
| GlobalSearch.GroupIndex | components/workspace/global-search.tsx:120 | the group for a name, or -1 exactly when no group has it |
| GlobalSearch.WithName | components/workspace/global-search.tsx:119-125 | only results carrying the name, taken from the list |
| GlobalSearch.AddToGroupsEffect | components/workspace/global-search.tsx:119-125 | one reduce step keeps names distinct, grows the group for the result's name (a new one at the end when the name is new) and leaves every other group unchanged |
| GlobalSearch.GroupByNameIsGroups | components/workspace/global-search.tsx:119-125 | the reduce builds one group per distinct name, each holding exactly the results with that name, in list order |
| GlobalSearch.WithNameEmpty | components/workspace/global-search.tsx:119-125 | a name no result carries selects nothing |
| CommandPalette.CategoryLabel | components/workspace/command-palette.tsx:303-312 | `Other` exactly for a category outside the five known ones |
| CommandPalette.CategoryLabelsDistinct | components/workspace/command-palette.tsx:303-312 | every real category has its own heading, never `Other` |
| CommandPalette.BuiltIn | components/workspace/command-palette.tsx:56-229 | sixteen built-in commands |
| CommandPalette.FileCommand | components/workspace/command-palette.tsx:232-239 | a file's command is `file-<id>`, labelled `Open: <name>`, findable by its name, and selects that file |
| CommandPalette.Commands | components/workspace/command-palette.tsx:56-240 | the sixteen built-ins come first, then one command per file, in order |
| CommandPalette.ThemeCommandLabel | components/workspace/command-palette.tsx:224 | the theme command offers the other mode |
| CommandPalette.AnyContains | components/workspace/command-palette.tsx:247 | true exactly when some keyword, lowercased, contains the text |
| CommandPalette.Filtered | components/workspace/command-palette.tsx:243-249 | the filter never adds commands |
| CommandPalette.FilteredMembers | components/workspace/command-palette.tsx:243-249 | a command is shown exactly when it is in the list and its label or a keyword contains the lowercased query |
| CommandPalette.EmptyQueryShowsAll | components/workspace/command-palette.tsx:243-249 | the empty query shows every command, in order |
| CommandPalette.FilteredAll | components/workspace/command-palette.tsx:243-249 | a query every command matches keeps the whole list |
| CommandPalette.FileFoundByName | components/workspace/command-palette.tsx:238-249 | searching a file's name always shows that file's command |
| CommandPalette.Typed | components/workspace/command-palette.tsx:298-301 | typing a query resets the selection to the first command |
| CommandPalette.KeyDown | components/workspace/command-palette.tsx:252-291 | the shortcut toggles the palette and nothing else; a closed palette ignores other keys; Enter on a shown command runs exactly its callbacks and resets the palette |
| CommandPalette.SelectionStaysInRange | components/workspace/command-palette.tsx:271-281 | while the palette stays open the selection stays on a shown command |
| CommandPalette.ArrowsStopAtEnds | components/workspace/command-palette.tsx:271-281 | ArrowDown stops at the last command and ArrowUp at the first |
| CommandPalette.ToggleTwice | components/workspace/command-palette.tsx:254-257 | pressing the shortcut twice restores the palette |
| CommandPalette.EnterRunsSelected | components/workspace/command-palette.tsx:284-286 | Enter on a file's command selects exactly that file |
| CommandPalette.Categories | components/workspace/command-palette.tsx:315-321 | the categories of the groups, in order |
| CommandPalette.FirstIndex | components/workspace/command-palette.tsx:316 | the first position of a category, or -1 exactly when it is absent |
| CommandPalette.GroupIndex | components/workspace/command-palette.tsx:316 | the group for a category, or -1 exactly when no group has it |
| CommandPalette.CategoriesOf | components/workspace/command-palette.tsx:315-321 | every command's category is among them |
| CommandPalette.GroupByCategoryRuns | components/workspace/command-palette.tsx:315-321 | when each category's commands are contiguous, the groups flatten back to the list, one group per category |
| CommandPalette.LastGroupIsX | components/workspace/command-palette.tsx:315-321 | on contiguous input, a command whose category already has a group belongs to the last group |
| CommandPalette.AppendNewGroup | components/workspace/command-palette.tsx:316-318 | a new category opens a group at the end and keeps the grouping exact |
| CommandPalette.CategoryWitness | components/workspace/command-palette.tsx:315-321 | a category of the list is carried by one of its commands |
| CommandPalette.AppendToLastGroup | components/workspace/command-palette.tsx:319 | a command of the last group's category joins it and keeps the grouping exact |
| CommandPalette.GroupIndexSameNames | components/workspace/command-palette.tsx:316 | finding a group depends only on the categories |
| CommandPalette.CommandsContiguous | components/workspace/command-palette.tsx:56-240 | the full command list keeps each category's commands together |
| CommandPalette.RankedContiguous | components/workspace/command-palette.tsx:56-240 | a list laid out in category blocks is contiguous |
| CommandPalette.RankInjective | components/workspace/command-palette.tsx:30 | each block holds one category |
| CommandPalette.FilteredContiguous | components/workspace/command-palette.tsx:243-249 | filtering keeps categories contiguous |
| CommandPalette.Keep | components/workspace/command-palette.tsx:243 | a filter never adds elements |
| CommandPalette.FilteredIsKeep | components/workspace/command-palette.tsx:243-249 | the query filter is a plain filter by the match test |
| CommandPalette.KeepContiguous | components/workspace/command-palette.tsx:243 | any filter keeps categories contiguous |
| CommandPalette.Origin | components/workspace/command-palette.tsx:243 | each kept element has a position in the input |
| CommandPalette.OriginHolds | components/workspace/command-palette.tsx:243 | the kept element is the input's element at that position |
| CommandPalette.OriginIncreasing | components/workspace/command-palette.tsx:243 | kept elements keep their input order |
| CommandPalette.DrawnOrderIsSelectionOrder | components/workspace/command-palette.tsx:347-355 | the grouped rows are drawn in exactly the order of the list the arrows and Enter index |
| Terminal.AppendEntry | components/workspace/terminal.tsx:179-194 | only the active tab's history grows, by exactly the new entry; every other tab is unchanged |
| Terminal.AppendInput | components/workspace/terminal.tsx:115-128 | the active tab records its own directory, ` $ ` and the command; every other tab is unchanged |
| Terminal.ClearHistory | components/workspace/terminal.tsx:74-81 | the active tab's history becomes empty and no other tab changes |
| Terminal.SetCwd | components/workspace/terminal.tsx:94-104 | only the active tab's directory changes |
| Terminal.Find | components/workspace/terminal.tsx:46 | absent exactly when no tab has the id; otherwise the first tab with that id |
| Terminal.Pwd | components/workspace/terminal.tsx:85 | the printed directory is never empty |
| Terminal.Lookup | components/workspace/terminal.tsx:56-105 | a command is built in exactly when it is one of the six names, and which one it is |
| Terminal.BuiltIn | components/workspace/terminal.tsx:56-105 | built-ins never fail; only `clear` wipes and only `cd` moves, to the first argument or `~`; `echo` joins its arguments with spaces; `pwd` prints the directory |
| Terminal.NpmReply | components/workspace/terminal.tsx:147-157 | fails exactly for something other than `install`, `run dev` or `run build`; an unknown script is named; anything but `install`/`run` is an unknown command |
| Terminal.GitReply | components/workspace/terminal.tsx:158-168 | fails exactly for a subcommand other than status, add and commit, naming it |
| Terminal.NotFound | components/workspace/terminal.tsx:170-171 | an error that starts with `Command not found: ` and the command |
| Terminal.Simulated | components/workspace/terminal.tsx:146-172 | npm and git get their simulated replies and every other command is not found; none changes the tab |
| Terminal.Respond | components/workspace/terminal.tsx:130-177 | built-ins take precedence; otherwise the handler answers the whole trimmed line when given, else the simulation answers |
| Terminal.Answer | components/workspace/terminal.tsx:144-176 | a handler's result is shown as output; its failure as an error prefixed `Error: ` |
| Terminal.Execute | components/workspace/terminal.tsx:107-197 | a blank line changes nothing; otherwise the trimmed command joins the history, the cursor and input reset, and only the active tab changes |
| Terminal.ExecuteTranscript | components/workspace/terminal.tsx:115-194 | the active tab gains the prompt line and then the output, as an error entry for a failure and nothing when the output is empty |
| Terminal.ClearEmptiesActive | components/workspace/terminal.tsx:74-141 | `clear` leaves the active tab's history empty |
| Terminal.RespondClear | components/workspace/terminal.tsx:74-81 | `clear` answers nothing and wipes |
| Terminal.EchoPrintsRest | components/workspace/terminal.tsx:83-133 | `echo` prints the rest of the line unchanged |
| Terminal.CdMoves | components/workspace/terminal.tsx:94-104 | `cd` moves the active tab to its first argument, or home when it is empty |
| Terminal.BuiltInsFirst | components/workspace/terminal.tsx:140-144 | a handler never overrides a built-in |
| Terminal.UnknownCommandIsError | components/workspace/terminal.tsx:170-171 | an unknown command gives the not-found error with the help hint |
| Terminal.KeyDown | components/workspace/terminal.tsx:199-227 | the cursor stays valid and the history is untouched; recalled input is the entry under the cursor; ArrowUp with history always lands on an entry; ArrowDown past the newest leaves the history and clears the input |
| Terminal.UpRecallsLatest | components/workspace/terminal.tsx:204-209 | the first ArrowUp recalls the newest command |
| Terminal.UpStopsAtOldest | components/workspace/terminal.tsx:207 | ArrowUp stays on the oldest command |
| Terminal.UpDownInverse | components/workspace/terminal.tsx:202-221 | ArrowDown undoes ArrowUp inside the history |
| Terminal.DownUpInverse | components/workspace/terminal.tsx:202-221 | ArrowUp undoes ArrowDown inside the history |
| Terminal.DownLeavesHistory | components/workspace/terminal.tsx:213-217 | ArrowDown from the newest returns to a fresh empty input |
| Terminal.ExecuteKeepsCursorValid | components/workspace/terminal.tsx:112-113 | running a command keeps the cursor valid |
| Terminal.Without | components/workspace/terminal.tsx:248 | removes every tab with the id and keeps all others |
| Terminal.CreateSession | components/workspace/terminal.tsx:229-243 | appends a tab numbered one past the count and makes it active |
| Terminal.NewTab | components/workspace/terminal.tsx:231-242 | appends a tab in the home directory and activates it |
| Terminal.CloseSession | components/workspace/terminal.tsx:245-254 | the last tab is never closed; otherwise the id is removed, and closing the active tab activates the first remaining one |
| Terminal.Activate | components/workspace/terminal.tsx:269 | clicking a tab makes it active and changes nothing else |
| Terminal.DuplicateIdEmptiesTerminal | components/workspace/terminal.tsx:229-254 | new, close tab 1, new gives two tabs numbered 2, and closing tab 2 removes both |
| Terminal.MaxId | components/workspace/terminal.tsx:230 | bounds every tab id |
| Terminal.CreateSessionFresh | components/workspace/terminal.tsx:229-243 | the new tab's id differs from every existing one |
| Terminal.InitialTabsValid | components/workspace/terminal.tsx:28-38 | the terminal starts with one tab |
| Terminal.CreateFreshKeepsTabs | components/workspace/terminal.tsx:229-243 | fresh ids keep tab ids distinct |
| Terminal.CloseKeepsTabs | components/workspace/terminal.tsx:245-254 | with distinct ids, closing keeps at least one tab and distinct ids |
| Terminal.WithoutDistinct | components/workspace/terminal.tsx:248 | removal keeps ids distinct |
| Pomodoro.Complete | components/workspace/focus-mode.tsx:72-107 | the timer stops at zero seconds; a finished work session counts and starts a 15-minute break every fourth time and a 5-minute one otherwise; a finished break returns to 25 minutes of work |
| Pomodoro.Tick | components/workspace/focus-mode.tsx:48-70 | a paused timer is unchanged; a running one loses exactly one second of remaining time and stays in its mode; at zero it completes; seconds stay below 60 |
| Pomodoro.CountDown | components/workspace/focus-mode.tsx:48-70 | n ticks of a running timer take exactly n seconds off and keep it running in the same mode |
| Pomodoro.RunOut | components/workspace/focus-mode.tsx:53-56 | after the full count-down the next tick completes the session |
| Pomodoro.Toggle | components/workspace/focus-mode.tsx:128-130 | start and pause flip only whether the timer runs |
| Pomodoro.Reset | components/workspace/focus-mode.tsx:132-137 | reset stops at 25:00 of work and keeps the session count |
| Pomodoro.ApplyPreset | components/workspace/focus-mode.tsx:227-256 | each preset sets its minutes and mode at zero seconds and changes nothing else |
| Pomodoro.FourthWorkIsLongBreak | components/workspace/focus-mode.tsx:86-90 | every fourth finished work session gives the long break |
| Pomodoro.OtherWorkIsShortBreak | components/workspace/focus-mode.tsx:91-95 | the other work sessions give the short break |
| Pomodoro.WorkBreakCycle | components/workspace/focus-mode.tsx:72-107 | work then break returns to 25 minutes of work with one more session counted |
| Pomodoro.FormatTime | components/workspace/focus-mode.tsx:139-141 | two-digit fields give five characters with the colon in the middle |
| Pomodoro.PaddedValue | components/workspace/focus-mode.tsx:140 | a zero-padded number reads back as itself |
| Pomodoro.FormatTimeReadsBack | components/workspace/focus-mode.tsx:139-141 | the shown time splits at the colon into the minutes and the seconds |
| LivePreview.FindHtml | components/workspace/live-preview.tsx:45 | absent exactly when no file name ends in `.html`; otherwise an HTML file of the list |
| LivePreview.FindHtmlIsFirst | components/workspace/live-preview.tsx:45 | the page is the first HTML file |
| LivePreview.Contents | components/workspace/live-preview.tsx:46-47 | at most one stylesheet or script per file |
| LivePreview.ContentsAppend | components/workspace/live-preview.tsx:46-47 | collecting distributes over concatenation, so file order is kept |
| LivePreview.ContentsMembers | components/workspace/live-preview.tsx:46-47 | a text is collected exactly when some file of the selected kind holds it |
| LivePreview.BaseHtml | components/workspace/live-preview.tsx:49-61 | the HTML file's content when it is non-empty, otherwise the built-in skeleton |
| LivePreview.Splice | components/workspace/live-preview.tsx:66-121 | a page without the marker is left alone |
| LivePreview.WithStyles | components/workspace/live-preview.tsx:64-70 | no stylesheets, no change |
| LivePreview.WithScripts | components/workspace/live-preview.tsx:73-122 | no scripts, no change |
| LivePreview.Build | components/workspace/live-preview.tsx:42-43 | no preview exactly when there are no files |
| LivePreview.SpliceBefore | components/workspace/live-preview.tsx:66-69 | inserting before the marker keeps everything around it |
| LivePreview.StylesBeforeFirstHead | components/workspace/live-preview.tsx:64-70 | the joined stylesheets go, in a style element, right before the first `</head>` |
| LivePreview.ScriptsBeforeFirstBody | components/workspace/live-preview.tsx:73-121 | the joined scripts go, wrapped in the console-capturing script, right before the first `</body>` |
| LivePreview.NoMarkerNoInjection | components/workspace/live-preview.tsx:66-121 | a page without `</head>` gets no styles and one without `</body>` no scripts |
| LivePreview.TypeScriptNotSelected | components/workspace/live-preview.tsx:45-47 | `.ts` and `.tsx` files are neither page, stylesheet nor script |
| LivePreview.UnselectedIgnored | components/workspace/live-preview.tsx:45-47 | editing a file of no selected kind changes nothing that is collected |
| LivePreview.TypeScriptIgnored | components/workspace/live-preview.tsx:42-122 | editing a TypeScript file never changes the preview |
| LivePreview.DollarFreeStylesAgree | components/workspace/live-preview.tsx:66-69 | without `$` in the stylesheets, pattern-expanding replacement agrees with literal insertion |
| LivePreview.SubstitutePrefix | components/workspace/live-preview.tsx:66-69 | a `$`-free prefix of the replacement text is copied as is |
| LivePreview.StyleDollarAmpersandMangled | components/workspace/live-preview.tsx:66-69 | a stylesheet holding `$&` comes out five characters longer than written |
| LivePreview.DollarFilesSelect | components/workspace/live-preview.tsx:45-47 | the example's page and stylesheet are the ones selected |
| LivePreview.DollarInStyleSheetMangled | components/workspace/live-preview.tsx:64-70 | for that example the expanding build differs from the literal one |
| LivePreview.DollarPreviewMangled | components/workspace/live-preview.tsx:42-122 | the preview as written differs from the intended literal one |
| FileUpload.Extension | components/workspace/file-upload.tsx:40 | the extension is never longer than the name |
| FileUpload.ExtensionFromLastDot | components/workspace/file-upload.tsx:40 | with a dot, the extension is the lowercased tail from the last dot, holding no other dot |
| FileUpload.ExtensionWithoutDot | components/workspace/file-upload.tsx:36-41 | without a dot, the whole lowercased name is the extension and the file is refused |
| FileUpload.Valid | components/workspace/file-upload.tsx:39-42 | only accepted files, all from the selection |
| FileUpload.ValidAppend | components/workspace/file-upload.tsx:39-42 | the filter keeps the selection's order |
| FileUpload.ValidKeepsAccepted | components/workspace/file-upload.tsx:39-42 | every accepted file is kept |
| FileUpload.ValidKeepsAll | components/workspace/file-upload.tsx:39-42 | when every file is accepted the selection is kept whole |
| FileUpload.ValidDropsRejected | components/workspace/file-upload.tsx:39-42 | a refused file makes the kept list shorter |
| FileUpload.ValidAll | components/workspace/file-upload.tsx:51 | the counts agree exactly when every file is accepted |
| FileUpload.Mark | components/workspace/file-upload.tsx:80-96 | every row with the file's name takes the new status; other rows are unchanged |
| FileUpload.StatusOf | components/workspace/file-upload.tsx:70-97 | a read that loads succeeds and one that throws fails; no row stays uploading |
| FileUpload.DeliveredOf | components/workspace/file-upload.tsx:73-77 | a delivered file keeps its name and content, typed `text/plain` when it has no type |
| FileUpload.ReadAll | components/workspace/file-upload.tsx:66-98 | reading keeps every row's name and size, and delivers at most one file per valid file |
| FileUpload.Queued | components/workspace/file-upload.tsx:58-62 | one uploading row per valid file with its name and size |
| FileUpload.Process | components/workspace/file-upload.tsx:34-109 | the selection is refused exactly when no file is valid; otherwise one row is added per valid file, and the success toast shows exactly when something was delivered |
| FileUpload.RefusedIffNoneAccepted | components/workspace/file-upload.tsx:44-49 | refused exactly when no selected file has an allowed extension |
| FileUpload.WarningIffSkipped | components/workspace/file-upload.tsx:51-55 | the skipped warning shows exactly when some selected file was refused |
| FileUpload.ReadAllSettles | components/workspace/file-upload.tsx:68-98 | every queued row whose file is read leaves the uploading state |
| FileUpload.ReadAllKeepsSettled | components/workspace/file-upload.tsx:80-96 | a settled row stays settled |
| FileUpload.ProcessQueue | components/workspace/file-upload.tsx:57-98 | the final rows are the old rows plus the queued ones after every read |
| FileUpload.NewRowsSettle | components/workspace/file-upload.tsx:57-98 | every row added by this selection ends settled |
| FileUpload.ReadAllStatus | components/workspace/file-upload.tsx:68-96 | a row named like a valid file ends `success` when the last valid file of that name is read and `error` when its read fails |
| FileUpload.ReadAllUntouched | components/workspace/file-upload.tsx:68-96 | a row whose name no valid file has is left exactly as it was |
| FileUpload.QueuedRowStatus | components/workspace/file-upload.tsx:57-96 | the row queued for a valid file whose name no later valid file repeats ends with that file's own read result |
| FileUpload.NewRowStatus | components/workspace/file-upload.tsx:57-96 | in a processed batch, the new row for such a file ends `success` exactly when its read succeeds, and `error` otherwise |
| FileUpload.AllLoadedAllDelivered | components/workspace/file-upload.tsx:66-77 | when every read loads, every valid file is delivered in order |
| FileUpload.NoneLoadedNoneDelivered | components/workspace/file-upload.tsx:85-97 | when every read throws, nothing is delivered |
| FileUpload.DeliveredFromLoaded | components/workspace/file-upload.tsx:70-77 | every delivered file comes from a read that loaded |
| FileTree.Toggle | components/workspace/file-tree.tsx:86-96 | the path's membership flips and every other path keeps its state |
| FileTree.ToggleTwice | components/workspace/file-tree.tsx:86-96 | toggling a folder twice restores the expanded set |
| FileTree.ToggleCommutes | components/workspace/file-tree.tsx:86-96 | toggling two folders in either order gives the same set |
| FileTree.ShownChildren | components/workspace/file-tree.tsx:218-222 | a folder's children show exactly when it is expanded; a file shows none |
| FileTree.IconExtension | components/workspace/file-tree.tsx:150 | the icon's extension holds no dot |
| FileTree.IconExtensionAfterLastDot | components/workspace/file-tree.tsx:150 | the lowercased text after the last dot, or the whole name without a dot |
| FileTree.ExtensionIcon | components/workspace/file-tree.tsx:153-170 | a code icon exactly for the eight code extensions, a plain icon otherwise, and the bare icon for anything but those and `md` |
| FileTree.FileIcon | components/workspace/file-tree.tsx:141-171 | a folder's icon is open exactly when its name is in the expanded set; a file's follows its extension |
| FileTree.NodeIcon | components/workspace/file-tree.tsx:202 | a file's icon is as drawn |
| FileTree.IconMatchesChevron | components/workspace/file-tree.tsx:174-199 | the corrected folder icon is open exactly when the chevron shows the folder expanded |
| FileTree.ToggleFlipsIcon | components/workspace/file-tree.tsx:86-147 | toggling a folder flips its corrected icon |
| FileTree.OpenFolderShowsClosedIcon | components/workspace/file-tree.tsx:143-202 | expanding `/src` still draws the closed icon, since the lookup uses the name and the set holds paths |
| FileTree.StartCreate | components/workspace/file-tree.tsx:244-256 | the header buttons start a creation at the root for the chosen kind |
| FileTree.CancelCreate | components/workspace/file-tree.tsx:270-273 | Escape clears the pending creation and the typed name |
| FileTree.JoinPathAsWritten | components/workspace/file-tree.tsx:102 | the joined path is the parent, a slash and the name |
| FileTree.JoinPath | components/workspace/file-tree.tsx:102 | no slash is doubled after a parent that already ends in one; otherwise as written |
| FileTree.CreateRequest | components/workspace/file-tree.tsx:98-103 | nothing is requested exactly when no creation is pending or the name is empty; otherwise the typed name, pending kind and joined path |
| FileTree.HeaderCreateDoubleSlash | components/workspace/file-tree.tsx:98-103 | a file created from the header gets the path `//name`, not `/name` |
| FileTree.HeaderCreateRootPath | components/workspace/file-tree.tsx:98-103 | with the corrected join the header creates `/name` |
| FileTree.FolderCreateAgrees | components/workspace/file-tree.tsx:102 | the correction changes nothing for parents without a trailing slash |
| FileTree.FinishCreate | components/workspace/file-tree.tsx:98-120 | nothing happens without a request; success closes the input with a plain toast; failure keeps it open with a destructive toast of the error or the default message |
| FileTree.CreatedToastNamesKind | components/workspace/file-tree.tsx:105-108 | the success toast names the created kind |
| CodeEditor.FileExtension | components/workspace/code-editor.tsx:105-125 | one of the known extensions, and `txt` exactly for a language outside the table |
| CodeEditor.ExtensionsPlain | components/workspace/code-editor.tsx:105-125 | every extension is non-empty and dot-free |
| CodeEditor.ExtensionCaseSensitive | components/workspace/code-editor.tsx:124 | the extension lookup is case-sensitive, unlike the editor-language lookup |
| CodeEditor.MonacoLanguage | components/workspace/code-editor.tsx:127-154 | `plaintext` exactly when the lowercased name is outside the table; otherwise one of the table's languages |
| CodeEditor.MonacoIgnoresCase | components/workspace/code-editor.tsx:153 | names equal up to case map to the same editor language |
| CodeEditor.MonacoIdempotent | components/workspace/code-editor.tsx:127-154 | mapping an editor language again leaves it unchanged |
| CodeEditor.MonacoValuesAreKeys | components/workspace/code-editor.tsx:129-152 | every mapped language maps to itself |
| CodeEditor.PlainTextUnmapped | components/workspace/code-editor.tsx:153 | the fallback is not itself a key |
| CodeEditor.MonacoAliases | components/workspace/code-editor.tsx:131-153 | tsx, jsx and bash map to typescript, javascript and shell, in any case |
| CodeEditor.TablesAgree | components/workspace/code-editor.tsx:105-152 | every language with a download extension is an editor language of the same name |
| CodeEditor.DownloadName | components/workspace/code-editor.tsx:93 | the download name starts with `code-` and ends with the language's extension |
| CodeEditor.DownloadNameReadsBack | components/workspace/code-editor.tsx:93 | the extension after the last dot is the language's, and the stem is the document id or `untitled` |
| ApiKeys.Bullets | components/workspace/api-keys-settings.tsx:187 | eight bullet characters |
| ApiKeys.MaskKey | components/workspace/api-keys-settings.tsx:186-189 | a short key shows only eight bullets; a longer one its first four characters, eight bullets and its last four |
| ApiKeys.MaskHidesMiddle | components/workspace/api-keys-settings.tsx:186-189 | keys that agree on their ends (or are both short) look the same masked, so the middle is never shown |
| ApiKeys.MaskLength | components/workspace/api-keys-settings.tsx:186-189 | the mask is 8 or 16 characters long whatever the key's length |
| ApiKeys.MaskShowsEnds | components/workspace/api-keys-settings.tsx:188 | the visible parts are exactly the key's first and last four characters |
| ApiKeys.ProviderDisplay | components/workspace/api-keys-settings.tsx:172-180 | the four known providers get their own non-empty names; any other provider is shown as is |
| ApiKeys.AddKey | components/workspace/api-keys-settings.tsx:65-97 | refused with `Please fill in all fields` exactly when the name or the value is empty; otherwise one inactive key with the form's fields is added and the others are kept |
| ApiKeys.FindKey | components/workspace/api-keys-settings.tsx:112 | absent exactly when no key has the id; otherwise a key of the list with that id |
| ApiKeys.ToggleActive | components/workspace/api-keys-settings.tsx:109-136 | an unknown id changes nothing; only activity changes, and only for the toggled key's provider, where the toggled key ends active exactly when it was inactive and every other key ends inactive |
| ApiKeys.ToggleKeepsOneActive | components/workspace/api-keys-settings.tsx:111-129 | with distinct ids, at most one key per provider stays active |
| ApiKeys.ActivateSelects | components/workspace/api-keys-settings.tsx:115-129 | activating a key makes it the only active key of its provider |
| ApiKeys.DeactivateClears | components/workspace/api-keys-settings.tsx:115-119 | deactivating leaves no key of that provider active |
| ApiKeys.ToggleOnThenOff | components/workspace/api-keys-settings.tsx:109-136 | activating then deactivating a key leaves its provider with no active key |
| Agents.CreateAgent | components/workspace/agents-settings.tsx:68-107 | refused with `Please fill in required fields` exactly when the name or the prompt is empty; otherwise one agent is appended, after the rows unchanged, carrying the workspace, the form's name, description, prompt, provider and model, default exactly when none was loaded, and the form is reset |
| Agents.SetDefault | components/workspace/agents-settings.tsx:118-131 | only default flags change: the chosen agent becomes default, the rest of the workspace does not, other workspaces keep theirs |
| Agents.Defaults | components/workspace/agents-settings.tsx:118-131 | exactly the ids of the workspace's default agents |
| Agents.SetDefaultLeavesOne | components/workspace/agents-settings.tsx:118-131 | after choosing a default, the workspace has exactly that default |
| Agents.SetDefaultOtherWorkspaces | components/workspace/agents-settings.tsx:123-124 | choosing a default leaves other workspaces' defaults alone |
| Agents.FirstAgentIsDefault | components/workspace/agents-settings.tsx:89 | the first agent of a workspace becomes its only default |
| Agents.PromptPreview | components/workspace/agents-settings.tsx:306-307 | a prompt of at most 150 characters is shown whole; a longer one as its first 150 characters and `...` |
| Agents.PreviewMarksCut | components/workspace/agents-settings.tsx:306-307 | the ellipsis appears exactly when the prompt was cut, and the preview never exceeds 153 characters |
| Deploy.DropSpaces | components/workspace/deploy-dialog.tsx:52 | strips exactly the leading whitespace run: what remains is a suffix that does not start with whitespace |
| Deploy.DashRuns | components/workspace/deploy-dialog.tsx:52 | the result holds no whitespace and is never longer than the input |
| Deploy.DashRunsChars | components/workspace/deploy-dialog.tsx:52 | every character is a dash or comes from the input |
| Deploy.Slug | components/workspace/deploy-dialog.tsx:52-111 | the site name holds no whitespace and no capital letter |
| Deploy.DashRunsNoSpace | components/workspace/deploy-dialog.tsx:52 | text without whitespace is left alone |
| Deploy.DashRunsWord | components/workspace/deploy-dialog.tsx:52 | a whole whitespace run between a word and the rest becomes one dash |
| Deploy.KeepFirst | components/workspace/deploy-dialog.tsx:52 | a non-space character is kept in place |
| Deploy.RunToDash | components/workspace/deploy-dialog.tsx:52 | a leading whitespace run becomes a single dash |
| Deploy.DropRun | components/workspace/deploy-dialog.tsx:52 | dropping a whitespace run leaves exactly the rest |
| Deploy.SlugIdempotent | components/workspace/deploy-dialog.tsx:52-111 | slugging a site name again changes nothing |
| Deploy.Open | components/workspace/deploy-dialog.tsx:51-58 | the dialog opens idle, with no platform and the project's slug as site name |
| Deploy.MockUrl | components/workspace/deploy-dialog.tsx:80 | the simulated URL is `https://`, the site name, a dot and the platform's domain |
| Deploy.Start | components/workspace/deploy-dialog.tsx:63-65 | deploying starts with the error cleared |
| Deploy.HandleDeploy | components/workspace/deploy-dialog.tsx:60-107 | nothing happens without a platform or with a blank site name; otherwise the callback gets the platform and the trimmed name with the build settings, its URL or the simulated one marks success, a throw records its message or `Deploy failed`, the dialog stops deploying, and the toast is the success one exactly on success |
| Deploy.SimulatedUsesUntrimmedName | components/workspace/deploy-dialog.tsx:69-80 | the callback gets the trimmed name while the simulated URL uses the name as typed |
| Deploy.FirstFailureToastStale | components/workspace/deploy-dialog.tsx:99-103 | as written, the first failure's toast shows `Please try again` though the error holds the message |
| Deploy.FailureToastShowsMessage | components/workspace/deploy-dialog.tsx:99-103 | read with the fresh message, the failure toast shows it |
| Deploy.DeployReadingsAgreeElsewhere | components/workspace/deploy-dialog.tsx:60-107 | the two readings differ only in the failure toast |
| Deploy.Reset | components/workspace/deploy-dialog.tsx:109-116 | closing clears the platform, status, URL and error, restores the slug and keeps the build settings |
| Deploy.ResetDisablesDeploy | components/workspace/deploy-dialog.tsx:61-116 | after a reset deploying does nothing |
| UserMenu.FirstChars | components/workspace/user-menu.tsx:39-40 | at most one character per piece |
| UserMenu.Initials | components/workspace/user-menu.tsx:37-42 | the upper-cased first characters of the space-separated words, at most two |
| UserMenu.InitialsSource | components/workspace/user-menu.tsx:36 | the profile name when set, else the e-mail address, else `U`; never empty |
| UserMenu.EmptyPieceIgnored | components/workspace/user-menu.tsx:39-40 | an empty word (from a doubled space) contributes nothing |
| UserMenu.OneWord | components/workspace/user-menu.tsx:37-42 | a single word gives its upper-cased first letter |
| UserMenu.TwoWords | components/workspace/user-menu.tsx:37-42 | two words give both first letters, upper-cased |
| UserMenu.ThirdWordDropped | components/workspace/user-menu.tsx:42 | a third word never shows |
| UserMenu.AnonymousIsU | components/workspace/user-menu.tsx:36 | with neither name nor e-mail address the menu shows `U` |
| UserMenu.MenuInitialsNonEmpty | components/workspace/user-menu.tsx:35-42 | the menu's initials are never empty unless the source starts with a space |
| UserMenu.AccountInitialsEmpty | components/workspace/user-menu.tsx:185-190 | the account dialog shows no initials while the name is empty |
| Signup.Submit | components/auth/signup-form.tsx:19-40 | mismatched passwords are refused first, then passwords shorter than six characters; otherwise sign-up is called with the e-mail address, password and name |
| Signup.SignUpIff | components/auth/signup-form.tsx:22-35 | sign-up is called exactly when the passwords match and have at least six characters |
| Signup.MismatchReportedFirst | components/auth/signup-form.tsx:22-30 | a short mismatched password reports the mismatch |
| Signup.NameNotValidated | components/auth/signup-form.tsx:35 | the name never affects whether sign-up is called, and an empty name is passed on |
| Plugins.Empty | lib/plugins/runner.ts:4 | a new runner is valid and lists nothing |
| Plugins.Register | lib/plugins/runner.ts:6-23 | a compile failure is reported as `Failed to register plugin <name>: <message>`; otherwise the compiled handler is stored under the id, which keeps its place if known and is listed last if new |
| Plugins.Run | lib/plugins/runner.ts:25-48 | an unknown id reports `Plugin <id> not found`; a handler's result is returned as is; a throw reports a non-empty error, its message when it has one |
| Plugins.Unregister | lib/plugins/runner.ts:50-52 | exactly that id is gone, from both the handlers and the listing |
| Plugins.Remove | lib/plugins/runner.ts:51 | exactly the other ids remain |
| Plugins.List | lib/plugins/runner.ts:54-56 | the listing holds exactly the registered ids |
| Plugins.RemoveKeepsDistinct | lib/plugins/runner.ts:51 | removal keeps the listing free of repeats |
| Plugins.RegisterValid | lib/plugins/runner.ts:6-19 | registration keeps the runner valid |
| Plugins.UnregisterValid | lib/plugins/runner.ts:50-52 | removal keeps the runner valid |
| Plugins.RegisterReplaces | lib/plugins/runner.ts:19-41 | after registering, running the id runs the new handler |
| Plugins.ReRegisterKeepsPlace | lib/plugins/runner.ts:19-56 | re-registering an id does not move it in the listing |
| Plugins.UnregisterOnlyThat | lib/plugins/runner.ts:30-52 | after removal the id is not found and every other plugin runs as before |
| Plugins.SilentThrowMessage | lib/plugins/runner.ts:42-46 | a throw without a message reports `Plugin execution failed` |
| Text.Split | components/workspace/terminal.tsx:131 | splitting always yields at least one piece |
| Text.SplitJoin | components/workspace/terminal.tsx:131 | joining the pieces with the separator gives back the text |
| Text.SplitPiecesFree | components/workspace/terminal.tsx:131 | no piece contains the separator |
| Text.SplitNoSep | components/workspace/terminal.tsx:131 | text without the separator is one piece |
| Text.SplitAppend | components/workspace/chat-panel.tsx:212-213 | splitting a concatenation splits the first part up to its last piece, which continues into the second |
| Text.SplitLine | components/workspace/chat-panel.tsx:212-213 | a separator-free line followed by the separator is a piece of its own |
| Text.TrimStart | components/workspace/terminal.tsx:108 | exactly the leading whitespace is removed |
| Text.TrimEnd | components/workspace/terminal.tsx:108 | exactly the trailing whitespace is removed |
| Text.Trim | components/workspace/terminal.tsx:108-109 | empty exactly for blank text; otherwise it neither starts nor ends with whitespace |
| Text.TrimAround | components/workspace/terminal.tsx:108 | text that ends in a non-space keeps everything from its first non-space |
| Text.TrimIdempotent | components/workspace/terminal.tsx:108 | trimming twice is trimming once |
| Text.NonBlank | lib/ai/providers/local.ts:145 | only non-blank lines are kept |
| Text.NonBlankAppend | lib/ai/providers/local.ts:145 | keeping non-blank lines distributes over concatenation |
| Text.Lower | components/workspace/command-palette.tsx:244 | each character is lowercased in place |
| Text.LowerIdempotent | components/workspace/command-palette.tsx:244 | lowercasing twice is lowercasing once, and leaves no capital |
| Text.IndexOfFrom | components/workspace/global-search.tsx:43-56 | the first match at or after the clamped start, or -1 exactly when there is none |
| Text.ContainsIff | components/workspace/command-palette.tsx:245-247 | containment holds exactly when the text matches somewhere |
| Text.LastIndexOf | components/workspace/file-upload.tsx:40 | the last position of the character, or -1 exactly when it does not occur |
| Text.SubstringFrom | components/workspace/file-upload.tsx:40 | the tail from the start, or the whole text for a negative start |
| Text.Substring | components/workspace/global-search.tsx:109-113 | in-range ends give the slice between them, in either order |
| Text.PadStart | components/workspace/focus-mode.tsx:140 | the text is padded on the left with the fill character up to the width |
| Text.NatToString | components/workspace/focus-mode.tsx:140 | decimal digits without a leading zero |
| Text.NatToStringValue | components/workspace/focus-mode.tsx:140 | the digits read back as the number |
| Text.DigitsValueZeros | components/workspace/focus-mode.tsx:140 | leading zeros do not change the value |
| Text.ReplaceFirst | components/workspace/live-preview.tsx:66-69 | text without the pattern is unchanged |
| Text.ReplaceFirstLiteral | components/workspace/live-preview.tsx:66-69 | the text up to the first match is kept and the length changes by the difference |
| Text.SubstituteNoDollar | components/workspace/live-preview.tsx:66-69 | a replacement without `$` is inserted literally |
| Text.ReplaceFirstLiteralAgrees | components/workspace/live-preview.tsx:66-69 | without `$` the pattern-expanding and literal replacements agree |

## Left out

**Values the model narrows.**
- Json.TextOr: a content position (`delta.content`, `delta.text`, `response`) that holds a truthy non-string value yields nothing in the model.
  - JavaScript passes such a value on: `delta?.content || ''` lets `5` through, the route emits `{"content":5}`, and the chat panel appends `"5"`.
  - Only string content is modelled.
- Json.JNum: every JSON number is an integer. Floating-point values are not modelled; temperatures are `real` and only passed along.
- LocalStore.Time: reads `created_at` as an integer timestamp, with 0 when it is missing.
  - The store actually writes ISO strings and sorts with `new Date(...).getTime()`.
  - A missing or malformed timestamp gives a NaN comparison there, and the order it then produces is not modelled.
- LocalStore.Update: its `Failure` outcome, for a merged record without a valid `id`, stands for a promise that never settles. In the source the `put` throws its `DataError` inside the `get` request's `onsuccess` handler (lib/storage/local.ts:122-128), where the error neither resolves nor rejects the promise, so the caller waits forever. `LocalStore.Create`'s failure is a real rejection, because there the `add` throws inside the promise executor.
- Anthropic.TokenSum: is `None` unless both token counts are numbers. JavaScript's `a + b` would give `NaN` for a missing count and concatenate strings.
- OpenAI.InvalidJson: a fixed message stands in for the `SyntaxError` text of `JSON.parse` / `response.json()`, which depends on the input and the engine.
  - `ChatRoute.Post` and the `LocalLLM` non-streaming path surface this message verbatim.
  - The model only states that the fixed text is the one surfaced.

**JavaScript object lookups.** Terminal.Lookup, CodeEditor.FileExtension, CodeEditor.MonacoLanguage, ApiKeys.ProviderDisplay: these model object-literal lookups as finite maps. In JavaScript, keys inherited from `Object.prototype` (`toString`, `constructor`, `valueOf`, `hasOwnProperty`, …) are also truthy members. So:
- the terminal would call `builtInCommands["toString"]` instead of answering "Command not found";
- `getFileExtension("constructor")` would not fall back to `txt`;
- the provider label of `"constructor"` would be a function's source text.

These inherited keys are not modelled.

**String length.** ApiKeys.MaskKey, Agents.PromptPreview, Signup.Submit, UserMenu.Initials, Text.Substring (and so the GlobalSearch offsets and highlight):
- A Dafny `char` is one Unicode scalar value.
- JavaScript's `length`, `slice`, `substring` and `s[0]` count UTF-16 code units.
- For text with characters outside the Basic Multilingual Plane the two differ. The terminal's own rocket emoji has length 2 in JavaScript, and `n[0]` of such a name is a lone surrogate.
- Lengths and offsets here are counted in characters.

**Case mapping.** Text.Lower, Text.Upper: `toLowerCase`/`toUpperCase` map ASCII letters only.

**Database results.**
- ChatRoute.ActiveKeys: the query's row order is the database's and is unspecified. Only membership, activity and the limit of ten rows are stated.
- GlobalSearch.GroupByName: the grouping follows insertion order. JavaScript orders integer-like object keys first, so a file named like `"12"` would be listed before the others.
- GlobalSearch.GroupIndex, GlobalSearch.AddToGroupsEffect, GlobalSearch.GroupByNameIsGroups: group files by name as if the accumulator had no inherited members. The source's accumulator is a plain `{}` (components/workspace/global-search.tsx:119-125). For a file named `constructor`, `toString`, `valueOf` or `hasOwnProperty`, `acc[name]` is an inherited function. For a file named `__proto__` it is `Object.prototype`. Either way it is truthy, so no array is created, and `.push` throws a `TypeError` that breaks rendering. The model groups these files like any other.
- ApiKeys.AddKey, Agents.CreateAgent: the new row is appended to the table. The settings lists re-read the table in `created_at` order from the database, which is not modelled.

**The Supabase and IndexedDB plumbing.**
- The memory manager's Supabase methods (`getMemory`'s query, `setMemory`, `deleteMemory`) are not modelled. Only the row mapping and `formatMemoryForContext` are.
- The agent and API-key settings write through Supabase. The model gives the table as it is afterwards; query errors and their toasts are not modelled.
- The IndexedDB open/upgrade, id generation from `Date.now()`/`Math.random()` and request error events are not modelled. Ids and timestamps are inputs.
- The plain single-call operations of lib/storage/local.ts (`getProjects`, `getDocuments`, `getDocument`, `deleteProject`, `deleteDocument`, `getConversations`, `createConversation`, `getAgents`, `getApiKeys`) are covered only through `LocalStore.WithField`, `Add` and `Put`. They hold no logic beyond one store call.
- The delete flows of the file tree and the agent settings (a confirmation, one database call, a toast) are not modelled.

**I/O and runtime.**
- `fetch`, headers, authentication strings, `TextDecoder` and `reader.releaseLock` are not modelled.
- The `No response body` error is not modelled: every upstream response has a body.
- A non-`Error` throw reaches the code as `Unknown error` or a default message. The model represents a thrown value as an optional message.
- Async generators, stream controllers, cancellation and backpressure become folds over finite sequences.
- A chunk enqueued after the route closed its stream is ignored.
- `new Function` compilation of plugin code is a parameter, and a plugin handler is an opaque function from a call to its outcome.
- Timers (`setInterval`, the three-second upload queue reset, the simulated three-second deploy delay) are not modelled. Neither are Web Audio, confetti, clipboard and Blob/object URLs.
- The pomodoro progress ring (floating point) is not modelled, nor is the file-size formatting.
- Toast texts, the terminal's help text and the preview's HTML templates are constants or parameters. Only their role in the flow is stated.
- The command palette's upload, download and deploy commands only log to the console. The model keeps them as commands whose action is opaque.
- `ChatClient` ids from `Date.now()` can coincide for the user's message and the reply (`ChatClient.SameIdOverwritesUser`). This is a timing effect, not a defect of the logic.
- `LocalStore.MemoryIdCollision`: the memory id `${workspaceId}-${projectId || 'global'}-${key}` is ambiguous when a part contains a dash. It is stated as a lemma only. No unambiguous scheme is evidently intended, so there is no corrected version.

## Findings

| source | as written | input that shows it | evidently intended | confidence | as-written member | corrected member |
|---|---|---|---|---|---|---|
| lib/ai/providers/local.ts:144-145 | each read is split on its own, with no carry-over, so an NDJSON frame cut across two reads is parsed as two unparsable halves and dropped | the final frame `{"response":"hi","done":true}` arriving as two reads cut inside the object | keep the unterminated tail for the next read, as the SSE paths do | not executed | LocalLLM.OllamaSplitFrameLost | LocalLLM.OllamaBufferedSplitInvariant |
| components/workspace/chat-panel.tsx:212-213 | the reader splits each read on its own, so a `data:` event cut across two reads is lost from the reply | the event `data: {"content":"hi"}` arriving as two reads | buffer the partial line across reads | not executed | ChatClient.SplitEventLost | ChatClient.BufferedRouteToClient |
| components/workspace/terminal.tsx:229-254 | a new tab's id is the tab count plus one, which can repeat a surviving id; closing that id then removes both tabs | new tab, close tab 1, new tab: two tabs with id 2; closing tab 2 leaves no tab at all | ids that never repeat, so at least one tab always remains | not executed | Terminal.DuplicateIdEmptiesTerminal | Terminal.CloseKeepsTabs |
| components/workspace/live-preview.tsx:64-70 | the style sheets are spliced in with `String.prototype.replace`, which expands `$&`, `` $` ``, `$'` and `$$` in the inserted text | a style sheet `p::after{content:'$&'}` gets `</head>` pasted into it | insert the style sheets literally | not executed | LivePreview.DollarPreviewMangled | LivePreview.StylesBeforeFirstHead |
| components/workspace/global-search.tsx:50-52 | the match offsets are positions in the untrimmed line, but the highlight is applied to the trimmed `content` | searching `foo` in the line `  foo` marks only the final `o` | shift the offsets by the trimmed indentation | not executed | GlobalSearch.ShownHighlightMisplaced | GlobalSearch.CorrectedHighlightMarksMatch |
| components/workspace/file-tree.tsx:102 | the path is `${parentPath}/${name}`, and the header buttons use parent `/` | New File `a.ts` from the header gets the path `//a.ts` | `/a.ts` at the root | not executed | FileTree.HeaderCreateDoubleSlash | FileTree.HeaderCreateRootPath |
| components/workspace/file-tree.tsx:143 | the open-folder icon looks the folder's name up in a set that holds paths | expanding `/src` shows the chevron open and the folder icon closed | look the path up, as the chevron does | not executed | FileTree.OpenFolderShowsClosedIcon | FileTree.IconMatchesChevron |
| components/workspace/deploy-dialog.tsx:99-103 | the failure toast reads the `error` state, which still holds the previous render's value | a first deploy that throws `quota exceeded` shows "Please try again" | show the message just caught | not executed | Deploy.FirstFailureToastStale | Deploy.FailureToastShowsMessage |

=== FILE: agents.dfy ===
/**
 * The AI-agent settings (components/workspace/agents-settings.tsx): creating an agent, making
 * one the workspace default, and the truncated prompt preview on each card.
 *
 * The agent table lives in the database; here it is a sequence of rows, and each handler returns
 * the rows as the database holds them afterwards.
 */
module Agents {
  import opened Wrappers

  datatype Agent = Agent(
    id: string, workspace: string, name: string, description: string, prompt: string,
    provider: string, model: string, isDefault: bool)

  /** The "new agent" form. */
  datatype Form = Form(name: string, description: string, prompt: string, provider: string, model: string)

  function EmptyForm(): Form {
    Form("", "", "", "openai", "gpt-4-turbo-preview")
  }

  /**
   * `handleCreateAgent`, with `loaded` the agents shown for the workspace: a name and a system
   * prompt are required; the new row is the default exactly when no agent was loaded; the form
   * is cleared back to the OpenAI model.
   */
  function CreateAgent(rows: seq<Agent>, loaded: seq<Agent>, workspace: string, id: string, form: Form): (r: Result<(seq<Agent>, Form)>)
    ensures r.Failure? <==> form.name == "" || form.prompt == ""
    ensures r.Failure? ==> r.error == "Please fill in required fields"
    ensures r.Success? ==> |r.value.0| == |rows| + 1 && r.value.0[..|rows|] == rows
    ensures r.Success? ==> r.value.1 == EmptyForm()
    ensures r.Success? ==> var a := r.value.0[|rows|];
      a.id == id && a.workspace == workspace && a.name == form.name && a.description == form.description &&
      a.prompt == form.prompt &&
      a.provider == form.provider && a.model == form.model && (a.isDefault <==> loaded == [])
  {
    if form.name == "" || form.prompt == "" then Failure("Please fill in required fields")
    else
      var a := Agent(id, workspace, form.name, form.description, form.prompt, form.provider, form.model, |loaded| == 0);
      Success((rows + [a], EmptyForm()))
  }

  /**
   * `handleSetDefault(agentId)`: every agent of the workspace loses the flag, then the row with
   * that id gets it.
   */
  function SetDefault(rows: seq<Agent>, workspace: string, agentId: string): (r: seq<Agent>)
    ensures |r| == |rows|
    ensures forall i | 0 <= i < |rows| :: r[i] == rows[i].(isDefault := r[i].isDefault)
    ensures forall i | 0 <= i < |rows| :: r[i].isDefault <==> rows[i].id == agentId || (rows[i].isDefault && rows[i].workspace != workspace)
  {
    seq(|rows|, i requires 0 <= i < |rows| =>
      rows[i].(isDefault := rows[i].id == agentId || (rows[i].isDefault && rows[i].workspace != workspace)))
  }

  /** The agents of a workspace that are flagged default. */
  function Defaults(rows: seq<Agent>, workspace: string): (r: set<string>)
    ensures forall i | 0 <= i < |rows| :: rows[i].workspace == workspace && rows[i].isDefault ==> rows[i].id in r
    ensures forall x | x in r :: exists i | 0 <= i < |rows| :: rows[i].workspace == workspace && rows[i].isDefault && rows[i].id == x
  {
    set i | 0 <= i < |rows| && rows[i].workspace == workspace && rows[i].isDefault :: rows[i].id
  }

  /** Afterwards the chosen agent is the workspace's only default. */
  lemma SetDefaultLeavesOne(rows: seq<Agent>, workspace: string, i: nat)
    requires i < |rows| && rows[i].workspace == workspace
    ensures Defaults(SetDefault(rows, workspace, rows[i].id), workspace) == {rows[i].id}
  {
    var r := SetDefault(rows, workspace, rows[i].id);
    assert r[i].workspace == workspace && r[i].isDefault;
  }

  /** Other workspaces keep their defaults, as long as the chosen id is not theirs. */
  lemma SetDefaultOtherWorkspaces(rows: seq<Agent>, workspace: string, other: string, agentId: string)
    requires other != workspace
    requires forall i | 0 <= i < |rows| :: rows[i].workspace == other ==> rows[i].id != agentId
    ensures Defaults(SetDefault(rows, workspace, agentId), other) == Defaults(rows, other)
  {
    var r := SetDefault(rows, workspace, agentId);
    forall x ensures x in Defaults(r, other) <==> x in Defaults(rows, other) {
      if x in Defaults(r, other) {
        var i :| 0 <= i < |rows| && r[i].workspace == other && r[i].isDefault && r[i].id == x;
        assert rows[i].isDefault;
      }
    }
  }

  /** The first agent created in an empty workspace becomes its default. */
  lemma FirstAgentIsDefault(rows: seq<Agent>, workspace: string, id: string, form: Form)
    requires form.name != "" && form.prompt != ""
    requires forall i | 0 <= i < |rows| :: rows[i].workspace != workspace
    ensures Defaults(CreateAgent(rows, [], workspace, id, form).value.0, workspace) == {id}
  {
    var r := CreateAgent(rows, [], workspace, id, form).value.0;
    assert r[|rows|].workspace == workspace && r[|rows|].isDefault;
  }

  const PreviewLength: nat := 150

  /** The card's prompt preview: `slice(0, 150)`, then `...` when the prompt is longer. */
  function PromptPreview(prompt: string): (r: string)
    ensures |prompt| <= PreviewLength ==> r == prompt
    ensures |prompt| > PreviewLength ==> |r| == PreviewLength + 3 && r[PreviewLength..] == "..."
    ensures |prompt| > PreviewLength ==> r[..PreviewLength] == prompt[..PreviewLength]
  {
    if |prompt| > PreviewLength then prompt[..PreviewLength] + "..." else prompt
  }

  /** The preview is longer than 150 characters exactly when the prompt was cut, and never longer than 153. */
  lemma PreviewMarksCut(prompt: string)
    ensures |PromptPreview(prompt)| > PreviewLength <==> |prompt| > PreviewLength
    ensures |PromptPreview(prompt)| <= PreviewLength + 3
  {
  }
}

=== FILE: ai_types.dfy ===
/**
 * The shared vocabulary of the AI layer (lib/ai/types.ts) and the message formatting every
 * adapter inherits from the provider base class (lib/ai/base.ts).
 */
module AITypes {
  import opened Wrappers
  import opened Json
  import opened Text

  datatype Role = System | User | Assistant

  /**
   * A chat message. `extra` holds any further fields a caller's object happens to carry; the
   * typed interface only names `role` and `content`.
   */
  datatype Message = Message(role: Role, content: string, extra: map<string, string>)

  function Msg(role: Role, content: string): Message {
    Message(role, content, map[])
  }

  /** One streamed delta; `error` is never set by the adapters but is honoured by the route. */
  datatype Chunk = Chunk(content: string, done: bool, error: Option<string>)

  /** The terminal `{ content: '', done: true }`. */
  const DoneChunk := Chunk("", true, None)

  function Delta(content: string): Chunk {
    Chunk(content, false, None)
  }

  /**
   * The model configuration. `provider` is kept as text because the route passes whatever
   * the database or environment holds. Absent optional numbers are `None`.
   */
  datatype ModelConfig = ModelConfig(
    provider: string,
    model: string,
    temperature: Option<real>,
    maxTokens: Option<int>,
    topP: Option<real>,
    frequencyPenalty: Option<real>,
    presencePenalty: Option<real>)

  /** Token counts exactly as read from the response; `None` is `undefined`. */
  datatype Usage = Usage(promptTokens: Option<Json>, completionTokens: Option<Json>, totalTokens: Option<Json>)

  datatype AIResponse = AIResponse(content: string, usage: Option<Usage>)

  /** `formatMessages`: each message reduced to its role and content, in order. */
  function FormatMessages(ms: seq<Message>): (r: seq<Message>)
    ensures |r| == |ms|
    ensures forall i | 0 <= i < |ms| ::
      r[i].role == ms[i].role && r[i].content == ms[i].content && r[i].extra == map[]
  {
    seq(|ms|, i requires 0 <= i < |ms| => Msg(ms[i].role, ms[i].content))
  }

  /** Formatting is idempotent, and the identity on messages that carry no extra fields. */
  lemma FormatMessagesIdempotent(ms: seq<Message>)
    ensures FormatMessages(FormatMessages(ms)) == FormatMessages(ms)
    ensures (forall i | 0 <= i < |ms| :: ms[i].extra == map[]) ==> FormatMessages(ms) == ms
  {
  }

  /** The content of the first message with role `role`, if any (`messages.find(...)?.content`). */
  function FirstContent(ms: seq<Message>, role: Role): (r: Option<string>)
    ensures r.None? <==> forall i | 0 <= i < |ms| :: ms[i].role != role
    ensures r.Some? ==> exists i | 0 <= i < |ms| ::
      ms[i].role == role && ms[i].content == r.value && forall j | 0 <= j < i :: ms[j].role != role
    decreases |ms|
  {
    if |ms| == 0 then None
    else if ms[0].role == role then Some(ms[0].content)
    else
      var r := FirstContent(ms[1..], role);
      assert forall i | 1 <= i < |ms| :: ms[i] == ms[1..][i - 1];
      r
  }

  /** The content of the last message with role `role`, if any (`filter(...).pop()?.content`). */
  function LastContent(ms: seq<Message>, role: Role): (r: Option<string>)
    ensures r.None? <==> forall i | 0 <= i < |ms| :: ms[i].role != role
    ensures r.Some? ==> exists i | 0 <= i < |ms| ::
      ms[i].role == role && ms[i].content == r.value && forall j | i < j < |ms| :: ms[j].role != role
    decreases |ms|
  {
    if |ms| == 0 then None
    else if Last(ms).role == role then Some(Last(ms).content)
    else
      var r := LastContent(Init(ms), role);
      assert forall i | 0 <= i < |ms| - 1 :: ms[i] == Init(ms)[i];
      r
  }

  /** A message with the role, followed only by messages without it, is the last one. */
  lemma {:induction false} LastContentAppend(a: seq<Message>, m: Message, t: seq<Message>)
    requires forall i | 0 <= i < |t| :: t[i].role != m.role
    ensures LastContent(a + [m] + t, m.role) == Some(m.content)
    decreases |t|
  {
    var all := a + [m] + t;
    if |t| == 0 {
      assert Last(all) == m;
    } else {
      assert Last(all) == Last(t);
      assert Init(all) == a + [m] + Init(t);
      LastContentAppend(a, m, Init(t));
    }
  }

  /** The messages whose role is not `system`, in order (`filter(m => m.role !== 'system')`). */
  function NonSystem(ms: seq<Message>): (r: seq<Message>)
    ensures |r| <= |ms|
    ensures forall i | 0 <= i < |r| :: r[i].role != System
    ensures forall m | m in ms && m.role != System :: m in r
    ensures forall m | m in r :: m in ms
    decreases |ms|
  {
    if |ms| == 0 then []
    else if ms[0].role == System then NonSystem(ms[1..])
    else [ms[0]] + NonSystem(ms[1..])
  }

  /** Filtering out system messages distributes over concatenation. */
  lemma {:induction false} NonSystemAppend(a: seq<Message>, b: seq<Message>)
    ensures NonSystem(a + b) == NonSystem(a) + NonSystem(b)
    decreases |a|
  {
    if |a| == 0 {
      assert a + b == b;
    } else {
      assert (a + b)[0] == a[0];
      assert (a + b)[1..] == a[1..] + b;
      NonSystemAppend(a[1..], b);
    }
  }
}

=== FILE: anthropic.dfy ===
/**
 * The Anthropic adapter (lib/ai/providers/anthropic.ts): the system message moves to a
 * top-level field, the remaining roles are narrowed to user/assistant, and the streamed
 * events are filtered down to `content_block_delta` frames.
 */
module Anthropic {
  import opened Wrappers
  import opened Text
  import opened Json
  import opened AITypes
  import opened Stream
  import OpenAI

  const MessagesUrl := "https://api.anthropic.com/v1/messages"
  const ApiVersion := "2023-06-01"
  const DefaultMaxTokens := 4096

  /** The role of a conversation message in an Anthropic request. */
  datatype WireRole = WireUser | WireAssistant

  datatype WireMessage = WireMessage(role: WireRole, content: string)

  /** A messages-API request body; `system` is omitted when there is no system message. */
  datatype MessagesBody = MessagesBody(
    model: string,
    maxTokens: int,
    temperature: real,
    system: Option<string>,
    messages: seq<WireMessage>,
    stream: bool)

  /** `assistant` stays `assistant`; every other role becomes `user`. */
  function WireRoleOf(r: Role): (w: WireRole)
    ensures w == WireAssistant <==> r == Assistant
  {
    if r == Assistant then WireAssistant else WireUser
  }

  /** The non-system messages, in order, with content kept and roles narrowed. */
  function Conversation(ms: seq<Message>): (r: seq<WireMessage>)
    ensures |r| == |NonSystem(ms)|
    ensures forall i | 0 <= i < |r| ::
      r[i].content == NonSystem(ms)[i].content && r[i].role == WireRoleOf(NonSystem(ms)[i].role)
  {
    var c := NonSystem(ms);
    seq(|c|, i requires 0 <= i < |c| => WireMessage(WireRoleOf(c[i].role), c[i].content))
  }

  /** The body sent by `chat` (`stream` false) and `streamChat` (`stream` true). */
  function Request(config: ModelConfig, ms: seq<Message>, stream: bool): (b: MessagesBody)
    ensures b.maxTokens == config.maxTokens.GetOr(DefaultMaxTokens)
    ensures b.temperature == config.temperature.GetOr(OpenAI.DefaultTemperature)
    ensures b.system == FirstContent(ms, System)
    ensures b.stream == stream
  {
    MessagesBody(config.model, config.maxTokens.GetOr(DefaultMaxTokens),
      config.temperature.GetOr(OpenAI.DefaultTemperature), FirstContent(ms, System),
      Conversation(ms), stream)
  }

  /**
   * No system message is lost or duplicated: the system field is the first one, and the
   * conversation is exactly the other messages, so prepending more system messages after the
   * first changes nothing else.
   */
  lemma RequestSplitsSystem(config: ModelConfig, s: string, extra: seq<Message>, rest: seq<Message>, stream: bool)
    requires forall i | 0 <= i < |extra| :: extra[i].role == System
    ensures Request(config, [Msg(System, s)] + extra + rest, stream).system == Some(s)
    ensures Request(config, [Msg(System, s)] + extra + rest, stream).messages == Conversation(rest)
  {
    var ms := [Msg(System, s)] + extra + rest;
    NonSystemAppend([Msg(System, s)] + extra, rest);
    NonSystemAllSystem([Msg(System, s)] + extra);
  }

  lemma {:induction false} NonSystemAllSystem(ms: seq<Message>)
    requires forall i | 0 <= i < |ms| :: ms[i].role == System
    ensures NonSystem(ms) == []
    decreases |ms|
  {
    if |ms| > 0 {
      NonSystemAllSystem(ms[1..]);
    }
  }

  /**
   * `data.content[0]?.text || ''`: throws exactly when `data` or `data.content` is nullish;
   * otherwise the string text of the first content block, or `''`.
   */
  function ReplyContent(data: Json): (r: Result<string>)
    ensures r.Failure? <==> data.JNull? || Nullish(Member(Some(data), "content"))
    ensures r.Success? ==> r.value == TextOr(Member(FirstOf(Member(Some(data), "content")), "text"))
  {
    PropWord(data, "content");
    var content :- StrictProp(Some(data), "content");
    OptPropZero(content);
    var first :- StrictProp(content, "0");
    OptPropWord(first, "text");
    Success(TextOr(OptProp(first, "text")))
  }

  /** The sum `input_tokens + output_tokens` when both are numbers. */
  function TokenSum(a: Option<Json>, b: Option<Json>): (r: Option<Json>)
    ensures r.Some? <==> a.Some? && a.value.JNum? && b.Some? && b.value.JNum?
    ensures r.Some? ==> a.Some? && a.value.JNum? && b.Some? && b.value.JNum? && r == Some(JNum(a.value.n + b.value.n))
  {
    if a.Some? && a.value.JNum? && b.Some? && b.value.JNum? then Some(JNum(a.value.n + b.value.n)) else None
  }

  /** The total is the sum of the two counts whenever both are numbers, and absent otherwise. */
  predicate TotalIsSum(u: Usage) {
    u.totalTokens == TokenSum(u.promptTokens, u.completionTokens)
  }

  /**
   * `chat`: the upstream error text on a non-2xx status; a body that is not JSON rejects;
   * otherwise the first block's text, with the two token counts and their sum when `usage` is
   * truthy.
   */
  function ChatResponse(reply: OpenAI.Reply, parse: string -> Option<Json>): (r: Result<AIResponse>)
    ensures !reply.ok ==> r == Failure("Anthropic API error: " + reply.body)
    ensures reply.ok && parse(reply.body).None? ==> r == Failure(OpenAI.InvalidJson)
    ensures reply.ok && parse(reply.body).Some? ==>
      (r.Success? <==> ReplyContent(parse(reply.body).value).Success?)
    ensures r.Success? ==> (
      reply.ok && parse(reply.body).Some? &&
      var data := parse(reply.body).value;
      var usage := Member(Some(data), "usage");
      r.value.content == ReplyContent(data).value &&
      (r.value.usage.Some? <==> Truthy(usage)) &&
      (r.value.usage.Some? ==> r.value.usage.value.promptTokens == Member(usage, "input_tokens") &&
                               r.value.usage.value.completionTokens == Member(usage, "output_tokens")))
    ensures r.Success? && r.value.usage.Some? ==> TotalIsSum(r.value.usage.value)
  {
    if !reply.ok then Failure("Anthropic API error: " + reply.body)
    else
      match parse(reply.body)
      case None => Failure(OpenAI.InvalidJson)
      case Some(data) =>
        var content :- ReplyContent(data);
        PropWord(data, "usage");
        var usage := Prop(data, "usage");
        if Truthy(usage) then
          PropWord(usage.value, "input_tokens");
          PropWord(usage.value, "output_tokens");
          var input, output := Prop(usage.value, "input_tokens"), Prop(usage.value, "output_tokens");
          Success(AIResponse(content, Some(Usage(input, output, TokenSum(input, output)))))
        else Success(AIResponse(content, None))
  }

  /**
   * Only `content_block_delta` frames carry text: `parsed.delta?.text || ''`, the string text of
   * the frame's delta; a `null` payload throws, which the caller skips.
   */
  function DeltaText(parsed: Json): (r: string)
    ensures r == if Member(Some(parsed), "type") == Some(JStr("content_block_delta"))
                 then TextOr(Member(Member(Some(parsed), "delta"), "text")) else ""
  {
    PropWord(parsed, "type");
    match StrictProp(Some(parsed), "type")
    case Failure(_) => ""
    case Success(t) =>
      if t == Some(JStr("content_block_delta")) then
        PropWord(parsed, "delta");
        OptPropWord(Prop(parsed, "delta"), "text");
        TextOr(OptProp(Prop(parsed, "delta"), "text"))
      else ""
  }

  function Handler(parse: string -> Option<Json>): string -> Step {
    line => SseLine(parse, DeltaText, line)
  }

  /** A `content_block_delta` data line with a non-empty `delta.text` yields exactly that text. */
  lemma DataLineDelivers(parse: string -> Option<Json>, payload: string, text: string, fields: map<string, Json>)
    requires payload != DoneMarker && text != ""
    requires parse(payload) == Some(JObj(fields))
    requires "type" in fields && fields["type"] == JStr("content_block_delta")
    requires "delta" in fields && fields["delta"] == JObj(map["text" := JStr(text)])
    ensures Handler(parse)(DataPrefix + payload) == Step([Delta(text)], false)
  {
    assert (DataPrefix + payload)[6..] == payload;
  }

  /** `streamChat`: throws on a non-2xx status, else the buffered SSE decoder. */
  function StreamChat(up: Upstream, parse: string -> Option<Json>): (g: Gen)
    ensures !up.ok ==> g == Gen([], Some("Anthropic API error: " + up.errorBody))
    ensures WellFormed(g)
  {
    if !up.ok then Gen([], Some("Anthropic API error: " + up.errorBody))
    else
      SseLineGood(parse, DeltaText);
      BufferedWellFormed("", up.parts, Handler(parse), up.failure);
      Buffered("", up.parts, Handler(parse), up.failure)
  }

  /** Read boundaries do not matter, exactly as for the OpenAI adapter. */
  lemma StreamChatIsWhole(up: Upstream, parse: string -> Option<Json>)
    requires up.ok
    ensures StreamChat(up, parse) == Whole(Concat(up.parts), Handler(parse), up.failure)
  {
    BufferedIsWhole("", up.parts, Handler(parse), up.failure);
    assert "" + Concat(up.parts) == Concat(up.parts);
  }

  /** A data line whose event is of another type yields nothing and does not stop the stream. */
  lemma OtherEventsSilent(parse: string -> Option<Json>, payload: string, fields: map<string, Json>)
    requires payload != DoneMarker
    requires parse(payload) == Some(JObj(fields))
    requires "type" !in fields || fields["type"] != JStr("content_block_delta")
    ensures Handler(parse)(DataPrefix + payload) == Step([], false)
  {
    assert (DataPrefix + payload)[6..] == payload;
  }
}

=== FILE: api_keys.dfy ===
/**
 * The API-key settings (components/workspace/api-keys-settings.tsx): how a stored key is masked
 * on screen, the provider labels, the validation of a new key, and the activation toggle that
 * keeps at most one active key per provider.
 *
 * The key table lives in the database; here it is a sequence of rows and each handler returns
 * the rows as the database holds them afterwards.
 */
module ApiKeys {
  import opened Wrappers
  import opened Text

  datatype ApiKey = ApiKey(id: string, provider: string, name: string, value: string, active: bool)

  const Bullet: char := '•'

  function Bullets(): (r: string)
    ensures |r| == 8 && forall i | 0 <= i < 8 :: r[i] == Bullet
  {
    [Bullet, Bullet, Bullet, Bullet, Bullet, Bullet, Bullet, Bullet]
  }

  /** `maskKey`: eight bullets, keeping the first and last four characters of keys of eight or more. */
  function MaskKey(key: string): (r: string)
    ensures |key| < 8 ==> r == Bullets()
    ensures |key| >= 8 ==> |r| == 16 && r[..4] == key[..4] && r[4..12] == Bullets() && r[12..] == key[|key| - 4..]
  {
    if |key| < 8 then Bullets() else key[..4] + Bullets() + key[|key| - 4..]
  }

  /**
   * Nothing but the first and last four characters leaks: keys that agree there have the same
   * mask, and every short key has the same mask.
   */
  lemma MaskHidesMiddle(a: string, b: string)
    requires (|a| < 8 && |b| < 8) || (|a| >= 8 && |b| >= 8 && a[..4] == b[..4] && a[|a| - 4..] == b[|b| - 4..])
    ensures MaskKey(a) == MaskKey(b)
  {
  }

  /** Every masked key is 8 or 16 characters long, whatever the key's length. */
  lemma MaskLength(key: string)
    ensures |MaskKey(key)| == if |key| < 8 then 8 else 16
  {
  }

  /** A key of eight or more shows exactly its first and last four characters. */
  lemma MaskShowsEnds(key: string)
    requires |key| >= 8
    ensures MaskKey(key)[..4] + MaskKey(key)[12..] == key[..4] + key[|key| - 4..]
  {
  }

  /** `displays[provider] || provider`. */
  function ProviderDisplay(provider: string): (r: string)
    ensures provider !in {"openai", "anthropic", "local", "custom"} ==> r == provider
    ensures provider in {"openai", "anthropic", "local", "custom"} ==> r != provider && r != ""
  {
    match provider
    case "openai" => "OpenAI"
    case "anthropic" => "Anthropic (Claude)"
    case "local" => "Local LLM"
    case "custom" => "Custom"
    case _ => provider
  }

  /** `handleAddKey`: both fields required; the new row is inactive. */
  function AddKey(keys: seq<ApiKey>, id: string, provider: string, name: string, value: string): (r: Result<seq<ApiKey>>)
    ensures r.Failure? <==> name == "" || value == ""
    ensures r.Failure? ==> r.error == "Please fill in all fields"
    ensures r.Success? ==> |r.value| == |keys| + 1 && r.value[..|keys|] == keys
    ensures r.Success? ==> r.value[|keys|] == ApiKey(id, provider, name, value, false)
  {
    if name == "" || value == "" then Failure("Please fill in all fields")
    else Success(keys + [ApiKey(id, provider, name, value, false)])
  }

  /** The first row with the id, as `apiKeys.find` returns it. */
  function FindKey(keys: seq<ApiKey>, id: string): (r: Option<ApiKey>)
    ensures r.None? <==> forall i | 0 <= i < |keys| :: keys[i].id != id
    ensures r.Some? ==> r.value in keys && r.value.id == id
    decreases |keys|
  {
    if |keys| == 0 then None
    else if keys[0].id == id then Some(keys[0])
    else FindKey(keys[1..], id)
  }

  /**
   * `handleToggleActive(keyId, currentState)`: every key of the toggled key's provider is
   * deactivated, then, if the key was inactive, the row with that id is activated.
   */
  function ToggleActive(keys: seq<ApiKey>, keyId: string, currentState: bool): (r: seq<ApiKey>)
    ensures |r| == |keys|
    ensures forall i | 0 <= i < |keys| :: r[i] == keys[i].(active := r[i].active)
    ensures FindKey(keys, keyId).None? ==> r == keys
    ensures FindKey(keys, keyId).Some? ==> forall i | 0 <= i < |keys| ::
      keys[i].provider != FindKey(keys, keyId).value.provider ==> r[i] == keys[i]
    ensures FindKey(keys, keyId).Some? ==> forall i | 0 <= i < |keys| ::
      keys[i].provider == FindKey(keys, keyId).value.provider ==> (r[i].active <==> !currentState && keys[i].id == keyId)
  {
    match FindKey(keys, keyId)
    case None => keys
    case Some(key) =>
      seq(|keys|, i requires 0 <= i < |keys| =>
        if keys[i].provider == key.provider then keys[i].(active := !currentState && keys[i].id == keyId)
        else keys[i])
  }

  predicate DistinctIds(keys: seq<ApiKey>) {
    forall i, j | 0 <= i < j < |keys| :: keys[i].id != keys[j].id
  }

  /** At most one active key per provider. */
  predicate OneActivePerProvider(keys: seq<ApiKey>) {
    forall i, j | 0 <= i < j < |keys| :: keys[i].active && keys[j].active ==> keys[i].provider != keys[j].provider
  }

  /** The toggle keeps at most one active key per provider (row ids are the table's key). */
  lemma ToggleKeepsOneActive(keys: seq<ApiKey>, keyId: string, currentState: bool)
    requires DistinctIds(keys) && OneActivePerProvider(keys)
    ensures OneActivePerProvider(ToggleActive(keys, keyId, currentState))
  {
  }

  /** Switching an inactive key on makes it the active key of its provider. */
  lemma ActivateSelects(keys: seq<ApiKey>, i: nat)
    requires i < |keys| && DistinctIds(keys)
    ensures var r := ToggleActive(keys, keys[i].id, false);
      r[i].active && forall j | 0 <= j < |keys| && j != i && keys[j].provider == keys[i].provider :: !r[j].active
  {
    var found := FindKey(keys, keys[i].id);
    assert found.Some?;
    var k :| 0 <= k < |keys| && keys[k] == found.value;
    assert k == i;
  }

  /** Switching an active key off leaves its provider with no active key. */
  lemma DeactivateClears(keys: seq<ApiKey>, i: nat)
    requires i < |keys|
    ensures var r := ToggleActive(keys, keys[i].id, true);
      forall j | 0 <= j < |keys| && keys[j].provider == FindKey(keys, keys[i].id).value.provider :: !r[j].active
  {
  }

  /** Activating and then deactivating the same key leaves its provider with no active key. */
  lemma ToggleOnThenOff(keys: seq<ApiKey>, i: nat)
    requires i < |keys| && DistinctIds(keys)
    ensures var r := ToggleActive(ToggleActive(keys, keys[i].id, false), keys[i].id, true);
      forall j | 0 <= j < |keys| && keys[j].provider == keys[i].provider :: !r[j].active
  {
    var once := ToggleActive(keys, keys[i].id, false);
    ActivateSelects(keys, i);
    assert once[i].id == keys[i].id && once[i].provider == keys[i].provider;
    DeactivateClears(once, i);
  }
}

=== FILE: chat_client.dfy ===
/**
 * The chat panel's `handleSend` (components/workspace/chat-panel.tsx): the request it posts,
 * the per-read reader that accumulates the streamed text, and what it persists and shows.
 */
module ChatClient {
  import opened Wrappers
  import opened Text
  import opened Json
  import opened AITypes
  import opened Stream
  import ChatRoute

  /** A message as the panel keeps it; `id` is a millisecond timestamp rendered as text. */
  datatype UiMessage = UiMessage(id: string, role: Role, content: string)

  /** The panel state `handleSend` reads and writes; `""` stands for a null conversation. */
  datatype Panel = Panel(messages: seq<UiMessage>, input: string, loading: bool, conversationId: string, hasSupabase: bool)

  /** The response of `/api/ai/chat`: its status and the reads of its body. */
  datatype Reply = Reply(ok: bool, parts: seq<string>, failure: Option<string>)

  /** The body posted to the route. */
  datatype ClientRequest = ClientRequest(message: string, history: seq<Message>)

  /** A row inserted into `messages`. */
  datatype Insert = Insert(role: Role, content: string)

  datatype SendResult = SendResult(panel: Panel, request: Option<ClientRequest>, inserts: seq<Insert>, toast: Option<string>)

  const FailedResponse := "Failed to get AI response"
  const DefaultToast := "Failed to get AI response. Please check your API keys and try again."

  // ----- the reader -----

  /**
   * One line of a read: a `data: ` line other than `[DONE]` whose payload parses to a value
   * with a truthy string `content` contributes that text; everything else is skipped.
   */
  function ClientLine(parse: string -> Option<Json>, line: string): (s: Step)
    ensures !s.stop
    ensures s.out == [] || (|s.out| == 1 && s.out[0] == Delta(s.out[0].content) && s.out[0].content != "")
    ensures !StartsWith(line, DataPrefix) ==> s.out == []
    ensures StartsWith(line, DataPrefix) && (line[6..] == DoneMarker || parse(line[6..]).None?) ==> s.out == []
    ensures StartsWith(line, DataPrefix) && line[6..] != DoneMarker && parse(line[6..]).Some? ==>
      var text := TextOr(Member(parse(line[6..]), "content"));
      s.out == if text != "" then [Delta(text)] else []
  {
    if !StartsWith(line, DataPrefix) then Step([], false)
    else
      var data := line[|DataPrefix|..];
      if data == DoneMarker then Step([], false)
      else
        match parse(data)
        case None => Step([], false)
        case Some(parsed) =>
          OptPropWord(Some(parsed), "content");
          var text := TextOr(OptProp(Some(parsed), "content"));
          if text != "" then Step([Delta(text)], false) else Step([], false)
  }

  function ClientHandler(parse: string -> Option<Json>): string -> Step {
    line => ClientLine(parse, line)
  }

  /** The text the chunks carry, in order. */
  function Received(chunks: seq<Chunk>): string
    decreases |chunks|
  {
    if |chunks| == 0 then "" else chunks[0].content + Received(chunks[1..])
  }

  lemma {:induction false} ReceivedAppend(a: seq<Chunk>, b: seq<Chunk>)
    ensures Received(a + b) == Received(a) + Received(b)
    decreases |a|
  {
    if |a| > 0 {
      assert (a + b)[0] == a[0];
      assert (a + b)[1..] == a[1..] + b;
      ReceivedAppend(a[1..], b);
      calc {
        Received(a + b);
        (a + b)[0].content + Received((a + b)[1..]);
        a[0].content + (Received(a[1..]) + Received(b));
        (a[0].content + Received(a[1..])) + Received(b);
      }
    } else {
      assert a + b == b;
    }
  }

  /** The reader as written: every read split into lines on its own, blank lines dropped. */
  function Read(parts: seq<string>, parse: string -> Option<Json>, failure: Option<string>): Gen {
    Unbuffered(parts, ClientHandler(parse), failure)
  }

  /** The reader with a carry-over buffer, as the adapters decode upstream streams. */
  function ReadBuffered(parts: seq<string>, parse: string -> Option<Json>, failure: Option<string>): Gen {
    Buffered("", parts, SkipBlank(ClientHandler(parse)), failure)
  }

  // ----- handleSend -----

  /** `messages.map(m => ({ role, content }))`. */
  function History(ms: seq<UiMessage>): (h: seq<Message>)
    ensures |h| == |ms| && forall i | 0 <= i < |ms| :: h[i] == Msg(ms[i].role, ms[i].content)
  {
    seq(|ms|, i requires 0 <= i < |ms| => Msg(ms[i].role, ms[i].content))
  }

  /** `prev.map(msg => msg.id === id ? { ...msg, content } : msg)`. */
  function SetContent(ms: seq<UiMessage>, id: string, content: string): (r: seq<UiMessage>)
    ensures |r| == |ms|
    ensures forall i | 0 <= i < |ms| :: r[i].id == ms[i].id && r[i].role == ms[i].role
    ensures forall i | 0 <= i < |ms| :: r[i].content == (if ms[i].id == id then content else ms[i].content)
  {
    seq(|ms|, i requires 0 <= i < |ms| => if ms[i].id == id then ms[i].(content := content) else ms[i])
  }

  /** The toast text for a caught error: its message, or the generic advice when empty. */
  function ErrorToast(message: string): (t: string)
    ensures t != ""
    ensures message != "" ==> t == message
  {
    if message != "" then message else DefaultToast
  }

  /**
   * `handleSend`, from the click to the `finally`. `userId` and `placeholderId` are the two
   * `Date.now()` readings; `reply` is what the route answers.
   */
  function Send(p: Panel, userId: string, placeholderId: string, reply: Reply, parse: string -> Option<Json>): (r: SendResult)
  {
    if IsBlank(p.input) || p.loading then SendResult(p, None, [], None)
    else Deliver(p, Trim(p.input), userId, placeholderId, reply.ok, Read(reply.parts, parse, reply.failure))
  }

  /**
   * An accepted send of the trimmed `message`: `ok` is the response status and `g` what the
   * reader produced from the body (not consulted on a failed status).
   */
  function Deliver(p: Panel, message: string, userId: string, placeholderId: string, ok: bool, g: Gen): (r: SendResult)
  {
    var request := ClientRequest(message, History(p.messages));
    var withUser := p.messages + [UiMessage(userId, User, message)];
    var persist := p.conversationId != "" && p.hasSupabase;
    var userInsert := if persist then [Insert(User, message)] else [];
    if !ok then
      SendResult(p.(messages := withUser, input := "", loading := false), Some(request), userInsert, Some(FailedResponse))
    else
      var text := Received(g.chunks);
      var shown := withUser + [UiMessage(placeholderId, Assistant, "")];
      var final := if text != "" then SetContent(shown, placeholderId, text) else shown;
      var next := p.(messages := final, input := "", loading := false);
      if g.thrown.Some? then SendResult(next, Some(request), userInsert, Some(ErrorToast(g.thrown.value)))
      else
        var assistantInsert := if persist && text != "" then [Insert(Assistant, text)] else [];
        SendResult(next, Some(request), userInsert + assistantInsert, None)
  }

  /** A blank input or a request in flight leaves everything as it was. */
  lemma SendIgnored(p: Panel, userId: string, placeholderId: string, reply: Reply, parse: string -> Option<Json>)
    ensures Send(p, userId, placeholderId, reply, parse).request.None? <==> IsBlank(p.input) || p.loading
    ensures IsBlank(p.input) || p.loading ==> Send(p, userId, placeholderId, reply, parse) == SendResult(p, None, [], None)
  {
  }

  /** Otherwise the trimmed input, which is not empty, is sent and the body is read as it arrives. */
  lemma SendDelivers(p: Panel, userId: string, placeholderId: string, reply: Reply, parse: string -> Option<Json>)
    requires !IsBlank(p.input) && !p.loading
    ensures Trim(p.input) != ""
    ensures Send(p, userId, placeholderId, reply, parse) ==
      Deliver(p, Trim(p.input), userId, placeholderId, reply.ok, Read(reply.parts, parse, reply.failure))
  {
  }

  /**
   * An accepted send posts the message with the conversation as it was before the turn, clears
   * the input and ends loading.
   */
  lemma DeliverRequest(p: Panel, message: string, userId: string, placeholderId: string, ok: bool, g: Gen)
    ensures var r := Deliver(p, message, userId, placeholderId, ok, g);
      r.request == Some(ClientRequest(message, History(p.messages))) && r.panel.input == "" && !r.panel.loading
  {
  }

  /**
   * The earlier messages stay in place and the user's message follows them, unless its id
   * collides with the placeholder's (see `SameIdOverwritesUser`).
   */
  lemma DeliverAppendsUser(p: Panel, message: string, userId: string, placeholderId: string, ok: bool, g: Gen)
    requires forall i | 0 <= i < |p.messages| :: p.messages[i].id != placeholderId
    requires userId != placeholderId
    ensures var ms := Deliver(p, message, userId, placeholderId, ok, g).panel.messages;
      |ms| > |p.messages| && ms[..|p.messages| + 1] == p.messages + [UiMessage(userId, User, message)]
  {
    var ms := Deliver(p, message, userId, placeholderId, ok, g).panel.messages;
    var expected := p.messages + [UiMessage(userId, User, message)];
    assert |ms| > |p.messages|;
    forall i | 0 <= i < |p.messages| + 1 ensures ms[i] == expected[i] {
    }
  }

  /**
   * What reaches the database: the user's message exactly when there is a conversation and a
   * backend; the assistant's only when, in addition, the stream ended normally with some text.
   */
  lemma DeliverPersists(p: Panel, message: string, userId: string, placeholderId: string, ok: bool, g: Gen)
    ensures var r := Deliver(p, message, userId, placeholderId, ok, g);
      var persist := p.conversationId != "" && p.hasSupabase;
      (Insert(User, message) in r.inserts <==> persist) &&
      (forall i | 0 <= i < |r.inserts| :: r.inserts[i].role == Assistant ==>
         r.inserts[i] == Insert(Assistant, Received(g.chunks))) &&
      ((exists i | 0 <= i < |r.inserts| :: r.inserts[i].role == Assistant) <==>
         persist && ok && g.thrown.None? && Received(g.chunks) != "")
  {
    var r := Deliver(p, message, userId, placeholderId, ok, g);
    var persist := p.conversationId != "" && p.hasSupabase;
    if persist && ok && g.thrown.None? && Received(g.chunks) != "" {
      assert r.inserts[1].role == Assistant;
    }
  }

  /**
   * A failed status or an errored stream ends in a toast: the fixed message for the status,
   * the stream's error message otherwise; a normal end shows none.
   */
  lemma DeliverToast(p: Panel, message: string, userId: string, placeholderId: string, ok: bool, g: Gen)
    ensures var r := Deliver(p, message, userId, placeholderId, ok, g);
      (!ok ==> r.toast == Some(FailedResponse)) &&
      (ok && g.thrown.Some? ==> r.toast == Some(ErrorToast(g.thrown.value))) &&
      (ok && g.thrown.None? ==> r.toast.None?)
  {
  }

  /**
   * After a successful status the panel shows the assistant's reply as its last message, with
   * all the text received.
   */
  lemma DeliverShowsReply(p: Panel, message: string, userId: string, placeholderId: string, g: Gen)
    ensures var ms := Deliver(p, message, userId, placeholderId, true, g).panel.messages;
      |ms| == |p.messages| + 2 && ms[|ms| - 1] == UiMessage(placeholderId, Assistant, Received(g.chunks))
  {
  }

  /**
   * Both ids are `Date.now()` readings; if they coincide, the reply's text also overwrites the
   * user's own message on screen, since the update matches by id.
   */
  lemma SameIdOverwritesUser(p: Panel, message: string, id: string, g: Gen)
    requires Received(g.chunks) != ""
    ensures Deliver(p, message, id, id, true, g).panel.messages[|p.messages|].content == Received(g.chunks)
  {
  }

  // ----- reading the route's events -----

  /** The parser accepts the route's content payloads. */
  ghost predicate ParsesContent(parse: string -> Option<Json>) {
    forall c :: parse(ContentJson(c)) == Some(JObj(map["content" := JStr(c)]))
  }

  /** A line followed by a blank line splits, blank lines dropped, into just that line. */
  lemma EventSplit(l: string)
    requires '\n' !in l && !IsBlank(l)
    ensures NonBlank(Split(l + "\n\n", '\n')) == [l]
  {
    assert l + "\n\n" == l + ['\n'] + "\n";
    SplitLine(l, '\n', "\n");
    assert Split("\n", '\n') == ["", ""] by {
      SplitLine("", '\n', "");
      assert "" + ['\n'] + "" == "\n";
      SplitNoSep("", '\n');
    }
    assert IsBlank("");
    var ls := [l, "", ""];
    assert ls[1..] == ["", ""] && ls[1..][1..] == [""] && ls[1..][1..][1..] == [];
    assert NonBlank(ls[1..][1..]) == [];
    assert NonBlank(ls) == [l] + NonBlank(ls[1..]);
  }

  /** A content event is its `data:` line followed by a blank line. */
  lemma EventLine(c: string)
    ensures var l := DataPrefix + ContentJson(c);
      '\n' !in l && !IsBlank(l) && ChatRoute.ContentEvent(c) == l + "\n\n"
  {
    var l := DataPrefix + ContentJson(c);
    ContentJsonOneLine(c);
    assert '\n' !in l by {
      assert forall i | 0 <= i < |DataPrefix| :: l[i] == DataPrefix[i];
      assert forall i | |DataPrefix| <= i < |l| :: l[i] == ContentJson(c)[i - |DataPrefix|];
    }
    assert !IsBlank(l) by {
      assert l[0] == 'd';
    }
  }

  /** One content event is one non-blank line. */
  lemma EventLines(c: string)
    ensures NonBlank(Split(ChatRoute.ContentEvent(c), '\n')) == [DataPrefix + ContentJson(c)]
  {
    EventLine(c);
    EventSplit(DataPrefix + ContentJson(c));
  }

  /** The line of a content event yields exactly its text. */
  lemma EventText(parse: string -> Option<Json>, c: string)
    requires ParsesContent(parse)
    ensures Received(ClientLine(parse, DataPrefix + ContentJson(c)).out) == c
  {
    var l := DataPrefix + ContentJson(c);
    assert l[|DataPrefix|..] == ContentJson(c);
    assert ContentJson(c) != DoneMarker by {
      assert ContentJson(c)[0] == '{';
    }
    assert parse(ContentJson(c)) == Some(JObj(map["content" := JStr(c)]));
    if c != "" {
      assert Received([Delta(c)]) == c + Received([]);
    }
  }

  /** `[DONE]` contributes nothing. */
  lemma DoneEventSilent(parse: string -> Option<Json>, failure: Option<string>)
    ensures Read([ChatRoute.DoneEvent], parse, failure) == EndOfReads(failure)
  {
    var l := "data: [DONE]";
    assert !IsBlank(l) by {
      assert l[0] == 'd';
    }
    assert '\n' !in l;
    assert ChatRoute.DoneEvent == l + "\n\n";
    assert ClientLine(parse, l) == Step([], false) by {
      assert StartsWith(l, DataPrefix);
      assert l[|DataPrefix|..] == DoneMarker;
    }
    ReadOneLine(parse, l, [], failure);
    assert [l + "\n\n"] + [] == [ChatRoute.DoneEvent];
  }

  /** A read holding one line and a blank one contributes exactly that line's step. */
  lemma ReadOneLine(parse: string -> Option<Json>, l: string, rest: seq<string>, failure: Option<string>)
    requires '\n' !in l && !IsBlank(l)
    ensures var s := ClientLine(parse, l);
      var t := Read(rest, parse, failure);
      Read([l + "\n\n"] + rest, parse, failure) == Gen(s.out + t.chunks, t.thrown)
  {
    var parts := [l + "\n\n"] + rest;
    assert parts[0] == l + "\n\n" && parts[1..] == rest;
    EventSplit(l);
    var single: seq<string> := [l];
    assert single[1..] == [];
    assert RunLines(single, ClientHandler(parse)) == Step(ClientLine(parse, l).out, false);
  }

  /**
   * Reading content events one per read recovers their texts in order, followed by whatever
   * the remaining reads carry.
   */
  lemma {:induction false} ReadEvents(parse: string -> Option<Json>, chunks: seq<Chunk>, tail: seq<string>, failure: Option<string>)
    requires ParsesContent(parse)
    ensures var g := Read(ChatRoute.ContentEvents(chunks) + tail, parse, failure);
      var t := Read(tail, parse, failure);
      Received(g.chunks) == Received(chunks) + Received(t.chunks) && g.thrown == t.thrown
    decreases |chunks|
  {
    if |chunks| == 0 {
      assert ChatRoute.ContentEvents(chunks) + tail == tail;
    } else {
      var c := chunks[0].content;
      ReadFirstEvent(parse, chunks, tail, failure);
      ReadEvents(parse, chunks[1..], tail, failure);
      assert Received(chunks) == c + Received(chunks[1..]);
      var t := Read(tail, parse, failure);
      StringAssoc(c, Received(chunks[1..]), Received(t.chunks));
    }
  }

  lemma StringAssoc(a: string, b: string, c: string)
    ensures a + (b + c) == (a + b) + c
  {
  }

  /** The first content event's text comes first, and the rest is read as if it were alone. */
  lemma ReadFirstEvent(parse: string -> Option<Json>, chunks: seq<Chunk>, tail: seq<string>, failure: Option<string>)
    requires ParsesContent(parse) && |chunks| > 0
    ensures var g := Read(ChatRoute.ContentEvents(chunks) + tail, parse, failure);
      var h := Read(ChatRoute.ContentEvents(chunks[1..]) + tail, parse, failure);
      Received(g.chunks) == chunks[0].content + Received(h.chunks) && g.thrown == h.thrown
  {
    var rest := ChatRoute.ContentEvents(chunks[1..]) + tail;
    ChatRoute.ContentEventsCons(chunks);
    assert ChatRoute.ContentEvents(chunks) + tail == [ChatRoute.ContentEvent(chunks[0].content)] + rest;
    ReadEvent(parse, chunks[0].content, rest, failure);
  }

  /** Reading one content event adds its text in front of what the following reads carry. */
  lemma ReadEvent(parse: string -> Option<Json>, c: string, rest: seq<string>, failure: Option<string>)
    requires ParsesContent(parse)
    ensures var g := Read([ChatRoute.ContentEvent(c)] + rest, parse, failure);
      var t := Read(rest, parse, failure);
      Received(g.chunks) == c + Received(t.chunks) && g.thrown == t.thrown
  {
    var l := DataPrefix + ContentJson(c);
    EventLine(c);
    ReadOneLine(parse, l, rest, failure);
    EventText(parse, c);
    ReceivedAppend(ClientLine(parse, l).out, Read(rest, parse, failure).chunks);
  }

  /**
   * End to end: whatever a well-formed generator yields, the route encodes, and the client
   * reading one event per read ends with exactly the generator's text. When the generator threw,
   * the route errors the response and the client's read fails with whatever error the transport
   * raises, `transport`; when it did not, the body ends normally.
   */
  lemma RouteToClient(parse: string -> Option<Json>, g: Gen, transport: Option<string>)
    requires ParsesContent(parse) && WellFormed(g)
    requires transport.Some? <==> g.thrown.Some?
    ensures var o := ChatRoute.Encode(g.chunks, g.thrown);
      var r := Read(o.events, parse, transport);
      Received(r.chunks) == Received(g.chunks) && r.thrown == transport &&
      (r.thrown.Some? <==> g.thrown.Some?)
  {
    ChatRoute.EncodeWellFormed(g);
    if g.thrown.None? {
      ReadEvents(parse, g.chunks, [ChatRoute.DoneEvent], None);
      DoneEventSilent(parse, None);
      assert Received([DoneChunk]) == "" + Received([]);
      assert Received(g.chunks) + "" == Received(g.chunks);
    } else {
      ReadEvents(parse, g.chunks, [], transport);
      assert ChatRoute.ContentEvents(g.chunks) + [] == ChatRoute.ContentEvents(g.chunks);
      assert Received(g.chunks) + "" == Received(g.chunks);
    }
  }

  /** Route events end in line breaks, so a read per event is line-aligned. */
  lemma EventsAligned(chunks: seq<Chunk>, tail: seq<string>)
    requires tail == [] || tail == [ChatRoute.DoneEvent]
    ensures LineAligned(ChatRoute.ContentEvents(chunks) + tail)
  {
    var parts := ChatRoute.ContentEvents(chunks) + tail;
    forall i | 0 <= i < |parts| ensures EndsWith(parts[i], "\n") {
      var e := parts[i];
      assert e[|e| - 1] == '\n';
    }
  }

  /**
   * With a carry-over buffer, the client recovers the generator's text however the event
   * bytes are cut into reads, and its read fails exactly when the generator threw.
   */
  lemma BufferedRouteToClient(parse: string -> Option<Json>, g: Gen, parts: seq<string>, transport: Option<string>)
    requires ParsesContent(parse) && WellFormed(g)
    requires transport.Some? <==> g.thrown.Some?
    requires Concat(parts) == Concat(ChatRoute.Encode(g.chunks, g.thrown).events)
    ensures var r := ReadBuffered(parts, parse, transport);
      Received(r.chunks) == Received(g.chunks) && r.thrown == transport &&
      (r.thrown.Some? <==> g.thrown.Some?)
  {
    var events := ChatRoute.Encode(g.chunks, g.thrown).events;
    ChatRoute.EncodeWellFormed(g);
    EventsAligned(g.chunks, if g.thrown.None? then [ChatRoute.DoneEvent] else []);
    assert g.thrown.Some? ==> events == ChatRoute.ContentEvents(g.chunks) + [];
    BufferedSplitInvariant(parts, events, SkipBlank(ClientHandler(parse)), transport);
    BufferedAgreesUnbuffered(events, ClientHandler(parse), transport);
    RouteToClient(parse, g, transport);
  }

  /** On line-aligned reads the reader as written and the buffered one agree. */
  lemma ReadAgreesAligned(parts: seq<string>, parse: string -> Option<Json>, failure: Option<string>)
    requires LineAligned(parts)
    ensures ReadBuffered(parts, parse, failure) == Read(parts, parse, failure)
  {
    BufferedAgreesUnbuffered(parts, ClientHandler(parse), failure);
  }

  /**
   * An event cut right after its opening brace is lost by the reader as written: neither
   * half is a content line on its own. The buffered reader keeps it.
   */
  lemma SplitEventLost(parse: string -> Option<Json>, c: string)
    requires ParsesContent(parse) && parse("{").None? && c != ""
    ensures var e := ChatRoute.ContentEvent(c);
      var parts := [e[..7], e[7..]];
      Concat(parts) == e &&
      Received(Read(parts, parse, None).chunks) == "" &&
      Received(ReadBuffered(parts, parse, None).chunks) == c
  {
    var e := ChatRoute.ContentEvent(c);
    var j := ContentJson(c);
    var a, b := e[..7], e[7..];
    assert a == "data: {" by {
      assert e == DataPrefix + j + "\n\n";
      assert j[0] == '{';
    }
    ConcatTwo(a, b);
    assert a + b == e;
    HalvesSkipped(parse, c);
    BufferedRouteToClientOne(parse, c, [a, b]);
  }

  lemma HalvesSkipped(parse: string -> Option<Json>, c: string)
    requires parse("{").None?
    ensures var e := ChatRoute.ContentEvent(c);
      Received(Read([e[..7], e[7..]], parse, None).chunks) == ""
  {
    var e := ChatRoute.ContentEvent(c);
    var j := ContentJson(c);
    var h := ClientHandler(parse);
    var a, b := e[..7], e[7..];
    ContentJsonShape(c);
    assert e == DataPrefix + j + "\n\n";
    assert a == "data: {";
    assert b == j[1..] + "\n\n";
    var s1 := RunLines(NonBlank(Split(a, '\n')), h);
    assert s1 == Step([], false) by {
      OpenBraceSkipped(parse, a);
    }
    var lines := NonBlank(Split(b, '\n'));
    assert RunLines(lines, h) == Step([], false) by {
      NoDataLines(lines, h, parse, b, j);
    }
    var parts := [a, b];
    assert parts[0] == a && parts[1..] == [b] && parts[1..][0] == b && parts[1..][1..] == [];
    assert Read(parts[1..][1..], parse, None) == Gen([DoneChunk], None);
    assert Read(parts[1..], parse, None) == Then(RunLines(lines, h), Gen([DoneChunk], None));
    assert Read(parts[1..], parse, None) == Gen([DoneChunk], None);
    assert Read(parts, parse, None) == Gen([DoneChunk], None);
    assert Received([DoneChunk]) == "" + Received([]);
  }

  lemma ContentJsonShape(c: string)
    ensures var j := ContentJson(c); |j| > 1 && j[0] == '{' && j[1] == '"' && '\n' !in j
  {
    ContentJsonOneLine(c);
  }

  /** The first half, `data: {`, is a data line whose payload does not parse. */
  lemma OpenBraceSkipped(parse: string -> Option<Json>, a: string)
    requires parse("{").None? && a == "data: {"
    ensures RunLines(NonBlank(Split(a, '\n')), ClientHandler(parse)) == Step([], false)
  {
    SplitNoSep(a, '\n');
    assert !IsBlank(a) by {
      assert a[0] == 'd';
    }
    var single: seq<string> := [a];
    assert single[1..] == [];
    assert NonBlank(single) == single;
    assert a[|DataPrefix|..] == "{";
    assert ClientLine(parse, a) == Step([], false);
  }

  /** The lines of the second half: the payload's tail and blank lines, none a data line. */
  lemma NoDataLines(lines: seq<string>, h: string -> Step, parse: string -> Option<Json>, b: string, j: string)
    requires h == ClientHandler(parse)
    requires |j| > 1 && j[1] == '"' && '\n' !in j
    requires b == j[1..] + "\n\n"
    requires lines == NonBlank(Split(b, '\n'))
    ensures RunLines(lines, h) == Step([], false)
  {
    var l := j[1..];
    assert '\n' !in l;
    assert !IsBlank(l) by {
      assert l[0] == '"';
    }
    EventSplit(l);
    assert !StartsWith(l, DataPrefix) by {
      assert l[0] != DataPrefix[0];
    }
    var single: seq<string> := [l];
    assert single[1..] == [];
    assert RunLines(single, h) == Step([], false);
  }

  /** The buffered reader on any cut of a single content event recovers its text. */
  lemma BufferedRouteToClientOne(parse: string -> Option<Json>, c: string, parts: seq<string>)
    requires ParsesContent(parse) && c != ""
    requires Concat(parts) == ChatRoute.ContentEvent(c)
    ensures Received(ReadBuffered(parts, parse, None).chunks) == c
  {
    var e := ChatRoute.ContentEvent(c);
    ConcatTwo(e, "");
    assert Concat([e]) == e by {
      assert Concat([e]) == e + Concat([]);
    }
    BufferedSplitInvariant(parts, [e], SkipBlank(ClientHandler(parse)), None);
    EventsAligned([Delta(c)], []);
    assert ChatRoute.ContentEvents([Delta(c)]) + [] == [e];
    BufferedAgreesUnbuffered([e], ClientHandler(parse), None);
    ReadEvents(parse, [Delta(c)], [], None);
    assert Read([], parse, None) == Gen([DoneChunk], None);
    assert Received([DoneChunk]) == "" + Received([]);
    assert Received([Delta(c)]) == c + Received([]);
  }
}

=== FILE: chat_route.dfy ===
/**
 * The chat endpoint `POST /api/ai/chat` (app/api/ai/chat/route.ts): it resolves the provider,
 * model and credential, assembles the message list, and re-encodes the adapter's chunks as a
 * Server-Sent Events stream.
 */
module ChatRoute {
  import opened Wrappers
  import opened Text
  import opened Json
  import opened AITypes
  import opened Stream
  import opened Factory
  import OpenAI
  import Anthropic
  import LocalLLM

  /** The workspace's default agent row; empty strings stand for missing columns. */
  datatype AgentRow = AgentRow(
    modelProvider: string,
    modelName: string,
    systemPrompt: string,
    temperature: Option<real>,
    maxTokens: Option<int>)

  datatype KeyRow = KeyRow(provider: string, encryptedKey: string, isActive: bool)

  datatype MemoryRow = MemoryRow(key: string, value: string)

  /** What the three database queries return; `None` is a query that returned no data. */
  datatype Db = Db(agent: Option<AgentRow>, keys: seq<KeyRow>, memory: Option<seq<MemoryRow>>)

  /** The environment variables read by the route; `""` is unset. */
  datatype Env = Env(defaultProvider: string, openaiKey: string, anthropicKey: string, localBaseUrl: string)

  /** The request body, once parsed. */
  datatype ChatRequest = ChatRequest(message: string, history: Option<seq<Message>>)

  /**
   * The outbound event stream as the client sees it: closed after `[DONE]`, errored with a
   * reason, or still open because the generator ended without a terminal chunk.
   */
  datatype Outbound = Closed(events: seq<string>) | Errored(events: seq<string>, reason: string) | Open(events: seq<string>)

  datatype Response = JsonError(status: int, error: string) | EventStream(body: Outbound)

  const DefaultSystemPrompt := "You are a helpful AI coding assistant."
  const DefaultModel := "gpt-4"
  const DefaultTemperature: real := 0.7
  const DefaultMaxTokens := 2000
  const ActiveKeyLimit := 10

  // ----- resolution -----

  /** `agent?.model_provider || DEFAULT_AI_PROVIDER || 'openai'`. */
  function ResolveProvider(agent: Option<AgentRow>, env: Env): (p: string)
    ensures p != ""
    ensures agent.Some? && agent.value.modelProvider != "" ==> p == agent.value.modelProvider
    ensures (agent.None? || agent.value.modelProvider == "") && env.defaultProvider != "" ==> p == env.defaultProvider
    ensures (agent.None? || agent.value.modelProvider == "") && env.defaultProvider == "" ==> p == "openai"
  {
    if agent.Some? && agent.value.modelProvider != "" then agent.value.modelProvider
    else if env.defaultProvider != "" then env.defaultProvider
    else "openai"
  }

  /** `agent?.model_name || 'gpt-4'`. */
  function ResolveModel(agent: Option<AgentRow>): (m: string)
    ensures m != ""
    ensures agent.Some? && agent.value.modelName != "" ==> m == agent.value.modelName
    ensures agent.None? || agent.value.modelName == "" ==> m == DefaultModel
  {
    if agent.Some? && agent.value.modelName != "" then agent.value.modelName else DefaultModel
  }

  /** The key query: active rows only, at most ten of them. */
  function ActiveKeys(rows: seq<KeyRow>): (r: seq<KeyRow>)
    ensures |r| <= ActiveKeyLimit
    ensures forall i | 0 <= i < |r| :: r[i].isActive && r[i] in rows
    decreases |rows|
  {
    if |rows| == 0 then []
    else
      var rest := ActiveKeys(rows[1..]);
      if !rows[0].isActive then rest
      else if |rest| == ActiveKeyLimit then [rows[0]] + rest[..ActiveKeyLimit - 1]
      else [rows[0]] + rest
  }

  /** `apiKeys?.find(k => k.provider === provider)?.encrypted_key`. */
  function FindKey(rows: seq<KeyRow>, provider: string): (k: Option<string>)
    ensures k.None? <==> forall i | 0 <= i < |rows| :: rows[i].provider != provider
    ensures k.Some? ==> exists i | 0 <= i < |rows| :: (rows[i].provider == provider && rows[i].encryptedKey == k.value
      && forall j | 0 <= j < i :: rows[j].provider != provider)
    decreases |rows|
  {
    if |rows| == 0 then None
    else if rows[0].provider == provider then Some(rows[0].encryptedKey)
    else
      var k := FindKey(rows[1..], provider);
      assert forall i | 1 <= i < |rows| :: rows[i] == rows[1..][i - 1];
      k
  }

  /** The stored key, else the environment key for the two hosted providers only. */
  function ResolveKey(keys: seq<KeyRow>, provider: string, env: Env): (k: string)
    ensures FindKey(ActiveKeys(keys), provider).GetOr("") != "" ==> k == FindKey(ActiveKeys(keys), provider).value
    ensures provider !in {"openai", "anthropic"} ==> k == FindKey(ActiveKeys(keys), provider).GetOr("")
    ensures FindKey(ActiveKeys(keys), provider).GetOr("") == "" && provider == "openai" ==> k == env.openaiKey
    ensures FindKey(ActiveKeys(keys), provider).GetOr("") == "" && provider == "anthropic" ==> k == env.anthropicKey
  {
    var stored := FindKey(ActiveKeys(keys), provider).GetOr("");
    if stored == "" && provider == "openai" then env.openaiKey
    else if stored == "" && provider == "anthropic" then env.anthropicKey
    else stored
  }

  /** The 400 message naming the missing key and the environment variable to set. */
  function MissingKeyMessage(provider: string): string {
    "No API key found for provider: " + provider + ". Add one in settings or set " +
    Upper(provider) + "_API_KEY in .env.local"
  }

  /** The memory rows as `key: value` lines; `''` when there are none. */
  function MemoryContext(memory: Option<seq<MemoryRow>>): (s: string)
    ensures memory.None? || memory.value == [] ==> s == ""
    ensures memory.Some? && memory.value != [] ==> s == Join(MemoryLines(memory.value), "\n")
  {
    if memory.None? then "" else Join(MemoryLines(memory.value), "\n")
  }

  function MemoryLines(rows: seq<MemoryRow>): (r: seq<string>)
    ensures |r| == |rows| && forall i | 0 <= i < |rows| :: r[i] == rows[i].key + ": " + rows[i].value
  {
    seq(|rows|, i requires 0 <= i < |rows| => rows[i].key + ": " + rows[i].value)
  }

  /** The agent's prompt or the default, plus the project context when there is any. */
  function SystemContent(agent: Option<AgentRow>, memoryContext: string): (s: string)
    ensures memoryContext == "" ==> s == Prompt(agent)
    ensures memoryContext != "" ==> s == Prompt(agent) + "\n\nProject Context:\n" + memoryContext
  {
    Prompt(agent) + (if memoryContext != "" then "\n\nProject Context:\n" + memoryContext else "")
  }

  function Prompt(agent: Option<AgentRow>): string {
    if agent.Some? && agent.value.systemPrompt != "" then agent.value.systemPrompt else DefaultSystemPrompt
  }

  /** `[system, ...(history || []), user]`. */
  function BuildMessages(system: string, history: Option<seq<Message>>, message: string): (ms: seq<Message>)
    ensures |ms| == |history.GetOr([])| + 2
    ensures ms[0] == Msg(System, system) && ms[|ms| - 1] == Msg(User, message)
    ensures ms[1..|ms| - 1] == history.GetOr([])
  {
    [Msg(System, system)] + history.GetOr([]) + [Msg(User, message)]
  }

  /** The configuration handed to the factory: the agent's numbers, else 0.7 and 2000. */
  function ConfigFor(agent: Option<AgentRow>, provider: string, model: string): (c: ModelConfig)
    ensures c.provider == provider && c.model == model
    ensures c.temperature.Some? && c.maxTokens.Some?
    ensures agent.None? ==> c.temperature == Some(DefaultTemperature) && c.maxTokens == Some(DefaultMaxTokens)
    ensures agent.Some? && agent.value.temperature.Some? ==> c.temperature == agent.value.temperature
    ensures agent.Some? && agent.value.maxTokens.Some? ==> c.maxTokens == agent.value.maxTokens
  {
    var t := if agent.Some? then agent.value.temperature.GetOr(DefaultTemperature) else DefaultTemperature;
    var m := if agent.Some? then agent.value.maxTokens.GetOr(DefaultMaxTokens) else DefaultMaxTokens;
    ModelConfig(provider, model, Some(t), Some(m), None, None, None)
  }

  // ----- outbound encoding -----

  /** The event carrying one chunk's text, `data: {"content":…}` and a blank line. */
  function ContentEvent(content: string): string {
    DataPrefix + ContentJson(content) + "\n\n"
  }

  const DoneEvent := "data: [DONE]\n\n"

  /** One content event per chunk, in order. */
  function ContentEvents(chunks: seq<Chunk>): (r: seq<string>)
    ensures |r| == |chunks| && forall i | 0 <= i < |chunks| :: r[i] == ContentEvent(chunks[i].content)
  {
    seq(|chunks|, i requires 0 <= i < |chunks| => ContentEvent(chunks[i].content))
  }

  function Prepend(e: string, o: Outbound): (r: Outbound) {
    match o
    case Closed(es) => Closed([e] + es)
    case Errored(es, why) => Errored([e] + es, why)
    case Open(es) => Open([e] + es)
  }

  /**
   * The stream's `start`: an error chunk errors the stream, any other chunk becomes one event,
   * a terminal chunk also emits `[DONE]` and closes (later chunks and errors can no longer reach
   * a closed stream), and an exception from the generator errors it.
   */
  function Encode(chunks: seq<Chunk>, thrown: Option<string>): (o: Outbound)
    decreases |chunks|
  {
    if |chunks| == 0 then
      if thrown.Some? then Errored([], thrown.value) else Open([])
    else
      var c := chunks[0];
      if c.error.Some? && c.error.value != "" then Errored([], c.error.value)
      else if c.done then Closed([ContentEvent(c.content), DoneEvent])
      else Prepend(ContentEvent(c.content), Encode(chunks[1..], thrown))
  }

  /**
   * For a well-formed generator, every chunk including the terminal one becomes exactly one
   * event, followed by `[DONE]`; a generator that threw errors the stream instead, after the
   * events of what it yielded and without `[DONE]`.
   */
  lemma {:induction false} EncodeWellFormed(g: Gen)
    requires WellFormed(g)
    ensures g.thrown.None? ==> Encode(g.chunks, g.thrown) == Closed(ContentEvents(g.chunks) + [DoneEvent])
    ensures g.thrown.Some? ==> Encode(g.chunks, g.thrown) == Errored(ContentEvents(g.chunks), g.thrown.value)
    decreases |g.chunks|
  {
    if |g.chunks| == 0 {
      assert ContentEvents(g.chunks) == [];
    } else {
      var c := g.chunks[0];
      var rest := Gen(g.chunks[1..], g.thrown);
      ContentEventsCons(g.chunks);
      if |g.chunks| == 1 && g.thrown.None? {
        assert c == DoneChunk;
        assert ContentEvents(rest.chunks) == [];
      } else {
        assert !c.done && c.error.None?;
        WellFormedTail(g);
        EncodeWellFormed(rest);
        EncodeCons(c, g.chunks, g.thrown);
        if g.thrown.None? {
          ConsAssoc(ContentEvent(c.content), ContentEvents(rest.chunks), [DoneEvent]);
        }
      }
    }
  }

  /** The events of a non-empty run of chunks: the first chunk's event, then the others'. */
  lemma ContentEventsCons(chunks: seq<Chunk>)
    requires |chunks| > 0
    ensures ContentEvents(chunks) == [ContentEvent(chunks[0].content)] + ContentEvents(chunks[1..])
  {
    var a := ContentEvents(chunks);
    var b := [ContentEvent(chunks[0].content)] + ContentEvents(chunks[1..]);
    assert |a| == |b|;
    forall i | 0 <= i < |a| ensures a[i] == b[i] {
      if i > 0 {
        assert chunks[1..][i - 1] == chunks[i];
      }
    }
  }

  lemma ConsAssoc(e: string, es: seq<string>, more: seq<string>)
    ensures [e] + es + more == [e] + (es + more)
  {
  }

  lemma EncodeCons(c: Chunk, chunks: seq<Chunk>, thrown: Option<string>)
    requires |chunks| > 0 && chunks[0] == c && c.error.None? && !c.done
    ensures Encode(chunks, thrown) == Prepend(ContentEvent(c.content), Encode(chunks[1..], thrown))
  {
  }

  /** Dropping a non-terminal first chunk keeps a generator well formed. */
  lemma WellFormedTail(g: Gen)
    requires WellFormed(g) && |g.chunks| > 0 && !g.chunks[0].done
    ensures WellFormed(Gen(g.chunks[1..], g.thrown))
  {
    var rest := Gen(g.chunks[1..], g.thrown);
    forall i | 0 <= i < |rest.chunks| ensures rest.chunks[i] == g.chunks[i + 1] {
    }
  }

  // ----- the handler -----

  /** The adapter's `streamChat`, dispatched on the constructed variant. */
  function AdapterStream(a: Adapter, up: Upstream, parse: string -> Option<Json>): (g: Gen)
    ensures WellFormed(g)
  {
    match a
    case OpenAIAdapter(_, _) => OpenAI.StreamChat(up, parse)
    case AnthropicAdapter(_, _) => Anthropic.StreamChat(up, parse)
    case LocalAdapter(_, baseUrl) => LocalLLM.StreamChat(baseUrl, up, parse)
  }

  /** The base URL handed to the factory: `LOCAL_LLM_BASE_URL || 'http://localhost:11434'`. */
  function LocalBaseUrl(env: Env): string {
    if env.localBaseUrl != "" then env.localBaseUrl else LocalLLM.DefaultBaseUrl
  }

  /** The adapter the factory builds for the resolved provider, model and credential. */
  function RouteAdapter(db: Db, env: Env): (r: Result<Adapter>)
    ensures r.Success? ==> r.value.config.provider == ResolveProvider(db.agent, env)
    ensures r.Success? ==> r.value.config.model == ResolveModel(db.agent)
  {
    var provider := ResolveProvider(db.agent, env);
    var key := ResolveKey(db.keys, provider, env);
    CreateProvider(ConfigFor(db.agent, provider, ResolveModel(db.agent)), key, Some(LocalBaseUrl(env)))
  }

  /**
   * `POST`. `req` is `None` when the body is not JSON. `server` is the provider's upstream: what
   * it answers when the built adapter sends it a message list.
   */
  function Post(req: Option<ChatRequest>, db: Db, env: Env, server: (Adapter, seq<Message>) -> Upstream,
    parse: string -> Option<Json>): (r: Response)
    ensures req.None? ==> r == JsonError(500, OpenAI.InvalidJson)
    ensures r.JsonError? ==> r.status in {400, 500} && r.error != ""
  {
    if req.None? then JsonError(500, OpenAI.InvalidJson)
    else
      var provider := ResolveProvider(db.agent, env);
      var key := ResolveKey(db.keys, provider, env);
      if key == "" && provider != "local" then JsonError(400, MissingKeyMessage(provider))
      else
        match RouteAdapter(db, env)
        case Failure(e) => JsonError(500, e)
        case Success(a) =>
          var g := AdapterStream(a, server(a, RouteMessages(req.value, db)), parse);
          EventStream(Encode(g.chunks, g.thrown))
  }

  /** The messages the route sends upstream for a request. */
  function RouteMessages(req: ChatRequest, db: Db): (ms: seq<Message>)
    ensures |ms| == |req.history.GetOr([])| + 2
    ensures ms[0] == Msg(System, SystemContent(db.agent, MemoryContext(db.memory)))
    ensures ms[|ms| - 1] == Msg(User, req.message)
    ensures ms[1..|ms| - 1] == req.history.GetOr([])
  {
    BuildMessages(SystemContent(db.agent, MemoryContext(db.memory)), req.history, req.message)
  }

  /** Without a key a hosted provider is refused with 400 before any adapter is built. */
  lemma MissingKeyIs400(req: ChatRequest, db: Db, env: Env, server: (Adapter, seq<Message>) -> Upstream,
    parse: string -> Option<Json>)
    requires ResolveProvider(db.agent, env) != "local"
    requires ResolveKey(db.keys, ResolveProvider(db.agent, env), env) == ""
    ensures Post(Some(req), db, env, server, parse) == JsonError(400, MissingKeyMessage(ResolveProvider(db.agent, env)))
  {
  }

  /**
   * A parsed request gets an event stream exactly when there is a credential (or the provider is
   * local) and the factory builds an adapter; otherwise it gets a JSON error.
   */
  lemma PostStreams(req: ChatRequest, db: Db, env: Env, server: (Adapter, seq<Message>) -> Upstream,
    parse: string -> Option<Json>)
    ensures Post(Some(req), db, env, server, parse).EventStream? <==>
      (ResolveKey(db.keys, ResolveProvider(db.agent, env), env) != "" || ResolveProvider(db.agent, env) == "local") &&
      RouteAdapter(db, env).Success?
  {
  }

  /**
   * The only thing the route asks of the upstream is its answer to the built adapter sending
   * `RouteMessages`: two upstreams that agree on that answer give the same response.
   */
  lemma PostAsksRouteMessages(req: ChatRequest, db: Db, env: Env, s1: (Adapter, seq<Message>) -> Upstream,
    s2: (Adapter, seq<Message>) -> Upstream, parse: string -> Option<Json>)
    requires RouteAdapter(db, env).Success? ==>
      s1(RouteAdapter(db, env).value, RouteMessages(req, db)) == s2(RouteAdapter(db, env).value, RouteMessages(req, db))
    ensures Post(Some(req), db, env, s1, parse) == Post(Some(req), db, env, s2, parse)
  {
  }

  /** The prefix each adapter puts before the upstream's error text. */
  function FailurePrefix(a: Adapter): string {
    match a
    case OpenAIAdapter(_, _) => "OpenAI API error: "
    case AnthropicAdapter(_, _) => "Anthropic API error: "
    case LocalAdapter(_, baseUrl) => if LocalLLM.IsOllama(baseUrl) then "Ollama API error: " else "LM Studio API error: "
  }

  /**
   * An upstream failure after headers is not an HTTP error: whichever adapter was built, the
   * response is an event stream that errors with the adapter's message and carries no events.
   */
  lemma UpstreamFailureErrorsStream(req: ChatRequest, db: Db, env: Env, server: (Adapter, seq<Message>) -> Upstream,
    parse: string -> Option<Json>)
    requires Post(Some(req), db, env, server, parse).EventStream?
    ensures RouteAdapter(db, env).Success?
    ensures var a := RouteAdapter(db, env).value;
      var up := server(a, RouteMessages(req, db));
      !up.ok ==> Post(Some(req), db, env, server, parse).body == Errored([], FailurePrefix(a) + up.errorBody)
  {
  }

  /** A successful stream ends with `[DONE]` right after the terminal chunk's own event. */
  lemma StreamEndsWithDone(req: ChatRequest, db: Db, env: Env, server: (Adapter, seq<Message>) -> Upstream,
    parse: string -> Option<Json>)
    requires Post(Some(req), db, env, server, parse).EventStream?
    ensures var o := Post(Some(req), db, env, server, parse).body;
      o.Closed? ==> (|o.events| >= 2 && o.events[|o.events| - 1] == DoneEvent &&
        o.events[|o.events| - 2] == ContentEvent(""))
    ensures !Post(Some(req), db, env, server, parse).body.Open?
  {
    var a := RouteAdapter(db, env).value;
    var g := AdapterStream(a, server(a, RouteMessages(req, db)), parse);
    EncodeWellFormed(g);
    if g.thrown.None? {
      var es := ContentEvents(g.chunks) + [DoneEvent];
      assert es[|es| - 2] == ContentEvent(g.chunks[|g.chunks| - 1].content);
    }
  }
}

=== FILE: code_editor.dfy ===
/**
 * The code editor's lookup tables (components/workspace/code-editor.tsx): the file extension
 * used when downloading a document in a given language, the Monaco language id for a language
 * name, and the download file name.
 */
module CodeEditor {
  import opened Text

  /** The `extensions` record of `getFileExtension`. */
  function ExtensionTable(): map<string, string> {
    map[
      "typescript" := "ts", "javascript" := "js", "python" := "py", "java" := "java",
      "go" := "go", "rust" := "rs", "cpp" := "cpp", "c" := "c", "csharp" := "cs",
      "html" := "html", "css" := "css", "json" := "json", "markdown" := "md",
      "yaml" := "yaml", "xml" := "xml", "sql" := "sql"]
  }

  /** The `languageMap` record of `getLanguageForMonaco`. */
  function MonacoTable(): map<string, string> {
    map[
      "typescript" := "typescript", "javascript" := "javascript", "tsx" := "typescript",
      "jsx" := "javascript", "python" := "python", "java" := "java", "go" := "go",
      "rust" := "rust", "cpp" := "cpp", "c" := "c", "csharp" := "csharp", "html" := "html",
      "css" := "css", "scss" := "scss", "json" := "json", "markdown" := "markdown",
      "yaml" := "yaml", "xml" := "xml", "sql" := "sql", "shell" := "shell", "bash" := "shell",
      "dockerfile" := "dockerfile"]
  }

  /** The extensions `getFileExtension` can produce. */
  function Extensions(): set<string> {
    {"ts", "js", "py", "java", "go", "rs", "cpp", "c", "cs", "html", "css", "json", "md", "yaml", "xml", "sql", "txt"}
  }

  /** `extensions[lang] || "txt"`: an exact, case-sensitive lookup with a `txt` fallback. */
  function FileExtension(lang: string): (r: string)
    ensures r in Extensions()
    ensures lang !in ExtensionTable() <==> r == "txt"
  {
    if lang in ExtensionTable() then ExtensionTable()[lang] else "txt"
  }

  /** No extension is empty or holds a dot. */
  lemma ExtensionsPlain(ext: string)
    requires ext in Extensions()
    ensures ext != "" && '.' !in ext
  {
  }

  /** The lookup is case-sensitive: a capitalised language name falls back to `txt`. */
  lemma ExtensionCaseSensitive()
    ensures FileExtension("typescript") == "ts" && FileExtension("TypeScript") == "txt"
  {
    assert "TypeScript" !in ExtensionTable() by {
      assert "TypeScript"[0] == 'T';
    }
  }

  /** `languageMap[lang.toLowerCase()] || "plaintext"`. */
  function MonacoLanguage(lang: string): (r: string)
    ensures r == "plaintext" <==> Lower(lang) !in MonacoTable()
    ensures r in MonacoTable().Values || r == "plaintext"
  {
    var key := Lower(lang);
    if key in MonacoTable() then MonacoTable()[key] else "plaintext"
  }

  /** Monaco ids ignore case: names that lowercase alike get the same id. */
  lemma MonacoIgnoresCase(a: string, b: string)
    requires Lower(a) == Lower(b)
    ensures MonacoLanguage(a) == MonacoLanguage(b)
  {
  }

  /** Every Monaco id maps to itself, so the lookup is idempotent. */
  lemma MonacoIdempotent(lang: string)
    ensures MonacoLanguage(MonacoLanguage(lang)) == MonacoLanguage(lang)
  {
    var r := MonacoLanguage(lang);
    if r != "plaintext" {
      MonacoValuesAreKeys(Lower(lang));
    } else {
      PlainTextUnmapped();
    }
  }

  /** Each Monaco id is itself a lowercase key of the table, mapped to itself. */
  lemma MonacoValuesAreKeys(key: string)
    requires key in MonacoTable()
    ensures var v := MonacoTable()[key];
      v in MonacoTable() && MonacoTable()[v] == v && Lower(v) == v
  {
    var v := MonacoTable()[key];
    assert v in MonacoTable() && MonacoTable()[v] == v;
    LowerUnchanged(v);
  }

  /** `plaintext` reads back as `plaintext`. */
  lemma PlainTextUnmapped()
    ensures Lower("plaintext") == "plaintext" && "plaintext" !in MonacoTable()
  {
    LowerUnchanged("plaintext");
  }

  /** The aliases: `tsx` and `jsx` read as their base languages, `bash` as `shell`, in any case. */
  lemma MonacoAliases()
    ensures MonacoLanguage("tsx") == "typescript" && MonacoLanguage("TSX") == "typescript"
    ensures MonacoLanguage("jsx") == "javascript" && MonacoLanguage("bash") == "shell"
  {
    assert Lower("TSX") == "tsx";
    assert Lower("tsx") == "tsx";
    assert Lower("jsx") == "jsx";
    assert Lower("bash") == "bash";
  }

  /** Every language with a download extension is also a Monaco id naming itself. */
  lemma TablesAgree(lang: string)
    requires lang in ExtensionTable()
    ensures MonacoLanguage(lang) == lang
  {
    assert lang in MonacoTable() && MonacoTable()[lang] == lang;
    LowerUnchanged(lang);
  }

  /** `` `code-${documentId || "untitled"}.${getFileExtension(language)}` ``. */
  function DownloadName(documentId: string, lang: string): (r: string)
    ensures StartsWith(r, "code-")
    ensures EndsWith(r, "." + FileExtension(lang))
  {
    var stem := if documentId == "" then "untitled" else documentId;
    var r := "code-" + stem + "." + FileExtension(lang);
    assert r[..5] == "code-";
    assert r[|r| - |"." + FileExtension(lang)|..] == "." + FileExtension(lang);
    r
  }

  /** The last dot splits x + "." + e back into x and e when e has no dot. */
  lemma LastDotOfAppend(x: string, e: string)
    requires '.' !in e
    ensures LastIndexOf(x + "." + e, '.') == |x|
  {
    var s := x + "." + e;
    var r := LastIndexOf(s, '.');
    assert s[|x|] == '.';
    assert s[|x| + 1..] == e;
  }

  /**
   * The download name can be read back: the text after its last dot is the extension, and the
   * text between `code-` and that dot is the document id, or `untitled` without one.
   */
  lemma DownloadNameReadsBack(documentId: string, lang: string)
    ensures var n := DownloadName(documentId, lang);
      var k := LastIndexOf(n, '.');
      5 <= k && n[k + 1..] == FileExtension(lang) &&
      n[5..k] == if documentId == "" then "untitled" else documentId
  {
    var stem := if documentId == "" then "untitled" else documentId;
    ExtensionsPlain(FileExtension(lang));
    LastDotOfAppend("code-" + stem, FileExtension(lang));
    assert DownloadName(documentId, lang) == ("code-" + stem) + "." + FileExtension(lang);
  }
}

=== FILE: command_palette.dfy ===
/**
 * The Cmd+K command palette (components/workspace/command-palette.tsx): the command list, the
 * query filter, the keyboard selection and the grouping of the shown commands by category.
 */
module CommandPalette {
  import opened Wrappers
  import opened Text

  datatype Category = FileCommands | ViewCommands | AICommands | ActionCommands | ThemeCommands

  datatype ThemeMode = Light | Dark

  /**
   * What running a command asks of the host. Commands whose action is a browser file dialog
   * or a console message ask nothing of it and carry no callbacks.
   */
  datatype Callback = ViewChange(view: string) | AIAction(action: string) | FileSelect(fileId: string) | ThemeToggle

  datatype Command = Command(id: string, caption: string, category: Category, keywords: seq<string>, effects: seq<Callback>)

  datatype PaletteFile = PaletteFile(id: string, name: string, kind: string)

  /** The `category` string each command carries. */
  function CategoryKey(c: Category): string {
    match c
    case FileCommands => "file"
    case ViewCommands => "view"
    case AICommands => "ai"
    case ActionCommands => "action"
    case ThemeCommands => "theme"
  }

  /** `getCategoryLabel`: a heading for every known category, "Other" for anything else. */
  function CategoryLabel(category: string): (heading: string)
    ensures heading == "Other" <==> category !in {"file", "view", "ai", "action", "theme"}
  {
    if category == "file" then "Files"
    else if category == "view" then "Views"
    else if category == "ai" then "AI Actions"
    else if category == "action" then "Actions"
    else if category == "theme" then "Appearance"
    else "Other"
  }

  /** Every category a command can carry has its own heading, and the headings differ. */
  lemma CategoryLabelsDistinct(a: Category, b: Category)
    ensures CategoryLabel(CategoryKey(a)) != "Other"
    ensures a != b ==> CategoryLabel(CategoryKey(a)) != CategoryLabel(CategoryKey(b))
  {
  }

  // ----- the command list -----

  function View(id: string, caption: string, view: string, keywords: seq<string>): Command {
    Command(id, caption, ViewCommands, keywords, [ViewChange(view)])
  }

  /** An AI command asks for its action and then switches to the chat view. */
  function Ai(id: string, caption: string, action: string, keywords: seq<string>): Command {
    Command(id, caption, AICommands, keywords, [AIAction(action), ViewChange("chat")])
  }

  function Act(id: string, caption: string, effects: seq<Callback>, keywords: seq<string>): Command {
    Command(id, caption, ActionCommands, keywords, effects)
  }

  /** The sixteen built-in commands, in the order they are listed. */
  function BuiltIn(theme: ThemeMode): (cs: seq<Command>)
    ensures |cs| == 16
  {
    [ View("view-code", "Open Code Editor", "code", ["editor", "code", "file"]),
      View("view-chat", "Open AI Chat", "chat", ["chat", "ai", "assistant"]),
      View("view-preview", "Open Live Preview", "preview", ["preview", "browser", "live"]),
      View("view-terminal", "Open Terminal", "terminal", ["terminal", "console", "shell"]),
      View("view-settings", "Open Settings", "settings", ["settings", "config", "preferences"]),
      Ai("ai-fix-bugs", "AI: Fix Bugs in Current File", "fix-bugs", ["debug", "fix", "bug", "error"]),
      Ai("ai-refactor", "AI: Refactor Current File", "refactor", ["refactor", "improve", "optimize"]),
      Ai("ai-explain", "AI: Explain Current File", "explain", ["explain", "documentation", "understand"]),
      Ai("ai-tests", "AI: Write Tests for Current File", "write-tests", ["test", "testing", "unit test"]),
      Ai("ai-document", "AI: Add Documentation", "document", ["document", "comments", "jsdoc"]),
      Act("upload-file", "Upload File", [], ["upload", "import", "add file"]),
      Act("download-project", "Download Project", [], ["download", "export", "save"]),
      Act("run-build", "Run Build", [ViewChange("terminal")], ["build", "compile", "run"]),
      Act("deploy", "Deploy Project", [], ["deploy", "publish", "ship"]),
      Act("git-status", "Git Status", [ViewChange("terminal")], ["git", "status", "version control"]),
      Command("toggle-theme", "Switch to " + (if theme == Light then "Dark" else "Light") + " Mode",
        ThemeCommands, ["theme", "dark", "light", "mode"], [ThemeToggle]) ]
  }

  /** The command opening one file. */
  function FileCommand(f: PaletteFile): (c: Command)
    ensures c.id == "file-" + f.id && c.caption == "Open: " + f.name
    ensures c.category == FileCommands && f.name in c.keywords
    ensures c.effects == [FileSelect(f.id)]
  {
    Command("file-" + f.id, "Open: " + f.name, FileCommands, [f.name, "file", "open"], [FileSelect(f.id)])
  }

  /** The built-in commands followed by one command per file. */
  function Commands(files: seq<PaletteFile>, theme: ThemeMode): (cs: seq<Command>)
    ensures |cs| == 16 + |files|
    ensures cs[..16] == BuiltIn(theme)
    ensures forall i | 0 <= i < |files| :: cs[16 + i] == FileCommand(files[i])
  {
    BuiltIn(theme) + seq(|files|, i requires 0 <= i < |files| => FileCommand(files[i]))
  }

  /** The theme command offers the other theme. */
  lemma ThemeCommandLabel(files: seq<PaletteFile>, theme: ThemeMode)
    ensures Commands(files, theme)[15].caption == (if theme == Light then "Switch to Dark Mode" else "Switch to Light Mode")
  {
    var c := BuiltIn(theme)[15];
    assert Commands(files, theme)[15] == c;
    assert c.caption == "Switch to " + (if theme == Light then "Dark" else "Light") + " Mode";
    ThemeCaptions();
  }

  lemma ThemeCaptions()
    ensures "Switch to " + "Dark" + " Mode" == "Switch to Dark Mode"
    ensures "Switch to " + "Light" + " Mode" == "Switch to Light Mode"
  {
  }

  // ----- filtering -----

  /** `words.some(k => k.toLowerCase().includes(q))` for an already lowercased `q`. */
  function AnyContains(words: seq<string>, q: string): (b: bool)
    ensures b <==> exists i | 0 <= i < |words| :: Contains(Lower(words[i]), q)
    decreases |words|
  {
    if |words| == 0 then false
    else Contains(Lower(words[0]), q) || AnyContains(words[1..], q)
  }

  /** The filter's test: the lowercased label or some lowercased keyword contains the lowercased query. */
  predicate Matches(c: Command, query: string) {
    Contains(Lower(c.caption), Lower(query)) || AnyContains(c.keywords, Lower(query))
  }

  /** `commands.filter(...)`: the matching commands, in list order. */
  function Filtered(cs: seq<Command>, query: string): (r: seq<Command>)
    ensures |r| <= |cs|
    decreases |cs|
  {
    if |cs| == 0 then []
    else (if Matches(cs[0], query) then [cs[0]] else []) + Filtered(cs[1..], query)
  }

  /** A command is shown exactly when it is in the list and matches. */
  lemma {:induction false} FilteredMembers(cs: seq<Command>, query: string, c: Command)
    ensures c in Filtered(cs, query) <==> c in cs && Matches(c, query)
    decreases |cs|
  {
    if |cs| > 0 {
      FilteredMembers(cs[1..], query, c);
      assert c in cs <==> c == cs[0] || c in cs[1..];
    }
  }

  /** An empty query shows every command: `includes("")` always holds. */
  lemma EmptyQueryShowsAll(cs: seq<Command>)
    ensures Filtered(cs, "") == cs
  {
    forall c: Command ensures Matches(c, "") {
      ContainsIff(Lower(c.caption), "");
      assert MatchAt(Lower(c.caption), "", 0);
    }
    FilteredAll(cs, "");
  }

  lemma {:induction false} FilteredAll(cs: seq<Command>, query: string)
    requires forall c: Command :: Matches(c, query)
    ensures Filtered(cs, query) == cs
    decreases |cs|
  {
    if |cs| > 0 {
      FilteredAll(cs[1..], query);
      assert [cs[0]] + cs[1..] == cs;
    }
  }

  /** Every file can be found by its own name. */
  lemma FileFoundByName(files: seq<PaletteFile>, theme: ThemeMode, i: nat)
    requires i < |files|
    ensures FileCommand(files[i]) in Filtered(Commands(files, theme), files[i].name)
  {
    var c := FileCommand(files[i]);
    var q := Lower(files[i].name);
    assert MatchAt(q, q, 0);
    ContainsIff(q, q);
    assert c.keywords[0] == files[i].name;
    assert AnyContains(c.keywords, q);
    assert Commands(files, theme)[16 + i] == c;
    FilteredMembers(Commands(files, theme), files[i].name, c);
  }

  // ----- the dialog and its keys -----

  datatype Palette = Palette(open: bool, query: string, selected: int)

  datatype Key = Key(key: string, meta: bool, ctrl: bool)

  /** The callbacks a key press triggered, and the palette afterwards. */
  datatype KeyOutcome = KeyOutcome(palette: Palette, effects: seq<Callback>)

  predicate IsToggle(k: Key) {
    (k.meta || k.ctrl) && k.key == "k"
  }

  function Min(a: int, b: int): int { if a < b then a else b }

  function Max(a: int, b: int): int { if a > b then a else b }

  /** The closed, reset palette Escape and Enter leave behind. */
  const Reset := Palette(false, "", 0)

  /** Typing a query resets the selection to the first command. */
  function Typed(p: Palette, q: string): (r: Palette)
    ensures r.open == p.open && r.query == q && r.selected == 0
  {
    Palette(p.open, q, 0)
  }

  /** `handleKeyDown`, against the commands currently shown. */
  function KeyDown(shown: seq<Command>, p: Palette, k: Key): (r: KeyOutcome)
    ensures IsToggle(k) ==> r == KeyOutcome(p.(open := !p.open), [])
    ensures !IsToggle(k) && !p.open ==> r == KeyOutcome(p, [])
    ensures r.effects != [] ==> r.palette == Reset
    ensures (!IsToggle(k) && p.open && k.key == "Enter" && 0 <= p.selected < |shown|) ==>
      r == KeyOutcome(Reset, shown[p.selected].effects)
  {
    if IsToggle(k) then KeyOutcome(p.(open := !p.open), [])
    else if !p.open then KeyOutcome(p, [])
    else if k.key == "Escape" then KeyOutcome(Reset, [])
    else if k.key == "ArrowDown" then KeyOutcome(p.(selected := Min(p.selected + 1, |shown| - 1)), [])
    else if k.key == "ArrowUp" then KeyOutcome(p.(selected := Max(p.selected - 1, 0)), [])
    else if k.key == "Enter" && 0 <= p.selected < |shown| then KeyOutcome(Reset, shown[p.selected].effects)
    else KeyOutcome(p, [])
  }

  predicate InRange(shown: seq<Command>, p: Palette) {
    0 <= p.selected < |shown|
  }

  /** While commands are shown, the selection keys keep the selection on one of them. */
  lemma SelectionStaysInRange(shown: seq<Command>, p: Palette, k: Key)
    requires InRange(shown, p)
    ensures KeyDown(shown, p, k).palette.open ==> InRange(shown, KeyDown(shown, p, k).palette)
  {
  }

  /** ArrowDown stops on the last command and ArrowUp on the first. */
  lemma ArrowsStopAtEnds(shown: seq<Command>, p: Palette)
    requires InRange(shown, p) && p.open
    ensures p.selected == |shown| - 1 ==> KeyDown(shown, p, Key("ArrowDown", false, false)).palette == p
    ensures p.selected == 0 ==> KeyDown(shown, p, Key("ArrowUp", false, false)).palette == p
  {
  }

  /** Cmd+K twice leaves the palette as it was, open or closed. */
  lemma ToggleTwice(shown: seq<Command>, p: Palette, k: Key)
    requires IsToggle(k)
    ensures KeyDown(shown, KeyDown(shown, p, k).palette, k).palette == p
  {
  }

  /** Enter runs the selected command's callbacks, and nothing runs when no command is selected. */
  lemma EnterRunsSelected(files: seq<PaletteFile>, theme: ThemeMode, p: Palette, i: nat)
    requires p.open && i < |files|
    requires var shown := Filtered(Commands(files, theme), p.query);
      InRange(shown, p) && shown[p.selected] == FileCommand(files[i])
    ensures KeyDown(Filtered(Commands(files, theme), p.query), p, Key("Enter", false, false)).effects == [FileSelect(files[i].id)]
  {
  }

  // ----- grouping by category -----

  datatype Group = Group(category: Category, commands: seq<Command>)

  /** The categories of the groups, in order. */
  function Categories(groups: seq<Group>): (r: seq<Category>)
    ensures |r| == |groups| && forall i | 0 <= i < |groups| :: r[i] == groups[i].category
  {
    seq(|groups|, i requires 0 <= i < |groups| => groups[i].category)
  }

  /** The first position of `c` in `cats`, or -1. */
  function FirstIndex(cats: seq<Category>, c: Category): (k: int)
    ensures -1 <= k < |cats|
    ensures k == -1 ==> c !in cats
    ensures k >= 0 ==> cats[k] == c && c !in cats[..k]
    decreases |cats|
  {
    if |cats| == 0 then -1
    else if cats[0] == c then 0
    else var k := FirstIndex(cats[1..], c); if k == -1 then -1 else k + 1
  }

  /** `acc[category]` as a position: the first group for the category, or -1. */
  function GroupIndex(groups: seq<Group>, c: Category): (k: int)
    ensures -1 <= k < |groups|
    ensures k == -1 ==> forall i | 0 <= i < |groups| :: groups[i].category != c
    ensures k >= 0 ==> groups[k].category == c
  {
    FirstIndex(Categories(groups), c)
  }

  function AddToGroups(groups: seq<Group>, cmd: Command): seq<Group> {
    var k := GroupIndex(groups, cmd.category);
    if k == -1 then groups + [Group(cmd.category, [cmd])]
    else groups[k := groups[k].(commands := groups[k].commands + [cmd])]
  }

  /** The `reduce` of the shown commands into per-category groups, in order of first appearance. */
  function GroupByCategory(cs: seq<Command>): seq<Group>
    decreases |cs|
  {
    if |cs| == 0 then [] else AddToGroups(GroupByCategory(cs[..|cs| - 1]), cs[|cs| - 1])
  }

  /** The commands of the groups as they are drawn, group after group. */
  function Flatten(groups: seq<Group>): seq<Command>
    decreases |groups|
  {
    if |groups| == 0 then [] else Flatten(groups[..|groups| - 1]) + groups[|groups| - 1].commands
  }

  /** Each category occupies one unbroken run of the list. */
  predicate Contiguous(cs: seq<Command>) {
    forall i, j, k | 0 <= i < j < k < |cs| && cs[i].category == cs[k].category :: cs[j].category == cs[i].category
  }

  /** The categories occurring in a list of commands. */
  function CategoriesOf(cs: seq<Command>): (r: set<Category>)
    ensures forall i | 0 <= i < |cs| :: cs[i].category in r
    decreases |cs|
  {
    if |cs| == 0 then {} else CategoriesOf(cs[..|cs| - 1]) + {cs[|cs| - 1].category}
  }

  /** The grouping of a contiguous list, as the induction needs it. */
  predicate GroupedRuns(groups: seq<Group>, cs: seq<Command>) {
    Flatten(groups) == cs &&
    (forall i, j | 0 <= i < j < |groups| :: groups[i].category != groups[j].category) &&
    (|cs| > 0 ==> |groups| > 0 && groups[|groups| - 1].category == cs[|cs| - 1].category) &&
    (forall c: Category :: GroupIndex(groups, c) != -1 <==> c in CategoriesOf(cs))
  }

  lemma {:induction false} GroupByCategoryRuns(cs: seq<Command>)
    requires Contiguous(cs)
    ensures GroupedRuns(GroupByCategory(cs), cs)
    decreases |cs|
  {
    if |cs| > 0 {
      var prefix := cs[..|cs| - 1];
      var x := cs[|cs| - 1];
      assert Contiguous(prefix);
      GroupByCategoryRuns(prefix);
      var groups := GroupByCategory(prefix);
      assert cs == prefix + [x];
      if GroupIndex(groups, x.category) == -1 {
        AppendNewGroup(groups, prefix, x);
      } else {
        LastGroupIsX(groups, prefix, x);
        AppendToLastGroup(groups, prefix, x);
      }
    }
  }

  /** In a contiguous list, a category already present must be the last one's. */
  lemma LastGroupIsX(groups: seq<Group>, prefix: seq<Command>, x: Command)
    requires Contiguous(prefix + [x]) && GroupedRuns(groups, prefix)
    requires GroupIndex(groups, x.category) != -1
    ensures |prefix| > 0 && GroupIndex(groups, x.category) == |groups| - 1
  {
    var cs := prefix + [x];
    var i := CategoryWitness(prefix, x.category);
    assert cs[i].category == cs[|cs| - 1].category;
    assert cs[|prefix| - 1].category == x.category;
    var k := GroupIndex(groups, x.category);
    assert groups[k].category == groups[|groups| - 1].category;
  }

  lemma AppendNewGroup(groups: seq<Group>, prefix: seq<Command>, x: Command)
    requires GroupedRuns(groups, prefix)
    requires GroupIndex(groups, x.category) == -1
    ensures GroupedRuns(AddToGroups(groups, x), prefix + [x])
  {
    var g := AddToGroups(groups, x);
    assert g == groups + [Group(x.category, [x])];
    assert g[..|g| - 1] == groups;
    assert (prefix + [x])[..|prefix|] == prefix;
    forall c: Category ensures GroupIndex(g, c) != -1 <==> c in CategoriesOf(prefix + [x]) {
      assert g[..|g| - 1] == groups;
    }
  }

  /** A category that occurs has a position holding it. */
  lemma {:induction false} CategoryWitness(cs: seq<Command>, c: Category) returns (i: nat)
    requires c in CategoriesOf(cs)
    ensures i < |cs| && cs[i].category == c
    decreases |cs|
  {
    if cs[|cs| - 1].category == c {
      i := |cs| - 1;
    } else {
      i := CategoryWitness(cs[..|cs| - 1], c);
    }
  }

  lemma AppendToLastGroup(groups: seq<Group>, prefix: seq<Command>, x: Command)
    requires GroupedRuns(groups, prefix)
    requires |groups| > 0 && GroupIndex(groups, x.category) == |groups| - 1
    ensures GroupedRuns(AddToGroups(groups, x), prefix + [x])
  {
    var n := |groups| - 1;
    var g := AddToGroups(groups, x);
    assert g == groups[n := groups[n].(commands := groups[n].commands + [x])];
    assert g[..n] == groups[..n];
    assert Flatten(g) == Flatten(groups[..n]) + groups[n].commands + [x];
    assert (prefix + [x])[..|prefix|] == prefix;
    forall c: Category ensures GroupIndex(g, c) == GroupIndex(groups, c) {
      GroupIndexSameNames(groups, g, c);
    }
  }

  /** The lookup depends only on the categories of the groups. */
  lemma {:induction false} GroupIndexSameNames(a: seq<Group>, b: seq<Group>, c: Category)
    requires |a| == |b| && forall i | 0 <= i < |a| :: a[i].category == b[i].category
    ensures GroupIndex(a, c) == GroupIndex(b, c)
    decreases |a|
  {
    if |a| > 0 {
      GroupIndexSameNames(a[..|a| - 1], b[..|b| - 1], c);
    }
  }

  /** The built-in commands come category by category, and the files come last. */
  lemma CommandsContiguous(files: seq<PaletteFile>, theme: ThemeMode)
    ensures Contiguous(Commands(files, theme))
  {
    var cs := Commands(files, theme);
    forall i | 0 <= i < |cs| ensures Rank(cs[i].category) == RankAt(i) {
      if i < 16 {
        assert cs[i] == BuiltIn(theme)[i];
      }
    }
    RankedContiguous(cs);
  }

  /** The position of each category in the list. */
  function Rank(c: Category): nat {
    match c
    case ViewCommands => 0
    case AICommands => 1
    case ActionCommands => 2
    case ThemeCommands => 3
    case FileCommands => 4
  }

  function RankAt(i: nat): nat {
    if i < 5 then 0 else if i < 10 then 1 else if i < 15 then 2 else if i < 16 then 3 else 4
  }

  /** A list whose categories appear in rank order is contiguous. */
  lemma RankedContiguous(cs: seq<Command>)
    requires forall i | 0 <= i < |cs| :: Rank(cs[i].category) == RankAt(i)
    ensures Contiguous(cs)
  {
    forall i, j, k | 0 <= i < j < k < |cs| && cs[i].category == cs[k].category
      ensures cs[j].category == cs[i].category
    {
      assert RankAt(i) <= RankAt(j) <= RankAt(k);
      RankInjective(cs[j].category, cs[i].category);
    }
  }

  lemma RankInjective(a: Category, b: Category)
    requires Rank(a) == Rank(b)
    ensures a == b
  {
  }

  /** Filtering cannot interleave two runs. */
  lemma FilteredContiguous(cs: seq<Command>, query: string)
    requires Contiguous(cs)
    ensures Contiguous(Filtered(cs, query))
  {
    FilteredIsKeep(cs, query);
    KeepContiguous(cs, MatchesQuery(query));
  }

  /** The filter's test as a function of the command. */
  function MatchesQuery(query: string): Command -> bool {
    c => Matches(c, query)
  }

  /** The commands that pass a test, in list order. */
  function Keep(cs: seq<Command>, test: Command -> bool): (r: seq<Command>)
    ensures |r| <= |cs|
    decreases |cs|
  {
    if |cs| == 0 then []
    else (if test(cs[0]) then [cs[0]] else []) + Keep(cs[1..], test)
  }

  lemma {:induction false} FilteredIsKeep(cs: seq<Command>, query: string)
    ensures Filtered(cs, query) == Keep(cs, MatchesQuery(query))
    decreases |cs|
  {
    if |cs| > 0 {
      FilteredIsKeep(cs[1..], query);
      assert MatchesQuery(query)(cs[0]) == Matches(cs[0], query);
    }
  }

  lemma {:induction false} KeepContiguous(cs: seq<Command>, test: Command -> bool)
    requires Contiguous(cs)
    ensures Contiguous(Keep(cs, test))
  {
    var r := Keep(cs, test);
    forall i, j, k | 0 <= i < j < k < |r| && r[i].category == r[k].category
      ensures r[j].category == r[i].category
    {
      OriginIncreasing(cs, test, i, j);
      OriginIncreasing(cs, test, j, k);
      OriginHolds(cs, test, i);
      OriginHolds(cs, test, j);
      OriginHolds(cs, test, k);
    }
  }

  /** Where the `a`-th kept command sits in the full list. */
  function Origin(cs: seq<Command>, test: Command -> bool, a: nat): (p: nat)
    requires a < |Keep(cs, test)|
    ensures p < |cs|
    decreases |cs|
  {
    if test(cs[0]) then (if a == 0 then 0 else 1 + Origin(cs[1..], test, a - 1))
    else 1 + Origin(cs[1..], test, a)
  }

  /** The `a`-th kept command is the command at its origin. */
  lemma {:induction false} OriginHolds(cs: seq<Command>, test: Command -> bool, a: nat)
    requires a < |Keep(cs, test)|
    ensures cs[Origin(cs, test, a)] == Keep(cs, test)[a]
    decreases |cs|
  {
    var head := if test(cs[0]) then [cs[0]] else [];
    var rest := Keep(cs[1..], test);
    assert Keep(cs, test) == head + rest;
    if !test(cs[0]) || a > 0 {
      var a' := a - |head|;
      assert Keep(cs, test)[a] == rest[a'];
      OriginHolds(cs[1..], test, a');
      assert Origin(cs, test, a) == 1 + Origin(cs[1..], test, a');
    }
  }

  /** Filtering keeps the list order: later kept commands come from later positions. */
  lemma {:induction false} OriginIncreasing(cs: seq<Command>, test: Command -> bool, a: nat, b: nat)
    requires a < b < |Keep(cs, test)|
    ensures Origin(cs, test, a) < Origin(cs, test, b)
    decreases |cs|
  {
    assert |Keep(cs, test)| == (if test(cs[0]) then 1 else 0) + |Keep(cs[1..], test)|;
    if test(cs[0]) {
      if a > 0 {
        OriginIncreasing(cs[1..], test, a - 1, b - 1);
      }
    } else {
      OriginIncreasing(cs[1..], test, a, b);
    }
  }

  /**
   * The palette draws the groups one after another, and that is exactly the order ArrowUp and
   * ArrowDown walk: whatever the query, grouping by category does not reorder the shown commands.
   */
  lemma DrawnOrderIsSelectionOrder(files: seq<PaletteFile>, theme: ThemeMode, query: string)
    ensures Flatten(GroupByCategory(Filtered(Commands(files, theme), query))) == Filtered(Commands(files, theme), query)
  {
    CommandsContiguous(files, theme);
    FilteredContiguous(Commands(files, theme), query);
    GroupByCategoryRuns(Filtered(Commands(files, theme), query));
  }
}

=== FILE: deploy.dfy ===
/**
 * The deploy dialog (components/workspace/deploy-dialog.tsx): the site name derived from the
 * project name, the deploy handler with its guard, configuration, simulated URL and status
 * changes, and the reset on close.
 *
 * The deploy callback is asynchronous in the source; here its outcome is part of the input.
 */
module Deploy {
  import opened Wrappers
  import opened Text

  // ----- site-name slug -----

  /** The whitespace characters at the front of `s` removed. */
  function DropSpaces(s: string): (r: string)
    ensures |r| <= |s| && r == s[|s| - |r|..]
    ensures r == "" || !IsSpace(r[0])
    ensures forall i | 0 <= i < |s| - |r| :: IsSpace(s[i])
    decreases |s|
  {
    if |s| > 0 && IsSpace(s[0]) then DropSpaces(s[1..]) else s
  }

  /** `replace(/\s+/g, '-')`: every maximal run of whitespace becomes one dash. */
  function DashRuns(s: string): (r: string)
    ensures |r| <= |s|
    ensures forall i | 0 <= i < |r| :: !IsSpace(r[i])
    decreases |s|
  {
    if |s| == 0 then ""
    else if IsSpace(s[0]) then "-" + DashRuns(DropSpaces(s))
    else [s[0]] + DashRuns(s[1..])
  }

  /** Every character of the result is a dash or comes from the input. */
  lemma {:induction false} DashRunsChars(s: string)
    ensures forall c | c in DashRuns(s) :: c == '-' || c in s
    decreases |s|
  {
    if |s| > 0 {
      if IsSpace(s[0]) {
        var rest := DropSpaces(s);
        DashRunsChars(rest);
        assert forall c | c in rest :: c in s;
      } else {
        DashRunsChars(s[1..]);
        assert forall c | c in s[1..] :: c in s;
      }
    }
  }

  /** `projectName.toLowerCase().replace(/\s+/g, '-')`. */
  function Slug(projectName: string): (r: string)
    ensures forall i | 0 <= i < |r| :: !IsSpace(r[i]) && !('A' <= r[i] <= 'Z')
  {
    var lower := Lower(projectName);
    LowerIdempotent(projectName);
    var r := DashRuns(lower);
    DashRunsChars(lower);
    assert forall i | 0 <= i < |r| :: r[i] in r;
    r
  }

  /** Text without whitespace passes unchanged. */
  lemma {:induction false} DashRunsNoSpace(s: string)
    requires forall i | 0 <= i < |s| :: !IsSpace(s[i])
    ensures DashRuns(s) == s
    decreases |s|
  {
    if |s| > 0 {
      DashRunsNoSpace(s[1..]);
      assert [s[0]] + s[1..] == s;
    }
  }

  /**
   * A word, a run of whitespace, and text that does not start with whitespace: the word is kept,
   * the run becomes a single dash, and the rest is slugged in turn.
   */
  lemma {:induction false} DashRunsWord(w: string, run: string, rest: string)
    requires forall i | 0 <= i < |w| :: !IsSpace(w[i])
    requires run != "" && forall i | 0 <= i < |run| :: IsSpace(run[i])
    requires rest == "" || !IsSpace(rest[0])
    ensures DashRuns(w + run + rest) == w + "-" + DashRuns(rest)
    decreases |w|
  {
    var s := w + run + rest;
    if |w| == 0 {
      assert s == run + rest by {
        assert w == "";
      }
      RunToDash(run, rest);
    } else {
      var d := DashRuns(rest);
      assert s == [w[0]] + (w[1..] + run + rest) by {
        assert [w[0]] + w[1..] == w;
      }
      KeepFirst(w[0], w[1..] + run + rest);
      DashRunsWord(w[1..], run, rest);
      assert [w[0]] + (w[1..] + "-" + d) == w + "-" + d by {
        assert [w[0]] + w[1..] == w;
      }
    }
  }

  /** A first character that is not whitespace is kept as it is. */
  lemma KeepFirst(x: char, t: string)
    requires !IsSpace(x)
    ensures DashRuns([x] + t) == [x] + DashRuns(t)
  {
    assert ([x] + t)[0] == x && ([x] + t)[1..] == t;
  }

  /** A run of whitespace in front of text that does not start with whitespace becomes one dash. */
  lemma RunToDash(run: string, rest: string)
    requires run != "" && forall i | 0 <= i < |run| :: IsSpace(run[i])
    requires rest == "" || !IsSpace(rest[0])
    ensures DashRuns(run + rest) == "-" + DashRuns(rest)
  {
    assert (run + rest)[0] == run[0];
    DropRun(run, rest);
  }

  lemma {:induction false} DropRun(run: string, rest: string)
    requires forall i | 0 <= i < |run| :: IsSpace(run[i])
    requires rest == "" || !IsSpace(rest[0])
    ensures DropSpaces(run + rest) == rest
    decreases |run|
  {
    if |run| > 0 {
      assert (run + rest)[1..] == run[1..] + rest;
      DropRun(run[1..], rest);
    } else {
      assert run + rest == rest;
    }
  }

  /** Slugging a slug changes nothing. */
  lemma SlugIdempotent(projectName: string)
    ensures Slug(Slug(projectName)) == Slug(projectName)
  {
    var s := Slug(projectName);
    assert Lower(s) == s;
    DashRunsNoSpace(s);
  }

  // ----- deploying -----

  datatype Platform = Vercel | Netlify | Cloudflare

  datatype Status = Idle | Deploying | Succeeded | DeployFailed

  datatype Dialog = Dialog(
    platform: Option<Platform>, siteName: string, buildCommand: string, outputDirectory: string,
    isDeploying: bool, status: Status, url: string, error: string)

  datatype Config = Config(siteName: string, buildCommand: string, outputDirectory: string)

  /** How the `onDeploy` callback settled: with a URL, or by throwing. */
  datatype Settled = Deployed(url: string) | Threw(thrown: Thrown)

  datatype Toast = SuccessToast(title: string, description: string) | ErrorToast(title: string, description: string)

  /** What one press of the deploy button does. */
  datatype Effect = Effect(dialog: Dialog, call: Option<(Platform, Config)>, toast: Option<Toast>)

  function Open(projectName: string): (d: Dialog)
    ensures d.status == Idle && d.platform.None? && d.siteName == Slug(projectName)
  {
    Dialog(None, Slug(projectName), "npm run build", "dist", false, Idle, "", "")
  }

  function Domain(p: Platform): string {
    match p
    case Vercel => "vercel.app"
    case Netlify => "netlify.app"
    case Cloudflare => "pages.dev"
  }

  /** The simulated address, built from the site name as typed (not trimmed). */
  function MockUrl(siteName: string, p: Platform): (r: string)
    ensures StartsWith(r, "https://" + siteName + ".")
    ensures EndsWith(r, Domain(p))
  {
    var r := "https://" + siteName + "." + Domain(p);
    assert r[..|"https://" + siteName + "."|] == "https://" + siteName + ".";
    assert r[|r| - |Domain(p)|..] == Domain(p);
    r
  }

  /** The state while the deploy is in flight. */
  function Start(d: Dialog): (r: Dialog)
    ensures r.isDeploying && r.status == Deploying && r.error == ""
  {
    d.(isDeploying := true, status := Deploying, error := "")
  }

  /** Whether the deploy button does anything: a platform and a non-blank site name. */
  predicate CanDeploy(d: Dialog) {
    d.platform.Some? && Trim(d.siteName) != ""
  }

  /**
   * `handleDeploy`, with `onDeploy` the callback's outcome (`None` when there is no callback and
   * the deploy is simulated). The failure toast shows, as written, the `error` of the render
   * the handler was created in, that is the previous failure's message; corrected, it shows the
   * message of this failure.
   */
  function HandleDeploy(d: Dialog, onDeploy: Option<Settled>, corrected: bool): (r: Effect)
    ensures !CanDeploy(d) ==> r == Effect(d, None, None)
    ensures CanDeploy(d) ==> !r.dialog.isDeploying && r.dialog.status in {Succeeded, DeployFailed}
    ensures CanDeploy(d) && onDeploy.Some? ==>
      r.call == Some((d.platform.value, Config(Trim(d.siteName), d.buildCommand, d.outputDirectory)))
    ensures CanDeploy(d) && onDeploy.None? ==>
      r.call.None? && r.dialog.status == Succeeded && r.dialog.url == MockUrl(d.siteName, d.platform.value)
    ensures CanDeploy(d) && onDeploy.Some? && onDeploy.value.Deployed? ==>
      r.dialog.status == Succeeded && r.dialog.url == onDeploy.value.url
    ensures CanDeploy(d) && onDeploy.Some? && onDeploy.value.Threw? ==>
      r.dialog.status == DeployFailed && r.dialog.url == d.url &&
      r.dialog.error == onDeploy.value.thrown.MessageOr("Deploy failed")
    ensures CanDeploy(d) ==> (r.toast.Some? && (r.toast.value.SuccessToast? <==> r.dialog.status == Succeeded))
  {
    if !CanDeploy(d) then Effect(d, None, None)
    else
      var p := d.platform.value;
      var started := Start(d);
      var config := Config(Trim(d.siteName), d.buildCommand, d.outputDirectory);
      var call := if onDeploy.Some? then Some((p, config)) else None;
      match onDeploy
      case None =>
        Effect(started.(isDeploying := false, status := Succeeded, url := MockUrl(d.siteName, p)), call,
               Some(SuccessToast("Deployment successful! \U{1F680}", "Your site is now live")))
      case Some(Deployed(u)) =>
        Effect(started.(isDeploying := false, status := Succeeded, url := u), call,
               Some(SuccessToast("Deployment successful! \U{1F680}", "Your site is now live")))
      case Some(Threw(t)) =>
        var message := t.MessageOr("Deploy failed");
        var shown := if corrected then message else d.error;
        Effect(started.(isDeploying := false, status := DeployFailed, error := message), call,
               Some(ErrorToast("Deployment failed", if shown != "" then shown else "Please try again")))
  }

  /** Simulated deploys ask for the typed name, while a callback gets the trimmed one. */
  lemma SimulatedUsesUntrimmedName(d: Dialog)
    requires CanDeploy(d) && d.siteName != Trim(d.siteName)
    ensures HandleDeploy(d, None, true).dialog.url == MockUrl(d.siteName, d.platform.value)
    ensures HandleDeploy(d, Some(Deployed("u")), true).call.value.1.siteName == Trim(d.siteName)
  {
  }

  /** As written: the first failure of a dialog shows the fallback text, not the failure's message. */
  lemma FirstFailureToastStale(projectName: string, p: Platform, message: string)
    requires Trim(Slug(projectName)) != "" && message != ""
    ensures var d := Open(projectName).(platform := Some(p));
      var r := HandleDeploy(d, Some(Threw(ErrorObject(message))), false);
      r.dialog.error == message && r.toast == Some(ErrorToast("Deployment failed", "Please try again"))
  {
  }

  /** Corrected: the toast shows the message of the failure that just happened. */
  lemma FailureToastShowsMessage(d: Dialog, message: string)
    requires CanDeploy(d) && message != ""
    ensures HandleDeploy(d, Some(Threw(ErrorObject(message))), true).toast == Some(ErrorToast("Deployment failed", message))
  {
  }

  /** Only the failure toast differs between the two readings. */
  lemma DeployReadingsAgreeElsewhere(d: Dialog, onDeploy: Option<Settled>)
    ensures HandleDeploy(d, onDeploy, false).dialog == HandleDeploy(d, onDeploy, true).dialog
    ensures HandleDeploy(d, onDeploy, false).call == HandleDeploy(d, onDeploy, true).call
  {
  }

  /** `resetDialog`: no platform, the slug again, idle, no URL and no error. */
  function Reset(d: Dialog, projectName: string): (r: Dialog)
    ensures r.platform.None? && r.siteName == Slug(projectName) && r.status == Idle && r.url == "" && r.error == ""
    ensures r.buildCommand == d.buildCommand && r.outputDirectory == d.outputDirectory
  {
    d.(platform := None, siteName := Slug(projectName), status := Idle, url := "", error := "")
  }

  /** After a reset the deploy button does nothing until a platform is chosen again. */
  lemma ResetDisablesDeploy(d: Dialog, projectName: string, onDeploy: Option<Settled>, corrected: bool)
    ensures HandleDeploy(Reset(d, projectName), onDeploy, corrected).call.None?
    ensures HandleDeploy(Reset(d, projectName), onDeploy, corrected).dialog == Reset(d, projectName)
  {
  }
}

=== FILE: factory.dfy ===
/**
 * `createAIProvider` (lib/ai/factory.ts): dispatch on the provider tag, with the credential
 * checks of the two hosted providers.
 */
module Factory {
  import opened Wrappers
  import opened AITypes
  import LocalLLM

  /** The constructed adapter; the local one remembers its base URL. */
  datatype Adapter =
    | OpenAIAdapter(config: ModelConfig, apiKey: string)
    | AnthropicAdapter(config: ModelConfig, apiKey: string)
    | LocalAdapter(config: ModelConfig, baseUrl: string)

  /**
   * Builds the adapter for `config.provider`. The key is `""` when absent; the base URL is
   * `None` when `undefined`, in which case the local adapter falls back to its default.
   */
  function CreateProvider(config: ModelConfig, apiKey: string, baseUrl: Option<string>): (r: Result<Adapter>)
    ensures r.Success? <==> config.provider == "local" || (config.provider in {"openai", "anthropic"} && apiKey != "")
    ensures r.Success? ==> Tag(r.value) == config.provider && r.value.config == config
    ensures r.Success? && r.value.LocalAdapter? ==> r.value.baseUrl == baseUrl.GetOr(LocalLLM.DefaultBaseUrl)
    ensures r.Success? && !r.value.LocalAdapter? ==> r.value.apiKey == apiKey
    ensures config.provider == "openai" && apiKey == "" ==> r == Failure("OpenAI API key is required")
    ensures config.provider == "anthropic" && apiKey == "" ==> r == Failure("Anthropic API key is required")
    ensures config.provider !in {"openai", "anthropic", "local"} ==> r == Failure("Unsupported AI provider: " + config.provider)
  {
    if config.provider == "openai" then
      if apiKey == "" then Failure("OpenAI API key is required") else Success(OpenAIAdapter(config, apiKey))
    else if config.provider == "anthropic" then
      if apiKey == "" then Failure("Anthropic API key is required") else Success(AnthropicAdapter(config, apiKey))
    else if config.provider == "local" then
      Success(LocalAdapter(config, baseUrl.GetOr(LocalLLM.DefaultBaseUrl)))
    else Failure("Unsupported AI provider: " + config.provider)
  }

  /** The tag a constructed adapter answers to. */
  function Tag(a: Adapter): string {
    match a
    case OpenAIAdapter(_, _) => "openai"
    case AnthropicAdapter(_, _) => "anthropic"
    case LocalAdapter(_, _) => "local"
  }

  /** `custom` is a provider the type admits but the factory rejects. */
  lemma CustomUnsupported(config: ModelConfig, apiKey: string, baseUrl: Option<string>)
    requires config.provider == "custom"
    ensures CreateProvider(config, apiKey, baseUrl) == Failure("Unsupported AI provider: custom")
  {
  }
}

=== FILE: file_tree.dfy ===
/**
 * The project file tree (components/workspace/file-tree.tsx): folders expand and collapse by
 * path, the header buttons start creating a file or folder at the root, and each row gets an
 * icon chosen by its extension (or, for a folder, by whether it is open).
 *
 * Two defects are modelled twice, as written and corrected: a file created from the header gets
 * the path `//name`, and the open-folder icon is looked up by name while expansion is keyed by
 * path.
 */
module FileTree {
  import opened Wrappers
  import opened Text

  datatype Kind = FileKind | FolderKind

  datatype Node = Node(id: string, name: string, kind: Kind, path: string, children: seq<Node>)

  /** A creation in progress: where and what. */
  datatype Pending = Pending(parentPath: string, kind: Kind)

  /** The component state the handlers touch. */
  datatype Tree = Tree(expanded: set<string>, creating: Option<Pending>, newName: string)

  // ----- expansion -----

  /** `toggleFolder`: the path leaves the set if it was there and joins it otherwise. */
  function Toggle(expanded: set<string>, path: string): (r: set<string>)
    ensures path in r <==> path !in expanded
    ensures forall p | p != path :: p in r <==> p in expanded
  {
    if path in expanded then expanded - {path} else expanded + {path}
  }

  /** Toggling the same folder twice restores the set. */
  lemma ToggleTwice(expanded: set<string>, path: string)
    ensures Toggle(Toggle(expanded, path), path) == expanded
  {
    var once := Toggle(expanded, path);
    var twice := Toggle(once, path);
    forall p ensures p in twice <==> p in expanded {
      if p == path {
        assert p in twice <==> p !in once;
      }
    }
  }

  /** Toggles of different folders commute. */
  lemma ToggleCommutes(expanded: set<string>, a: string, b: string)
    ensures Toggle(Toggle(expanded, a), b) == Toggle(Toggle(expanded, b), a)
  {
    var x := Toggle(Toggle(expanded, a), b);
    var y := Toggle(Toggle(expanded, b), a);
    if a != b {
      forall p ensures p in x <==> p in y {
        if p == a {
          assert p in x <==> p in Toggle(expanded, a);
          assert p in y <==> p !in Toggle(expanded, b);
        } else if p == b {
          assert p in x <==> p !in Toggle(expanded, a);
          assert p in y <==> p in Toggle(expanded, b);
        }
      }
    }
  }

  /** The chevron of `renderNode`: a folder is open when its path is in the set. */
  predicate IsExpanded(expanded: set<string>, node: Node) {
    node.path in expanded
  }

  /** The rows rendered under a node: the children of an open folder, nothing otherwise. */
  function ShownChildren(expanded: set<string>, node: Node): (r: seq<Node>)
    ensures r == [] || r == node.children
    ensures r == node.children <== node.kind == FolderKind && IsExpanded(expanded, node)
    ensures r == [] <== node.kind == FileKind || !IsExpanded(expanded, node)
  {
    if node.kind == FolderKind && IsExpanded(expanded, node) then node.children else []
  }

  // ----- icons -----

  datatype Icon = FolderOpenIcon | FolderClosedIcon | CodeIcon(color: string) | PlainIcon(color: string)

  /** `name.split('.').pop()?.toLowerCase()`. */
  function IconExtension(name: string): (r: string)
    ensures '.' !in r
  {
    var piece := Last(Split(name, '.'));
    SplitPiecesFree(name, '.');
    assert piece == Split(name, '.')[|Split(name, '.')| - 1];
    Lower(piece)
  }

  /** The extension is the lowercased text after the last dot, or the whole name without one. */
  lemma IconExtensionAfterLastDot(name: string)
    ensures IconExtension(name) == Lower(name[LastIndexOf(name, '.') + 1..])
    ensures '.' !in name ==> IconExtension(name) == Lower(name)
  {
    SplitLast(name, '.');
  }

  /** The `switch` on the extension; unknown extensions get the plain uncoloured icon. */
  function ExtensionIcon(ext: string): (r: Icon)
    ensures r.CodeIcon? <==> ext in {"tsx", "ts", "jsx", "js", "css", "scss", "html", "json"}
    ensures r.PlainIcon? <==> ext !in {"tsx", "ts", "jsx", "js", "css", "scss", "html", "json"}
    ensures r == PlainIcon("") <==> ext !in {"tsx", "ts", "jsx", "js", "css", "scss", "html", "json", "md"}
  {
    match ext
    case "tsx" => CodeIcon("text-blue-400")
    case "ts" => CodeIcon("text-blue-400")
    case "jsx" => CodeIcon("text-blue-400")
    case "js" => CodeIcon("text-blue-400")
    case "css" => CodeIcon("text-purple-400")
    case "scss" => CodeIcon("text-purple-400")
    case "html" => CodeIcon("text-orange-400")
    case "json" => CodeIcon("text-yellow-400")
    case "md" => PlainIcon("text-gray-400")
    case _ => PlainIcon("")
  }

  /** `getFileIcon(name, type)` as written: a folder's open state is looked up by its name. */
  function FileIcon(expanded: set<string>, name: string, kind: Kind): (r: Icon)
    ensures kind == FolderKind ==> (r == FolderOpenIcon <==> name in expanded)
    ensures kind == FolderKind ==> r.FolderOpenIcon? || r.FolderClosedIcon?
    ensures kind == FileKind ==> r == ExtensionIcon(IconExtension(name))
  {
    if kind == FolderKind then (if name in expanded then FolderOpenIcon else FolderClosedIcon)
    else ExtensionIcon(IconExtension(name))
  }

  /** The icon `renderNode` draws: `getFileIcon(node.name, node.type)`. */
  function NodeIconAsWritten(expanded: set<string>, node: Node): Icon {
    FileIcon(expanded, node.name, node.kind)
  }

  /** The corrected icon: a folder's open state is looked up by its path, like the chevron. */
  function NodeIcon(expanded: set<string>, node: Node): (r: Icon)
    ensures node.kind == FileKind ==> r == NodeIconAsWritten(expanded, node)
  {
    if node.kind == FolderKind then FileIcon(expanded, node.path, FolderKind)
    else FileIcon(expanded, node.name, FileKind)
  }

  /** With the correction, the folder icon is open exactly when the chevron is. */
  lemma IconMatchesChevron(expanded: set<string>, node: Node)
    requires node.kind == FolderKind
    ensures NodeIcon(expanded, node) == FolderOpenIcon <==> IsExpanded(expanded, node)
  {
  }

  /** Opening a folder opens its corrected icon, and closing it closes it again. */
  lemma ToggleFlipsIcon(expanded: set<string>, node: Node)
    requires node.kind == FolderKind
    ensures NodeIcon(Toggle(expanded, node.path), node) == FolderOpenIcon <==> NodeIcon(expanded, node) == FolderClosedIcon
  {
  }

  /** As written: clicking the `src` folder of the sample tree opens it, yet its icon stays closed. */
  lemma OpenFolderShowsClosedIcon()
    ensures var src := Node("1", "src", FolderKind, "/src", []);
      var expanded := Toggle({}, src.path);
      IsExpanded(expanded, src) && NodeIconAsWritten(expanded, src) == FolderClosedIcon
  {
    var src := Node("1", "src", FolderKind, "/src", []);
    var expanded := Toggle({}, src.path);
    assert expanded == {"/src"};
    assert "src" != "/src" by {
      assert |"src"| != |"/src"|;
    }
  }

  // ----- creation -----

  /** The header's "New File" and "New Folder" buttons: creation starts at the root `/`. */
  function StartCreate(t: Tree, kind: Kind): (r: Tree)
    ensures r.creating == Some(Pending("/", kind)) && r.expanded == t.expanded && r.newName == t.newName
  {
    t.(creating := Some(Pending("/", kind)))
  }

  /** Escape in the name box. */
  function CancelCreate(t: Tree): (r: Tree)
    ensures r.creating.None? && r.newName == "" && r.expanded == t.expanded
  {
    t.(creating := None, newName := "")
  }

  /** `` `${parentPath}/${name}` `` as written: the root parent `/` gives `//name`. */
  function JoinPathAsWritten(parent: string, name: string): (r: string)
    ensures |r| == |parent| + 1 + |name|
  {
    parent + "/" + name
  }

  /** The corrected join: no second slash after a parent that already ends in one. */
  function JoinPath(parent: string, name: string): (r: string)
    ensures EndsWith(parent, "/") ==> r == parent + name
    ensures !EndsWith(parent, "/") ==> r == JoinPathAsWritten(parent, name)
  {
    if EndsWith(parent, "/") then parent + name else parent + "/" + name
  }

  /** The call `handleCreateFile` makes: name, full path and kind. */
  datatype Request = Request(name: string, path: string, kind: Kind)

  /** The guard: nothing happens without a creation in progress or with an empty name. */
  function CreateRequest(t: Tree, corrected: bool): (r: Option<Request>)
    ensures r.None? <==> t.creating.None? || t.newName == ""
    ensures r.Some? ==> r.value.name == t.newName && r.value.kind == t.creating.value.kind
    ensures r.Some? && !corrected ==> r.value.path == JoinPathAsWritten(t.creating.value.parentPath, t.newName)
    ensures r.Some? && corrected ==> r.value.path == JoinPath(t.creating.value.parentPath, t.newName)
  {
    match t.creating
    case None => None
    case Some(p) =>
      if t.newName == "" then None
      else Some(Request(t.newName, if corrected then JoinPath(p.parentPath, t.newName) else JoinPathAsWritten(p.parentPath, t.newName), p.kind))
  }

  /** The sample tree's convention for a top-level entry. */
  function RootChildPath(name: string): string {
    "/" + name
  }

  /** As written, every creation started from the header asks for `//name`. */
  lemma HeaderCreateDoubleSlash(t: Tree, kind: Kind)
    requires t.newName != ""
    ensures CreateRequest(StartCreate(t, kind), false).value.path == "//" + t.newName
    ensures CreateRequest(StartCreate(t, kind), false).value.path != RootChildPath(t.newName)
  {
  }

  /** Corrected, it asks for `/name`, the path the tree gives a top-level entry. */
  lemma HeaderCreateRootPath(t: Tree, kind: Kind)
    requires t.newName != ""
    ensures CreateRequest(StartCreate(t, kind), true).value.path == RootChildPath(t.newName)
  {
    assert EndsWith("/", "/");
  }

  /** Under a folder path the two joins agree. */
  lemma FolderCreateAgrees(t: Tree)
    requires t.creating.Some? && !EndsWith(t.creating.value.parentPath, "/")
    ensures CreateRequest(t, true) == CreateRequest(t, false)
  {
  }

  datatype Outcome = Created | Failed(message: string)

  datatype Toast = Toast(title: string, description: string, destructive: bool)

  /**
   * `handleCreateFile` after the callback settled: success closes the name box and confirms;
   * failure keeps it open and shows the error's message, or a fixed text when it has none.
   */
  function FinishCreate(t: Tree, outcome: Outcome): (r: (Tree, Option<Toast>))
    ensures CreateRequest(t, true).None? ==> r == (t, None)
    ensures CreateRequest(t, true).Some? && outcome.Created? ==>
      r.0 == CancelCreate(t) && r.1.Some? && !r.1.value.destructive
    ensures CreateRequest(t, true).Some? && outcome.Failed? ==>
      r.0 == t && r.1.Some? && r.1.value.destructive &&
      r.1.value.description == (if outcome.message == "" then "Failed to create file" else outcome.message)
  {
    if CreateRequest(t, true).None? then (t, None)
    else match outcome
      case Created =>
        var what := if t.creating.value.kind == FileKind then "File" else "Folder";
        (CancelCreate(t), Some(Toast("Success", what + " created successfully", false)))
      case Failed(m) =>
        (t, Some(Toast("Error", if m == "" then "Failed to create file" else m, true)))
  }

  /** A successful creation names what was created. */
  lemma CreatedToastNamesKind(t: Tree)
    requires CreateRequest(t, true).Some?
    ensures var toast := FinishCreate(t, Created).1.value;
      toast.description == (if t.creating.value.kind == FileKind then "File" else "Folder") + " created successfully"
  {
  }
}

=== FILE: file_upload.dfy ===
/**
 * The upload panel (components/workspace/file-upload.tsx), `processFiles`: files are filtered by
 * extension, a batch with nothing acceptable is refused, a partly acceptable batch raises a
 * warning, the accepted files are queued as uploading and read one after another, and the files
 * that could be read are handed to the callback.
 *
 * Reading a file is asynchronous in the source; here its outcome is part of the input.
 */
module FileUpload {
  import opened Wrappers
  import opened Text

  /** How reading the file settled: its text, or the value the read promise was rejected with. */
  datatype Read = Loaded(content: string) | Threw(thrown: Thrown)

  /** A dropped or selected file; `mime` is `File.type`, possibly empty. */
  datatype LocalFile = LocalFile(name: string, size: nat, mime: string, read: Read)

  datatype Status = Uploading | Succeeded | Errored(message: string)

  /** One row of the upload queue shown under the drop zone. */
  datatype Entry = Entry(name: string, size: nat, status: Status)

  /** What the callback receives for one file. */
  datatype Delivered = Delivered(name: string, content: string, kind: string)

  datatype Outcome =
    | NoValidFiles
    | Processed(skippedWarning: bool, queue: seq<Entry>, delivered: seq<Delivered>, successToast: Option<string>)

  function AllowedExtensions(): seq<string> {
    [".html", ".css", ".js", ".jsx", ".ts", ".tsx", ".json", ".md", ".txt"]
  }

  /**
   * `name.substring(name.lastIndexOf('.')).toLowerCase()`: with no dot, `lastIndexOf` is -1,
   * which `substring` treats as 0, so the whole name is taken.
   */
  function Extension(name: string): (r: string)
    ensures |r| <= |name|
  {
    Lower(SubstringFrom(name, LastIndexOf(name, '.')))
  }

  /** Whether the file's extension is one of the allowed ones. */
  predicate Accepted(name: string) {
    Extension(name) in AllowedExtensions()
  }

  /** With a dot, the extension is the lowercased text from the last dot on. */
  lemma ExtensionFromLastDot(name: string)
    requires '.' in name
    ensures var k := LastIndexOf(name, '.');
      Extension(name) == Lower(name[k..]) && Extension(name)[0] == '.' && '.' !in Extension(name)[1..]
  {
    var k := LastIndexOf(name, '.');
    var e := Extension(name);
    assert e[0] == LowerChar(name[k]);
    forall i | 1 <= i < |e| ensures e[i] != '.' {
      assert name[k + i] == name[k + 1..][i - 1];
      assert name[k + i] != '.';
    }
  }

  /** With no dot the whole lowercased name is the extension; every allowed one starts with a dot, so the file is rejected. */
  lemma ExtensionWithoutDot(name: string)
    requires '.' !in name
    ensures Extension(name) == Lower(name)
    ensures !Accepted(name)
  {
    var e := Extension(name);
    assert |name| > 0 ==> e[0] == LowerChar(name[0]) && e[0] != '.';
    forall i | 0 <= i < |AllowedExtensions()| ensures AllowedExtensions()[i] != e {
      assert AllowedExtensions()[i][0] == '.';
    }
  }

  /** `files.filter(...)`: the files `accept` admits, in their original order. */
  function Valid(files: seq<LocalFile>, accept: string -> bool): (r: seq<LocalFile>)
    ensures |r| <= |files|
    ensures forall i | 0 <= i < |r| :: accept(r[i].name) && r[i] in files
    decreases |files|
  {
    if |files| == 0 then []
    else (if accept(files[0].name) then [files[0]] else []) + Valid(files[1..], accept)
  }

  /** Filtering distributes over concatenation: the accepted files keep their relative order. */
  lemma {:induction false} ValidAppend(x: seq<LocalFile>, y: seq<LocalFile>, accept: string -> bool)
    ensures Valid(x + y, accept) == Valid(x, accept) + Valid(y, accept)
    decreases |x|
  {
    if |x| == 0 {
      assert x + y == y;
    } else {
      assert (x + y)[1..] == x[1..] + y;
      assert (x + y)[0] == x[0];
      ValidAppend(x[1..], y, accept);
      assert Valid(x + y, accept) == (if accept(x[0].name) then [x[0]] else []) + Valid(x[1..] + y, accept);
    }
  }

  /** Nothing is lost: every accepted file of the input survives the filter. */
  lemma {:induction false} ValidKeepsAccepted(files: seq<LocalFile>, i: nat, accept: string -> bool)
    requires i < |files| && accept(files[i].name)
    ensures files[i] in Valid(files, accept)
    decreases i
  {
    if i > 0 {
      assert files[1..][i - 1] == files[i];
      ValidKeepsAccepted(files[1..], i - 1, accept);
    }
  }

  /** When every file is accepted the filter keeps them all. */
  lemma {:induction false} ValidKeepsAll(files: seq<LocalFile>, accept: string -> bool)
    requires forall i | 0 <= i < |files| :: accept(files[i].name)
    ensures Valid(files, accept) == files
    decreases |files|
  {
    if |files| > 0 {
      assert accept(files[0].name);
      forall i | 0 <= i < |files[1..]| ensures accept(files[1..][i].name) {
        assert files[1..][i] == files[i + 1];
      }
      ValidKeepsAll(files[1..], accept);
      assert [files[0]] + files[1..] == files;
    }
  }

  /** A rejected file makes the result shorter than the input. */
  lemma {:induction false} ValidDropsRejected(files: seq<LocalFile>, i: nat, accept: string -> bool)
    requires i < |files| && !accept(files[i].name)
    ensures |Valid(files, accept)| < |files|
    decreases i
  {
    assert |Valid(files, accept)| == (if accept(files[0].name) then 1 else 0) + |Valid(files[1..], accept)|;
    if i > 0 {
      assert files[1..][i - 1] == files[i];
      ValidDropsRejected(files[1..], i - 1, accept);
    }
  }

  /** The filter drops something exactly when some file is not accepted. */
  lemma ValidAll(files: seq<LocalFile>, accept: string -> bool)
    ensures |Valid(files, accept)| == |files| <==> forall i | 0 <= i < |files| :: accept(files[i].name)
  {
    if forall i | 0 <= i < |files| :: accept(files[i].name) {
      ValidKeepsAll(files, accept);
    } else {
      var i :| 0 <= i < |files| && !accept(files[i].name);
      ValidDropsRejected(files, i, accept);
    }
  }

  /** `prev.map(f => f.name === name ? {...f, status} : f)`: every row with that name is updated. */
  function Mark(queue: seq<Entry>, name: string, status: Status): (r: seq<Entry>)
    ensures |r| == |queue|
    ensures forall i | 0 <= i < |queue| :: queue[i].name == name ==> r[i] == queue[i].(status := status)
    ensures forall i | 0 <= i < |queue| :: queue[i].name != name ==> r[i] == queue[i]
  {
    seq(|queue|, i requires 0 <= i < |queue| =>
      if queue[i].name == name then queue[i].(status := status) else queue[i])
  }

  /** The row status after a read: success, or the thrown message with `Upload failed` as fallback. */
  function StatusOf(r: Read): (s: Status)
    ensures s != Uploading
    ensures r.Loaded? <==> s == Succeeded
  {
    match r
    case Loaded(_) => Succeeded
    case Threw(t) => Errored(t.MessageOr("Upload failed"))
  }

  /** `file.type || 'text/plain'`. */
  function DeliveredOf(f: LocalFile): (d: Delivered)
    requires f.read.Loaded?
    ensures d.name == f.name && d.content == f.read.content
    ensures d.kind == if f.mime == "" then "text/plain" else f.mime
  {
    Delivered(f.name, f.read.content, if f.mime != "" then f.mime else "text/plain")
  }

  /** The read loop, in order: each file's rows get its outcome, and each loaded file is delivered. */
  function ReadAll(valid: seq<LocalFile>, queue: seq<Entry>): (r: (seq<Entry>, seq<Delivered>))
    ensures |r.0| == |queue|
    ensures |r.1| <= |valid|
    ensures forall i | 0 <= i < |queue| :: r.0[i].name == queue[i].name && r.0[i].size == queue[i].size
    decreases |valid|
  {
    if |valid| == 0 then (queue, [])
    else
      var f := valid[0];
      var rest := ReadAll(valid[1..], Mark(queue, f.name, StatusOf(f.read)));
      (rest.0, (if f.read.Loaded? then [DeliveredOf(f)] else []) + rest.1)
  }

  function Queued(valid: seq<LocalFile>): (r: seq<Entry>)
    ensures |r| == |valid|
    ensures forall i | 0 <= i < |valid| :: r[i] == Entry(valid[i].name, valid[i].size, Uploading)
  {
    seq(|valid|, i requires 0 <= i < |valid| => Entry(valid[i].name, valid[i].size, Uploading))
  }

  /** `processFiles` with the rows already on screen as `prev`. */
  function Process(files: seq<LocalFile>, prev: seq<Entry>): (r: Outcome)
    ensures r.NoValidFiles? <==> Valid(files, Accepted) == []
    ensures r.Processed? ==> |r.queue| == |prev| + |Valid(files, Accepted)|
    ensures r.Processed? ==> (r.successToast.Some? <==> r.delivered != [])
  {
    var valid := Valid(files, Accepted);
    if |valid| == 0 then NoValidFiles
    else
      var (queue, delivered) := ReadAll(valid, prev + Queued(valid));
      Processed(
        |valid| != |files|,
        queue,
        delivered,
        if |delivered| > 0 then Some(NatToString(|delivered|) + " file(s) uploaded successfully!") else None)
  }

  /** The batch is refused exactly when no file has an allowed extension. */
  lemma RefusedIffNoneAccepted(files: seq<LocalFile>, prev: seq<Entry>)
    ensures Process(files, prev).NoValidFiles? <==> forall i | 0 <= i < |files| :: !Accepted(files[i].name)
  {
    if exists i | 0 <= i < |files| :: Accepted(files[i].name) {
      var i :| 0 <= i < |files| && Accepted(files[i].name);
      ValidKeepsAccepted(files, i, Accepted);
    }
  }

  /** The "skipped" warning is raised exactly when some file was rejected. */
  lemma WarningIffSkipped(files: seq<LocalFile>, prev: seq<Entry>)
    requires Process(files, prev).Processed?
    ensures Process(files, prev).skippedWarning <==> exists i | 0 <= i < |files| :: !Accepted(files[i].name)
  {
    ValidAll(files, Accepted);
  }

  /** After the loop no row whose name is one of the read files is still uploading. */
  lemma {:induction false} ReadAllSettles(valid: seq<LocalFile>, queue: seq<Entry>, i: nat, j: nat)
    requires i < |queue| && j < |valid| && queue[i].name == valid[j].name
    ensures ReadAll(valid, queue).0[i].status != Uploading
    decreases |valid|
  {
    var m := Mark(queue, valid[0].name, StatusOf(valid[0].read));
    if j == 0 {
      ReadAllKeepsSettled(valid[1..], m, i);
    } else {
      assert valid[1..][j - 1] == valid[j];
      ReadAllSettles(valid[1..], m, i, j - 1);
    }
  }

  /** A row that is settled stays settled. */
  lemma {:induction false} ReadAllKeepsSettled(valid: seq<LocalFile>, queue: seq<Entry>, i: nat)
    requires i < |queue| && queue[i].status != Uploading
    ensures ReadAll(valid, queue).0[i].status != Uploading
    decreases |valid|
  {
    if |valid| > 0 {
      ReadAllKeepsSettled(valid[1..], Mark(queue, valid[0].name, StatusOf(valid[0].read)), i);
    }
  }

  /**
   * A row takes the outcome of the last file read under its name: rows are marked by name, so a
   * later read of the same name overwrites an earlier one.
   */
  lemma {:induction false} ReadAllStatus(valid: seq<LocalFile>, queue: seq<Entry>, i: nat, j: nat)
    requires i < |queue| && j < |valid| && queue[i].name == valid[j].name
    requires forall j' | j < j' < |valid| :: valid[j'].name != valid[j].name
    ensures ReadAll(valid, queue).0[i].status == StatusOf(valid[j].read)
    decreases |valid|
  {
    var m := Mark(queue, valid[0].name, StatusOf(valid[0].read));
    if j == 0 {
      forall j' | 0 <= j' < |valid[1..]| ensures valid[1..][j'].name != m[i].name {
        assert valid[1..][j'] == valid[j' + 1];
      }
      ReadAllUntouched(valid[1..], m, i);
    } else {
      assert valid[1..][j - 1] == valid[j];
      forall j' | j - 1 < j' < |valid[1..]| ensures valid[1..][j'].name != valid[1..][j - 1].name {
        assert valid[1..][j'] == valid[j' + 1];
      }
      ReadAllStatus(valid[1..], m, i, j - 1);
    }
  }

  /** A row whose name no read file carries is left exactly as it was. */
  lemma {:induction false} ReadAllUntouched(valid: seq<LocalFile>, queue: seq<Entry>, i: nat)
    requires i < |queue|
    requires forall j | 0 <= j < |valid| :: valid[j].name != queue[i].name
    ensures ReadAll(valid, queue).0[i] == queue[i]
    decreases |valid|
  {
    if |valid| > 0 {
      var m := Mark(queue, valid[0].name, StatusOf(valid[0].read));
      forall j | 0 <= j < |valid[1..]| ensures valid[1..][j].name != m[i].name {
        assert valid[1..][j] == valid[j + 1];
      }
      ReadAllUntouched(valid[1..], m, i);
    }
  }

  /** The rows of a processed batch are those the read loop leaves. */
  lemma ProcessQueue(files: seq<LocalFile>, prev: seq<Entry>)
    requires Process(files, prev).Processed?
    ensures Process(files, prev).queue == ReadAll(Valid(files, Accepted), prev + Queued(Valid(files, Accepted))).0
  {
  }

  /** Every newly queued row ends as succeeded or failed. */
  lemma NewRowsSettle(files: seq<LocalFile>, prev: seq<Entry>, k: nat)
    requires Process(files, prev).Processed? && |prev| <= k < |Process(files, prev).queue|
    ensures Process(files, prev).queue[k].status != Uploading
  {
    var valid := Valid(files, Accepted);
    var q := prev + Queued(valid);
    ProcessQueue(files, prev);
    var j := k - |prev|;
    assert j < |valid|;
    assert q[k] == Queued(valid)[j];
    ReadAllSettles(valid, q, k, j);
  }

  /**
   * The row queued for the `j`-th accepted file ends as `success` when its read loaded and as
   * `error` with the thrown message when it threw, unless a later accepted file has the same name.
   */
  lemma NewRowStatus(files: seq<LocalFile>, prev: seq<Entry>, j: nat)
    requires Process(files, prev).Processed? && j < |Valid(files, Accepted)|
    requires var valid := Valid(files, Accepted);
      forall j' | j < j' < |valid| :: valid[j'].name != valid[j].name
    ensures Process(files, prev).queue[|prev| + j].status == StatusOf(Valid(files, Accepted)[j].read)
    ensures Process(files, prev).queue[|prev| + j].status == Succeeded <==> Valid(files, Accepted)[j].read.Loaded?
  {
    ProcessQueue(files, prev);
    QueuedRowStatus(Valid(files, Accepted), prev, j);
  }

  lemma QueuedRowStatus(valid: seq<LocalFile>, prev: seq<Entry>, j: nat)
    requires j < |valid| && forall j' | j < j' < |valid| :: valid[j'].name != valid[j].name
    ensures ReadAll(valid, prev + Queued(valid)).0[|prev| + j].status == StatusOf(valid[j].read)
  {
    var queued := Queued(valid);
    var q := prev + queued;
    var i := |prev| + j;
    assert q[i] == queued[j];
    assert q[i].name == valid[j].name;
    ReadAllStatus(valid, q, i, j);
  }

  /**
   * When every read succeeds, each accepted file is delivered once, in order, with its content
   * and its type defaulted to `text/plain`.
   */
  lemma {:induction false} AllLoadedAllDelivered(valid: seq<LocalFile>, queue: seq<Entry>)
    requires forall i | 0 <= i < |valid| :: valid[i].read.Loaded?
    ensures var d := ReadAll(valid, queue).1;
      |d| == |valid| && forall i | 0 <= i < |valid| :: d[i] == DeliveredOf(valid[i])
    decreases |valid|
  {
    if |valid| > 0 {
      AllLoadedAllDelivered(valid[1..], Mark(queue, valid[0].name, StatusOf(valid[0].read)));
    }
  }

  /** When no read succeeds nothing is delivered, so the callback is not called. */
  lemma {:induction false} NoneLoadedNoneDelivered(valid: seq<LocalFile>, queue: seq<Entry>)
    requires forall i | 0 <= i < |valid| :: valid[i].read.Threw?
    ensures ReadAll(valid, queue).1 == []
    decreases |valid|
  {
    if |valid| > 0 {
      NoneLoadedNoneDelivered(valid[1..], Mark(queue, valid[0].name, StatusOf(valid[0].read)));
    }
  }

  /** Delivered items come from loaded files only, and each is one of them. */
  lemma {:induction false} DeliveredFromLoaded(valid: seq<LocalFile>, queue: seq<Entry>, k: nat)
    requires k < |ReadAll(valid, queue).1|
    ensures exists j | 0 <= j < |valid| :: valid[j].read.Loaded? && ReadAll(valid, queue).1[k] == DeliveredOf(valid[j])
    decreases |valid|
  {
    var m := Mark(queue, valid[0].name, StatusOf(valid[0].read));
    var head := if valid[0].read.Loaded? then [DeliveredOf(valid[0])] else [];
    var rest := ReadAll(valid[1..], m).1;
    assert ReadAll(valid, queue).1 == head + rest;
    if valid[0].read.Loaded? && k == 0 {
    } else {
      var k' := k - |head|;
      assert ReadAll(valid, queue).1[k] == rest[k'];
      DeliveredFromLoaded(valid[1..], m, k');
      var j :| 0 <= j < |valid[1..]| && valid[1..][j].read.Loaded? && rest[k'] == DeliveredOf(valid[1..][j]);
      assert valid[j + 1] == valid[1..][j];
    }
  }
}

=== FILE: global_search.dfy ===
/**
 * The workspace-wide text search (components/workspace/global-search.tsx): every occurrence of
 * the lowercased query in every line of every file, the keyboard selection, the grouping by file
 * name and the highlighted span.
 */
module GlobalSearch {
  import opened Wrappers
  import opened Text

  datatype SourceFile = SourceFile(id: string, name: string, content: string)

  /**
   * A hit. `line` is 1-based and `lineText` is that line as stored; the offsets are into its
   * lowercased, untrimmed text, while the result shows the trimmed `Content()`.
   */
  datatype SearchResult = SearchResult(fileId: string, fileName: string, line: nat, lineText: string, matchStart: nat, matchEnd: nat)
  {
    function Content(): string {
      Trim(lineText)
    }
  }

  // ----- matching -----

  /** The positions at or after `from` where `sub` occurs in `s`, ascending. */
  function AllMatches(s: string, sub: string, from: nat): (r: seq<nat>)
    ensures forall k | 0 <= k < |r| :: from <= r[k] && MatchAt(s, sub, r[k])
    ensures forall k | 0 <= k < |r| - 1 :: r[k] < r[k + 1]
    decreases |s| - from
  {
    if from + |sub| > |s| then []
    else
      var rest := AllMatches(s, sub, from + 1);
      if MatchAt(s, sub, from) then
        assert forall k | 0 <= k < |rest| :: from < rest[k];
        [from] + rest
      else rest
  }

  /** No occurrence is missed. */
  lemma {:induction false} AllMatchesComplete(s: string, sub: string, from: nat, p: nat)
    requires from <= p && MatchAt(s, sub, p)
    ensures p in AllMatches(s, sub, from)
    decreases p - from
  {
    if from < p {
      AllMatchesComplete(s, sub, from + 1, p);
    }
  }

  /** Positions before the next match contribute nothing. */
  lemma {:induction false} AllMatchesSkip(s: string, sub: string, from: nat, to: nat)
    requires from <= to
    requires forall p | from <= p < to :: !MatchAt(s, sub, p)
    ensures AllMatches(s, sub, from) == AllMatches(s, sub, to)
    decreases (to as int) - (from as int)
  {
    if from < to {
      if from + |sub| > |s| {
        assert to + |sub| > |s|;
      } else {
        AllMatchesSkip(s, sub, from + 1, to);
      }
    }
  }

  /**
   * The inner `while` loop: `indexOf` from 0, then from one past each match, so overlapping
   * occurrences are all found.
   */
  method LineMatches(lowerLine: string, term: string) returns (starts: seq<nat>)
    requires |term| > 0
    ensures starts == AllMatches(lowerLine, term, 0)
  {
    starts := [];
    var matchIndex := IndexOf(lowerLine, term);
    FirstMatch(lowerLine, term, matchIndex);
    while matchIndex != -1
      invariant matchIndex == -1 || (0 <= matchIndex && MatchAt(lowerLine, term, matchIndex))
      invariant matchIndex != -1 ==> starts + AllMatches(lowerLine, term, matchIndex) == AllMatches(lowerLine, term, 0)
      invariant matchIndex == -1 ==> starts == AllMatches(lowerLine, term, 0)
      decreases if matchIndex == -1 then 0 else |lowerLine| + 1 - matchIndex
    {
      var here: nat := matchIndex;
      var next := IndexOfFrom(lowerLine, term, here + 1);
      NextMatch(lowerLine, term, here, next);
      assert (starts + [here]) + AllMatches(lowerLine, term, here + 1) == starts + AllMatches(lowerLine, term, here);
      starts := starts + [here];
      matchIndex := next;
    }
  }

  /** The first `indexOf` finds the first of all the matches, or tells there is none. */
  lemma FirstMatch(s: string, sub: string, m: int)
    requires |sub| > 0 && m == IndexOf(s, sub)
    ensures m == -1 ==> AllMatches(s, sub, 0) == []
    ensures m != -1 ==> AllMatches(s, sub, 0) == AllMatches(s, sub, m)
  {
    if m == -1 {
      AllMatchesSkip(s, sub, 0, |s|);
    } else {
      AllMatchesSkip(s, sub, 0, m);
    }
  }

  /**
   * Searching again one past a match: the matches from there on are the match and those from
   * the next one found, and when none is found, the match alone.
   */
  lemma NextMatch(s: string, sub: string, here: nat, next: int)
    requires |sub| > 0 && MatchAt(s, sub, here) && next == IndexOfFrom(s, sub, here + 1)
    ensures AllMatches(s, sub, here) == [here] + AllMatches(s, sub, here + 1)
    ensures next == -1 ==> AllMatches(s, sub, here + 1) == []
    ensures next != -1 ==> next > here && AllMatches(s, sub, here + 1) == AllMatches(s, sub, next)
  {
    assert Clamp(here + 1, |s|) == here + 1;
    if next == -1 {
      AllMatchesSkip(s, sub, here + 1, |s|);
    } else {
      AllMatchesSkip(s, sub, here + 1, next);
    }
  }

  // ----- the reference search -----

  /** One result per match in line `lineIndex` (0-based) of `file`. */
  function LineResults(file: SourceFile, lineIndex: nat, line: string, starts: seq<nat>, termLength: nat): (r: seq<SearchResult>)
    ensures |r| == |starts|
    ensures forall k | 0 <= k < |r| :: r[k] == SearchResult(file.id, file.name, lineIndex + 1, line, starts[k], starts[k] + termLength)
  {
    seq(|starts|, k requires 0 <= k < |starts| =>
      SearchResult(file.id, file.name, lineIndex + 1, line, starts[k], starts[k] + termLength))
  }

  /** The results of the first `n` lines of a file. */
  function FileResults(file: SourceFile, lines: seq<string>, n: nat, term: string): (r: seq<SearchResult>)
    requires n <= |lines|
    decreases n
  {
    if n == 0 then []
    else
      var line := lines[n - 1];
      FileResults(file, lines, n - 1, term) + LineResults(file, n - 1, line, AllMatches(Lower(line), term, 0), |term|)
  }

  /** The results of the first `n` files. */
  function FilesResults(files: seq<SourceFile>, n: nat, term: string): (r: seq<SearchResult>)
    requires n <= |files|
    decreases n
  {
    if n == 0 then []
    else
      var lines := Split(files[n - 1].content, '\n');
      FilesResults(files, n - 1, term) + FileResults(files[n - 1], lines, |lines|, term)
  }

  /** What the search effect computes for a query. */
  function Results(files: seq<SourceFile>, query: string): seq<SearchResult> {
    if IsBlank(query) then [] else FilesResults(files, |files|, Lower(query))
  }

  /** The search effect: files, then lines, then the matches of each line. */
  method Search(files: seq<SourceFile>, query: string) returns (results: seq<SearchResult>)
    ensures results == Results(files, query)
  {
    if IsBlank(query) {
      return [];
    }
    var term := Lower(query);
    assert |term| > 0;
    results := [];
    var i := 0;
    while i < |files|
      invariant 0 <= i <= |files|
      invariant results == FilesResults(files, i, term)
    {
      var lines := Split(files[i].content, '\n');
      var fileResults := FileSearch(files[i], lines, term);
      assert FilesResults(files, i + 1, term) == results + fileResults;
      results := results + fileResults;
      i := i + 1;
    }
  }

  /** The loop over the lines of one file. */
  method FileSearch(file: SourceFile, lines: seq<string>, term: string) returns (fileResults: seq<SearchResult>)
    requires |term| > 0
    ensures fileResults == FileResults(file, lines, |lines|, term)
  {
    var j := 0;
    fileResults := [];
    while j < |lines|
      invariant 0 <= j <= |lines|
      invariant fileResults == FileResults(file, lines, j, term)
    {
      var line := lines[j];
      var starts := LineMatches(Lower(line), term);
      assert FileResults(file, lines, j + 1, term) == fileResults + LineResults(file, j, line, starts, |term|);
      fileResults := fileResults + LineResults(file, j, line, starts, |term|);
      j := j + 1;
    }
  }

  // ----- what a result states -----

  /**
   * Every result of a file names a real line and a real occurrence there: the span has the
   * query's length and the lowercased line holds the lowercased query at its start.
   */
  lemma {:induction false} FileResultsSound(file: SourceFile, lines: seq<string>, n: nat, term: string, r: SearchResult)
    requires n <= |lines|
    requires r in FileResults(file, lines, n, term)
    ensures r.line <= n && FromLines(file, lines, term, r)
    decreases n
  {
    if n == 0 {
      assert false;
    } else if r in FileResults(file, lines, n - 1, term) {
      FileResultsSound(file, lines, n - 1, term, r);
    } else {
      LineResultsSound(file, n - 1, lines[n - 1], term, r);
    }
  }

  lemma LineResultsSound(file: SourceFile, lineIndex: nat, line: string, term: string, r: SearchResult)
    requires r in LineResults(file, lineIndex, line, AllMatches(Lower(line), term, 0), |term|)
    ensures r.line == lineIndex + 1 && r.fileId == file.id && r.fileName == file.name
    ensures r.lineText == line
    ensures r.matchEnd == r.matchStart + |term| && MatchAt(Lower(line), term, r.matchStart)
  {
    var starts := AllMatches(Lower(line), term, 0);
    var k :| 0 <= k < |starts| && LineResults(file, lineIndex, line, starts, |term|)[k] == r;
  }

  /** Every occurrence in every line is reported. */
  lemma {:induction false} FileResultsComplete(file: SourceFile, lines: seq<string>, n: nat, term: string, li: nat, p: nat)
    requires li < n <= |lines|
    requires MatchAt(Lower(lines[li]), term, p)
    ensures Found(FileResults(file, lines, n, term), file, li, lines[li], p, |term|)
    decreases n
  {
    if li < n - 1 {
      FileResultsComplete(file, lines, n - 1, term, li, p);
    } else {
      LineResultsComplete(file, li, lines[li], term, p);
    }
  }

  /** `results` holds the result for an occurrence at `p` in line `lineIndex`. */
  predicate Found(results: seq<SearchResult>, file: SourceFile, lineIndex: nat, line: string, p: nat, termLength: nat) {
    SearchResult(file.id, file.name, lineIndex + 1, line, p, p + termLength) in results
  }

  lemma LineResultsComplete(file: SourceFile, lineIndex: nat, line: string, term: string, p: nat)
    requires MatchAt(Lower(line), term, p)
    ensures Found(LineResults(file, lineIndex, line, AllMatches(Lower(line), term, 0), |term|), file, lineIndex, line, p, |term|)
  {
    var starts := AllMatches(Lower(line), term, 0);
    AllMatchesComplete(Lower(line), term, 0, p);
    var k :| 0 <= k < |starts| && starts[k] == p;
    assert LineResults(file, lineIndex, line, starts, |term|)[k] == SearchResult(file.id, file.name, lineIndex + 1, line, p, p + |term|);
  }

  /** Within a file, results are ordered by line and then by position. */
  predicate Before(a: SearchResult, b: SearchResult) {
    a.line < b.line || (a.line == b.line && a.matchStart < b.matchStart)
  }

  predicate Ordered(r: seq<SearchResult>) {
    forall i, j | 0 <= i < j < |r| :: Before(r[i], r[j])
  }

  lemma {:induction false} FileResultsOrdered(file: SourceFile, lines: seq<string>, n: nat, term: string)
    requires n <= |lines|
    ensures Ordered(FileResults(file, lines, n, term))
    decreases n
  {
    if n > 0 {
      FileResultsOrdered(file, lines, n - 1, term);
      var prev := FileResults(file, lines, n - 1, term);
      forall i | 0 <= i < |prev| ensures prev[i].line <= n - 1 {
        FileResultsSound(file, lines, n - 1, term, prev[i]);
      }
      LineResultsOrdered(file, n - 1, lines[n - 1], AllMatches(Lower(lines[n - 1]), term, 0), |term|);
      OrderedAppend(prev, LineResults(file, n - 1, lines[n - 1], AllMatches(Lower(lines[n - 1]), term, 0), |term|), n);
    }
  }

  lemma LineResultsOrdered(file: SourceFile, lineIndex: nat, line: string, starts: seq<nat>, termLength: nat)
    requires forall k | 0 <= k < |starts| - 1 :: starts[k] < starts[k + 1]
    ensures Ordered(LineResults(file, lineIndex, line, starts, termLength))
  {
    var r := LineResults(file, lineIndex, line, starts, termLength);
    forall i, j | 0 <= i < j < |r| ensures Before(r[i], r[j]) {
      IncreasingTransitive(starts, i, j);
    }
  }

  /** Appending the results of line `n` to those of earlier lines keeps the order. */
  lemma OrderedAppend(prev: seq<SearchResult>, here: seq<SearchResult>, n: nat)
    requires Ordered(prev) && Ordered(here)
    requires forall i | 0 <= i < |prev| :: prev[i].line < n
    requires forall i | 0 <= i < |here| :: here[i].line == n
    ensures Ordered(prev + here)
  {
    var r := prev + here;
    forall i, j | 0 <= i < j < |r| ensures Before(r[i], r[j]) {
      if j >= |prev| && i < |prev| {
        assert r[i] == prev[i] && r[j] == here[j - |prev|];
      } else if i >= |prev| {
        assert r[i] == here[i - |prev|] && r[j] == here[j - |prev|];
      } else {
        assert r[i] == prev[i] && r[j] == prev[j];
      }
    }
  }

  lemma {:induction false} IncreasingTransitive(s: seq<nat>, a: nat, b: nat)
    requires forall k | 0 <= k < |s| - 1 :: s[k] < s[k + 1]
    requires a < b < |s|
    ensures s[a] < s[b]
    decreases b - a
  {
    if b > a + 1 {
      IncreasingTransitive(s, a, b - 1);
    }
  }

  /** `r` comes from `file`, split into `lines`: one of them, and an occurrence of `term` in it. */
  predicate FromLines(file: SourceFile, lines: seq<string>, term: string, r: SearchResult) {
    r.fileId == file.id && r.fileName == file.name && 1 <= r.line <= |lines| &&
    r.lineText == lines[r.line - 1] &&
    r.matchEnd == r.matchStart + |term| && MatchAt(Lower(r.lineText), term, r.matchStart)
  }

  /** `r` comes from `file`: a line of it, and an occurrence of `term` in that line. */
  predicate FromFile(file: SourceFile, term: string, r: SearchResult) {
    FromLines(file, Split(file.content, '\n'), term, r)
  }

  lemma {:induction false} FilesResultsSound(files: seq<SourceFile>, n: nat, term: string, r: SearchResult)
    requires n <= |files|
    requires r in FilesResults(files, n, term)
    ensures exists i | 0 <= i < n :: FromFile(files[i], term, r)
    decreases n
  {
    if n == 0 {
      assert false;
    } else if r in FilesResults(files, n - 1, term) {
      FilesResultsSound(files, n - 1, term, r);
      var i :| 0 <= i < n - 1 && FromFile(files[i], term, r);
      assert FromFile(files[i], term, r);
    } else {
      var lines := Split(files[n - 1].content, '\n');
      FileResultsSound(files[n - 1], lines, |lines|, term, r);
      assert FromFile(files[n - 1], term, r);
    }
  }

  lemma {:induction false} FilesResultsComplete(files: seq<SourceFile>, n: nat, term: string, i: nat, li: nat, p: nat)
    requires i < n <= |files|
    requires li < |Split(files[i].content, '\n')|
    requires MatchAt(Lower(Split(files[i].content, '\n')[li]), term, p)
    ensures Found(FilesResults(files, n, term), files[i], li, Split(files[i].content, '\n')[li], p, |term|)
    decreases n
  {
    if i < n - 1 {
      FilesResultsComplete(files, n - 1, term, i, li, p);
    } else {
      var lines := Split(files[i].content, '\n');
      FileResultsComplete(files[i], lines, |lines|, term, li, p);
    }
  }

  /**
   * The search as a whole: a non-blank query yields exactly the occurrences of its lowercased
   * text, each tied to the file and line it was found in.
   */
  lemma SearchSound(files: seq<SourceFile>, query: string, r: SearchResult)
    requires r in Results(files, query)
    ensures !IsBlank(query)
    ensures exists i | 0 <= i < |files| :: FromFile(files[i], Lower(query), r)
  {
    FilesResultsSound(files, |files|, Lower(query), r);
  }

  lemma SearchComplete(files: seq<SourceFile>, query: string, i: nat, li: nat, p: nat)
    requires !IsBlank(query)
    requires i < |files| && li < |Split(files[i].content, '\n')|
    requires MatchAt(Lower(Split(files[i].content, '\n')[li]), Lower(query), p)
    ensures Found(Results(files, query), files[i], li, Split(files[i].content, '\n')[li], p, |query|)
  {
    FilesResultsComplete(files, |files|, Lower(query), i, li, p);
  }

  /** A blank query finds nothing; the match uses the query as typed, spaces included. */
  lemma BlankQueryFindsNothing(files: seq<SourceFile>, query: string)
    requires IsBlank(query)
    ensures Results(files, query) == []
  {
  }

  // ----- highlighting -----

  /** The three pieces `highlightMatch` renders: before, the marked span, after. */
  datatype Highlighted = Highlighted(before: string, mark: string, after: string)

  /** `highlightMatch(text, start, end)`, built from JavaScript's clamping `substring`. */
  function Highlight(text: string, start: int, end: int): Highlighted {
    Highlighted(Substring(text, 0, start), Substring(text, start, end), Substring(text, end, |text|))
  }

  /** For ordered offsets the pieces spell out the text, whatever the clamping did. */
  lemma HighlightSpellsText(text: string, start: int, end: int)
    requires start <= end
    ensures var h := Highlight(text, start, end);
      h.before + h.mark + h.after == text
  {
    var a := Clamp(start, |text|);
    var b := Clamp(end, |text|);
    assert text[..a] + text[a..b] + text[b..] == text;
  }

  /**
   * How a result row is drawn: the offsets, measured in the untrimmed line, are applied to the
   * trimmed content.
   */
  function ShownHighlight(r: SearchResult): Highlighted {
    Highlight(r.Content(), r.matchStart, r.matchEnd)
  }

  /**
   * A line indented by two spaces: searching "foo" in "  foo" yields offsets 2..5, and the row
   * marks only the final "o" of the trimmed "foo".
   */
  lemma ShownHighlightMisplaced()
    ensures var r := SearchResult("a", "a.ts", 1, "  foo", 2, 5);
      r in Results([SourceFile("a", "a.ts", "  foo")], "foo") &&
      ShownHighlight(r).mark == "o" && ShownHighlight(r).before == "fo"
  {
    IndentedFooFound();
    IndentedFooTrim();
    FooHighlight();
  }

  lemma IndentedFooFound()
    ensures SearchResult("a", "a.ts", 1, "  foo", 2, 5) in Results([SourceFile("a", "a.ts", "  foo")], "foo")
  {
    var files := [SourceFile("a", "a.ts", "  foo")];
    SplitNoSep("  foo", '\n');
    assert Lower("  foo") == "  foo";
    assert Lower("foo") == "foo";
    assert MatchAt(Lower("  foo"), Lower("foo"), 2);
    assert !IsBlank("foo") by { assert !IsSpace("foo"[0]); }
    SearchComplete(files, "foo", 0, 0, 2);
  }

  lemma IndentedFooTrim()
    ensures Trim("  foo") == "foo"
  {
    var s := "  foo";
    assert IsSpace(s[0]) && IsSpace(s[1]) && !IsSpace(s[2]) && !IsSpace(s[4]);
    TrimAround(s, 2);
    assert s[2..] == "foo";
  }

  /** Highlighting offsets 2..5 of "foo": the clamped pieces. */
  lemma FooHighlight()
    ensures Highlight("foo", 2, 5) == Highlighted("fo", "o", "")
  {
    assert "foo"[..2] == "fo" && "foo"[2..3] == "o";
  }

  /** The whitespace `trim` removes from the front of a line. */
  function Indent(s: string): (n: nat)
    ensures n <= |s|
  {
    |s| - |TrimStart(s)|
  }

  /** The trimmed line is the untrimmed one from its indent onwards, cut to length. */
  lemma TrimIsSlice(s: string)
    ensures Indent(s) + |Trim(s)| <= |s|
    ensures Trim(s) == s[Indent(s)..Indent(s) + |Trim(s)|]
  {
    var t := TrimStart(s);
    assert t == s[Indent(s)..];
  }

  lemma LowerSlice(s: string, a: nat, b: nat)
    requires a <= b <= |s|
    ensures Lower(s[a..b]) == Lower(s)[a..b]
  {
  }

  /**
   * Highlighting a window `c` that starts at offset `lead` of its line, with `start` and `end`
   * measured in the line.
   */
  function Shifted(c: string, lead: int, start: int, end: int): Highlighted {
    Highlight(c, start - lead, end - lead)
  }

  /** The row as it should be drawn: the offsets moved back by the indent `trim` removed. */
  function CorrectedHighlight(r: SearchResult): Highlighted {
    Shifted(r.Content(), Indent(r.lineText), r.matchStart, r.matchEnd)
  }

  /**
   * With the offsets moved back, the marked span is the occurrence itself whenever it lies
   * inside the trimmed text (always, unless the query begins or ends with whitespace), and the
   * three pieces still spell out the content.
   */
  lemma CorrectedHighlightMarksMatch(files: seq<SourceFile>, query: string, r: SearchResult)
    requires r in Results(files, query)
    requires Indent(r.lineText) <= r.matchStart
    requires r.matchEnd <= Indent(r.lineText) + |r.Content()|
    ensures Lower(CorrectedHighlight(r).mark) == Lower(query)
    ensures CorrectedHighlight(r).before + CorrectedHighlight(r).mark + CorrectedHighlight(r).after == r.Content()
  {
    ResultOccurs(files, query, r);
    CorrectedMark(r, Lower(query));
    CorrectedIsShifted(r);
    ShiftedSpellsText(r.Content(), Indent(r.lineText), r.matchStart, r.matchEnd);
  }

  /** A result marks an occurrence of the lowercased query in its own line. */
  lemma ResultOccurs(files: seq<SourceFile>, query: string, r: SearchResult)
    requires r in Results(files, query)
    ensures r.matchEnd == r.matchStart + |query| && MatchAt(Lower(r.lineText), Lower(query), r.matchStart)
  {
    SearchSound(files, query, r);
    var i :| 0 <= i < |files| && FromFile(files[i], Lower(query), r);
  }

  lemma CorrectedMark(r: SearchResult, term: string)
    requires r.matchEnd == r.matchStart + |term| && MatchAt(Lower(r.lineText), term, r.matchStart)
    requires Indent(r.lineText) <= r.matchStart
    requires r.matchEnd <= Indent(r.lineText) + |r.Content()|
    ensures Lower(CorrectedHighlight(r).mark) == term
  {
    TrimmedSpan(r.lineText, r.matchStart, r.matchEnd);
    CorrectedIsShifted(r);
    LowerOfMatch(r.lineText, r.matchStart, r.matchEnd, term);
  }

  lemma CorrectedIsShifted(r: SearchResult)
    ensures CorrectedHighlight(r) == Shifted(r.Content(), Indent(r.lineText), r.matchStart, r.matchEnd)
    ensures CorrectedHighlight(r).mark == Shifted(r.Content(), Indent(r.lineText), r.matchStart, r.matchEnd).mark
  {
  }

  /** Within the trimmed part of a line, the shifted mark is exactly the span of the line. */
  lemma TrimmedSpan(line: string, a: nat, b: nat)
    requires Indent(line) <= a <= b <= Indent(line) + |Trim(line)|
    ensures Shifted(Trim(line), Indent(line), a, b).mark == line[a..b]
  {
    var lead, n := Indent(line), |Trim(line)|;
    TrimIsSlice(line);
    WindowMark(line, lead, n, a, b);
  }

  /** A span of `line` at a match of `term` in its lowercase form lowercases to `term`. */
  lemma LowerOfMatch(line: string, a: nat, b: nat, term: string)
    requires b == a + |term| && MatchAt(Lower(line), term, a)
    ensures Lower(line[a..b]) == term
  {
    LowerSlice(line, a, b);
  }

  /** Marking inside the window of `line` at `lead` marks the same characters of `line`. */
  lemma WindowMark(line: string, lead: nat, n: nat, a: nat, b: nat)
    requires lead + n <= |line| && lead <= a <= b <= lead + n
    ensures Shifted(line[lead..lead + n], lead, a, b).mark == line[a..b]
  {
    var c := line[lead..lead + n];
    forall k | 0 <= k < b - a ensures c[a - lead..b - lead][k] == line[a..b][k] {
      assert c[a - lead + k] == line[a + k];
    }
    assert c[a - lead..b - lead] == line[a..b];
  }

  /** Whatever the shift, ordered offsets still cut the window into pieces that spell it out. */
  lemma ShiftedSpellsText(c: string, lead: int, start: int, end: int)
    requires start <= end
    ensures var h := Shifted(c, lead, start, end);
      h.before + h.mark + h.after == c
  {
    HighlightSpellsText(c, start - lead, end - lead);
  }

  // ----- the dialog and its keys -----

  datatype Panel = Panel(open: bool, query: string, results: seq<SearchResult>, selected: int)

  /** A `keydown` event: its `key` and the modifier flags the handler reads. */
  datatype Key = Key(key: string, meta: bool, ctrl: bool, shift: bool)

  /** The `onResultClick(fileId, line)` call a key press makes. */
  datatype Opened = Opened(fileId: string, line: nat)

  datatype KeyOutcome = KeyOutcome(panel: Panel, clicked: Option<Opened>)

  /** Cmd+Shift+F or Ctrl+Shift+F. */
  predicate IsToggle(k: Key) {
    (k.meta || k.ctrl) && k.shift && k.key == "f"
  }

  /**
   * Typing into the input, followed by the search effect: a blank query empties the results
   * and leaves the selection alone, any other query selects the first result.
   */
  function Typed(files: seq<SourceFile>, p: Panel, q: string): (r: Panel)
    ensures r.open == p.open && r.query == q && r.results == Results(files, q)
    ensures r.selected == (if IsBlank(q) then p.selected else 0)
  {
    Panel(p.open, q, Results(files, q), if IsBlank(q) then p.selected else 0)
  }

  /** Closing the dialog clears the query, which clears the results. */
  function Close(files: seq<SourceFile>, p: Panel): (r: Panel)
    ensures !r.open && r.query == "" && r.results == [] && r.selected == p.selected
  {
    Typed(files, p.(open := false), "")
  }

  /** The window `keydown` handler, followed by the search effect when it cleared the query. */
  function KeyDown(files: seq<SourceFile>, p: Panel, k: Key): (r: KeyOutcome)
    ensures IsToggle(k) ==> r == KeyOutcome(p.(open := !p.open), None)
    ensures !IsToggle(k) && !p.open ==> r == KeyOutcome(p, None)
    ensures r.clicked.Some? <==> !IsToggle(k) && p.open && k.key == "Enter" && 0 <= p.selected < |p.results|
    ensures r.clicked.Some? ==> r.clicked.value == Opened(p.results[p.selected].fileId, p.results[p.selected].line)
    ensures r.clicked.Some? || (!IsToggle(k) && p.open && k.key == "Escape") ==> r.panel == Close(files, p)
  {
    if IsToggle(k) then KeyOutcome(p.(open := !p.open), None)
    else if !p.open then KeyOutcome(p, None)
    else if k.key == "Escape" then KeyOutcome(Close(files, p), None)
    else if k.key == "ArrowDown" then KeyOutcome(p.(selected := Min(p.selected + 1, |p.results| - 1)), None)
    else if k.key == "ArrowUp" then KeyOutcome(p.(selected := Max(p.selected - 1, 0)), None)
    else if k.key == "Enter" && 0 <= p.selected < |p.results| then
      var hit := p.results[p.selected];
      KeyOutcome(Close(files, p), Some(Opened(hit.fileId, hit.line)))
    else KeyOutcome(p, None)
  }

  function Min(a: int, b: int): int { if a < b then a else b }

  function Max(a: int, b: int): int { if a > b then a else b }

  /** A panel whose selection points at one of its results. */
  predicate InRange(p: Panel) {
    0 <= p.selected < |p.results|
  }

  /** The arrows and other keys keep the results and keep the selection on one of them. */
  lemma SelectionStaysInRange(files: seq<SourceFile>, p: Panel, k: Key)
    requires InRange(p) && p.open
    requires !IsToggle(k) && k.key != "Escape" && k.key != "Enter"
    ensures KeyDown(files, p, k).panel.results == p.results
    ensures InRange(KeyDown(files, p, k).panel)
    ensures KeyDown(files, p, k).clicked.None?
  {
  }

  /** ArrowDown moves one result down and stops at the last one. */
  lemma ArrowDownStep(files: seq<SourceFile>, p: Panel)
    requires InRange(p) && p.open
    ensures var q := KeyDown(files, p, Key("ArrowDown", false, false, false)).panel;
      q.selected == (if p.selected == |p.results| - 1 then p.selected else p.selected + 1)
  {
  }

  /** Away from the ends, ArrowUp then ArrowDown returns to the same result, and so does the reverse. */
  lemma ArrowsInverse(files: seq<SourceFile>, p: Panel)
    requires InRange(p) && p.open
    ensures 0 < p.selected ==>
      KeyDown(files, KeyDown(files, p, Key("ArrowUp", false, false, false)).panel, Key("ArrowDown", false, false, false)).panel == p
    ensures p.selected < |p.results| - 1 ==>
      KeyDown(files, KeyDown(files, p, Key("ArrowDown", false, false, false)).panel, Key("ArrowUp", false, false, false)).panel == p
  {
  }

  /**
   * With no results ArrowDown selects index -1, and Enter then opens nothing because
   * `results[-1]` is undefined.
   */
  lemma ArrowDownOnNoResults(files: seq<SourceFile>, p: Panel)
    requires p.open && p.results == [] && p.selected == 0
    ensures var q := KeyDown(files, p, Key("ArrowDown", false, false, false)).panel;
      q.selected == -1 && KeyDown(files, q, Key("Enter", false, false, false)).clicked.None?
  {
  }

  /** After Escape, reopening the dialog shows an empty query and no results. */
  lemma ReopenAfterEscapeIsEmpty(files: seq<SourceFile>, p: Panel, toggle: Key)
    requires p.open && IsToggle(toggle)
    ensures var q := KeyDown(files, KeyDown(files, p, Key("Escape", false, false, false)).panel, toggle).panel;
      q.open && q.query == "" && q.results == []
  {
  }

  // ----- grouping by file name -----

  /** One entry of the record the results are reduced into. */
  datatype Group = Group(fileName: string, results: seq<SearchResult>)

  /** `acc[name]` as a position: the first group with that name, or -1 when there is none. */
  function GroupIndex(groups: seq<Group>, name: string): (k: int)
    ensures -1 <= k < |groups|
    ensures k == -1 ==> forall i | 0 <= i < |groups| :: groups[i].fileName != name
    ensures k >= 0 ==> groups[k].fileName == name
    decreases |groups|
  {
    if |groups| == 0 then -1
    else
      var k := GroupIndex(groups[..|groups| - 1], name);
      if k != -1 then k
      else if groups[|groups| - 1].fileName == name then |groups| - 1
      else -1
  }

  /** The `reduce` step: push onto the group for the name, creating it at the end if missing. */
  function AddToGroups(groups: seq<Group>, r: SearchResult): (g: seq<Group>)
  {
    var k := GroupIndex(groups, r.fileName);
    if k == -1 then groups + [Group(r.fileName, [r])]
    else groups[k := groups[k].(results := groups[k].results + [r])]
  }

  /** `results.reduce(...)` over the whole list, in insertion order of the names. */
  function GroupByName(results: seq<SearchResult>): seq<Group>
    decreases |results|
  {
    if |results| == 0 then []
    else AddToGroups(GroupByName(results[..|results| - 1]), results[|results| - 1])
  }

  /** The results carrying `name`, in their order in the list. */
  function WithName(results: seq<SearchResult>, name: string): (r: seq<SearchResult>)
    ensures forall x | x in r :: x in results && x.fileName == name
    decreases |results|
  {
    if |results| == 0 then []
    else
      var last := results[|results| - 1];
      WithName(results[..|results| - 1], name) + (if last.fileName == name then [last] else [])
  }

  /** The groups are keyed by distinct names, and each holds exactly the results carrying its name. */
  predicate GroupsOf(groups: seq<Group>, results: seq<SearchResult>) {
    (forall i, j | 0 <= i < j < |groups| :: groups[i].fileName != groups[j].fileName) &&
    (forall i | 0 <= i < |groups| :: groups[i].results == WithName(results, groups[i].fileName)) &&
    (forall x | x in results :: exists i | 0 <= i < |groups| :: groups[i].fileName == x.fileName)
  }

  /**
   * Adding one result keeps the names distinct; the group with its name grows by it (a new group
   * at the end when the name is new) and every other group is unchanged.
   */
  lemma AddToGroupsEffect(groups: seq<Group>, r: SearchResult)
    requires forall i, j | 0 <= i < j < |groups| :: groups[i].fileName != groups[j].fileName
    ensures var g := AddToGroups(groups, r);
      |g| == |groups| + (if GroupIndex(groups, r.fileName) == -1 then 1 else 0) &&
      (forall i | 0 <= i < |groups| :: g[i].fileName == groups[i].fileName) &&
      (forall i, j | 0 <= i < j < |g| :: g[i].fileName != g[j].fileName) &&
      (exists i | 0 <= i < |g| :: g[i].fileName == r.fileName) &&
      (forall i | 0 <= i < |g| :: g[i].results ==
        (if i < |groups| then groups[i].results else []) + (if g[i].fileName == r.fileName then [r] else []))
  {
    var g := AddToGroups(groups, r);
    var k := GroupIndex(groups, r.fileName);
    if k == -1 {
      assert g[|groups|].fileName == r.fileName;
    } else {
      assert g[k].fileName == r.fileName;
    }
  }

  /** The reduce builds exactly the groups of the results. */
  lemma {:induction false} GroupByNameIsGroups(results: seq<SearchResult>)
    ensures GroupsOf(GroupByName(results), results)
    decreases |results|
  {
    if |results| > 0 {
      var prefix := results[..|results| - 1];
      var last := results[|results| - 1];
      GroupByNameIsGroups(prefix);
      var groups := GroupByName(prefix);
      var g := AddToGroups(groups, last);
      AddToGroupsEffect(groups, last);
      forall i | 0 <= i < |g| ensures g[i].results == WithName(results, g[i].fileName) {
        assert results[..|results| - 1] == prefix;
        if i >= |groups| {
          forall x | x in prefix ensures x.fileName != last.fileName {
            var j :| 0 <= j < |groups| && groups[j].fileName == x.fileName;
            assert g[j].fileName == x.fileName;
          }
          WithNameEmpty(prefix, last.fileName);
        }
      }
      forall x | x in results ensures exists i | 0 <= i < |g| :: g[i].fileName == x.fileName {
        if x != last {
          assert x in prefix;
          var i :| 0 <= i < |groups| && groups[i].fileName == x.fileName;
          assert g[i].fileName == x.fileName;
        }
      }
    }
  }

  /** A name no result carries selects nothing. */
  lemma {:induction false} WithNameEmpty(results: seq<SearchResult>, name: string)
    requires forall x | x in results :: x.fileName != name
    ensures WithName(results, name) == []
    decreases |results|
  {
    if |results| > 0 {
      var prefix := results[..|results| - 1];
      assert forall x | x in prefix :: x in results;
      WithNameEmpty(prefix, name);
    }
  }
}

=== FILE: json.dfy ===
/**
 * Parsed JSON values as JavaScript sees them after `JSON.parse`, the property accesses the
 * application performs on them (plain `.key` and optional chaining `?.key`), JavaScript
 * truthiness, and the string encoding of `JSON.stringify` with a decoder that inverts it.
 */
module Json {
  import opened Wrappers
  import opened Text

  /** Numbers are integers here; the application never inspects fractional values. */
  datatype Json =
    | JNull
    | JBool(b: bool)
    | JNum(n: int)
    | JStr(s: string)
    | JArr(items: seq<Json>)
    | JObj(fields: map<string, Json>)

  /** JavaScript truthiness; `None` is `undefined`. */
  predicate Truthy(v: Option<Json>) {
    match v
    case None => false
    case Some(JNull) => false
    case Some(JBool(b)) => b
    case Some(JNum(n)) => n != 0
    case Some(JStr(s)) => s != ""
    case Some(_) => true
  }

  /** Nullish: `null` or `undefined`, where `?.` short-circuits and `.` throws. */
  predicate Nullish(v: Option<Json>) {
    v.None? || v.value.JNull?
  }

  /**
   * Reading property `key` of a value that is not nullish: object members, and array elements
   * under their decimal index; everything else reads as `undefined`.
   */
  function Prop(j: Json, key: string): (r: Option<Json>)
    ensures j.JObj? ==> (r.Some? <==> key in j.fields)
    ensures j.JObj? && key in j.fields ==> r == Some(j.fields[key])
    ensures !j.JObj? && !j.JArr? ==> r.None?
  {
    match j
    case JObj(fields) => if key in fields then Some(fields[key]) else None
    case JArr(items) => ArrayProp(items, key, 0)
    case _ => None
  }

  /** The element of `items` at or after `from` whose decimal index is `key`. */
  function ArrayProp(items: seq<Json>, key: string, from: nat): (r: Option<Json>)
    ensures r.Some? ==> exists i | from <= i < |items| :: key == NatToString(i) && r.value == items[i]
    decreases |items| - from
  {
    if from >= |items| then None
    else if key == NatToString(from) then Some(items[from])
    else ArrayProp(items, key, from + 1)
  }

  /** `v?.key`: nullish short-circuits to `undefined`. */
  function OptProp(v: Option<Json>, key: string): (r: Option<Json>)
    ensures Nullish(v) ==> r.None?
    ensures !Nullish(v) ==> r == Prop(v.value, key)
  {
    if Nullish(v) then None else Prop(v.value, key)
  }

  /** The message of the `TypeError` raised by reading a property of `null` or `undefined`. */
  const TypeErrorMessage := "Cannot read properties of null or undefined"

  /** `v.key`: reading through a nullish value throws. */
  function StrictProp(v: Option<Json>, key: string): (r: Result<Option<Json>>)
    ensures r.Failure? <==> Nullish(v)
    ensures r.Success? ==> r.value == Prop(v.value, key)
  {
    if Nullish(v) then Failure(TypeErrorMessage) else Success(Prop(v.value, key))
  }

  /** `v || ''` where `v` is used as text: a string value, or the empty string otherwise. */
  function TextOr(v: Option<Json>): (r: string)
    ensures r != "" ==> v == Some(JStr(r))
    ensures v.Some? && v.value.JStr? ==> r == v.value.s
  {
    match v
    case Some(JStr(s)) => s
    case _ => ""
  }

  // ----- the payload shapes, read structurally -----

  /** The member `key` of an object; any other value, and a missing value, has none. */
  function Member(v: Option<Json>, key: string): (r: Option<Json>)
    ensures r.Some? <==> v.Some? && v.value.JObj? && key in v.value.fields
  {
    if v.Some? && v.value.JObj? && key in v.value.fields then Some(v.value.fields[key]) else None
  }

  /** What `[0]` finds: the first element of a non-empty array, or an object's member `"0"`. */
  function FirstOf(v: Option<Json>): (r: Option<Json>)
    ensures r.Some? <==> v.Some? && ((v.value.JArr? && |v.value.items| > 0) || (v.value.JObj? && "0" in v.value.fields))
  {
    match v
    case Some(JArr(items)) => if |items| > 0 then Some(items[0]) else None
    case Some(JObj(fields)) => if "0" in fields then Some(fields["0"]) else None
    case _ => None
  }

  /** A property name that is no array index: it does not start with a digit. */
  predicate Word(key: string) {
    key != "" && !IsDigit(key[0])
  }

  lemma {:induction false} ArrayPropWord(items: seq<Json>, key: string, from: nat)
    requires Word(key)
    ensures ArrayProp(items, key, from).None?
    decreases |items| - from
  {
    if from < |items| {
      assert IsDigit(NatToString(from)[0]);
      ArrayPropWord(items, key, from + 1);
    }
  }

  lemma {:induction false} ArrayPropZero(items: seq<Json>, from: nat)
    requires from >= 1
    ensures ArrayProp(items, "0", from).None?
    decreases |items| - from
  {
    if from < |items| {
      ArrayPropZero(items, from + 1);
    }
  }

  /** A word property of any value is exactly its object member. */
  lemma PropWord(j: Json, key: string)
    requires Word(key)
    ensures Prop(j, key) == Member(Some(j), key)
  {
    if j.JArr? {
      ArrayPropWord(j.items, key, 0);
    }
  }

  /** `?.key` with a word key is the object member, and nothing on `null` or `undefined`. */
  lemma OptPropWord(v: Option<Json>, key: string)
    requires Word(key)
    ensures OptProp(v, key) == Member(v, key)
  {
    if !Nullish(v) {
      PropWord(v.value, key);
    }
  }

  /** Index `0` of any value is what `FirstOf` finds. */
  lemma PropZero(j: Json)
    ensures Prop(j, "0") == FirstOf(Some(j))
  {
    if j.JArr? && |j.items| > 0 {
      ArrayPropZero(j.items, 1);
      assert NatToString(0) == "0";
    }
  }

  lemma OptPropZero(v: Option<Json>)
    ensures OptProp(v, "0") == FirstOf(v)
  {
    if !Nullish(v) {
      PropZero(v.value);
    }
  }

  // ----- JSON.stringify of a string (QuoteJSONString, ECMA-262 section 25.5.2.3) -----

  function HexDigit(d: nat): char
    requires d < 16
  {
    "0123456789abcdef"[d]
  }

  /** The escaped form of one character inside a JSON string literal. */
  function EscapeChar(c: char): (r: string)
    ensures |r| >= 1
  {
    if c == '"' then "\\\""
    else if c == '\\' then "\\\\"
    else if c == '\U{0008}' then "\\b"
    else if c == '\t' then "\\t"
    else if c == '\n' then "\\n"
    else if c == '\U{000C}' then "\\f"
    else if c == '\r' then "\\r"
    else if (c as int) < 0x20 then "\\u00" + [HexDigit(c as int / 16), HexDigit(c as int % 16)]
    else [c]
  }

  /** The body of the JSON string literal for `s`, without the surrounding quotes. */
  function EscapeBody(s: string): (r: string)
    ensures |r| >= |s|
    decreases |s|
  {
    if |s| == 0 then "" else EscapeChar(s[0]) + EscapeBody(s[1..])
  }

  /** `JSON.stringify(s)` for a string. */
  function Quote(s: string): string {
    "\"" + EscapeBody(s) + "\""
  }

  /** `JSON.stringify({ content })`. */
  function ContentJson(content: string): string {
    "{\"content\":" + Quote(content) + "}"
  }

  /** An escaped body holds no control characters, in particular no line break. */
  lemma {:induction false} EscapeBodyPrintable(s: string)
    ensures forall i | 0 <= i < |EscapeBody(s)| :: EscapeBody(s)[i] as int >= 0x20
    decreases |s|
  {
    if |s| > 0 {
      EscapeBodyPrintable(s[1..]);
      var e, r := EscapeChar(s[0]), EscapeBody(s[1..]);
      assert EscapeBody(s) == e + r;
      forall i | 0 <= i < |e + r| ensures (e + r)[i] as int >= 0x20 {
        if i >= |e| {
          assert (e + r)[i] == r[i - |e|];
        }
      }
    }
  }

  /** The encoded content event never contains a line break. */
  lemma ContentJsonOneLine(content: string)
    ensures '\n' !in ContentJson(content)
  {
    EscapeBodyPrintable(content);
    var e := EscapeBody(content);
    var w := ContentJson(content);
    assert w == "{\"content\":\"" + e + "\"}";
    forall i | 0 <= i < |w| ensures w[i] != '\n' {
      if 12 <= i < 12 + |e| {
        assert w[i] == e[i - 12];
      }
    }
  }

  // ----- decoding a JSON string literal body -----

  function HexValue(c: char): Option<nat> {
    if '0' <= c <= '9' then Some(c as int - '0' as int)
    else if 'a' <= c <= 'f' then Some(c as int - 'a' as int + 10)
    else if 'A' <= c <= 'F' then Some(c as int - 'A' as int + 10)
    else None
  }

  /** The code unit written by four hex digits. */
  function Hex4(s: string): Option<nat>
    requires |s| == 4
  {
    match (HexValue(s[0]), HexValue(s[1]), HexValue(s[2]), HexValue(s[3]))
    case (Some(a), Some(b), Some(c), Some(d)) => Some(((a * 16 + b) * 16 + c) * 16 + d)
    case _ => None
  }

  /** The character written by the escape letter `e` after a backslash, if it is one. */
  function SimpleEscape(e: char): Option<char> {
    if e == '"' then Some('"')
    else if e == '\\' then Some('\\')
    else if e == '/' then Some('/')
    else if e == 'b' then Some('\U{0008}')
    else if e == 'f' then Some('\U{000C}')
    else if e == 'n' then Some('\n')
    else if e == 'r' then Some('\r')
    else if e == 't' then Some('\t')
    else None
  }

  /**
   * Decodes the body of a JSON string literal: `None` on an unescaped quote or control
   * character, or on a malformed escape. `\u` escapes are decoded below U+D800 only.
   */
  function UnescapeBody(s: string): Option<string>
    decreases |s|
  {
    if |s| == 0 then Some("")
    else if s[0] == '\\' then
      if |s| >= 2 && SimpleEscape(s[1]).Some? then
        match UnescapeBody(s[2..])
        case Some(rest) => Some([SimpleEscape(s[1]).value] + rest)
        case None => None
      else if |s| >= 6 && s[1] == 'u' && Hex4(s[2..6]).Some? && Hex4(s[2..6]).value < 0xD800 then
        match UnescapeBody(s[6..])
        case Some(rest) => Some([Hex4(s[2..6]).value as char] + rest)
        case None => None
      else None
    else if s[0] == '"' || (s[0] as int) < 0x20 then None
    else
      match UnescapeBody(s[1..])
      case Some(rest) => Some([s[0]] + rest)
      case None => None
  }

  /** Decoding one escaped character followed by more text peels that character off. */
  lemma UnescapeChar(c: char, t: string)
    ensures UnescapeBody(EscapeChar(c) + t) ==
      match UnescapeBody(t)
      case Some(rest) => Some([c] + rest)
      case None => None
  {
    var w := EscapeChar(c) + t;
    if c == '"' || c == '\\' || c == '\U{0008}' || c == '\t' || c == '\n' || c == '\U{000C}' || c == '\r' {
      assert w[0] == '\\';
      assert w[2..] == t;
    } else if (c as int) < 0x20 {
      var hi, lo := c as int / 16, c as int % 16;
      assert w[0] == '\\' && w[1] == 'u';
      assert w[2..6] == ['0', '0', HexDigit(hi), HexDigit(lo)];
      assert HexValue(HexDigit(hi)) == Some(hi);
      assert HexValue(HexDigit(lo)) == Some(lo);
      assert Hex4(w[2..6]) == Some(c as int);
      assert w[6..] == t;
    } else {
      assert w[0] == c;
      assert w[1..] == t;
    }
  }

  /** Decoding inverts the escaping of `JSON.stringify`. */
  lemma {:induction false} UnescapeEscape(s: string)
    ensures UnescapeBody(EscapeBody(s)) == Some(s)
    decreases |s|
  {
    if |s| > 0 {
      UnescapeEscape(s[1..]);
      UnescapeChar(s[0], EscapeBody(s[1..]));
      assert [s[0]] + s[1..] == s;
    }
  }

  /** Reads back the text of a `{"content":"…"}` object in exactly the encoded layout. */
  function ParseContentEvent(w: string): (r: Option<string>)
    ensures r.Some? ==> StartsWith(w, "{\"content\":\"") && EndsWith(w, "\"}")
  {
    var open, close := "{\"content\":\"", "\"}";
    if |w| >= |open| + |close| && w[..|open|] == open && w[|w| - |close|..] == close then
      UnescapeBody(w[|open|..|w| - |close|])
    else None
  }

  /** The content event encoding is decodable, hence injective. */
  lemma ContentJsonRoundTrip(content: string)
    ensures ParseContentEvent(ContentJson(content)) == Some(content)
  {
    var e := EscapeBody(content);
    var w := ContentJson(content);
    assert w == "{\"content\":\"" + e + "\"}";
    assert w[12..|w| - 2] == e;
    UnescapeEscape(content);
  }

  lemma ContentJsonInjective(a: string, b: string)
    ensures ContentJson(a) == ContentJson(b) ==> a == b
  {
    ContentJsonRoundTrip(a);
    ContentJsonRoundTrip(b);
  }
}

=== FILE: live_preview.dfy ===
/**
 * The live preview (components/workspace/live-preview.tsx): the page shown in the preview frame
 * is the project's first HTML file (or a built-in skeleton), with the style sheets spliced in
 * before the first `</head>` and the scripts, wrapped in a console-capturing `<script>`, before
 * the first `</body>`.
 *
 * The source splices with `String.prototype.replace`, which expands `$` patterns in the inserted
 * text; `Build` takes a flag choosing that behaviour (`PreviewAsWritten`) or a literal splice
 * (`Preview`), which is what the code evidently intends.
 */
module LivePreview {
  import opened Wrappers
  import opened Text

  datatype PreviewFile = PreviewFile(name: string, content: string, kind: string)

  /** The two kinds of asset that get injected. */
  datatype Asset = Style | Script

  predicate IsHtml(name: string) {
    EndsWith(name, ".html")
  }

  predicate Selects(a: Asset, name: string) {
    match a
    case Style => EndsWith(name, ".css")
    case Script => EndsWith(name, ".js") || EndsWith(name, ".jsx")
  }

  /** `files.find(f => f.name.endsWith('.html'))`. */
  function FindHtml(files: seq<PreviewFile>): (r: Option<PreviewFile>)
    ensures r.None? <==> forall i | 0 <= i < |files| :: !IsHtml(files[i].name)
    ensures r.Some? ==> IsHtml(r.value.name) && r.value in files
    decreases |files|
  {
    if |files| == 0 then None
    else if IsHtml(files[0].name) then Some(files[0])
    else FindHtml(files[1..])
  }

  /** `files.filter(...).map(f => f.content)`: the contents of the selected files, in file order. */
  function Contents(files: seq<PreviewFile>, a: Asset): (r: seq<string>)
    ensures |r| <= |files|
    decreases |files|
  {
    if |files| == 0 then []
    else (if Selects(a, files[0].name) then [files[0].content] else []) + Contents(files[1..], a)
  }

  /** Selection distributes over concatenation, so contents keep the order of the files. */
  lemma {:induction false} ContentsAppend(x: seq<PreviewFile>, y: seq<PreviewFile>, a: Asset)
    ensures Contents(x + y, a) == Contents(x, a) + Contents(y, a)
    decreases |x|
  {
    if |x| == 0 {
      assert x + y == y;
    } else {
      assert (x + y)[1..] == x[1..] + y;
      assert (x + y)[0] == x[0];
      ContentsAppend(x[1..], y, a);
      assert Contents(x + y, a) == (if Selects(a, x[0].name) then [x[0].content] else []) + Contents(x[1..] + y, a);
    }
  }

  /** The selected contents are exactly those of the selected files. */
  lemma {:induction false} ContentsMembers(files: seq<PreviewFile>, a: Asset, c: string)
    ensures c in Contents(files, a) <==> exists i | 0 <= i < |files| :: Selects(a, files[i].name) && files[i].content == c
    decreases |files|
  {
    if |files| > 0 {
      ContentsMembers(files[1..], a, c);
      if exists i | 0 <= i < |files| :: Selects(a, files[i].name) && files[i].content == c {
        var i :| 0 <= i < |files| && Selects(a, files[i].name) && files[i].content == c;
        if i > 0 {
          assert files[1..][i - 1] == files[i];
        }
      }
      if exists i | 0 <= i < |files[1..]| :: Selects(a, files[1..][i].name) && files[1..][i].content == c {
        var i :| 0 <= i < |files[1..]| && Selects(a, files[1..][i].name) && files[1..][i].content == c;
        assert files[i + 1] == files[1..][i];
      }
    }
  }

  function Skeleton(): string {
    "\n" +
    "      <!DOCTYPE html>\n" +
    "      <html lang=\"en\">\n" +
    "      <head>\n" +
    "        <meta charset=\"UTF-8\">\n" +
    "        <meta name=\"viewport\" content=\"width=device-width, initial-scale=1.0\">\n" +
    "        <title>Live Preview</title>\n" +
    "      </head>\n" +
    "      <body>\n" +
    "        <div id=\"root\"></div>\n" +
    "      </body>\n" +
    "      </html>\n" +
    "    "
  }

  /** The wrapper script up to the user code. */
  function ScriptHead(): string {
    "\n" +
    "        <script>\n" +
    "          // Capture console output\n" +
    "          const originalConsole = {\n" +
    "            log: console.log,\n" +
    "            error: console.error,\n" +
    "            warn: console.warn,\n" +
    "            info: console.info\n" +
    "          };\n" +
    "\n" +
    "          ['log', 'error', 'warn', 'info'].forEach(method => {\n" +
    "            console[method] = function(...args) {\n" +
    "              originalConsole[method].apply(console, args);\n" +
    "              window.parent.postMessage({\n" +
    "                type: 'console',\n" +
    "                level: method,\n" +
    "                message: args.map(a =>\n" +
    "                  typeof a === 'object' ? JSON.stringify(a, null, 2) : String(a)\n" +
    "                ).join(' ')\n" +
    "              }, '*');\n" +
    "            };\n" +
    "          });\n" +
    "\n" +
    "          // Capture errors\n" +
    "          window.addEventListener('error', (e) => {\n" +
    "            window.parent.postMessage({\n" +
    "              type: 'console',\n" +
    "              level: 'error',\n" +
    "              message: e.message + ' at ' + e.filename + ':' + e.lineno\n" +
    "            }, '*');\n" +
    "          });\n" +
    "\n" +
    "          // User code\n" +
    "          try {\n" +
    "            "
  }

  /** The wrapper script after the user code. */
  function ScriptTail(): string {
    "\n" +
    "          } catch (error) {\n" +
    "            console.error('Runtime error:', error.message);\n" +
    "          }\n" +
    "        </script>\n" +
    "      "
  }

  /**
   * The fixed texts of the page generator: the fallback page and the console-capturing wrapper
   * around the user scripts. Properties are stated for any template, the source's is below.
   */
  datatype Template = Template(skeleton: string, scriptHead: string, scriptTail: string)

  function SourceTemplate(): Template {
    Template(Skeleton(), ScriptHead(), ScriptTail())
  }

  /** `htmlFile?.content || skeleton`: an HTML file with empty content also falls back. */
  function BaseHtml(tpl: Template, files: seq<PreviewFile>): (r: string)
    ensures FindHtml(files).Some? && FindHtml(files).value.content != "" ==> r == FindHtml(files).value.content
    ensures FindHtml(files).Some? && FindHtml(files).value.content == "" ==> r == tpl.skeleton
    ensures FindHtml(files).None? ==> r == tpl.skeleton
  {
    match FindHtml(files)
    case Some(f) => if f.content != "" then f.content else tpl.skeleton
    case None => tpl.skeleton
  }

  /** One `replace(marker, ins)`: with `$` expansion as `String.prototype.replace` does, or literally. */
  function Splice(html: string, marker: string, ins: string, expand: bool): (r: string)
    ensures IndexOf(html, marker) == -1 ==> r == html
  {
    if expand then ReplaceFirst(html, marker, ins) else ReplaceFirstLiteral(html, marker, ins)
  }

  function StyleBlock(css: seq<string>): string {
    "<style>" + Join(css, "\n") + "</style></head>"
  }

  function ScriptBlock(tpl: Template, js: seq<string>): string {
    tpl.scriptHead + Join(js, "\n") + tpl.scriptTail + "</body>"
  }

  /** The CSS step: only when there are style sheets. */
  function WithStyles(html: string, files: seq<PreviewFile>, expand: bool): (r: string)
    ensures Contents(files, Style) == [] ==> r == html
  {
    var css := Contents(files, Style);
    if |css| > 0 then Splice(html, "</head>", StyleBlock(css), expand) else html
  }

  /** The JS step: only when there are scripts. */
  function WithScripts(tpl: Template, html: string, files: seq<PreviewFile>, expand: bool): (r: string)
    ensures Contents(files, Script) == [] ==> r == html
  {
    var js := Contents(files, Script);
    if |js| > 0 then Splice(html, "</body>", ScriptBlock(tpl, js), expand) else html
  }

  /** The preview-generation effect; no files, no preview. */
  function Build(tpl: Template, files: seq<PreviewFile>, expand: bool): (r: Option<string>)
    ensures r.None? <==> files == []
  {
    if |files| == 0 then None
    else Some(WithScripts(tpl, WithStyles(BaseHtml(tpl, files), files, expand), files, expand))
  }

  /** The preview with literal splicing. */
  function Preview(files: seq<PreviewFile>): Option<string>
  {
    Build(SourceTemplate(), files, false)
  }

  /** The preview as the source computes it, with `$` patterns expanded. */
  function PreviewAsWritten(files: seq<PreviewFile>): Option<string>
  {
    Build(SourceTemplate(), files, true)
  }

  // ----- properties -----

  /** The HTML file used is the first one in the list. */
  lemma {:induction false} FindHtmlIsFirst(files: seq<PreviewFile>, i: nat)
    requires i < |files| && IsHtml(files[i].name)
    requires forall j | 0 <= j < i :: !IsHtml(files[j].name)
    ensures FindHtml(files) == Some(files[i])
    decreases i
  {
    if i > 0 {
      FindHtmlIsFirst(files[1..], i - 1);
    }
  }

  /** Splicing `head + marker` in place of the first marker inserts `head` right before it. */
  lemma SpliceBefore(html: string, marker: string, head: string)
    requires IndexOf(html, marker) >= 0
    ensures var i := IndexOf(html, marker);
      ReplaceFirstLiteral(html, marker, head + marker) == html[..i] + head + html[i..]
  {
    var i := IndexOf(html, marker);
    assert MatchAt(html, marker, i);
    assert html[i..] == marker + html[i + |marker|..];
  }

  /**
   * With style sheets and a `</head>` in the page, the corrected CSS step inserts one `<style>`
   * element holding the sheets, newline-joined, right before the first `</head>`; the rest of
   * the page is untouched.
   */
  lemma StylesBeforeFirstHead(html: string, files: seq<PreviewFile>, i: int)
    requires Contents(files, Style) != [] && i == IndexOf(html, "</head>") && i >= 0
    ensures forall j | 0 <= j < i :: !MatchAt(html, "</head>", j)
    ensures WithStyles(html, files, false) ==
      html[..i] + "<style>" + Join(Contents(files, Style), "\n") + "</style>" + html[i..]
  {
    var block := "<style>" + Join(Contents(files, Style), "\n") + "</style>";
    assert StyleBlock(Contents(files, Style)) == block + "</head>";
    SpliceBefore(html, "</head>", block);
  }

  /**
   * With scripts and a `</body>` in the page, the corrected JS step inserts the wrapper around
   * the newline-joined scripts right before the first `</body>`; the rest is untouched.
   */
  lemma ScriptsBeforeFirstBody(tpl: Template, html: string, files: seq<PreviewFile>, i: int)
    requires Contents(files, Script) != [] && i == IndexOf(html, "</body>") && i >= 0
    ensures forall j | 0 <= j < i :: !MatchAt(html, "</body>", j)
    ensures WithScripts(tpl, html, files, false) ==
      html[..i] + tpl.scriptHead + Join(Contents(files, Script), "\n") + tpl.scriptTail + html[i..]
  {
    var block := tpl.scriptHead + Join(Contents(files, Script), "\n") + tpl.scriptTail;
    assert ScriptBlock(tpl, Contents(files, Script)) == block + "</body>";
    SpliceBefore(html, "</body>", block);
  }

  /** A page without the marker is left as it is, whatever the assets. */
  lemma NoMarkerNoInjection(tpl: Template, html: string, files: seq<PreviewFile>, expand: bool)
    ensures IndexOf(html, "</head>") == -1 ==> WithStyles(html, files, expand) == html
    ensures IndexOf(html, "</body>") == -1 ==> WithScripts(tpl, html, files, expand) == html
  {
  }

  predicate IsTypeScript(name: string) {
    EndsWith(name, ".ts") || EndsWith(name, ".tsx")
  }

  /** The `k`-th character from the end of a name with a given suffix. */
  lemma EndsWithChar(s: string, suffix: string, k: nat)
    requires 1 <= k <= |suffix|
    ensures EndsWith(s, suffix) ==> |s| >= k && s[|s| - k] == suffix[|suffix| - k]
  {
    if EndsWith(s, suffix) {
      assert s[|s| - |suffix|..][|suffix| - k] == s[|s| - k];
    }
  }

  /** A `.ts` or `.tsx` name is neither HTML, nor a style sheet, nor a script. */
  lemma TypeScriptNotSelected(name: string)
    requires IsTypeScript(name)
    ensures !IsHtml(name) && !Selects(Style, name) && !Selects(Script, name)
  {
    EndsWithChar(name, ".ts", 1);
    EndsWithChar(name, ".ts", 2);
    EndsWithChar(name, ".tsx", 1);
    EndsWithChar(name, ".tsx", 3);
    EndsWithChar(name, ".html", 1);
    EndsWithChar(name, ".css", 3);
    EndsWithChar(name, ".js", 2);
    EndsWithChar(name, ".jsx", 1);
    EndsWithChar(name, ".jsx", 3);
  }

  /** Editing a file that is neither HTML, CSS nor JS leaves the page unchanged. */
  lemma {:induction false} UnselectedIgnored(files: seq<PreviewFile>, k: nat, c: string)
    requires k < |files| && !IsHtml(files[k].name)
    requires !Selects(Style, files[k].name) && !Selects(Script, files[k].name)
    ensures FindHtml(files[k := files[k].(content := c)]) == FindHtml(files)
    ensures Contents(files[k := files[k].(content := c)], Style) == Contents(files, Style)
    ensures Contents(files[k := files[k].(content := c)], Script) == Contents(files, Script)
    decreases k
  {
    var edited := files[k := files[k].(content := c)];
    if k > 0 {
      assert edited[1..] == files[1..][k - 1 := files[k].(content := c)];
      UnselectedIgnored(files[1..], k - 1, c);
    } else {
      assert edited[1..] == files[1..];
    }
  }

  /** TypeScript sources are never injected: editing one does not change the preview. */
  lemma TypeScriptIgnored(tpl: Template, files: seq<PreviewFile>, k: nat, c: string, expand: bool)
    requires k < |files| && IsTypeScript(files[k].name)
    ensures Build(tpl, files[k := files[k].(content := c)], expand) == Build(tpl, files, expand)
  {
    TypeScriptNotSelected(files[k].name);
    UnselectedIgnored(files, k, c);
  }

  /** A style sheet without `$` is spliced the same way by both variants. */
  lemma DollarFreeStylesAgree(html: string, files: seq<PreviewFile>)
    requires '$' !in Join(Contents(files, Style), "\n")
    ensures WithStyles(html, files, true) == WithStyles(html, files, false)
  {
    var css := Contents(files, Style);
    if |css| > 0 {
      var open, close := "<style>", "</style></head>";
      assert '$' !in open && '$' !in close;
      assert StyleBlock(css) == open + Join(css, "\n") + close;
      ReplaceFirstLiteralAgrees(html, "</head>", StyleBlock(css));
    }
  }

  /** A dollar-free prefix passes through the expansion unchanged. */
  lemma {:induction false} SubstitutePrefix(x: string, y: string, matched: string, before: string, after: string)
    requires '$' !in x
    ensures Substitute(x + y, matched, before, after) == x + Substitute(y, matched, before, after)
    decreases |x|
  {
    if |x| > 0 {
      var z := x + y;
      assert z[0] == x[0] && x[0] != '$' && z[1..] == x[1..] + y;
      assert Substitute(z, matched, before, after) == [x[0]] + Substitute(z[1..], matched, before, after);
      assert '$' !in x[1..];
      SubstitutePrefix(x[1..], y, matched, before, after);
      assert [x[0]] + (x[1..] + Substitute(y, matched, before, after)) == x + Substitute(y, matched, before, after);
    } else {
      assert x + y == y;
    }
  }

  /**
   * As written, a `$&` in a style sheet is replaced by the matched `</head>`, so the page the
   * source builds is five characters longer than the one with the sheet spliced in verbatim.
   */
  lemma {:induction false} StyleDollarAmpersandMangled(html: string, files: seq<PreviewFile>, a: string, b: string)
    requires Contents(files, Style) == [a + "$&" + b] && '$' !in a && '$' !in b
    requires IndexOf(html, "</head>") >= 0
    ensures |WithStyles(html, files, true)| == |WithStyles(html, files, false)| + 5
  {
    var i := IndexOf(html, "</head>");
    var before, after := html[..i], html[i + 7..];
    var tail := b + "</style></head>";
    assert '$' !in tail;
    assert StyleBlock(Contents(files, Style)) == "<style>" + a + ("$&" + tail);
    assert '$' !in "<style>" + a;
    SubstitutePrefix("<style>" + a, "$&" + tail, "</head>", before, after);
    assert ("$&" + tail)[2..] == tail;
    SubstituteNoDollar(tail, "</head>", before, after);
    assert Substitute("$&" + tail, "</head>", before, after) == "</head>" + tail;
  }

  /** Two files: a page that is just `</head>` and a style sheet whose generated content is `$&`. */
  function DollarFiles(): seq<PreviewFile> {
    [PreviewFile("index.html", "</head>", "html"), PreviewFile("a.css", "p::after{content:'$&'}", "css")]
  }

  /** How the two names are classified. */
  lemma DollarFileNames()
    ensures IsHtml("index.html") && !Selects(Style, "index.html") && !Selects(Script, "index.html")
    ensures Selects(Style, "a.css") && !Selects(Script, "a.css")
  {
    EndsWithChar("index.html", ".css", 1);
    EndsWithChar("index.html", ".js", 1);
    EndsWithChar("index.html", ".jsx", 1);
    EndsWithChar("a.css", ".js", 1);
    EndsWithChar("a.css", ".jsx", 1);
  }

  /** In the two files the page is the HTML file, the sheet is the only style sheet, and there is no script. */
  lemma DollarFilesSelect()
    ensures FindHtml(DollarFiles()) == Some(DollarFiles()[0])
    ensures Contents(DollarFiles(), Style) == ["p::after{content:'" + "$&" + "'}"]
    ensures Contents(DollarFiles(), Script) == []
  {
    var files := DollarFiles();
    DollarFileNames();
    assert files[1..][1..] == [];
    assert Contents(files[1..], Style) == [files[1].content];
    assert Contents(files[1..], Script) == [];
    var pre, post := "p::after{content:'", "'}";
    assert files[1].content == pre + "$&" + post;
  }

  /** Whatever the template, the source builds a different page from the literal splice. */
  lemma DollarInStyleSheetMangled(tpl: Template)
    ensures Build(tpl, DollarFiles(), true) != Build(tpl, DollarFiles(), false)
  {
    var files := DollarFiles();
    DollarFilesSelect();
    var pre, post := "p::after{content:'", "'}";
    assert BaseHtml(tpl, files) == "</head>";
    assert MatchAt("</head>", "</head>", 0);
    StyleDollarAmpersandMangled("</head>", files, pre, post);
    assert Build(tpl, files, true).value == WithStyles("</head>", files, true);
    assert Build(tpl, files, false).value == WithStyles("</head>", files, false);
  }

  /** The counterexample for the preview as the source builds it. */
  lemma DollarPreviewMangled()
    ensures PreviewAsWritten(DollarFiles()) != Preview(DollarFiles())
  {
    DollarInStyleSheetMangled(SourceTemplate());
  }
}

=== FILE: local_llm.dfy ===
/**
 * The local-model adapter (lib/ai/providers/local.ts). A base URL that looks like Ollama
 * selects the Ollama generate API with its newline-delimited JSON stream; any other base URL
 * selects an LM Studio server speaking the OpenAI chat-completions protocol.
 */
module LocalLLM {
  import opened Wrappers
  import opened Text
  import opened Json
  import opened AITypes
  import opened Stream
  import OpenAI

  const DefaultBaseUrl := "http://localhost:11434"

  /** Ollama mode, decided the same way by `chat` and `streamChat`. */
  predicate IsOllama(baseUrl: string) {
    Contains(baseUrl, "localhost:11434") || Contains(baseUrl, "ollama")
  }

  lemma DefaultIsOllama()
    ensures IsOllama(DefaultBaseUrl)
  {
    assert MatchAt(DefaultBaseUrl, "localhost:11434", 7);
    ContainsIff(DefaultBaseUrl, "localhost:11434");
  }

  function GenerateUrl(baseUrl: string): string {
    baseUrl + "/api/generate"
  }

  function CompletionsUrl(baseUrl: string): string {
    baseUrl + "/v1/chat/completions"
  }

  /** An Ollama generate request; `None` fields are left out of the JSON. */
  datatype GenerateBody = GenerateBody(
    model: string,
    prompt: string,
    system: Option<string>,
    context: Option<string>,
    stream: bool,
    temperature: real,
    numPredict: Option<int>)

  /** `conversationMessages.slice(0, -1)`: every non-system message but the last. */
  function ContextMessages(ms: seq<Message>): (r: seq<Message>)
    ensures |NonSystem(ms)| > 0 ==> r == NonSystem(ms)[..|NonSystem(ms)| - 1]
    ensures |NonSystem(ms)| == 0 ==> r == []
  {
    var c := NonSystem(ms);
    if |c| == 0 then [] else c[..|c| - 1]
  }

  function Contents(ms: seq<Message>): (r: seq<string>)
    ensures |r| == |ms| && forall i | 0 <= i < |ms| :: r[i] == ms[i].content
  {
    seq(|ms|, i requires 0 <= i < |ms| => ms[i].content)
  }

  /** The history sent by the non-streaming call: contents joined by line breaks, if any. */
  function Context(ms: seq<Message>): (r: Option<string>)
    ensures r.None? <==> |NonSystem(ms)| <= 1
    ensures r.Some? ==> r.value == Join(Contents(ContextMessages(ms)), "\n")
  {
    var c := ContextMessages(ms);
    if |c| > 0 then Some(Join(Contents(c), "\n")) else None
  }

  /**
   * The generate body. The prompt is the last user message, the system field the first system
   * message; only the non-streaming call sends any further history.
   */
  function GenerateRequest(config: ModelConfig, ms: seq<Message>, stream: bool): (b: GenerateBody)
    ensures b.prompt == LastContent(NonSystem(ms), User).GetOr("")
    ensures b.system == FirstContent(ms, System)
    ensures stream ==> b.context.None?
    ensures !stream ==> b.context == Context(ms)
    ensures b.temperature == config.temperature.GetOr(OpenAI.DefaultTemperature)
    ensures b.numPredict == config.maxTokens && b.stream == stream
  {
    GenerateBody(config.model, LastContent(NonSystem(ms), User).GetOr(""), FirstContent(ms, System),
      if stream then None else Context(ms), stream,
      config.temperature.GetOr(OpenAI.DefaultTemperature), config.maxTokens)
  }

  /** The prompt ignores everything but the last user message. */
  lemma PromptIsLastUser(config: ModelConfig, ms: seq<Message>, u: string, tail: seq<Message>, stream: bool)
    requires forall i | 0 <= i < |tail| :: tail[i].role != User
    ensures GenerateRequest(config, ms + [Msg(User, u)] + tail, stream).prompt == u
  {
    LastUserKept(ms, u, tail);
  }

  /** Dropping system messages keeps the last user message last among the user messages. */
  lemma LastUserKept(ms: seq<Message>, u: string, tail: seq<Message>)
    requires forall i | 0 <= i < |tail| :: tail[i].role != User
    ensures LastContent(NonSystem(ms + [Msg(User, u)] + tail), User) == Some(u)
  {
    var m := Msg(User, u);
    NonSystemAppend(ms + [m], tail);
    NonSystemAppend(ms, [m]);
    assert NonSystem([m]) == [m];
    var t := NonSystem(tail);
    assert NonSystem(ms + [m] + tail) == NonSystem(ms) + [m] + t;
    assert forall i | 0 <= i < |t| :: t[i].role != User by {
      forall i | 0 <= i < |t| ensures t[i].role != User {
        assert t[i] in tail;
      }
    }
    LastContentAppend(NonSystem(ms), m, t);
  }

  /** LM Studio's non-streaming body: the OpenAI streaming body without `stream`. */
  function LMStudioChatRequest(config: ModelConfig, ms: seq<Message>): (b: OpenAI.CompletionsBody)
    ensures b.stream.None? && b.topP.None? && b.frequencyPenalty.None? && b.presencePenalty.None?
    ensures b == OpenAI.StreamRequest(config, ms).(stream := None)
  {
    OpenAI.CompletionsBody(config.model, FormatMessages(ms), config.temperature.GetOr(OpenAI.DefaultTemperature),
      config.maxTokens, None, None, None, None)
  }

  /** LM Studio's streaming body is exactly OpenAI's. */
  function LMStudioStreamRequest(config: ModelConfig, ms: seq<Message>): (b: OpenAI.CompletionsBody)
    ensures b.stream == Some(true)
    ensures b == OpenAI.StreamRequest(config, ms)
  {
    OpenAI.StreamRequest(config, ms)
  }

  /**
   * Ollama `chat`: `data.response || ''`, the string `response` of the parsed body or `''`;
   * a body that is not JSON rejects, and a `null` one throws.
   */
  function OllamaChatResponse(reply: OpenAI.Reply, parse: string -> Option<Json>): (r: Result<AIResponse>)
    ensures !reply.ok ==> r == Failure("Ollama API error: " + reply.body)
    ensures r.Success? ==> r.value.usage.None?
    ensures reply.ok && parse(reply.body).None? ==> r == Failure(OpenAI.InvalidJson)
    ensures reply.ok && parse(reply.body) == Some(JNull) ==> r.Failure?
    ensures reply.ok && parse(reply.body).Some? && !parse(reply.body).value.JNull? ==>
      r == Success(AIResponse(TextOr(Member(parse(reply.body), "response")), None))
  {
    if !reply.ok then Failure("Ollama API error: " + reply.body)
    else
      match parse(reply.body)
      case None => Failure(OpenAI.InvalidJson)
      case Some(data) =>
        PropWord(data, "response");
        var response :- StrictProp(Some(data), "response");
        Success(AIResponse(TextOr(response), None))
  }

  /** `chat`: the mode decides which API is called and how its reply is read. */
  function ChatResponse(baseUrl: string, reply: OpenAI.Reply, parse: string -> Option<Json>): (r: Result<AIResponse>)
    ensures IsOllama(baseUrl) ==> r == OllamaChatResponse(reply, parse)
    ensures !IsOllama(baseUrl) ==> r == OpenAI.ChatResponse(reply, parse, "LM Studio API error: ")
  {
    if IsOllama(baseUrl) then OllamaChatResponse(reply, parse)
    else OpenAI.ChatResponse(reply, parse, "LM Studio API error: ")
  }

  // ----- the Ollama stream -----

  /**
   * One Ollama line: unparseable or `null` frames are skipped; otherwise a non-empty string
   * `response` is yielded first, then a truthy `done` yields the terminal chunk and stops.
   */
  function NdjsonLine(parse: string -> Option<Json>, line: string): (s: Step)
    ensures parse(line).None? || parse(line) == Some(JNull) ==> s == Step([], false)
    ensures parse(line).Some? && !parse(line).value.JNull? ==>
      var text := TextOr(Member(parse(line), "response"));
      s.out == (if text != "" then [Delta(text)] else []) +
               (if Truthy(Member(parse(line), "done")) then [DoneChunk] else [])
    ensures s.stop <==> parse(line).Some? && !parse(line).value.JNull? && Truthy(Prop(parse(line).value, "done"))
    ensures s.stop ==> |s.out| > 0 && s.out[|s.out| - 1] == DoneChunk
  {
    match parse(line)
    case None => Step([], false)
    case Some(parsed) =>
      PropWord(parsed, "response");
      PropWord(parsed, "done");
      match StrictProp(Some(parsed), "response")
      case Failure(_) => Step([], false)
      case Success(response) =>
        var content := TextOr(response);
        var out := if content != "" then [Delta(content)] else [];
        if Truthy(Prop(parsed, "done")) then Step(out + [DoneChunk], true) else Step(out, false)
  }

  function NdjsonHandler(parse: string -> Option<Json>): string -> Step {
    line => NdjsonLine(parse, line)
  }

  lemma NdjsonGood(parse: string -> Option<Json>)
    ensures GoodHandler(NdjsonHandler(parse))
  {
    forall line ensures GoodStep(NdjsonHandler(parse)(line)) {
      var s := NdjsonLine(parse, line);
      assert forall i | 0 <= i < |s.out| - 1 :: !s.out[i].done;
    }
  }

  /** Within one frame the text comes before the terminal chunk. */
  lemma ResponseBeforeDone(parse: string -> Option<Json>, line: string, text: string, fields: map<string, Json>)
    requires parse(line) == Some(JObj(fields))
    requires "response" in fields && fields["response"] == JStr(text) && text != ""
    requires "done" in fields && fields["done"] == JBool(true)
    ensures NdjsonLine(parse, line) == Step([Delta(text), DoneChunk], true)
  {
  }

  /** Ollama `streamChat` as written: each read split on its own, with no carry-over. */
  function OllamaStream(up: Upstream, parse: string -> Option<Json>): (g: Gen)
    ensures !up.ok ==> g == Gen([], Some("Ollama API error: " + up.errorBody))
    ensures WellFormed(g)
  {
    if !up.ok then Gen([], Some("Ollama API error: " + up.errorBody))
    else
      NdjsonGood(parse);
      UnbufferedWellFormed(up.parts, NdjsonHandler(parse), up.failure);
      Unbuffered(up.parts, NdjsonHandler(parse), up.failure)
  }

  /** When every read ends on a line break, the Ollama decoder sees every line of the body. */
  lemma OllamaStreamAligned(up: Upstream, parse: string -> Option<Json>)
    requires up.ok && LineAligned(up.parts)
    ensures OllamaStream(up, parse) == WholeNonBlank(Concat(up.parts), NdjsonHandler(parse), up.failure)
  {
    UnbufferedAligned(up.parts, NdjsonHandler(parse), up.failure);
  }

  /**
   * A frame split across two reads is lost: each half fails to parse on its own, so only the
   * terminal chunk of the end of the body comes out. The buffered decoder yields the text.
   */
  lemma OllamaSplitFrameLost(parse: string -> Option<Json>, a: string, b: string, text: string)
    requires '\n' !in a && '\n' !in b && !IsBlank(a) && !IsBlank(b)
    requires parse(a).None? && parse(b).None?
    requires parse(a + b) == Some(JObj(map["response" := JStr(text), "done" := JBool(true)]))
    requires text != ""
    ensures OllamaStream(Upstream(true, "", [a, b + "\n"], None), parse) == Gen([DoneChunk], None)
    ensures OllamaStreamBuffered(Upstream(true, "", [a, b + "\n"], None), parse) == Gen([Delta(text), DoneChunk], None)
  {
    SplitHalvesSkipped(parse, a, b);
    SplitFrameRecovered(parse, a, b, text);
  }

  lemma SplitHalvesSkipped(parse: string -> Option<Json>, a: string, b: string)
    requires '\n' !in a && '\n' !in b && !IsBlank(a) && !IsBlank(b)
    requires parse(a).None? && parse(b).None?
    ensures Unbuffered([a, b + "\n"], NdjsonHandler(parse), None) == Gen([DoneChunk], None)
  {
    var h := NdjsonHandler(parse);
    var parts := [a, b + "\n"];
    assert NonBlank(Split(a, '\n')) == [a] by {
      SplitNoSep(a, '\n');
    }
    assert RunLines([a], h) == Step([], false);
    assert NonBlank(Split(b + "\n", '\n')) == [b] by {
      SplitLine(b, '\n', "");
      assert b + "\n" == b + ['\n'] + "";
      assert Split("", '\n') == [""];
      assert IsBlank("");
    }
    assert RunLines([b], h) == Step([], false);
    assert parts[1..][1..] == [];
    assert Unbuffered(parts[1..], h, None) == Gen([DoneChunk], None);
  }

  lemma SplitFrameRecovered(parse: string -> Option<Json>, a: string, b: string, text: string)
    requires '\n' !in a && '\n' !in b && !IsBlank(a)
    requires parse(a + b) == Some(JObj(map["response" := JStr(text), "done" := JBool(true)]))
    requires text != ""
    ensures Buffered("", [a, b + "\n"], SkipBlank(NdjsonHandler(parse)), None) == Gen([Delta(text), DoneChunk], None)
  {
    var h := SkipBlank(NdjsonHandler(parse));
    var l := a + b;
    JoinedFrame(h, a, b);
    OneLine(l);
    JoinedFrameHandled(parse, a, b, text);
    assert RunLines([l], h) == Step([Delta(text), DoneChunk], true);
  }

  /** The two reads, carried over, are the one line they split. */
  lemma JoinedFrame(h: string -> Step, a: string, b: string)
    ensures Buffered("", [a, b + "\n"], h, None) == Whole(a + b + "\n", h, None)
  {
    BufferedIsWhole("", [a, b + "\n"], h, None);
    ConcatTwo(a, b + "\n");
    assert "" + (a + (b + "\n")) == a + b + "\n";
  }

  lemma JoinedFrameHandled(parse: string -> Option<Json>, a: string, b: string, text: string)
    requires !IsBlank(a)
    requires parse(a + b) == Some(JObj(map["response" := JStr(text), "done" := JBool(true)]))
    requires text != ""
    ensures SkipBlank(NdjsonHandler(parse))(a + b) == Step([Delta(text), DoneChunk], true)
  {
    var l := a + b;
    assert !IsBlank(l) by {
      var i :| 0 <= i < |a| && !IsSpace(a[i]);
      assert l[i] == a[i];
    }
    DoneFrame(parse, l, text);
  }

  lemma OneLine(l: string)
    requires '\n' !in l
    ensures Init(Split(l + "\n", '\n')) == [l]
  {
    SplitLine(l, '\n', "");
    assert l + "\n" == l + ['\n'] + "";
    assert Split("", '\n') == [""];
  }

  lemma DoneFrame(parse: string -> Option<Json>, l: string, text: string)
    requires parse(l) == Some(JObj(map["response" := JStr(text), "done" := JBool(true)]))
    requires text != ""
    ensures NdjsonLine(parse, l) == Step([Delta(text), DoneChunk], true)
  {
  }

  // ----- the corrected Ollama stream -----

  /** Ollama `streamChat` with a carry-over buffer, as the other adapters decode. */
  function OllamaStreamBuffered(up: Upstream, parse: string -> Option<Json>): (g: Gen)
    ensures !up.ok ==> g == Gen([], Some("Ollama API error: " + up.errorBody))
    ensures WellFormed(g)
  {
    if !up.ok then Gen([], Some("Ollama API error: " + up.errorBody))
    else
      NdjsonGood(parse);
      BufferedWellFormed("", up.parts, SkipBlank(NdjsonHandler(parse)), up.failure);
      Buffered("", up.parts, SkipBlank(NdjsonHandler(parse)), up.failure)
  }

  /** The corrected decoder does not depend on read boundaries. */
  lemma OllamaBufferedSplitInvariant(up1: Upstream, up2: Upstream, parse: string -> Option<Json>)
    requires up1.ok && up2.ok && up1.failure == up2.failure
    requires Concat(up1.parts) == Concat(up2.parts)
    ensures OllamaStreamBuffered(up1, parse) == OllamaStreamBuffered(up2, parse)
  {
    BufferedSplitInvariant(up1.parts, up2.parts, SkipBlank(NdjsonHandler(parse)), up1.failure);
  }

  /** And it agrees with the code as written whenever reads are line-aligned. */
  lemma OllamaBufferedAgreesAligned(up: Upstream, parse: string -> Option<Json>)
    requires up.ok && LineAligned(up.parts)
    ensures OllamaStreamBuffered(up, parse) == OllamaStream(up, parse)
  {
    BufferedAgreesUnbuffered(up.parts, NdjsonHandler(parse), up.failure);
  }

  // ----- LM Studio and dispatch -----

  /** LM Studio `streamChat`: the OpenAI buffered SSE decoder with its own error prefix. */
  function LMStudioStream(up: Upstream, parse: string -> Option<Json>): (g: Gen)
    ensures !up.ok ==> g == Gen([], Some("LM Studio API error: " + up.errorBody))
    ensures up.ok ==> g == OpenAI.StreamChat(up, parse)
    ensures WellFormed(g)
  {
    if !up.ok then Gen([], Some("LM Studio API error: " + up.errorBody))
    else OpenAI.StreamChat(up, parse)
  }

  /** `streamChat`: the same mode rule as `chat`. */
  function StreamChat(baseUrl: string, up: Upstream, parse: string -> Option<Json>): (g: Gen)
    ensures IsOllama(baseUrl) ==> g == OllamaStream(up, parse)
    ensures !IsOllama(baseUrl) ==> g == LMStudioStream(up, parse)
    ensures WellFormed(g)
  {
    if IsOllama(baseUrl) then OllamaStream(up, parse) else LMStudioStream(up, parse)
  }
}

=== FILE: local_store.dfy ===
/**
 * The IndexedDB storage adapter (lib/storage/local.ts). Records are JSON objects; an object
 * store is a map from key to record (every store's key path is `id`). Ids and timestamps are
 * inputs, and an index query's result is given as the records it returns.
 */
module LocalStore {
  import opened Wrappers
  import opened Text
  import opened Json

  type Record = map<string, Json>

  type ObjectStore = map<Json, Record>

  const ConstraintError := "ConstraintError"
  const DataError := "DataError"

  /** A value IndexedDB accepts as a key: a number, a string, or an array of keys. */
  predicate ValidKey(j: Json)
    decreases j
  {
    match j
    case JNum(_) => true
    case JStr(_) => true
    case JArr(items) => forall i | 0 <= i < |items| :: ValidKey(items[i])
    case _ => false
  }

  /** `store.add(record)`: fails on a missing or invalid key and on a key already present. */
  function Add(store: ObjectStore, r: Record): (res: Result<ObjectStore>)
    ensures res.Success? <==> "id" in r && ValidKey(r["id"]) && r["id"] !in store
    ensures res.Success? ==> res.value == store[r["id"] := r]
  {
    if "id" !in r || !ValidKey(r["id"]) then Failure(DataError)
    else if r["id"] in store then Failure(ConstraintError)
    else Success(store[r["id"] := r])
  }

  /** `store.put(record)`: inserts or replaces under the record's key. */
  function Put(store: ObjectStore, r: Record): (res: Result<ObjectStore>)
    ensures res.Success? <==> "id" in r && ValidKey(r["id"])
    ensures res.Success? ==> res.value == store[r["id"] := r]
  {
    if "id" !in r || !ValidKey(r["id"]) then Failure(DataError)
    else Success(store[r["id"] := r])
  }

  // ----- create and update -----

  /** The record kinds the adapter creates. */
  datatype Kind = Project | Document | Conversation | Message | Agent | ApiKey

  /** The parent id field each kind is created with; API keys have none. */
  function ParentField(k: Kind): (f: Option<string>)
    ensures f.Some? ==> f.value !in {"id", "created_at", "updated_at"}
  {
    match k
    case Project => Some("workspace_id")
    case Document => Some("project_id")
    case Conversation => Some("project_id")
    case Message => Some("conversation_id")
    case Agent => Some("workspace_id")
    case ApiKey => None
  }

  /** Every kind but messages carries `updated_at`. */
  predicate Stamped(k: Kind) {
    k != Message
  }

  /**
   * `create*`: `{ id, [parent]: parentId, ...data, created_at, updated_at }`. The caller's fields
   * come after the generated id and parent id, and the timestamps after everything; messages are
   * created without `updated_at`.
   */
  function NewRecord(k: Kind, id: string, parentId: string, data: Record, now: Json): (r: Record)
    ensures "id" in r && "created_at" in r && r["created_at"] == now
    ensures forall f | f in data && f != "created_at" && (Stamped(k) ==> f != "updated_at") :: f in r && r[f] == data[f]
    ensures "id" !in data ==> r["id"] == JStr(id)
    ensures ParentField(k).Some? && ParentField(k).value !in data ==>
      ParentField(k).value in r && r[ParentField(k).value] == JStr(parentId)
    ensures Stamped(k) ==> "updated_at" in r && r["updated_at"] == now
    ensures !Stamped(k) ==> ("updated_at" in r <==> "updated_at" in data)
    ensures r.Keys == {"id", "created_at"} + data.Keys + (if ParentField(k).Some? then {ParentField(k).value} else {}) +
      (if Stamped(k) then {"updated_at"} else {})
  {
    var parent := ParentField(k);
    var base := if parent.Some? then map["id" := JStr(id), parent.value := JStr(parentId)] else map["id" := JStr(id)];
    var merged := (base + data)["created_at" := now];
    if Stamped(k) then merged["updated_at" := now] else merged
  }

  /** Creating and adding: the new record is stored under its key, or the add fails. */
  function Create(store: ObjectStore, k: Kind, id: string, parentId: string, data: Record, now: Json): (res: Result<(ObjectStore, Record)>)
    ensures res.Success? ==> res.value.1 == NewRecord(k, id, parentId, data, now)
    ensures res.Success? ==> JStr(id) in res.value.0 || "id" in data
    ensures "id" !in data && JStr(id) !in store ==> res.Success? && res.value.0[JStr(id)] == res.value.1
  {
    var r := NewRecord(k, id, parentId, data, now);
    var added :- Add(store, r);
    Success((added, r))
  }

  /** The kinds that have an `update*` method. */
  predicate Updatable(k: Kind) {
    k == Project || k == Document || k == Message
  }

  /**
   * `update*`: the stored record (or nothing, when the id is absent) overlaid with `data`, with
   * `updated_at` refreshed for projects and documents; the result is put back under its own key.
   */
  function Update(store: ObjectStore, k: Kind, id: string, data: Record, now: Json): (res: Result<(ObjectStore, Record)>)
    requires Updatable(k)
    ensures res.Success? ==> res.value.1 == UpdatedRecord(store, k, id, data, now)
    ensures res.Success? ==> "id" in res.value.1 && res.value.0 == store[res.value.1["id"] := res.value.1]
    ensures var r := UpdatedRecord(store, k, id, data, now);
      res.Success? <==> ("id" in r && ValidKey(r["id"]))
  {
    var r := UpdatedRecord(store, k, id, data, now);
    var put :- Put(store, r);
    Success((put, r))
  }

  /** `{ ...existing, ...data, updated_at }`. */
  function UpdatedRecord(store: ObjectStore, k: Kind, id: string, data: Record, now: Json): (r: Record)
    ensures forall f | f in data && (Stamped(k) ==> f != "updated_at") :: f in r && r[f] == data[f]
    ensures JStr(id) in store ==> forall f | f in store[JStr(id)] && f !in data && f != "updated_at" :: f in r && r[f] == store[JStr(id)][f]
    ensures Stamped(k) ==> "updated_at" in r && r["updated_at"] == now
    ensures r.Keys == (if JStr(id) in store then store[JStr(id)].Keys else {}) + data.Keys + (if Stamped(k) then {"updated_at"} else {})
  {
    var existing := if JStr(id) in store then store[JStr(id)] else map[];
    var merged := existing + data;
    if Stamped(k) then merged["updated_at" := now] else merged
  }

  /** Updating a stored record leaves it under the same key unless `data` changes its id. */
  lemma UpdateInPlace(store: ObjectStore, k: Kind, id: string, data: Record, now: Json)
    requires Updatable(k)
    requires JStr(id) in store && "id" in store[JStr(id)] && store[JStr(id)]["id"] == JStr(id)
    requires "id" !in data
    ensures Update(store, k, id, data, now).Success?
    ensures var res := Update(store, k, id, data, now).value;
      res.0.Keys == store.Keys && res.0[JStr(id)] == res.1 &&
      forall key | key in store && key != JStr(id) :: res.0[key] == store[key]
  {
    var r := UpdatedRecord(store, k, id, data, now);
    assert r["id"] == JStr(id);
  }

  /** The same update applied twice, at the same time, is applied once. */
  lemma UpdateIdempotent(store: ObjectStore, k: Kind, id: string, data: Record, now: Json)
    requires Updatable(k)
    requires JStr(id) in store && "id" in store[JStr(id)] && store[JStr(id)]["id"] == JStr(id)
    requires "id" !in data
    ensures var once := Update(store, k, id, data, now).value.0;
      Update(once, k, id, data, now).Success? &&
      Update(once, k, id, data, now).value.0 == once
  {
    UpdateInPlace(store, k, id, data, now);
    var once := Update(store, k, id, data, now).value.0;
    var r := once[JStr(id)];
    var r2 := UpdatedRecord(once, k, id, data, now);
    assert r2 == r by {
      assert r2.Keys == r.Keys;
      forall f | f in r ensures r2[f] == r[f] {
      }
    }
    UpdateInPlace(once, k, id, data, now);
  }

  /** A message update never adds `updated_at`; project and document updates always do. */
  lemma UpdateMessageUnstamped(store: ObjectStore, id: string, data: Record, now: Json)
    requires "updated_at" !in data
    requires JStr(id) !in store || "updated_at" !in store[JStr(id)]
    ensures "updated_at" !in UpdatedRecord(store, Message, id, data, now)
  {
  }

  // ----- messages -----

  /** The record's `created_at` as a time; records are always created with one. */
  function Time(r: Record): int {
    if "created_at" in r && r["created_at"].JNum? then r["created_at"].n else 0
  }

  predicate SortedByTime(s: seq<Record>) {
    forall i, j | 0 <= i < j < |s| :: Time(s[i]) <= Time(s[j])
  }

  /** The records of `s` with time `t`, in order. */
  function AtTime(s: seq<Record>, t: int): (r: seq<Record>)
    ensures |r| <= |s|
    decreases |s|
  {
    if |s| == 0 then []
    else (if Time(s[0]) == t then [s[0]] else []) + AtTime(s[1..], t)
  }

  /** Places `x` before the first record that is not earlier. */
  function InsertByTime(x: Record, s: seq<Record>): (r: seq<Record>)
    requires SortedByTime(s)
    ensures SortedByTime(r) && multiset(r) == multiset([x] + s)
    decreases |s|
  {
    if |s| == 0 || Time(x) <= Time(s[0]) then [x] + s
    else
      SortedTail(s);
      var rest := InsertByTime(x, s[1..]);
      InsertStep(x, s, rest);
      [s[0]] + rest
  }

  /** Putting the first record back in front of `x` inserted into the others. */
  lemma InsertStep(x: Record, s: seq<Record>, rest: seq<Record>)
    requires SortedByTime(s) && |s| > 0 && Time(s[0]) < Time(x)
    requires SortedByTime(rest) && multiset(rest) == multiset([x] + s[1..])
    ensures SortedByTime([s[0]] + rest) && multiset([s[0]] + rest) == multiset([x] + s)
  {
    assert s == [s[0]] + s[1..];
    forall k | 0 <= k < |rest| ensures Time(s[0]) <= Time(rest[k]) {
      assert rest[k] in multiset(rest);
      assert rest[k] == x || rest[k] in s[1..];
    }
    var r := [s[0]] + rest;
    forall i, j | 0 <= i < j < |r| ensures Time(r[i]) <= Time(r[j]) {
      assert r[j] == rest[j - 1];
      if i > 0 {
        assert r[i] == rest[i - 1];
      }
    }
  }

  lemma SortedTail(s: seq<Record>)
    requires SortedByTime(s) && |s| > 0
    ensures SortedByTime(s[1..])
  {
    forall i, j | 0 <= i < j < |s[1..]| ensures Time(s[1..][i]) <= Time(s[1..][j]) {
      assert s[1..][i] == s[i + 1] && s[1..][j] == s[j + 1];
    }
  }

  /** `Array.prototype.sort` by `created_at`, which is stable. */
  function SortByTime(s: seq<Record>): (r: seq<Record>)
    ensures SortedByTime(r) && multiset(r) == multiset(s)
    decreases |s|
  {
    if |s| == 0 then []
    else
      assert s == [s[0]] + s[1..];
      InsertByTime(s[0], SortByTime(s[1..]))
  }

  lemma {:induction false} InsertAtTime(x: Record, s: seq<Record>, t: int)
    requires SortedByTime(s)
    ensures AtTime(InsertByTime(x, s), t) == (if Time(x) == t then [x] else []) + AtTime(s, t)
    decreases |s|
  {
    if |s| == 0 || Time(x) <= Time(s[0]) {
      assert InsertByTime(x, s) == [x] + s;
      AtTimeCons(x, s, t);
    } else {
      SortedTail(s);
      var rest := InsertByTime(x, s[1..]);
      var a := if Time(s[0]) == t then [s[0]] else [];
      var b := if Time(x) == t then [x] else [];
      var tl := AtTime(s[1..], t);
      assert AtTime(InsertByTime(x, s), t) == a + (b + tl) by {
        assert InsertByTime(x, s) == [s[0]] + rest;
        AtTimeCons(s[0], rest, t);
        InsertAtTime(x, s[1..], t);
      }
      assert AtTime(s, t) == a + tl by {
        assert s == [s[0]] + s[1..];
        AtTimeCons(s[0], s[1..], t);
      }
      if b != [] {
        assert a == [];
        assert a + (b + tl) == b + tl;
      } else {
        assert b + (a + tl) == a + tl;
      }
    }
  }

  lemma AtTimeCons(x: Record, s: seq<Record>, t: int)
    ensures AtTime([x] + s, t) == (if Time(x) == t then [x] else []) + AtTime(s, t)
  {
    assert ([x] + s)[0] == x && ([x] + s)[1..] == s;
  }

  /**
   * The sort is stable: the records sharing a time keep their relative order. Together with
   * the ensures of `SortByTime` this determines the result.
   */
  lemma {:induction false} SortStable(s: seq<Record>, t: int)
    ensures AtTime(SortByTime(s), t) == AtTime(s, t)
    decreases |s|
  {
    if |s| > 0 {
      SortStable(s[1..], t);
      InsertAtTime(s[0], SortByTime(s[1..]), t);
    }
  }

  /** The records whose `field` equals `value`, as an index lookup returns them. */
  function WithField(records: seq<Record>, field: string, value: Json): (r: seq<Record>)
    ensures forall i | 0 <= i < |r| :: field in r[i] && r[i][field] == value
    ensures forall x | x in records :: (x in r <==> field in x && x[field] == value)
    decreases |records|
  {
    if |records| == 0 then []
    else
      var rest := WithField(records[1..], field, value);
      assert forall x | x in records :: x == records[0] || x in records[1..];
      if field in records[0] && records[0][field] == value then [records[0]] + rest else rest
  }

  /** `getMessages`: the conversation's messages, ordered by creation time. */
  function GetMessages(records: seq<Record>, conversationId: string): (r: seq<Record>)
    ensures SortedByTime(r)
    ensures multiset(r) == multiset(WithField(records, "conversation_id", JStr(conversationId)))
  {
    SortByTime(WithField(records, "conversation_id", JStr(conversationId)))
  }

  // ----- memory -----

  /** `getMemory`'s filter: global entries, plus the project's own when a project is given. */
  predicate Visible(m: Record, projectId: string) {
    var p := if "project_id" in m then Some(m["project_id"]) else None;
    !Truthy(p) || (projectId != "" && p == Some(JStr(projectId)))
  }

  function FilterVisible(all: seq<Record>, projectId: string): (r: seq<Record>)
    ensures forall x | x in all :: (x in r <==> Visible(x, projectId))
    ensures forall i | 0 <= i < |r| :: r[i] in all
    decreases |all|
  {
    if |all| == 0 then []
    else
      var rest := FilterVisible(all[1..], projectId);
      assert forall x | x in all :: x == all[0] || x in all[1..];
      if Visible(all[0], projectId) then [all[0]] + rest else rest
  }

  /** `getMemory`: the workspace's entries, then the project filter. */
  function GetMemory(records: seq<Record>, workspaceId: string, projectId: string): (r: seq<Record>)
    ensures forall x | x in r :: "workspace_id" in x && x["workspace_id"] == JStr(workspaceId)
    ensures projectId == "" ==> forall x | x in r :: !Truthy(if "project_id" in x then Some(x["project_id"]) else None)
    ensures forall x | x in records && "workspace_id" in x && x["workspace_id"] == JStr(workspaceId) ::
      (x in r <==> Visible(x, projectId))
  {
    FilterVisible(WithField(records, "workspace_id", JStr(workspaceId)), projectId)
  }

  /** `${workspaceId}-${projectId || 'global'}-${key}`. */
  function MemoryId(workspaceId: string, projectId: string, key: string): string {
    workspaceId + "-" + (if projectId != "" then projectId else "global") + "-" + key
  }

  /** The record `setMemory` puts; `project_id` is null without a project. */
  function MemoryRecord(workspaceId: string, projectId: string, key: string, value: string, now: Json): (r: Record)
    ensures r.Keys == {"id", "workspace_id", "project_id", "key", "value", "created_at", "updated_at"}
    ensures r["id"] == JStr(MemoryId(workspaceId, projectId, key))
    ensures r["project_id"] == (if projectId == "" then JNull else JStr(projectId))
    ensures r["key"] == JStr(key) && r["value"] == JStr(value) && r["workspace_id"] == JStr(workspaceId)
  {
    map["id" := JStr(MemoryId(workspaceId, projectId, key)),
        "workspace_id" := JStr(workspaceId),
        "project_id" := (if projectId == "" then JNull else JStr(projectId)),
        "key" := JStr(key),
        "value" := JStr(value),
        "created_at" := now,
        "updated_at" := now]
  }

  function SetMemory(store: ObjectStore, workspaceId: string, projectId: string, key: string, value: string, now: Json): (s: ObjectStore)
    ensures JStr(MemoryId(workspaceId, projectId, key)) in s
    ensures s[JStr(MemoryId(workspaceId, projectId, key))] == MemoryRecord(workspaceId, projectId, key, value, now)
    ensures s.Keys == store.Keys + {JStr(MemoryId(workspaceId, projectId, key))}
    ensures forall id | id in store && id != JStr(MemoryId(workspaceId, projectId, key)) :: s[id] == store[id]
  {
    Put(store, MemoryRecord(workspaceId, projectId, key, value, now)).value
  }

  /** Setting the same triple twice leaves one entry, holding the later value. */
  lemma SetMemoryOverwrites(store: ObjectStore, w: string, p: string, k: string, v1: string, v2: string, t1: Json, t2: Json)
    ensures var s := SetMemory(SetMemory(store, w, p, k, v1, t1), w, p, k, v2, t2);
      s.Keys == store.Keys + {JStr(MemoryId(w, p, k))} &&
      s[JStr(MemoryId(w, p, k))]["value"] == JStr(v2)
  {
  }

  /**
   * A set memory entry is what `getMemory` then returns for the same project: `records` is any
   * index read that sees every record of the store after the set, whatever else the store held.
   */
  lemma SetThenGet(store: ObjectStore, w: string, p: string, k: string, v: string, now: Json, records: seq<Record>)
    requires forall x | x in SetMemory(store, w, p, k, v, now).Values :: x in records
    ensures MemoryRecord(w, p, k, v, now) in GetMemory(records, w, p)
  {
  }

  /**
   * The id is not injective: with a dash inside the project id or the key, two different
   * (project, key) pairs of one workspace share an id, and the second set replaces the first.
   */
  lemma MemoryIdCollision(store: ObjectStore, now: Json)
    ensures MemoryId("w", "p-q", "k") == MemoryId("w", "p", "q-k")
    ensures var s := SetMemory(SetMemory(store, "w", "p-q", "k", "a", now), "w", "p", "q-k", "b", now);
      JStr("w-p-q-k") in s && "key" in s[JStr("w-p-q-k")] && s[JStr("w-p-q-k")]["key"] == JStr("q-k")
  {
    assert MemoryId("w", "p", "q-k") == "w-p-q-k";
  }
}

=== FILE: memory.dfy ===
/**
 * The team-memory helpers of `MemoryManager` (lib/memory/manager.ts): the mapping of fetched
 * rows to entries and the Markdown rendering used as prompt context.
 */
module Memory {
  import opened Wrappers
  import opened Text
  import opened Json

  /** A memory entry; a missing metadata object is stored as the empty map. */
  datatype MemoryEntry = MemoryEntry(key: string, value: string, metadata: map<string, Json>)

  /** A `team_memory` row as fetched; `metadata` is `None` when the column is null. */
  datatype MemoryRow = MemoryRow(key: string, value: string, metadata: Option<map<string, Json>>)

  /** `(data || []).map(entry => ({ key, value, metadata: entry.metadata || {} }))`. */
  function Entries(data: Option<seq<MemoryRow>>): (r: seq<MemoryEntry>)
    ensures data.None? ==> r == []
    ensures data.Some? ==> |r| == |data.value|
    ensures data.Some? ==> forall i | 0 <= i < |r| ::
      r[i].key == data.value[i].key && r[i].value == data.value[i].value &&
      r[i].metadata == data.value[i].metadata.GetOr(map[])
  {
    var rows := data.GetOr([]);
    seq(|rows|, i requires 0 <= i < |rows| => MemoryEntry(rows[i].key, rows[i].value, rows[i].metadata.GetOr(map[])))
  }

  /** One entry in bold-key Markdown, `**key**: value`. */
  function Render(e: MemoryEntry): string {
    "**" + e.key + "**: " + e.value
  }

  /** `formatMemoryForContext`: the rendered entries separated by blank lines. */
  function Format(memory: seq<MemoryEntry>): (r: string)
    ensures memory == [] ==> r == ""
    ensures |memory| == 1 ==> r == Render(memory[0])
    decreases |memory|
  {
    if |memory| == 0 then ""
    else if |memory| == 1 then Render(memory[0])
    else Render(memory[0]) + "\n\n" + Format(memory[1..])
  }

  /**
   * Formatting is a homomorphism: two non-empty lists format to their two texts joined by a
   * blank line, so each entry appears once, in input order.
   */
  lemma {:induction false} FormatAppend(a: seq<MemoryEntry>, b: seq<MemoryEntry>)
    requires a != [] && b != []
    ensures Format(a + b) == Format(a) + "\n\n" + Format(b)
    decreases |a|
  {
    if |a| == 1 {
      assert (a + b)[1..] == b;
    } else {
      assert (a + b)[1..] == a[1..] + b;
      FormatAppend(a[1..], b);
    }
  }

  /** Same keys and values in the same order format identically, whatever the metadata. */
  lemma {:induction false} FormatIgnoresMetadata(a: seq<MemoryEntry>, b: seq<MemoryEntry>)
    requires |a| == |b|
    requires forall i | 0 <= i < |a| :: a[i].key == b[i].key && a[i].value == b[i].value
    ensures Format(a) == Format(b)
    decreases |a|
  {
    if |a| > 1 {
      FormatIgnoresMetadata(a[1..], b[1..]);
    }
  }

  /** Every entry's rendering occurs in the formatted text, in particular the first one leads it. */
  lemma {:induction false} FormatContains(memory: seq<MemoryEntry>, i: nat)
    requires i < |memory|
    ensures Contains(Format(memory), Render(memory[i]))
    decreases |memory|
  {
    var f := Format(memory);
    if i == 0 {
      var r := Render(memory[0]);
      assert f[..|r|] == r;
      assert MatchAt(f, r, 0);
      ContainsIff(f, r);
    } else {
      FormatContains(memory[1..], i - 1);
      ContainsIff(Format(memory[1..]), Render(memory[i]));
      var pre := Render(memory[0]) + "\n\n";
      var rest := Format(memory[1..]);
      var r := Render(memory[i]);
      assert memory[1..][i - 1] == memory[i];
      assert f == pre + rest;
      var j :| 0 <= j && MatchAt(rest, r, j);
      assert MatchAt(f, r, |pre| + j) by {
        assert f[|pre| + j..|pre| + j + |r|] == rest[j..j + |r|];
      }
      ContainsIff(f, r);
    }
  }
}

=== FILE: openai.dfy ===
/**
 * The OpenAI adapter (lib/ai/providers/openai.ts): the chat-completions request bodies, the
 * non-streaming response mapping, and the buffered SSE decoder of `streamChat`.
 */
module OpenAI {
  import opened Wrappers
  import opened Text
  import opened Json
  import opened AITypes
  import opened Stream

  const CompletionsUrl := "https://api.openai.com/v1/chat/completions"

  const DefaultTemperature: real := 0.7

  /**
   * A chat-completions request body. `None` fields are `undefined` and so left out by
   * `JSON.stringify`; `stream` is absent from non-streaming requests.
   */
  datatype CompletionsBody = CompletionsBody(
    model: string,
    messages: seq<Message>,
    temperature: real,
    maxTokens: Option<int>,
    topP: Option<real>,
    frequencyPenalty: Option<real>,
    presencePenalty: Option<real>,
    stream: Option<bool>)

  /** The body `chat` sends: the sampling options are passed through, temperature defaulted. */
  function ChatRequest(config: ModelConfig, ms: seq<Message>): (b: CompletionsBody)
    ensures b.model == config.model && b.messages == FormatMessages(ms)
    ensures b.temperature == config.temperature.GetOr(DefaultTemperature)
    ensures b.maxTokens == config.maxTokens && b.topP == config.topP
    ensures b.frequencyPenalty == config.frequencyPenalty && b.presencePenalty == config.presencePenalty
    ensures b.stream.None?
  {
    CompletionsBody(config.model, FormatMessages(ms), config.temperature.GetOr(DefaultTemperature),
      config.maxTokens, config.topP, config.frequencyPenalty, config.presencePenalty, None)
  }

  /** The body `streamChat` sends: always `stream: true`, no top-p or penalties. */
  function StreamRequest(config: ModelConfig, ms: seq<Message>): (b: CompletionsBody)
    ensures b.stream == Some(true)
    ensures b.temperature == config.temperature.GetOr(DefaultTemperature)
    ensures b.maxTokens == config.maxTokens
    ensures b.topP.None? && b.frequencyPenalty.None? && b.presencePenalty.None?
  {
    CompletionsBody(config.model, FormatMessages(ms), config.temperature.GetOr(DefaultTemperature),
      config.maxTokens, None, None, None, Some(true))
  }

  /** The streaming body is the chat body with `stream` set and the extra options dropped. */
  lemma StreamRequestFromChat(config: ModelConfig, ms: seq<Message>)
    ensures StreamRequest(config, ms) ==
      ChatRequest(config, ms).(stream := Some(true), topP := None, frequencyPenalty := None, presencePenalty := None)
  {
  }

  /** A non-streaming upstream reply: its status and its body text. */
  datatype Reply = Reply(ok: bool, body: string)

  /** The message `response.json()` rejects with when the body is not JSON. */
  const InvalidJson := "Unexpected token in JSON"

  /**
   * `data.choices[0]?.message?.content || ''`: throws exactly when `data` or `data.choices` is
   * nullish; otherwise the string content of the first choice's message, or `''`.
   */
  function CompletionContent(data: Json): (r: Result<string>)
    ensures r.Failure? <==> data.JNull? || Nullish(Member(Some(data), "choices"))
    ensures r.Success? ==>
      r.value == TextOr(Member(Member(FirstOf(Member(Some(data), "choices")), "message"), "content"))
  {
    PropWord(data, "choices");
    var choices :- StrictProp(Some(data), "choices");
    OptPropZero(choices);
    var first :- StrictProp(choices, "0");
    OptPropWord(first, "message");
    OptPropWord(OptProp(first, "message"), "content");
    Success(TextOr(OptProp(OptProp(first, "message"), "content")))
  }

  /** The usage block, copied when `data.usage` is truthy: the three counts as reported. */
  function CompletionUsage(data: Json): (u: Option<Usage>)
    requires !data.JNull?
    ensures u.Some? <==> Truthy(Member(Some(data), "usage"))
    ensures u.Some? ==> var usage := Member(Some(data), "usage");
      u.value == Usage(Member(usage, "prompt_tokens"), Member(usage, "completion_tokens"), Member(usage, "total_tokens"))
  {
    PropWord(data, "usage");
    var usage := Prop(data, "usage");
    if Truthy(usage) then
      PropWord(usage.value, "prompt_tokens");
      PropWord(usage.value, "completion_tokens");
      PropWord(usage.value, "total_tokens");
      Some(Usage(Prop(usage.value, "prompt_tokens"), Prop(usage.value, "completion_tokens"), Prop(usage.value, "total_tokens")))
    else None
  }

  /** `chat`: the upstream error text on a non-2xx status, else the mapped completion. */
  function ChatResponse(reply: Reply, parse: string -> Option<Json>, errorPrefix: string): (r: Result<AIResponse>)
    ensures !reply.ok ==> r == Failure(errorPrefix + reply.body)
    ensures reply.ok && parse(reply.body).None? ==> r == Failure(InvalidJson)
    ensures reply.ok && parse(reply.body).Some? ==>
      (r.Success? <==> CompletionContent(parse(reply.body).value).Success?)
    ensures r.Success? ==> (
      reply.ok && parse(reply.body).Some? && !parse(reply.body).value.JNull? &&
      var data := parse(reply.body).value;
      var usage := Member(Some(data), "usage");
      r.value.content == CompletionContent(data).value &&
      (r.value.usage.Some? <==> Truthy(usage)) &&
      (r.value.usage.Some? ==>
         r.value.usage.value == Usage(Member(usage, "prompt_tokens"), Member(usage, "completion_tokens"), Member(usage, "total_tokens"))))
  {
    if !reply.ok then Failure(errorPrefix + reply.body)
    else
      match parse(reply.body)
      case None => Failure(InvalidJson)
      case Some(data) =>
        var content :- CompletionContent(data);
        Success(AIResponse(content, CompletionUsage(data)))
  }

  /** A usage-free completion with one choice decodes to that choice's message content. */
  lemma ChatResponseExample(parse: string -> Option<Json>, body: string, text: string)
    requires parse(body) == Some(JObj(map["choices" := JArr([JObj(map["message" := JObj(map["content" := JStr(text)])])])]))
    ensures ChatResponse(Reply(true, body), parse, "OpenAI API error: ") == Success(AIResponse(text, None))
  {
    var m := JObj(map["message" := JObj(map["content" := JStr(text)])]);
    assert ArrayProp([m], "0", 0) == Some(m);
  }

  /**
   * `parsed.choices?.[0]?.delta?.content || ''`: the string content of the first choice's delta,
   * or `''`; a `null` payload throws, which the caller skips like an empty delta.
   */
  function DeltaText(parsed: Json): (r: string)
    ensures r == TextOr(Member(Member(FirstOf(Member(Some(parsed), "choices")), "delta"), "content"))
  {
    PropWord(parsed, "choices");
    match StrictProp(Some(parsed), "choices")
    case Failure(_) => ""
    case Success(choices) =>
      OptPropZero(choices);
      OptPropWord(OptProp(choices, "0"), "delta");
      OptPropWord(OptProp(OptProp(choices, "0"), "delta"), "content");
      TextOr(OptProp(OptProp(OptProp(choices, "0"), "delta"), "content"))
  }

  /** A chunk whose first choice carries a string delta yields exactly that text. */
  lemma DeltaTextDelivers(text: string, rest: seq<Json>)
    ensures DeltaText(JObj(map["choices" := JArr([JObj(map["delta" := JObj(map["content" := JStr(text)])])] + rest)])) == text
  {
  }

  function Handler(parse: string -> Option<Json>): string -> Step {
    line => SseLine(parse, DeltaText, line)
  }

  /** A `data:` line carrying a chunk whose first choice has a non-empty delta yields that text. */
  lemma DataLineDelivers(parse: string -> Option<Json>, payload: string, text: string, rest: seq<Json>)
    requires payload != DoneMarker && text != ""
    requires parse(payload) == Some(JObj(map["choices" := JArr([JObj(map["delta" := JObj(map["content" := JStr(text)])])] + rest)]))
    ensures Handler(parse)(DataPrefix + payload) == Step([Delta(text)], false)
  {
    assert (DataPrefix + payload)[6..] == payload;
    DeltaTextDelivers(text, rest);
  }

  /**
   * `streamChat`: a non-2xx status throws with the response text before anything is yielded;
   * otherwise the body is decoded with the carry-over buffer.
   */
  function StreamChat(up: Upstream, parse: string -> Option<Json>): (g: Gen)
    ensures !up.ok ==> g == Gen([], Some("OpenAI API error: " + up.errorBody))
    ensures WellFormed(g)
  {
    if !up.ok then Gen([], Some("OpenAI API error: " + up.errorBody))
    else
      SseLineGood(parse, DeltaText);
      BufferedWellFormed("", up.parts, Handler(parse), up.failure);
      Buffered("", up.parts, Handler(parse), up.failure)
  }

  /** What is yielded depends only on the concatenated body, not on the read boundaries. */
  lemma StreamChatIsWhole(up: Upstream, parse: string -> Option<Json>)
    requires up.ok
    ensures StreamChat(up, parse) == Whole(Concat(up.parts), Handler(parse), up.failure)
  {
    BufferedIsWhole("", up.parts, Handler(parse), up.failure);
    assert "" + Concat(up.parts) == Concat(up.parts);
  }

  /** `data: [DONE]` yields the terminal chunk and ends the stream: no later line is read. */
  lemma StreamChatStopsAtDone(up1: Upstream, up2: Upstream, parse: string -> Option<Json>,
                              pre: string, t1: string, t2: string)
    requires up1.ok && up2.ok
    requires pre == "" || EndsWith(pre, "\n")
    requires Concat(up1.parts) == pre + "data: [DONE]\n" + t1
    requires Concat(up2.parts) == pre + "data: [DONE]\n" + t2
    ensures StreamChat(up1, parse) == StreamChat(up2, parse)
    ensures StreamChat(up1, parse).thrown.None?
  {
    StreamChatIsWhole(up1, parse);
    StreamChatIsWhole(up2, parse);
    var l := "data: [DONE]";
    DoneLineStops(parse);
    LineBreakAssoc(pre, l, t1);
    LineBreakAssoc(pre, l, t2);
    WholeStopsAt(pre, l, t1, t2, Handler(parse), up1.failure, up2.failure);
  }

  lemma DoneLineStops(parse: string -> Option<Json>)
    ensures "data: [DONE]\n" == "data: [DONE]" + "\n"
    ensures '\n' !in "data: [DONE]" && Handler(parse)("data: [DONE]").stop
  {
    var l := "data: [DONE]";
    assert StartsWith(l, DataPrefix) && l[6..] == DoneMarker;
  }

  lemma LineBreakAssoc(pre: string, l: string, t: string)
    ensures pre + (l + "\n") + t == pre + l + "\n" + t
  {
  }

  /** Text after the last line break when the body ends is discarded. */
  lemma StreamChatDropsTail(up1: Upstream, up2: Upstream, parse: string -> Option<Json>, tail: string)
    requires up1.ok && up2.ok && up1.failure == up2.failure
    requires Concat(up2.parts) == "" || EndsWith(Concat(up2.parts), "\n")
    requires '\n' !in tail && Concat(up1.parts) == Concat(up2.parts) + tail
    ensures StreamChat(up1, parse) == StreamChat(up2, parse)
  {
    StreamChatIsWhole(up1, parse);
    StreamChatIsWhole(up2, parse);
    WholeDropsTail(Concat(up2.parts), tail, Handler(parse), up1.failure);
  }
}

=== FILE: plugins.dfy ===
/**
 * The plugin registry (lib/plugins/runner.ts): plugins are compiled into handlers kept in a map
 * keyed by plugin id; running looks the handler up and turns a thrown error into a failed
 * result; the ids are listed in the map's insertion order.
 *
 * Compiling plugin code (`new Function`) and the handlers themselves are opaque: compilation is
 * a function parameter and a handler is a function from a call to its outcome.
 */
module Plugins {
  import opened Wrappers

  datatype Plugin = Plugin(id: string, name: string, code: string)

  /** The context and the input a plugin is run with, taken as opaque text. */
  datatype Call = Call(context: string, input: string)

  datatype PluginResult = PluginResult(success: bool, output: Option<string>, error: Option<string>)

  /** What a handler does when called: return a result, or throw (with its `message`, possibly empty). */
  datatype HandlerOutcome = Returned(result: PluginResult) | Raised(message: string)

  type Handler = Call -> HandlerOutcome

  /**
   * The registry: a JavaScript `Map`, whose keys keep the order in which they were first set.
   * `order` is that order; `handlers` the map.
   */
  datatype Registry = Registry(order: seq<string>, handlers: map<string, Handler>)

  predicate Distinct(ids: seq<string>) {
    forall i, j | 0 <= i < j < |ids| :: ids[i] != ids[j]
  }

  predicate Valid(r: Registry) {
    Distinct(r.order) &&
    (forall id | id in r.handlers :: id in r.order) &&
    (forall i | 0 <= i < |r.order| :: r.order[i] in r.handlers)
  }

  function Empty(): (r: Registry)
    ensures Valid(r) && r.order == []
  {
    Registry([], map[])
  }

  /**
   * `registerPlugin`: a compile failure is rethrown as `Failed to register plugin <name>: <message>`
   * and the registry is left as it was; otherwise the handler is stored under the id, replacing
   * any earlier one, and a new id goes to the end of the order.
   */
  function Register(r: Registry, p: Plugin, compile: string -> Result<Handler>): (out: Result<Registry>)
    ensures compile(p.code).Failure? ==>
      out == Failure("Failed to register plugin " + p.name + ": " + compile(p.code).error)
    ensures compile(p.code).Success? ==> out.Success? && out.value.handlers == r.handlers[p.id := compile(p.code).value]
    ensures compile(p.code).Success? && p.id in r.order ==> out.value.order == r.order
    ensures compile(p.code).Success? && p.id !in r.order ==> out.value.order == r.order + [p.id]
  {
    match compile(p.code)
    case Failure(m) => Failure("Failed to register plugin " + p.name + ": " + m)
    case Success(h) =>
      Success(Registry(if p.id in r.order then r.order else r.order + [p.id], r.handlers[p.id := h]))
  }

  /** `runPlugin`: an unknown id, a thrown error, or whatever the handler returned. */
  function Run(r: Registry, id: string, call: Call): (res: PluginResult)
    ensures id !in r.handlers ==> res == PluginResult(false, None, Some("Plugin " + id + " not found"))
    ensures id in r.handlers && r.handlers[id](call).Returned? ==> res == r.handlers[id](call).result
    ensures id in r.handlers && r.handlers[id](call).Raised? ==>
      !res.success && res.output.None? && res.error.Some? && res.error.value != "" &&
      (r.handlers[id](call).message != "" ==> res.error.value == r.handlers[id](call).message)
  {
    if id !in r.handlers then PluginResult(false, None, Some("Plugin " + id + " not found"))
    else match r.handlers[id](call)
      case Returned(result) => result
      case Raised(m) => PluginResult(false, None, Some(if m != "" then m else "Plugin execution failed"))
  }

  /** `unregisterPlugin`: only that id goes. */
  function Unregister(r: Registry, id: string): (out: Registry)
    ensures out.handlers == r.handlers - {id}
    ensures forall x :: x in out.order <==> x in r.order && x != id
  {
    Registry(Remove(r.order, id), r.handlers - {id})
  }

  /** The order without one id, the rest in place. */
  function Remove(order: seq<string>, id: string): (r: seq<string>)
    ensures forall x :: x in r <==> x in order && x != id
    ensures |r| <= |order|
    decreases |order|
  {
    if |order| == 0 then []
    else (if order[0] == id then [] else [order[0]]) + Remove(order[1..], id)
  }

  /** `listPlugins`: the ids in insertion order. */
  function List(r: Registry): (ids: seq<string>)
    ensures Valid(r) ==> forall id :: id in ids <==> id in r.handlers
  {
    r.order
  }

  /** Removing keeps the remaining ids distinct. */
  lemma {:induction false} RemoveKeepsDistinct(order: seq<string>, id: string)
    requires Distinct(order)
    ensures Distinct(Remove(order, id))
    decreases |order|
  {
    if |order| > 0 {
      RemoveKeepsDistinct(order[1..], id);
      var rest := Remove(order[1..], id);
      var head := if order[0] == id then [] else [order[0]];
      var r := head + rest;
      assert Remove(order, id) == r;
      assert order[0] !in order[1..];
      assert order[0] !in rest;
      forall i, j | 0 <= i < j < |r| ensures r[i] != r[j] {
        if |head| == 1 && i == 0 {
          assert r[j] == rest[j - 1] && rest[j - 1] in rest;
        } else {
          assert r[i] == rest[i - |head|] && r[j] == rest[j - |head|];
        }
      }
    }
  }

  /** Registering keeps the registry well formed. */
  lemma RegisterValid(r: Registry, p: Plugin, compile: string -> Result<Handler>)
    requires Valid(r) && compile(p.code).Success?
    ensures Valid(Register(r, p, compile).value)
  {
  }

  /** Unregistering keeps the registry well formed. */
  lemma UnregisterValid(r: Registry, id: string)
    requires Valid(r)
    ensures Valid(Unregister(r, id))
  {
    RemoveKeepsDistinct(r.order, id);
    var out := Unregister(r, id);
    forall i | 0 <= i < |out.order| ensures out.order[i] in out.handlers {
      assert out.order[i] in out.order;
    }
  }

  /** After a registration, running the id uses the new handler, whatever was there before. */
  lemma RegisterReplaces(r: Registry, p: Plugin, compile: string -> Result<Handler>, call: Call)
    requires compile(p.code).Success?
    requires compile(p.code).value(call).Returned?
    ensures Run(Register(r, p, compile).value, p.id, call) == compile(p.code).value(call).result
  {
  }

  /** Re-registering an id keeps its place in the listing. */
  lemma ReRegisterKeepsPlace(r: Registry, p: Plugin, compile: string -> Result<Handler>)
    requires p.id in r.order && compile(p.code).Success?
    ensures List(Register(r, p, compile).value) == List(r)
  {
  }

  /** After unregistering, the id is not found, and every other id runs as before. */
  lemma UnregisterOnlyThat(r: Registry, id: string, other: string, call: Call)
    ensures Run(Unregister(r, id), id, call) == PluginResult(false, None, Some("Plugin " + id + " not found"))
    ensures other != id ==> Run(Unregister(r, id), other, call) == Run(r, other, call)
  {
  }

  /** A handler that throws without a message yields the fixed failure text. */
  lemma SilentThrowMessage(r: Registry, id: string, call: Call)
    requires id in r.handlers && r.handlers[id](call) == Raised("")
    ensures Run(r, id, call) == PluginResult(false, None, Some("Plugin execution failed"))
  {
  }
}

=== FILE: pomodoro.dfy ===
/**
 * The Pomodoro timer of the focus mode (components/workspace/focus-mode.tsx): the one-second
 * tick, the work/break phase change when the countdown reaches 00:00, reset, the presets and
 * the `MM:SS` display.
 */
module Pomodoro {
  import opened Text

  datatype Mode = Work | Break

  datatype Timer = Timer(minutes: nat, seconds: nat, active: bool, mode: Mode, sessions: nat)

  function Initial(): Timer {
    Timer(25, 0, false, Work, 0)
  }

  /** The time left, in seconds. */
  function Remaining(t: Timer): nat {
    t.minutes * 60 + t.seconds
  }

  /** The displayed seconds field is a proper seconds count. */
  predicate Valid(t: Timer) {
    t.seconds < 60
  }

  /**
   * `handleTimerComplete`: the timer stops; a finished work phase counts a session and starts a
   * break (15 minutes after every fourth session, 5 otherwise); a finished break starts 25
   * minutes of work.
   */
  function Complete(t: Timer): (r: Timer)
    ensures !r.active && r.seconds == 0
    ensures t.mode == Work ==> r.mode == Break && r.sessions == t.sessions + 1
    ensures t.mode == Work ==> r.minutes == if r.sessions % 4 == 0 then 15 else 5
    ensures t.mode == Break ==> r.mode == Work && r.sessions == t.sessions && r.minutes == 25
  {
    match t.mode
    case Work =>
      var n := t.sessions + 1;
      Timer(if n % 4 == 0 then 15 else 5, 0, false, Break, n)
    case Break => Timer(25, 0, false, Work, t.sessions)
  }

  /** One firing of the interval; no interval runs while the timer is paused. */
  function Tick(t: Timer): (r: Timer)
    ensures !t.active ==> r == t
    ensures t.active && Remaining(t) > 0 ==>
      Remaining(r) + 1 == Remaining(t) && r.active && r.mode == t.mode && r.sessions == t.sessions
    ensures t.active && Remaining(t) == 0 ==> r == Complete(t)
    ensures Valid(t) ==> Valid(r)
  {
    if !t.active then t
    else if t.seconds == 0 then
      if t.minutes == 0 then Complete(t)
      else t.(minutes := t.minutes - 1, seconds := 59)
    else t.(seconds := t.seconds - 1)
  }

  /** `n` firings in a row. */
  function Ticks(t: Timer, n: nat): Timer
    decreases n
  {
    if n == 0 then t else Ticks(Tick(t), n - 1)
  }

  /** A running timer counts down one second per firing and reaches 00:00 in exactly that many. */
  lemma {:induction false} CountDown(t: Timer, n: nat)
    requires t.active && n <= Remaining(t)
    ensures Remaining(Ticks(t, n)) == Remaining(t) - n
    ensures Ticks(t, n).active && Ticks(t, n).mode == t.mode && Ticks(t, n).sessions == t.sessions
    decreases n
  {
    if n > 0 {
      CountDown(Tick(t), n - 1);
    }
  }

  /** The firing after the countdown has run out completes the phase. */
  lemma RunOut(t: Timer)
    requires t.active
    ensures Tick(Ticks(t, Remaining(t))) == Complete(Ticks(t, Remaining(t)))
  {
    CountDown(t, Remaining(t));
  }

  /** The start/pause button. */
  function Toggle(t: Timer): (r: Timer)
    ensures r.active != t.active && r.(active := t.active) == t
  {
    t.(active := !t.active)
  }

  /** `reset`: paused, work mode, 25:00; the session count is kept. */
  function Reset(t: Timer): (r: Timer)
    ensures !r.active && r.mode == Work && r.minutes == 25 && r.seconds == 0 && r.sessions == t.sessions
  {
    Timer(25, 0, false, Work, t.sessions)
  }

  datatype Preset = Focus25 | Focus15 | Break5

  /** The quick-preset buttons set the clock and the mode but leave running and sessions alone. */
  function ApplyPreset(t: Timer, p: Preset): (r: Timer)
    ensures r.seconds == 0 && r.active == t.active && r.sessions == t.sessions
    ensures p == Focus25 ==> r.minutes == 25 && r.mode == Work
    ensures p == Focus15 ==> r.minutes == 15 && r.mode == Work
    ensures p == Break5 ==> r.minutes == 5 && r.mode == Break
  {
    match p
    case Focus25 => t.(minutes := 25, seconds := 0, mode := Work)
    case Focus15 => t.(minutes := 15, seconds := 0, mode := Work)
    case Break5 => t.(minutes := 5, seconds := 0, mode := Break)
  }

  /** Four completed work phases in a row from a fresh count end in the long break. */
  lemma FourthWorkIsLongBreak(t: Timer)
    requires t.mode == Work && t.sessions % 4 == 3
    ensures Complete(t).minutes == 15
  {
  }

  lemma OtherWorkIsShortBreak(t: Timer)
    requires t.mode == Work && t.sessions % 4 != 3
    ensures Complete(t).minutes == 5
  {
  }

  /** Work and break alternate: completing twice returns to work with one more session. */
  lemma WorkBreakCycle(t: Timer)
    requires t.mode == Work
    ensures var r := Complete(Complete(t));
      r.mode == Work && r.minutes == 25 && r.sessions == t.sessions + 1
  {
  }

  // ----- display -----

  /** `formatTime`: both fields zero-padded to at least two digits, joined by a colon. */
  function FormatTime(minutes: nat, seconds: nat): (r: string)
    ensures minutes < 100 && seconds < 100 ==> |r| == 5 && r[2] == ':'
    ensures ':' in r
  {
    var text := PadStart(NatToString(minutes), 2, '0') + ":" + PadStart(NatToString(seconds), 2, '0');
    assert text[|PadStart(NatToString(minutes), 2, '0')|] == ':';
    text
  }

  /** `field` is a string of decimal digits whose value is `n`. */
  predicate ReadsAs(field: string, n: nat) {
    (forall i | 0 <= i < |field| :: IsDigit(field[i])) && DigitsValue(field) == n
  }

  /** A padded field is a digit string with the field's value. */
  lemma PaddedValue(n: nat)
    ensures ReadsAs(PadStart(NatToString(n), 2, '0'), n)
  {
    var s := NatToString(n);
    NatToStringValue(n);
    var k := if |s| >= 2 then 0 else 2 - |s|;
    assert PadStart(s, 2, '0') == Repeat('0', k) + s;
    DigitsValueZeros(k, s);
  }

  /**
   * The display can be read back: splitting at the colon gives two digit strings whose values
   * are the minutes and the seconds.
   */
  lemma FormatTimeReadsBack(minutes: nat, seconds: nat)
    ensures var parts := Split(FormatTime(minutes, seconds), ':');
      |parts| == 2 && ReadsAs(parts[0], minutes) && ReadsAs(parts[1], seconds)
  {
    var a := PadStart(NatToString(minutes), 2, '0');
    var b := PadStart(NatToString(seconds), 2, '0');
    PaddedValue(minutes);
    PaddedValue(seconds);
    assert ':' !in a by {
      forall i | 0 <= i < |a| ensures a[i] != ':' {
        assert IsDigit(a[i]);
      }
    }
    assert ':' !in b by {
      forall i | 0 <= i < |b| ensures b[i] != ':' {
        assert IsDigit(b[i]);
      }
    }
    assert FormatTime(minutes, seconds) == a + ":" + b;
    SplitAtColon(a, b);
  }

  lemma SplitAtColon(a: string, b: string)
    requires ':' !in a && ':' !in b
    ensures Split(a + ":" + b, ':') == [a, b]
  {
    assert a + ":" + b == a + [':'] + b;
    SplitLine(a, ':', b);
    SplitNoSep(b, ':');
  }
}

=== FILE: signup.dfy ===
/**
 * The sign-up form's submit handler (components/auth/signup-form.tsx): the two passwords must
 * match, then the password must have at least six characters, and only then is the account
 * created. The name is passed along unchecked.
 */
module Signup {

  datatype Submission = Submission(name: string, email: string, password: string, confirm: string)

  /** What one submit does: an error toast, or exactly one `signUp(email, password, name)` call. */
  datatype Outcome = Rejected(message: string) | SignUpCalled(email: string, password: string, name: string)

  const MinLength: nat := 6

  function Submit(s: Submission): (r: Outcome)
    ensures s.password != s.confirm ==> r == Rejected("Passwords do not match")
    ensures s.password == s.confirm && |s.password| < MinLength ==> r == Rejected("Password must be at least 6 characters")
    ensures r.SignUpCalled? ==> r == SignUpCalled(s.email, s.password, s.name)
  {
    if s.password != s.confirm then Rejected("Passwords do not match")
    else if |s.password| < MinLength then Rejected("Password must be at least 6 characters")
    else SignUpCalled(s.email, s.password, s.name)
  }

  /** The account is created exactly when the passwords match and are long enough. */
  lemma SignUpIff(s: Submission)
    ensures Submit(s).SignUpCalled? <==> s.password == s.confirm && |s.password| >= MinLength
  {
  }

  /** The mismatch check comes first: a short password that does not match reports the mismatch. */
  lemma MismatchReportedFirst(s: Submission)
    requires s.password != s.confirm && |s.password| < MinLength
    ensures Submit(s) == Rejected("Passwords do not match")
  {
  }

  /** The name plays no part in the decision; an empty name is accepted. */
  lemma NameNotValidated(s: Submission, name: string)
    ensures Submit(s.(name := name)).SignUpCalled? <==> Submit(s).SignUpCalled?
    ensures Submit(s).SignUpCalled? ==> Submit(s.(name := "")) == SignUpCalled(s.email, s.password, "")
  {
  }
}

=== FILE: stream.dfy ===
/**
 * The shape every streaming adapter shares: the upstream response is a sequence of text parts,
 * each complete line is handed to a per-protocol line handler, and the async generator becomes
 * the finite sequence of chunks it yields, plus the error it throws, if any.
 *
 * Two read loops occur in the application. The buffered loop (OpenAI, Anthropic, LM Studio)
 * keeps the text after the last line break of each read and prepends it to the next read; the
 * unbuffered loop (Ollama, and the chat panel) splits every read on its own.
 */
module Stream {
  import opened Wrappers
  import opened Text
  import opened AITypes
  import opened Json

  /** What an async generator produced: the chunks it yielded, then possibly what it threw. */
  datatype Gen = Gen(chunks: seq<Chunk>, thrown: Option<string>)

  /**
   * The upstream HTTP response: whether it was 2xx, the body text used in the error message
   * otherwise, the reads of the body in order, and the error a read raised after them, if any.
   */
  datatype Upstream = Upstream(ok: bool, errorBody: string, parts: seq<string>, failure: Option<string>)

  /** What handling one line produced, and whether the generator returns right after it. */
  datatype Step = Step(out: seq<Chunk>, stop: bool)

  /** Hands each line to `h` in order, stopping after the first line whose step stops. */
  function RunLines(lines: seq<string>, h: string -> Step): (r: Step)
    ensures |lines| == 0 ==> r == Step([], false)
    decreases |lines|
  {
    if |lines| == 0 then Step([], false)
    else
      var s := h(lines[0]);
      if s.stop then s
      else
        var t := RunLines(lines[1..], h);
        Step(s.out + t.out, t.stop)
  }

  /** Handling two runs of lines one after the other is handling their concatenation. */
  lemma {:induction false} RunLinesAppend(a: seq<string>, b: seq<string>, h: string -> Step)
    ensures RunLines(a + b, h) ==
      var ra := RunLines(a, h);
      if ra.stop then ra else Step(ra.out + RunLines(b, h).out, RunLines(b, h).stop)
    decreases |a|
  {
    if |a| == 0 {
      assert a + b == b;
    } else {
      assert (a + b)[0] == a[0];
      assert (a + b)[1..] == a[1..] + b;
      RunLinesAppend(a[1..], b, h);
    }
  }

  /**
   * What the generator does when the body ends: a normal end yields one terminal chunk, a
   * failing read makes it throw.
   */
  function EndOfReads(failure: Option<string>): (g: Gen)
    ensures failure.None? ==> g == Gen([DoneChunk], None)
    ensures failure.Some? ==> g == Gen([], failure)
  {
    if failure.None? then Gen([DoneChunk], None) else Gen([], failure)
  }

  /** Continues a generator: `first` is emitted, and `rest` runs after it unless it stopped. */
  function Then(first: Step, rest: Gen): Gen {
    if first.stop then Gen(first.out, None) else Gen(first.out + rest.chunks, rest.thrown)
  }

  /**
   * The buffered read loop. Each read is appended to the buffer, the complete lines are
   * handled, and the unterminated tail becomes the new buffer; whatever is still in the buffer
   * when the body ends is dropped.
   */
  function Buffered(buffer: string, parts: seq<string>, h: string -> Step, failure: Option<string>): (g: Gen)
    decreases |parts|
  {
    if |parts| == 0 then EndOfReads(failure)
    else
      var lines := Split(buffer + parts[0], '\n');
      Then(RunLines(Init(lines), h), Buffered(Last(lines), parts[1..], h, failure))
  }

  /** The reference decoder: every complete line of the whole body handled in one pass. */
  function Whole(body: string, h: string -> Step, failure: Option<string>): Gen {
    Then(RunLines(Init(Split(body, '\n')), h), EndOfReads(failure))
  }

  /**
   * The buffered loop handles exactly the complete lines of the concatenated body, each once,
   * whatever the read boundaries: the carry-over buffer is what makes this hold.
   */
  lemma {:induction false} BufferedIsWhole(buffer: string, parts: seq<string>, h: string -> Step, failure: Option<string>)
    requires '\n' !in buffer
    ensures Buffered(buffer, parts, h, failure) == Whole(buffer + Concat(parts), h, failure)
    decreases |parts|
  {
    if |parts| == 0 {
      assert buffer + Concat(parts) == buffer;
      SplitNoSep(buffer, '\n');
    } else {
      var lines := Split(buffer + parts[0], '\n');
      var rest := Concat(parts[1..]);
      assert buffer + Concat(parts) == (buffer + parts[0]) + rest;
      WholeStep(buffer + parts[0], rest, h, failure);
      SplitPiecesFree(buffer + parts[0], '\n');
      assert '\n' !in Last(lines);
      BufferedIsWhole(Last(lines), parts[1..], h, failure);
    }
  }

  /** Decoding a body is handling the complete lines of a first piece, then decoding the rest. */
  lemma WholeStep(s: string, rest: string, h: string -> Step, failure: Option<string>)
    ensures var lines := Split(s, '\n');
      Whole(s + rest, h, failure) == Then(RunLines(Init(lines), h), Whole(Last(lines) + rest, h, failure))
  {
    var lines := Split(s, '\n');
    var tail := Split(Last(lines) + rest, '\n');
    SplitAppend(s, rest, '\n');
    InitAppend(Init(lines), tail);
    RunLinesAppend(Init(lines), Init(tail), h);
    ThenAppend(RunLines(Init(lines), h), RunLines(Init(tail), h), EndOfReads(failure));
  }

  /** Hence two ways of cutting the same body into parts decode identically. */
  lemma BufferedSplitInvariant(p1: seq<string>, p2: seq<string>, h: string -> Step, failure: Option<string>)
    requires Concat(p1) == Concat(p2)
    ensures Buffered("", p1, h, failure) == Buffered("", p2, h, failure)
  {
    BufferedIsWhole("", p1, h, failure);
    BufferedIsWhole("", p2, h, failure);
  }

  /** The unbuffered read loop: each read is split on its own and its blank lines dropped. */
  function Unbuffered(parts: seq<string>, h: string -> Step, failure: Option<string>): (g: Gen)
    decreases |parts|
  {
    if |parts| == 0 then EndOfReads(failure)
    else Then(RunLines(NonBlank(Split(parts[0], '\n')), h), Unbuffered(parts[1..], h, failure))
  }

  /** The reference for the unbuffered loop: every non-blank line of the whole body, in order. */
  function WholeNonBlank(body: string, h: string -> Step, failure: Option<string>): Gen {
    Then(RunLines(NonBlank(Split(body, '\n')), h), EndOfReads(failure))
  }

  /** Handling `a` and then `b` before `rest` is handling the combined step before `rest`. */
  lemma ThenAppend(a: Step, b: Step, rest: Gen)
    ensures Then(a, Then(b, rest)) ==
      Then(if a.stop then a else Step(a.out + b.out, b.stop), rest)
  {
    if !a.stop && !b.stop {
      assert a.out + (b.out + rest.chunks) == (a.out + b.out) + rest.chunks;
    }
  }

  /** Every read ends with a line break, so no line straddles two parts. */
  predicate LineAligned(parts: seq<string>) {
    forall i | 0 <= i < |parts| :: EndsWith(parts[i], "\n")
  }

  /** A string ending in a line break leaves an empty last piece. */
  lemma SplitEndsWithBreak(s: string)
    requires EndsWith(s, "\n")
    ensures Last(Split(s, '\n')) == ""
  {
    var p := s[..|s| - 1];
    assert s == p + "\n";
    SplitAppend(p, "\n", '\n');
    assert Split("\n", '\n') == ["", ""];
    SplitLastAppend(p, "\n");
  }

  /** The last piece of a split of `a + b` is the last piece of splitting the glued tail. */
  lemma SplitLastAppend(a: string, b: string)
    ensures Last(Split(a + b, '\n')) == Last(Split(Last(Split(a, '\n')) + b, '\n'))
  {
    SplitAppend(a, b, '\n');
  }

  /** When parts are line-aligned, the unbuffered loop loses nothing. */
  lemma {:induction false} UnbufferedAligned(parts: seq<string>, h: string -> Step, failure: Option<string>)
    requires LineAligned(parts)
    ensures Unbuffered(parts, h, failure) == WholeNonBlank(Concat(parts), h, failure)
    decreases |parts|
  {
    if |parts| == 0 {
      assert Split("", '\n') == [""];
      assert IsBlank("");
    } else {
      var r0, rest := parts[0], Concat(parts[1..]);
      assert LineAligned(parts[1..]) by {
        forall i | 0 <= i < |parts[1..]| ensures EndsWith(parts[1..][i], "\n") {
          assert parts[1..][i] == parts[i + 1];
        }
      }
      UnbufferedAligned(parts[1..], h, failure);
      assert Concat(parts) == r0 + rest;
      NonBlankAligned(r0, rest);
      var a, b := NonBlank(Split(r0, '\n')), NonBlank(Split(rest, '\n'));
      RunLinesAppend(a, b, h);
      ThenAppend(RunLines(a, h), RunLines(b, h), EndOfReads(failure));
    }
  }

  /** After a read that ends with a line break, the next read's lines start afresh. */
  lemma NonBlankAligned(r0: string, rest: string)
    requires EndsWith(r0, "\n")
    ensures NonBlank(Split(r0 + rest, '\n')) == NonBlank(Split(r0, '\n')) + NonBlank(Split(rest, '\n'))
  {
    var p := Split(r0, '\n');
    assert Split(r0 + rest, '\n') == Init(p) + Split(rest, '\n') by {
      SplitEndsWithBreak(r0);
      SplitAppend(r0, rest, '\n');
      assert Last(p) + rest == rest;
    }
    NonBlankComplete(r0);
    NonBlankAppend(Init(p), Split(rest, '\n'));
  }

  // ----- well-formed generator output -----

  /** A line handler preceded by the blank-line filter `line => line.trim()`. */
  function SkipBlank(h: string -> Step): string -> Step {
    line => if IsBlank(line) then Step([], false) else h(line)
  }

  /** Skipping blank lines in the handler is filtering them out beforehand. */
  lemma {:induction false} RunLinesSkipBlank(lines: seq<string>, h: string -> Step)
    ensures RunLines(lines, SkipBlank(h)) == RunLines(NonBlank(lines), h)
    decreases |lines|
  {
    if |lines| > 0 {
      RunLinesSkipBlank(lines[1..], h);
    }
  }

  /** Line-aligned reads concatenate to a body that is empty or ends with a line break. */
  lemma {:induction false} ConcatAligned(parts: seq<string>)
    requires LineAligned(parts)
    ensures Concat(parts) == "" || EndsWith(Concat(parts), "\n")
    decreases |parts|
  {
    if |parts| > 0 {
      assert LineAligned(parts[1..]) by {
        forall i | 0 <= i < |parts[1..]| ensures EndsWith(parts[1..][i], "\n") {
          assert parts[1..][i] == parts[i + 1];
        }
      }
      ConcatAligned(parts[1..]);
      var r := Concat(parts[1..]);
      assert EndsWith(parts[0], "\n");
      if r != "" {
        assert (parts[0] + r)[|parts[0] + r| - 1] == r[|r| - 1];
      } else {
        assert parts[0] + r == parts[0];
      }
    }
  }

  /**
   * On line-aligned reads the per-read decoder and the carry-over decoder (with the same
   * blank-line filter) handle the same lines.
   */
  lemma BufferedAgreesUnbuffered(parts: seq<string>, h: string -> Step, failure: Option<string>)
    requires LineAligned(parts)
    ensures Buffered("", parts, SkipBlank(h), failure) == Unbuffered(parts, h, failure)
  {
    var body := Concat(parts);
    UnbufferedAligned(parts, h, failure);
    BufferedIsWhole("", parts, SkipBlank(h), failure);
    assert "" + body == body;
    ConcatAligned(parts);
    NonBlankComplete(body);
    RunLinesSkipBlank(Init(Split(body, '\n')), h);
  }

  /** The empty tail of a body of complete lines is blank, so dropping it changes nothing. */
  lemma NonBlankComplete(body: string)
    requires body == "" || EndsWith(body, "\n")
    ensures NonBlank(Split(body, '\n')) == NonBlank(Init(Split(body, '\n')))
  {
    var p := Split(body, '\n');
    SplitComplete(body);
    assert p == Init(p) + [""];
    NonBlankAppend(Init(p), [""]);
    assert NonBlank([""]) == [] by {
      assert IsBlank("");
    }
  }

  /**
   * What every adapter's stream promises: deltas are non-empty and not terminal, and unless the
   * generator threw, it ends with exactly one terminal chunk.
   */
  predicate WellFormed(g: Gen) {
    (forall i | 0 <= i < |g.chunks| :: g.chunks[i].error.None?)
    && (forall i | 0 <= i < |g.chunks| :: !g.chunks[i].done ==> g.chunks[i].content != "")
    && (g.thrown.None? ==> |g.chunks| > 0 && g.chunks[|g.chunks| - 1] == DoneChunk)
    && (forall i | 0 <= i < |g.chunks| - 1 :: !g.chunks[i].done)
    && (g.thrown.Some? ==> forall i | 0 <= i < |g.chunks| :: !g.chunks[i].done)
  }

  /** Only non-empty deltas, with nothing after a terminal chunk, and one when it stops. */
  predicate GoodStep(s: Step) {
    (forall i | 0 <= i < |s.out| :: s.out[i] == DoneChunk || (s.out[i] == Delta(s.out[i].content) && s.out[i].content != ""))
    && (forall i | 0 <= i < |s.out| - 1 :: !s.out[i].done)
    && (s.stop <==> (|s.out| > 0 && s.out[|s.out| - 1].done))
  }

  /** A handler that only produces good steps. */
  ghost predicate GoodHandler(h: string -> Step) {
    forall line :: GoodStep(h(line))
  }

  lemma {:induction false} RunLinesGood(lines: seq<string>, h: string -> Step)
    requires GoodHandler(h)
    ensures GoodStep(RunLines(lines, h))
    decreases |lines|
  {
    if |lines| > 0 {
      var s := h(lines[0]);
      assert GoodStep(s);
      if !s.stop {
        RunLinesGood(lines[1..], h);
        var t := RunLines(lines[1..], h);
        var o := s.out + t.out;
        forall i | 0 <= i < |o| - 1 ensures !o[i].done {
          if i >= |s.out| { assert o[i] == t.out[i - |s.out|]; }
        }
        forall i | 0 <= i < |o| ensures o[i] == DoneChunk || (o[i] == Delta(o[i].content) && o[i].content != "") {
          if i >= |s.out| { assert o[i] == t.out[i - |s.out|]; }
        }
        if |t.out| > 0 {
          assert o[|o| - 1] == t.out[|t.out| - 1];
        }
      }
    }
  }

  lemma ThenWellFormed(first: Step, rest: Gen)
    requires GoodStep(first) && WellFormed(rest)
    ensures WellFormed(Then(first, rest))
  {
    var g := Then(first, rest);
    if !first.stop {
      var o := g.chunks;
      assert o == first.out + rest.chunks;
      forall i | 0 <= i < |o| ensures o[i].error.None? && (!o[i].done ==> o[i].content != "") {
        if i >= |first.out| { assert o[i] == rest.chunks[i - |first.out|]; }
      }
      forall i | 0 <= i < |o| - 1 ensures !o[i].done {
        if i >= |first.out| { assert o[i] == rest.chunks[i - |first.out|]; }
      }
      if g.thrown.Some? {
        forall i | 0 <= i < |o| ensures !o[i].done {
          if i >= |first.out| { assert o[i] == rest.chunks[i - |first.out|]; }
        }
      }
    }
  }

  /** The buffered loop over a good handler yields a well-formed stream. */
  lemma {:induction false} BufferedWellFormed(buffer: string, parts: seq<string>, h: string -> Step, failure: Option<string>)
    requires GoodHandler(h)
    ensures WellFormed(Buffered(buffer, parts, h, failure))
    decreases |parts|
  {
    if |parts| > 0 {
      var lines := Split(buffer + parts[0], '\n');
      RunLinesGood(Init(lines), h);
      BufferedWellFormed(Last(lines), parts[1..], h, failure);
      ThenWellFormed(RunLines(Init(lines), h), Buffered(Last(lines), parts[1..], h, failure));
    }
  }

  /** The unbuffered loop over a good handler yields a well-formed stream. */
  lemma {:induction false} UnbufferedWellFormed(parts: seq<string>, h: string -> Step, failure: Option<string>)
    requires GoodHandler(h)
    ensures WellFormed(Unbuffered(parts, h, failure))
    decreases |parts|
  {
    if |parts| > 0 {
      RunLinesGood(NonBlank(Split(parts[0], '\n')), h);
      UnbufferedWellFormed(parts[1..], h, failure);
      ThenWellFormed(RunLines(NonBlank(Split(parts[0], '\n')), h), Unbuffered(parts[1..], h, failure));
    }
  }

  // ----- Server-Sent Events lines (OpenAI, Anthropic, LM Studio) -----

  /** The prefix of an SSE data line; the payload is what follows its six characters. */
  const DataPrefix := "data: "

  /** The payload that ends a stream. */
  const DoneMarker := "[DONE]"

  /**
   * One SSE line: only `data: ` lines count; `[DONE]` ends the stream; a payload that does not
   * parse is skipped; otherwise the delta text `delta` extracts is yielded when non-empty.
   */
  function SseLine(parse: string -> Option<Json>, delta: Json -> string, line: string): (s: Step)
    ensures !StartsWith(line, DataPrefix) ==> s == Step([], false)
    ensures StartsWith(line, DataPrefix) && line[6..] == DoneMarker ==> s == Step([DoneChunk], true)
    ensures StartsWith(line, DataPrefix) && line[6..] != DoneMarker ==>
      (parse(line[6..]).Some? && delta(parse(line[6..]).value) != "" ==>
         s == Step([Delta(delta(parse(line[6..]).value))], false)) &&
      (parse(line[6..]).None? || delta(parse(line[6..]).value) == "" ==> s == Step([], false))
    ensures s.out != [] && !s.stop ==> s == Step([Delta(s.out[0].content)], false)
    ensures s.out != [] && !s.stop ==>
      StartsWith(line, DataPrefix) && parse(line[6..]).Some? && s.out[0].content == delta(parse(line[6..]).value)
  {
    if !StartsWith(line, DataPrefix) then Step([], false)
    else
      var payload := line[6..];
      if payload == DoneMarker then Step([DoneChunk], true)
      else
        match parse(payload)
        case None => Step([], false)
        case Some(j) => if delta(j) == "" then Step([], false) else Step([Delta(delta(j))], false)
  }

  /** The SSE line handler is good: at most one non-empty delta, or the terminal chunk. */
  lemma SseLineGood(parse: string -> Option<Json>, delta: Json -> string)
    ensures GoodHandler(line => SseLine(parse, delta, line))
  {
  }

  /** A line that stops the stream makes every later line irrelevant. */
  lemma {:induction false} RunLinesStop(a: seq<string>, l: string, b: seq<string>, h: string -> Step)
    requires h(l).stop
    ensures RunLines(a + [l] + b, h) == RunLines(a + [l], h)
    ensures RunLines(a + [l], h).stop
    decreases |a|
  {
    if |a| == 0 {
      assert a + [l] + b == [l] + b;
      assert a + [l] == [l];
    } else {
      assert (a + [l] + b)[1..] == a[1..] + [l] + b;
      assert (a + [l])[1..] == a[1..] + [l];
      RunLinesStop(a[1..], l, b, h);
    }
  }

  /** A text that is empty or ends with a line break splits into its lines and an empty tail. */
  lemma SplitComplete(pre: string)
    requires pre == "" || EndsWith(pre, "\n")
    ensures Last(Split(pre, '\n')) == ""
  {
    if pre != "" {
      SplitEndsWithBreak(pre);
    }
  }

  /** Splitting complete lines, a further line `l`, and any rest. */
  lemma SplitAtLine(pre: string, l: string, t: string)
    requires pre == "" || EndsWith(pre, "\n")
    requires '\n' !in l
    ensures Init(Split(pre + l + "\n" + t, '\n')) == Init(Split(pre, '\n')) + [l] + Init(Split(t, '\n'))
  {
    var p, q := Split(pre, '\n'), Split(t, '\n');
    var rest := l + "\n" + t;
    assert Split(pre + l + "\n" + t, '\n') == Init(p) + ([l] + q) by {
      assert pre + l + "\n" + t == pre + rest;
      SplitAppend(pre, rest, '\n');
      assert Last(p) + rest == l + ['\n'] + t by {
        SplitComplete(pre);
      }
      SplitLine(l, '\n', t);
    }
    InitAppend(Init(p), [l] + q);
    InitAppend([l], q);
  }

  /**
   * Once a complete line stops the stream, nothing after it matters: neither the rest of the
   * body nor how the body ends.
   */
  lemma WholeStopsAt(pre: string, l: string, t1: string, t2: string, h: string -> Step,
                     f1: Option<string>, f2: Option<string>)
    requires pre == "" || EndsWith(pre, "\n")
    requires '\n' !in l && h(l).stop
    ensures Whole(pre + l + "\n" + t1, h, f1) == Whole(pre + l + "\n" + t2, h, f2)
    ensures Whole(pre + l + "\n" + t1, h, f1).thrown.None?
  {
    var a := Init(Split(pre, '\n'));
    SplitAtLine(pre, l, t1);
    SplitAtLine(pre, l, t2);
    RunLinesStop(a, l, Init(Split(t1, '\n')), h);
    RunLinesStop(a, l, Init(Split(t2, '\n')), h);
  }

  /** An unterminated last line is discarded: it is never handed to the line handler. */
  lemma WholeDropsTail(pre: string, tail: string, h: string -> Step, f: Option<string>)
    requires pre == "" || EndsWith(pre, "\n")
    requires '\n' !in tail
    ensures Whole(pre + tail, h, f) == Whole(pre, h, f)
  {
    SplitComplete(pre);
    SplitAppend(pre, tail, '\n');
    SplitNoSep(Last(Split(pre, '\n')) + tail, '\n');
    assert Init(Split(pre + tail, '\n')) == Init(Split(pre, '\n')) + [];
  }
}

=== FILE: terminal.dfy ===
/**
 * The simulated terminal (components/workspace/terminal.tsx): command execution with the
 * built-in commands and the canned npm/git replies, the command-history navigation of the
 * arrow keys, and the tabbed sessions.
 *
 * Session ids are the strings `String(n)` of the source; they are modelled by the numbers `n`,
 * which is faithful because decimal rendering is injective (`Text.NatToStringValue`).
 */
module Terminal {
  import opened Wrappers
  import opened Text

  datatype EntryKind = InputEntry | OutputEntry | ErrorEntry

  /** One line of a session's scroll-back. */
  datatype Entry = Entry(kind: EntryKind, content: string)

  datatype Session = Session(id: nat, name: string, history: seq<Entry>, cwd: string)

  /**
   * The component state: the tabs, the active tab's id, the input box, the commands entered
   * so far and the position of the history cursor (-1 when not browsing).
   */
  datatype Shell = Shell(sessions: seq<Session>, active: nat, input: string, commands: seq<string>, index: int)

  /** The optional `onCommand` prop: its reply, or the message of the error it throws. */
  type Handler = string -> Result<string>

  const Rocket := "\U{1F680}"
  const Tick := "\U{2713}"

  function Initial(): Shell {
    Shell([Session(1, "Terminal 1",
                   [Entry(OutputEntry, "Welcome to Freely Terminal! " + Rocket),
                    Entry(OutputEntry, "Type \"help\" for available commands.\n")], "~")],
          1, "", [], -1)
  }

  // ----- per-session updates of the active tab -----

  /** `prev.map(s => s.id === activeSessionId ? {...} : s)` appending one entry. */
  function AppendEntry(sessions: seq<Session>, active: nat, e: Entry): (r: seq<Session>)
    ensures |r| == |sessions|
    ensures forall i | 0 <= i < |r| && sessions[i].id == active :: r[i] == sessions[i].(history := sessions[i].history + [e])
    ensures forall i | 0 <= i < |r| && sessions[i].id != active :: r[i] == sessions[i]
  {
    seq(|sessions|, i requires 0 <= i < |sessions| =>
      if sessions[i].id == active then sessions[i].(history := sessions[i].history + [e]) else sessions[i])
  }

  /** The echoed input line, built from each matching tab's own working directory. */
  function AppendInput(sessions: seq<Session>, active: nat, trimmed: string): (r: seq<Session>)
    ensures |r| == |sessions|
    ensures forall i | 0 <= i < |r| && sessions[i].id == active ::
              r[i] == sessions[i].(history := sessions[i].history + [Entry(InputEntry, sessions[i].cwd + " $ " + trimmed)])
    ensures forall i | 0 <= i < |r| && sessions[i].id != active :: r[i] == sessions[i]
  {
    seq(|sessions|, i requires 0 <= i < |sessions| =>
      if sessions[i].id == active
      then sessions[i].(history := sessions[i].history + [Entry(InputEntry, sessions[i].cwd + " $ " + trimmed)])
      else sessions[i])
  }

  /** What `clear` and Ctrl+L do: empty the scroll-back of the active tab. */
  function ClearHistory(sessions: seq<Session>, active: nat): (r: seq<Session>)
    ensures |r| == |sessions|
    ensures forall i | 0 <= i < |r| && sessions[i].id == active :: r[i] == sessions[i].(history := [])
    ensures forall i | 0 <= i < |r| && sessions[i].id != active :: r[i] == sessions[i]
  {
    seq(|sessions|, i requires 0 <= i < |sessions| =>
      if sessions[i].id == active then sessions[i].(history := []) else sessions[i])
  }

  /** What `cd` does: move the active tab. */
  function SetCwd(sessions: seq<Session>, active: nat, dir: string): (r: seq<Session>)
    ensures |r| == |sessions|
    ensures forall i | 0 <= i < |r| && sessions[i].id == active :: r[i] == sessions[i].(cwd := dir)
    ensures forall i | 0 <= i < |r| && sessions[i].id != active :: r[i] == sessions[i]
  {
    seq(|sessions|, i requires 0 <= i < |sessions| =>
      if sessions[i].id == active then sessions[i].(cwd := dir) else sessions[i])
  }

  /** `sessions.find(s => s.id === activeSessionId)`. */
  function Find(sessions: seq<Session>, id: nat): (r: Option<Session>)
    ensures r.None? <==> forall i | 0 <= i < |sessions| :: sessions[i].id != id
    ensures r.Some? ==> r.value.id == id
    ensures r.Some? ==> exists i | 0 <= i < |sessions| :: FirstWithId(sessions, id, i) && sessions[i] == r.value
    decreases |sessions|
  {
    if |sessions| == 0 then None
    else if sessions[0].id == id then Some(sessions[0])
    else
      var r := Find(sessions[1..], id);
      if r.Some? then
        var k :| 0 <= k < |sessions[1..]| && FirstWithId(sessions[1..], id, k) && sessions[1..][k] == r.value;
        FirstWithIdCons(sessions, id, k);
        r
      else r
  }

  /** Position `i` holds the first tab with the id. */
  predicate FirstWithId(sessions: seq<Session>, id: nat, i: nat)
    requires i < |sessions|
  {
    sessions[i].id == id && forall j | 0 <= j < i :: sessions[j].id != id
  }

  lemma FirstWithIdCons(sessions: seq<Session>, id: nat, k: nat)
    requires |sessions| > 0 && sessions[0].id != id
    requires k < |sessions| - 1 && FirstWithId(sessions[1..], id, k)
    ensures FirstWithId(sessions, id, k + 1)
  {
    forall j | 1 <= j < k + 1 ensures sessions[j].id != id {
      assert sessions[j] == sessions[1..][j - 1];
    }
  }

  /** `activeSession?.currentDirectory || '~'`, as `pwd` and the prompt show it. */
  function Pwd(t: Shell): (r: string)
    ensures r != ""
  {
    match Find(t.sessions, t.active)
    case Some(s) => if s.cwd != "" then s.cwd else "~"
    case None => "~"
  }

  // ----- replies -----

  /** What a command does to the active tab besides printing. */
  datatype Effect = Keep | Wipe | MoveTo(dir: string)

  datatype Reply = Reply(output: string, isError: bool, effect: Effect)

  /** `args[i]`, undefined past the end. */
  function Arg(args: seq<string>, i: nat): Option<string> {
    if i < |args| then Some(args[i]) else None
  }

  /** An argument interpolated into a template literal. */
  function Shown(a: Option<string>): string {
    match a
    case Some(s) => s
    case None => "undefined"
  }

  /** The keys of the `builtInCommands` table. */
  datatype BuiltInCommand = Help | Clear | Echo | PrintDir | ListFiles | ChangeDir

  /** `builtInCommands[command]`: the built-in a command word names, if any. */
  function Lookup(command: string): (r: Option<BuiltInCommand>)
    ensures r.Some? <==> command in {"help", "clear", "echo", "pwd", "ls", "cd"}
    ensures r == Some(Clear) <==> command == "clear"
    ensures r == Some(Echo) <==> command == "echo"
    ensures r == Some(ChangeDir) <==> command == "cd"
  {
    match command
    case "help" => Some(Help)
    case "clear" => Some(Clear)
    case "echo" => Some(Echo)
    case "pwd" => Some(PrintDir)
    case "ls" => Some(ListFiles)
    case "cd" => Some(ChangeDir)
    case _ => None
  }

  predicate IsBuiltIn(command: string) {
    Lookup(command).Some?
  }

  function HelpText(): string {
    "\nAvailable commands:\n" +
    "  help              Show this help message\n" +
    "  clear             Clear terminal\n" +
    "  echo <message>    Print a message\n" +
    "  pwd               Print working directory\n" +
    "  ls                List files\n" +
    "  cd <dir>          Change directory\n" +
    "  npm install       Install dependencies\n" +
    "  npm run dev       Start development server\n" +
    "  npm run build     Build project\n" +
    "  git status        Show git status\n" +
    "  git add .         Stage all changes\n" +
    "  git commit -m     Commit changes\n" +
    "\nType any command to execute it."
  }

  function ListingText(): string {
    "\nindex.html\nstyles.css\nscript.js\npackage.json\nREADME.md"
  }

  /**
   * The fixed texts the terminal prints: the help and `ls` screens and the canned npm and git
   * replies. Properties are stated for any texts; the source's are `SourceTexts()`.
   */
  datatype Texts = Texts(
    help: string, listing: string, installed: string, devServer: string, built: string,
    gitStatus: string, staged: string, committed: string)

  function SourceTexts(): Texts {
    Texts(
      HelpText(), ListingText(),
      "Installing dependencies...\n" + Tick + " Dependencies installed successfully!",
      "> freely@1.0.0 dev\n> next dev\n\n" + Tick + " Ready on http://localhost:3000",
      "> freely@1.0.0 build\n> next build\n\n" + Tick + " Compiled successfully!",
      "On branch main\nYour branch is up to date with 'origin/main'.\n\nnothing to commit, working tree clean",
      Tick + " Changes staged",
      Tick + " Commit created successfully")
  }

  /** The `builtInCommands` handlers; `pwd` is the directory the prompt shows. */
  function BuiltIn(texts: Texts, c: BuiltInCommand, args: seq<string>, pwd: string): (r: Reply)
    ensures !r.isError
    ensures r.effect == Wipe <==> c == Clear
    ensures r.effect.MoveTo? <==> c == ChangeDir
    ensures c == ChangeDir ==> r.effect.dir == if |args| > 0 && args[0] != "" then args[0] else "~"
    ensures c in {Clear, ChangeDir} ==> r.output == ""
    ensures c == Echo ==> r.output == Join(args, " ")
    ensures c == PrintDir ==> r.output == pwd
  {
    match c
    case Help => Reply(texts.help, false, Keep)
    case Clear => Reply("", false, Wipe)
    case Echo => Reply(Join(args, " "), false, Keep)
    case PrintDir => Reply(pwd, false, Keep)
    case ListFiles => Reply(texts.listing, false, Keep)
    case ChangeDir => Reply("", false, MoveTo(if Arg(args, 0).GetOr("") != "" then args[0] else "~"))
  }

  /** The canned `npm` replies: `install`, `run dev` and `run build`; any other script is an error. */
  function NpmReply(texts: Texts, args: seq<string>): (r: Reply)
    ensures r.effect == Keep
    ensures r.isError <==>
      Arg(args, 0) != Some("install") && (Arg(args, 0) != Some("run") || Arg(args, 1) !in {Some("dev"), Some("build")})
    ensures Arg(args, 0) == Some("run") && Arg(args, 1) !in {Some("dev"), Some("build")} ==>
      r.output == "Script \"" + Shown(Arg(args, 1)) + "\" not found"
    ensures Arg(args, 0) !in {Some("install"), Some("run")} ==> r == NotFound("npm")
  {
    if Arg(args, 0) == Some("install") then Reply(texts.installed, false, Keep)
    else if Arg(args, 0) == Some("run") then
      if Arg(args, 1) == Some("dev") then Reply(texts.devServer, false, Keep)
      else if Arg(args, 1) == Some("build") then Reply(texts.built, false, Keep)
      else Reply("Script \"" + Shown(Arg(args, 1)) + "\" not found", true, Keep)
    else NotFound("npm")
  }

  /** The canned `git` replies: `status`, `add` and `commit`; any other verb is an error. */
  function GitReply(texts: Texts, args: seq<string>): (r: Reply)
    ensures r.effect == Keep
    ensures r.isError <==> Arg(args, 0) !in {Some("status"), Some("add"), Some("commit")}
    ensures r.isError ==> r.output == "git: '" + Shown(Arg(args, 0)) + "' is not a git command. See 'git --help'."
  {
    if Arg(args, 0) == Some("status") then Reply(texts.gitStatus, false, Keep)
    else if Arg(args, 0) == Some("add") then Reply(texts.staged, false, Keep)
    else if Arg(args, 0) == Some("commit") then Reply(texts.committed, false, Keep)
    else Reply("git: '" + Shown(Arg(args, 0)) + "' is not a git command. See 'git --help'.", true, Keep)
  }

  /** The reply for an unknown command. */
  function NotFound(command: string): (r: Reply)
    ensures r.isError && r.effect == Keep && StartsWith(r.output, "Command not found: " + command)
  {
    var r := "Command not found: " + command + "\nType \"help\" for available commands.";
    assert r[..|"Command not found: " + command|] == "Command not found: " + command;
    Reply(r, true, Keep)
  }

  /** The canned replies used when there is no `onCommand` prop. */
  function Simulated(texts: Texts, command: string, args: seq<string>): (r: Reply)
    ensures r.effect == Keep
    ensures command == "npm" ==> r == NpmReply(texts, args)
    ensures command == "git" ==> r == GitReply(texts, args)
    ensures command != "npm" && command != "git" ==> r == NotFound(command)
  {
    if command == "npm" then NpmReply(texts, args)
    else if command == "git" then GitReply(texts, args)
    else NotFound(command)
  }

  /** The reply to a trimmed command line: built-ins first, then `onCommand`, then the canned replies. */
  function Respond(texts: Texts, trimmed: string, pwd: string, handler: Option<Handler>): (r: Reply)
    ensures var parts := Split(trimmed, ' ');
      IsBuiltIn(parts[0]) ==> r == BuiltIn(texts, Lookup(parts[0]).value, parts[1..], pwd)
    ensures var parts := Split(trimmed, ' ');
      !IsBuiltIn(parts[0]) && handler.None? ==> r == Simulated(texts, parts[0], parts[1..])
    ensures var parts := Split(trimmed, ' ');
      !IsBuiltIn(parts[0]) && handler.Some? ==> r == Answer(handler.value(trimmed))
  {
    var parts := Split(trimmed, ' ');
    var command, args := parts[0], parts[1..];
    if IsBuiltIn(command) then BuiltIn(texts, Lookup(command).value, args, pwd)
    else if handler.Some? then Answer(handler.value(trimmed))
    else Simulated(texts, command, args)
  }

  /** The reply `onCommand` gives: its text, or `Error: <message>` typed as an error when it throws. */
  function Answer(outcome: Result<string>): (r: Reply)
    ensures r.effect == Keep && r.isError == outcome.Failure?
    ensures outcome.Success? ==> r.output == outcome.value
    ensures outcome.Failure? ==> r.output == "Error: " + outcome.error
  {
    match outcome
    case Success(out) => Reply(out, false, Keep)
    case Failure(m) => Reply("Error: " + m, true, Keep)
  }

  // ----- executing a line -----

  function ApplyEffect(sessions: seq<Session>, active: nat, effect: Effect): seq<Session> {
    match effect
    case Keep => sessions
    case Wipe => ClearHistory(sessions, active)
    case MoveTo(dir) => SetCwd(sessions, active, dir)
  }

  /**
   * `executeCommand`: a blank line changes nothing (not even the input box); otherwise the line
   * is recorded, echoed, answered, and the input box is emptied. The state updates are applied
   * in the order they are queued: echo, then the built-in's own update, then the output entry.
   */
  function Execute(texts: Texts, t: Shell, cmd: string, handler: Option<Handler>): (r: Shell)
    ensures IsBlank(cmd) ==> r == t
    ensures !IsBlank(cmd) ==>
      r.commands == t.commands + [Trim(cmd)] && r.index == -1 && r.input == "" && r.active == t.active
    ensures |r.sessions| == |t.sessions|
    ensures forall i | 0 <= i < |t.sessions| :: r.sessions[i].id == t.sessions[i].id
    ensures forall i | 0 <= i < |t.sessions| && t.sessions[i].id != t.active :: r.sessions[i] == t.sessions[i]
  {
    var trimmed := Trim(cmd);
    if trimmed == "" then t
    else
      var echoed := AppendInput(t.sessions, t.active, trimmed);
      var reply := Respond(texts, trimmed, Pwd(t), handler);
      var applied := ApplyEffect(echoed, t.active, reply.effect);
      var shown :=
        if reply.output == "" then applied
        else AppendEntry(applied, t.active, Entry(if reply.isError then ErrorEntry else OutputEntry, reply.output));
      Shell(shown, t.active, "", t.commands + [trimmed], -1)
  }

  /** The entry a reply adds to the scroll-back: none for empty output. */
  function OutputEntries(reply: Reply): seq<Entry> {
    if reply.output == "" then [] else [Entry(if reply.isError then ErrorEntry else OutputEntry, reply.output)]
  }

  /**
   * In the active tab a command that keeps the scroll-back adds exactly the echoed prompt line
   * (with that tab's own directory) followed by its output, if any.
   */
  lemma ExecuteTranscript(texts: Texts, t: Shell, cmd: string, handler: Option<Handler>, i: nat)
    requires !IsBlank(cmd) && i < |t.sessions| && t.sessions[i].id == t.active
    requires Respond(texts, Trim(cmd), Pwd(t), handler).effect != Wipe
    ensures var reply := Respond(texts, Trim(cmd), Pwd(t), handler);
      Execute(texts, t, cmd, handler).sessions[i].history ==
      t.sessions[i].history + [Entry(InputEntry, t.sessions[i].cwd + " $ " + Trim(cmd))] + OutputEntries(reply)
  {
  }

  /** `clear` leaves the active tab with an empty scroll-back: its own prompt line is wiped too. */
  lemma ClearEmptiesActive(texts: Texts, t: Shell, cmd: string, handler: Option<Handler>, i: nat)
    requires Trim(cmd) == "clear" && i < |t.sessions| && t.sessions[i].id == t.active
    ensures Execute(texts, t, cmd, handler).sessions[i].history == []
  {
    RespondClear(texts, Pwd(t), handler);
  }

  lemma RespondClear(texts: Texts, pwd: string, handler: Option<Handler>)
    ensures Respond(texts, "clear", pwd, handler) == Reply("", false, Wipe)
  {
    SplitNoSep("clear", ' ');
  }

  /** `echo` prints exactly the text after `"echo "`: splitting on spaces and re-joining is lossless. */
  lemma EchoPrintsRest(texts: Texts, rest: string, pwd: string, handler: Option<Handler>)
    ensures Respond(texts, "echo " + rest, pwd, handler) == Reply(rest, false, Keep)
  {
    assert "echo " + rest == "echo" + [' '] + rest;
    SplitLine("echo", ' ', rest);
    SplitJoin(rest, ' ');
  }

  /** `cd` moves the active tab to its first argument, or home when there is none. */
  lemma CdMoves(texts: Texts, t: Shell, rest: string, handler: Option<Handler>, i: nat)
    requires !IsBlank("cd " + rest) && Trim("cd " + rest) == "cd " + rest
    requires i < |t.sessions| && t.sessions[i].id == t.active
    ensures var dir := Split(rest, ' ')[0];
      Execute(texts, t, "cd " + rest, handler).sessions[i].cwd == if dir != "" then dir else "~"
  {
    assert "cd " + rest == "cd" + [' '] + rest;
    SplitLine("cd", ' ', rest);
  }

  /** The built-ins shadow `onCommand`: for them the prop is never consulted. */
  lemma BuiltInsFirst(texts: Texts, trimmed: string, pwd: string, handler: Handler)
    requires IsBuiltIn(Split(trimmed, ' ')[0])
    ensures Respond(texts, trimmed, pwd, Some(handler)) == Respond(texts, trimmed, pwd, None)
  {
  }

  /** Without `onCommand` an unknown command is an error, and so is `npm` with an unknown verb. */
  lemma UnknownCommandIsError(texts: Texts, command: string, rest: string, pwd: string)
    requires command != "" && ' ' !in command && !IsBuiltIn(command) && command != "git"
    requires command == "npm" ==> Split(rest, ' ')[0] !in {"install", "run"}
    ensures Respond(texts, command + " " + rest, pwd, None) ==
      Reply("Command not found: " + command + "\nType \"help\" for available commands.", true, Keep)
  {
    assert command + " " + rest == command + [' '] + rest;
    SplitLine(command, ' ', rest);
  }

  // ----- history navigation -----

  /** The history cursor is -1 or a position in the command history. */
  predicate CursorValid(t: Shell) {
    -1 <= t.index < |t.commands|
  }

  /** `handleKeyDown` for the keys other than Enter (Enter is `Execute` of the input box). */
  function KeyDown(t: Shell, key: string, ctrl: bool): (r: Shell)
    requires CursorValid(t)
    ensures CursorValid(r)
    ensures r.commands == t.commands && |r.sessions| == |t.sessions|
    ensures key in {"ArrowUp", "ArrowDown"} && r.index != -1 && r != t ==> r.input == t.commands[r.index]
    ensures key == "ArrowUp" && |t.commands| > 0 ==> r.index != -1
    ensures key == "ArrowDown" && t.index == |t.commands| - 1 ==> r.index == -1 && (t.index != -1 ==> r.input == "")
  {
    if key == "ArrowUp" then
      if |t.commands| > 0 then
        var k := if t.index == -1 then |t.commands| - 1 else Max(0, t.index - 1);
        t.(index := k, input := t.commands[k])
      else t
    else if key == "ArrowDown" then
      if t.index != -1 then
        var k := t.index + 1;
        if k >= |t.commands| then t.(index := -1, input := "")
        else t.(index := k, input := t.commands[k])
      else t
    else if key == "l" && ctrl then t.(sessions := ClearHistory(t.sessions, t.active))
    else t
  }

  function Max(a: int, b: int): int {
    if a >= b then a else b
  }

  /** Up from the prompt recalls the most recent command. */
  lemma UpRecallsLatest(t: Shell)
    requires CursorValid(t) && t.index == -1 && |t.commands| > 0
    ensures KeyDown(t, "ArrowUp", false).input == t.commands[|t.commands| - 1]
  {
  }

  /** Up stops at the oldest command. */
  lemma UpStopsAtOldest(t: Shell)
    requires CursorValid(t) && t.index == 0
    ensures KeyDown(t, "ArrowUp", false) == t.(input := t.commands[0])
  {
  }

  /** Up and Down undo each other while browsing away from both ends. */
  lemma UpDownInverse(t: Shell)
    requires CursorValid(t) && t.index >= 1
    ensures KeyDown(KeyDown(t, "ArrowUp", false), "ArrowDown", false) == t.(input := t.commands[t.index])
  {
  }

  lemma DownUpInverse(t: Shell)
    requires CursorValid(t) && 0 <= t.index < |t.commands| - 1
    ensures KeyDown(KeyDown(t, "ArrowDown", false), "ArrowUp", false) == t.(input := t.commands[t.index])
  {
  }

  /** Down past the newest command returns to an empty prompt. */
  lemma DownLeavesHistory(t: Shell)
    requires CursorValid(t) && t.index == |t.commands| - 1 && t.index != -1
    ensures KeyDown(t, "ArrowDown", false) == t.(index := -1, input := "")
  {
  }

  /** Entering a line keeps the cursor valid: the new state is back at -1. */
  lemma ExecuteKeepsCursorValid(texts: Texts, t: Shell, cmd: string, handler: Option<Handler>)
    requires CursorValid(t)
    ensures CursorValid(Execute(texts, t, cmd, handler))
  {
  }

  // ----- sessions -----

  /** `sessions.filter(s => s.id !== id)`. */
  function Without(sessions: seq<Session>, id: nat): (r: seq<Session>)
    ensures |r| <= |sessions|
    ensures forall i | 0 <= i < |r| :: r[i].id != id
    ensures forall i | 0 <= i < |sessions| && sessions[i].id != id :: sessions[i] in r
    ensures forall s | s in r :: s in sessions
    decreases |sessions|
  {
    if |sessions| == 0 then []
    else (if sessions[0].id == id then [] else [sessions[0]]) + Without(sessions[1..], id)
  }

  /** `createNewSession` as written: the new id is one more than the number of tabs. */
  function CreateSession(t: Shell): (r: Shell)
    ensures |r.sessions| == |t.sessions| + 1 && r.sessions[..|t.sessions|] == t.sessions
    ensures r.active == |t.sessions| + 1 == r.sessions[|t.sessions|].id
  {
    NewTab(t, |t.sessions| + 1)
  }

  /** Appending and activating a fresh tab with the given id. */
  function NewTab(t: Shell, id: nat): (r: Shell)
    ensures |r.sessions| == |t.sessions| + 1 && r.sessions[..|t.sessions|] == t.sessions
    ensures r.sessions[|t.sessions|].id == id == r.active
    ensures r.sessions[|t.sessions|].cwd == "~"
  {
    var n := NatToString(id);
    var tab := Session(id, "Terminal " + n, [Entry(OutputEntry, "Welcome to Terminal " + n + "! " + Rocket + "\n")], "~");
    t.(sessions := t.sessions + [tab], active := id)
  }

  /**
   * `closeSession`: the last tab is never closed; otherwise every tab with the id goes, and
   * closing the active tab activates the first remaining one. When nothing remains the source
   * throws on `newSessions[0].id` after the emptied list has been stored; the model keeps the
   * stored list and the old active id.
   */
  function CloseSession(t: Shell, id: nat): (r: Shell)
    ensures |t.sessions| == 1 ==> r == t
    ensures |t.sessions| != 1 ==> r.sessions == Without(t.sessions, id)
    ensures |t.sessions| != 1 && t.active == id && r.sessions != [] ==> r.active == r.sessions[0].id
    ensures t.active != id ==> r.active == t.active
  {
    if |t.sessions| == 1 then t
    else
      var rest := Without(t.sessions, id);
      if t.active == id && |rest| > 0 then t.(sessions := rest, active := rest[0].id)
      else t.(sessions := rest)
  }

  /** Clicking a tab. */
  function Activate(t: Shell, id: nat): (r: Shell)
    ensures r.active == id && r.sessions == t.sessions
  {
    t.(active := id)
  }

  /**
   * The duplicate-id defect: open a second tab, close the first, open another (it gets id 2
   * again), and closing either tab 2 now removes both, leaving no tab at all.
   */
  lemma DuplicateIdEmptiesTerminal()
    ensures var t1 := CreateSession(Initial());
      var t2 := CloseSession(t1, 1);
      var t3 := CreateSession(t2);
      t3.sessions[0].id == t3.sessions[1].id == 2 &&
      CloseSession(t3, 2).sessions == []
  {
    var t1 := CreateSession(Initial());
    assert t1.sessions[0].id == 1 && t1.sessions[1].id == 2;
    var t2 := CloseSession(t1, 1);
    assert t1.sessions[1..][1..] == [];
    assert t2.sessions == [t1.sessions[1]];
    var t3 := CreateSession(t2);
    assert |t3.sessions| == 2;
    assert t3.sessions[1..][1..] == [];
  }

  /** The largest tab id, 0 for no tabs. */
  function MaxId(sessions: seq<Session>): (r: nat)
    ensures forall i | 0 <= i < |sessions| :: sessions[i].id <= r
    decreases |sessions|
  {
    if |sessions| == 0 then 0
    else
      var m := MaxId(sessions[1..]);
      assert forall i | 1 <= i < |sessions| :: sessions[i].id <= m by {
        forall i | 1 <= i < |sessions| ensures sessions[i].id <= m {
          assert sessions[i] == sessions[1..][i - 1];
        }
      }
      if sessions[0].id > m then sessions[0].id else m
  }

  /** The corrected `createNewSession`: one more than the largest id in use. */
  function CreateSessionFresh(t: Shell): (r: Shell)
    ensures |r.sessions| == |t.sessions| + 1 && r.sessions[..|t.sessions|] == t.sessions
    ensures r.sessions[|t.sessions|].id == r.active
    ensures forall i | 0 <= i < |t.sessions| :: t.sessions[i].id != r.active
  {
    NewTab(t, MaxId(t.sessions) + 1)
  }

  /** No two tabs share an id. */
  predicate DistinctIds(sessions: seq<Session>) {
    forall i, j | 0 <= i < j < |sessions| :: sessions[i].id != sessions[j].id
  }

  /** The tab invariant the corrected version keeps: at least one tab, no two with the same id. */
  predicate TabsValid(t: Shell) {
    |t.sessions| >= 1 && DistinctIds(t.sessions)
  }

  lemma InitialTabsValid()
    ensures TabsValid(Initial())
  {
  }

  /** With fresh ids, opening a tab keeps the invariant. */
  lemma CreateFreshKeepsTabs(t: Shell)
    requires TabsValid(t)
    ensures TabsValid(CreateSessionFresh(t))
  {
    var r := CreateSessionFresh(t);
    forall i, j | 0 <= i < j < |r.sessions| ensures r.sessions[i].id != r.sessions[j].id {
      if j < |t.sessions| {
        assert r.sessions[i] == t.sessions[i] && r.sessions[j] == t.sessions[j];
      } else {
        assert r.sessions[i] == t.sessions[i];
      }
    }
  }

  /** With distinct ids, closing a tab removes exactly that one, so a tab always remains. */
  lemma CloseKeepsTabs(t: Shell, id: nat)
    requires TabsValid(t)
    ensures TabsValid(CloseSession(t, id))
  {
    if |t.sessions| > 1 {
      var rest := Without(t.sessions, id);
      var k := if t.sessions[0].id != id then 0 else 1;
      assert t.sessions[k].id != id;
      assert t.sessions[k] in rest;
      WithoutDistinct(t.sessions, id);
    }
  }

  lemma {:induction false} WithoutDistinct(sessions: seq<Session>, id: nat)
    requires DistinctIds(sessions)
    ensures DistinctIds(Without(sessions, id))
    decreases |sessions|
  {
    if |sessions| > 0 {
      var tail := sessions[1..];
      assert DistinctIds(tail) by {
        forall i, j | 0 <= i < j < |tail| ensures tail[i].id != tail[j].id {
          assert tail[i] == sessions[i + 1] && tail[j] == sessions[j + 1];
        }
      }
      WithoutDistinct(tail, id);
      var w := Without(tail, id);
      if sessions[0].id != id {
        var r := [sessions[0]] + w;
        forall i, j | 0 <= i < j < |r| ensures r[i].id != r[j].id {
          if i == 0 {
            assert r[j] == w[j - 1];
            assert r[j] in tail;
            var k :| 0 <= k < |tail| && tail[k] == r[j];
            assert sessions[k + 1] == r[j];
          } else {
            assert r[i] == w[i - 1] && r[j] == w[j - 1];
          }
        }
      }
    }
  }
}

=== FILE: text.dfy ===
/**
 * The JavaScript string built-ins the application relies on, over `string` = `seq<char>`:
 * `split` on a one-character separator, `join`, `trim`, `toLowerCase`/`toUpperCase`
 * (ASCII letters only), `indexOf`, `includes`, `lastIndexOf`, `substring`, `padStart`
 * and `replace` with a string pattern (including its `$` substitution patterns).
 */
module Text {

  function Init<T>(xs: seq<T>): seq<T>
    requires |xs| > 0
  {
    xs[..|xs| - 1]
  }

  function Last<T>(xs: seq<T>): T
    requires |xs| > 0
  {
    xs[|xs| - 1]
  }

  /** The last element of a non-empty tail is what `Init` drops. */
  lemma InitAppend<T>(xs: seq<T>, ys: seq<T>)
    requires |ys| > 0
    ensures Init(xs + ys) == xs + Init(ys)
    ensures Last(xs + ys) == Last(ys)
  {
  }

  /** `s.split(sep)` for a one-character separator; never empty. */
  function Split(s: string, sep: char): (parts: seq<string>)
    ensures |parts| >= 1
    decreases |s|
  {
    if |s| == 0 then [""]
    else
      var rest := Split(s[1..], sep);
      if s[0] == sep then [""] + rest
      else [[s[0]] + rest[0]] + rest[1..]
  }

  /** `parts.join(sep)`. */
  function Join(parts: seq<string>, sep: string): string
    decreases |parts|
  {
    if |parts| == 0 then ""
    else if |parts| == 1 then parts[0]
    else parts[0] + sep + Join(parts[1..], sep)
  }

  /** Concatenation of a sequence of strings (`join('')`). */
  function Concat(parts: seq<string>): string
    decreases |parts|
  {
    if |parts| == 0 then "" else parts[0] + Concat(parts[1..])
  }

  lemma ConcatTwo(x: string, y: string)
    ensures Concat([x, y]) == x + y
  {
    assert [x, y][1..] == [y];
    assert Concat([y]) == y + Concat([]);
    assert y + "" == y;
  }

  lemma {:induction false} ConcatAppend(a: seq<string>, b: seq<string>)
    ensures Concat(a + b) == Concat(a) + Concat(b)
    decreases |a|
  {
    if |a| == 0 {
      assert a + b == b;
    } else {
      assert (a + b)[1..] == a[1..] + b;
      ConcatAppend(a[1..], b);
    }
  }

  /** Splitting and re-joining on the same separator gives back the input. */
  lemma {:induction false} SplitJoin(s: string, sep: char)
    ensures Join(Split(s, sep), [sep]) == s
    decreases |s|
  {
    if |s| > 0 {
      SplitJoin(s[1..], sep);
      var rest := Split(s[1..], sep);
      if s[0] == sep {
        assert Split(s, sep) == [""] + rest;
        assert ([""] + rest)[1..] == rest;
      } else {
        assert Split(s, sep) == [[s[0]] + rest[0]] + rest[1..];
        if |rest| > 1 {
          assert rest == [rest[0]] + rest[1..];
          assert Join(rest, [sep]) == rest[0] + [sep] + Join(rest[1..], [sep]);
        }
      }
    }
  }

  /** No piece of a split contains the separator. */
  lemma {:induction false} SplitPiecesFree(s: string, sep: char)
    ensures forall i | 0 <= i < |Split(s, sep)| :: sep !in Split(s, sep)[i]
    decreases |s|
  {
    if |s| > 0 {
      SplitPiecesFree(s[1..], sep);
    }
  }

  /** A string without the separator splits into itself. */
  lemma {:induction false} SplitNoSep(s: string, sep: char)
    requires sep !in s
    ensures Split(s, sep) == [s]
    decreases |s|
  {
    if |s| > 0 {
      assert sep !in s[1..];
      SplitNoSep(s[1..], sep);
      assert [s[0]] + s[1..] == s;
    }
  }

  /** One unfolding step of `Split` on a string written as a first character and the rest. */
  lemma SplitCons(x: char, r: string, sep: char)
    ensures Split([x] + r, sep) ==
      if x == sep then [""] + Split(r, sep)
      else [[x] + Split(r, sep)[0]] + Split(r, sep)[1..]
  {
    assert ([x] + r)[0] == x;
    assert ([x] + r)[1..] == r;
  }

  /** The last piece of a split is the text after the last separator (all of it when there is none). */
  lemma {:induction false} SplitLast(s: string, sep: char)
    ensures Last(Split(s, sep)) == s[LastIndexOf(s, sep) + 1..]
    decreases |s|
  {
    if |s| > 0 {
      var t, c := s[..|s| - 1], s[|s| - 1];
      assert s == t + [c];
      var l := Last(Split(t, sep));
      assert l == t[LastIndexOf(t, sep) + 1..] && sep !in l by {
        SplitLast(t, sep);
        SplitPiecesFree(t, sep);
      }
      assert Last(Split(s, sep)) == Last(Split(l + [c], sep)) by {
        SplitAppend(t, [c], sep);
        InitAppend(Init(Split(t, sep)), Split(l + [c], sep));
      }
      var want := if c == sep then "" else l + [c];
      assert Last(Split(s, sep)) == want by {
        LastPieceStep(l, c, sep);
      }
      assert s[LastIndexOf(s, sep) + 1..] == want by {
        LastIndexStep(t, c, sep);
      }
    } else {
      assert Split(s, sep) == [""];
      assert LastIndexOf(s, sep) == -1;
    }
  }

  /** The text after the last separator, one character further on. */
  lemma LastIndexStep(t: string, c: char, sep: char)
    ensures (t + [c])[LastIndexOf(t + [c], sep) + 1..] ==
      if c == sep then "" else t[LastIndexOf(t, sep) + 1..] + [c]
  {
    var s := t + [c];
    assert s[..|s| - 1] == t;
  }

  /** Gluing one character to a separator-free piece: a separator starts a new, empty piece. */
  lemma LastPieceStep(l: string, c: char, sep: char)
    requires sep !in l
    ensures Last(Split(l + [c], sep)) == if c == sep then "" else l + [c]
  {
    if c == sep {
      SplitLine(l, sep, "");
      assert l + [c] == l + [sep] + "";
    } else {
      SplitNoSep(l + [c], sep);
    }
  }

  /**
   * How splitting distributes over concatenation: the complete pieces of `a` come first, and
   * the unterminated last piece of `a` is glued to the front of `b`.
   */
  lemma {:induction false} SplitAppend(a: string, b: string, sep: char)
    ensures Split(a + b, sep) == Init(Split(a, sep)) + Split(Last(Split(a, sep)) + b, sep)
    decreases |a|
  {
    if |a| == 0 {
      assert a + b == b;
    } else {
      var x, a' := a[0], a[1..];
      assert a == [x] + a';
      assert a + b == [x] + (a' + b);
      SplitAppend(a', b, sep);
      if x == sep {
        SplitAppendSep(a', b, sep);
      } else {
        SplitAppendOther(x, a', b, sep);
      }
    }
  }

  lemma SplitAppendSep(a': string, b: string, sep: char)
    requires Split(a' + b, sep) == Init(Split(a', sep)) + Split(Last(Split(a', sep)) + b, sep)
    ensures var a := [sep] + a';
      Split(a + b, sep) == Init(Split(a, sep)) + Split(Last(Split(a, sep)) + b, sep)
  {
    var a := [sep] + a';
    var sa := Split(a', sep);
    calc {
      Split(a + b, sep);
      { assert a + b == [sep] + (a' + b); }
      Split([sep] + (a' + b), sep);
      { SplitCons(sep, a' + b, sep); }
      [""] + Split(a' + b, sep);
    }
    SplitCons(sep, a', sep);
    assert Split(a, sep) == [""] + sa;
    InitLastCons("", sa);
  }

  lemma InitLastCons<T>(x: T, xs: seq<T>)
    requires |xs| > 0
    ensures Init([x] + xs) == [x] + Init(xs)
    ensures Last([x] + xs) == Last(xs)
  {
  }

  lemma SplitAppendOther(x: char, a': string, b: string, sep: char)
    requires x != sep
    requires Split(a' + b, sep) == Init(Split(a', sep)) + Split(Last(Split(a', sep)) + b, sep)
    ensures var a := [x] + a';
      Split(a + b, sep) == Init(Split(a, sep)) + Split(Last(Split(a, sep)) + b, sep)
  {
    var a := [x] + a';
    var sa := Split(a', sep);
    var r := Split(a' + b, sep);
    var q := Split(Last(sa) + b, sep);
    assert Split(a + b, sep) == [[x] + r[0]] + r[1..] by {
      assert a + b == [x] + (a' + b);
      SplitCons(x, a' + b, sep);
    }
    assert Split(a, sep) == [[x] + sa[0]] + sa[1..] by {
      SplitCons(x, a', sep);
    }
    if |sa| > 1 {
      assert Last(Split(a, sep)) == Last(sa);
      SplitAppendMany(x, sa, r, q);
    } else {
      assert Split(a, sep) == [[x] + sa[0]];
      assert r == q;
      SplitAppendOne(x, sa[0], b, sep);
    }
  }

  lemma SplitAppendMany(x: char, sa: seq<string>, r: seq<string>, q: seq<string>)
    requires |sa| > 1 && r == Init(sa) + q
    ensures [[x] + r[0]] + r[1..] ==
      Init([[x] + sa[0]] + sa[1..]) + q
  {
    assert r[0] == sa[0];
    assert r[1..] == Init(sa)[1..] + q;
    assert Init([[x] + sa[0]] + sa[1..]) == [[x] + sa[0]] + Init(sa)[1..];
  }

  lemma SplitAppendOne(x: char, p: string, b: string, sep: char)
    requires x != sep
    ensures var q := Split(p + b, sep);
      [[x] + q[0]] + q[1..] == Split([x] + p + b, sep)
  {
    assert [x] + p + b == [x] + (p + b);
    SplitCons(x, p + b, sep);
  }

  /** A line followed by the separator splits off as one piece. */
  lemma {:induction false} SplitLine(s: string, sep: char, t: string)
    requires sep !in s
    ensures Split(s + [sep] + t, sep) == [s] + Split(t, sep)
    decreases |s|
  {
    var w := s + [sep] + t;
    if |s| == 0 {
      assert w == [sep] + t;
      assert w[1..] == t;
    } else {
      assert w[0] == s[0];
      assert w[1..] == s[1..] + [sep] + t;
      SplitLine(s[1..], sep, t);
      assert [s[0]] + s[1..] == s;
    }
  }

  // ----- whitespace -----

  /** JavaScript's WhiteSpace and LineTerminator characters, as `trim` and `\s` use them. */
  predicate IsSpace(c: char) {
    c == ' ' || '\t' <= c <= '\r' || c == '\U{00A0}' || c == '\U{1680}' || '\U{2000}' <= c <= '\U{200A}' ||
    c == '\U{2028}' || c == '\U{2029}' || c == '\U{202F}' || c == '\U{205F}' || c == '\U{3000}' || c == '\U{FEFF}'
  }

  /** Every character is whitespace (so `s.trim()` is the empty, falsy string). */
  predicate IsBlank(s: string) {
    forall i | 0 <= i < |s| :: IsSpace(s[i])
  }

  /** `s.trimStart()`: the suffix left after dropping the leading whitespace. */
  function TrimStart(s: string): (r: string)
    ensures |r| <= |s| && r == s[|s| - |r|..]
    ensures |r| == 0 || !IsSpace(r[0])
    ensures forall i | 0 <= i < |s| - |r| :: IsSpace(s[i])
    decreases |s|
  {
    if |s| > 0 && IsSpace(s[0]) then TrimStart(s[1..]) else s
  }

  /** `s.trimEnd()`: the prefix left after dropping the trailing whitespace. */
  function TrimEnd(s: string): (r: string)
    ensures |r| <= |s| && r == s[..|r|]
    ensures |r| == 0 || !IsSpace(r[|r| - 1])
    ensures forall i | |r| <= i < |s| :: IsSpace(s[i])
    decreases |s|
  {
    if |s| > 0 && IsSpace(s[|s| - 1]) then TrimEnd(s[..|s| - 1]) else s
  }

  /** `s.trim()`: empty exactly when `s` is blank, otherwise bounded by non-space characters. */
  function Trim(s: string): (r: string)
    ensures r == "" <==> IsBlank(s)
    ensures |r| > 0 ==> !IsSpace(r[0]) && !IsSpace(r[|r| - 1])
    ensures |r| <= |s|
  {
    var t := TrimStart(s);
    var r := TrimEnd(t);
    assert r == "" ==> t == "";
    r
  }

  /** Whitespace up to `k` and a non-space character at `k`: `trimStart` keeps `s[k..]`. */
  lemma TrimStartAt(s: string, k: nat)
    requires k <= |s| && forall i | 0 <= i < k :: IsSpace(s[i])
    requires k == |s| || !IsSpace(s[k])
    ensures TrimStart(s) == s[k..]
  {
    var r := TrimStart(s);
    var n := |s| - |r|;
    assert n < |s| ==> r[0] == s[n];
    assert n == k;
  }

  /** A non-space last character: `trimEnd` changes nothing. */
  lemma TrimEndPlain(s: string)
    requires |s| == 0 || !IsSpace(s[|s| - 1])
    ensures TrimEnd(s) == s
  {
  }

  /** Leading blanks up to `k`, non-blank ends: `trim` leaves `s[k..]`. */
  lemma TrimAround(s: string, k: nat)
    requires k < |s| && forall i | 0 <= i < k :: IsSpace(s[i])
    requires !IsSpace(s[k]) && !IsSpace(s[|s| - 1])
    ensures Trim(s) == s[k..]
  {
    TrimStartAt(s, k);
    TrimEndPlain(s[k..]);
  }

  /** Trimming twice is trimming once. */
  lemma TrimIdempotent(s: string)
    ensures Trim(Trim(s)) == Trim(s)
  {
    var r := Trim(s);
    assert TrimStart(r) == r;
    assert TrimEnd(r) == r;
  }

  /** The lines that are not blank, in order (`lines.filter(line => line.trim())`). */
  function NonBlank(lines: seq<string>): (r: seq<string>)
    ensures |r| <= |lines|
    ensures forall i | 0 <= i < |r| :: !IsBlank(r[i])
    decreases |lines|
  {
    if |lines| == 0 then []
    else if IsBlank(lines[0]) then NonBlank(lines[1..])
    else [lines[0]] + NonBlank(lines[1..])
  }

  /** Filtering blank lines distributes over concatenation. */
  lemma {:induction false} NonBlankAppend(a: seq<string>, b: seq<string>)
    ensures NonBlank(a + b) == NonBlank(a) + NonBlank(b)
    decreases |a|
  {
    if |a| == 0 {
      assert a + b == b;
    } else {
      assert (a + b)[0] == a[0];
      assert (a + b)[1..] == a[1..] + b;
      NonBlankAppend(a[1..], b);
    }
  }

  // ----- case mapping (ASCII letters only) -----

  function LowerChar(c: char): char {
    if 'A' <= c <= 'Z' then (c as int + 32) as char else c
  }

  function UpperChar(c: char): char {
    if 'a' <= c <= 'z' then (c as int - 32) as char else c
  }

  /** `s.toLowerCase()`: the same length, character by character. */
  function Lower(s: string): (r: string)
    ensures |r| == |s|
    ensures forall i | 0 <= i < |s| :: r[i] == LowerChar(s[i])
  {
    seq(|s|, i requires 0 <= i < |s| => LowerChar(s[i]))
  }

  /** `s.toUpperCase()`: the same length, character by character. */
  function Upper(s: string): (r: string)
    ensures |r| == |s|
    ensures forall i | 0 <= i < |s| :: r[i] == UpperChar(s[i])
  {
    seq(|s|, i requires 0 <= i < |s| => UpperChar(s[i]))
  }

  /** Lowercasing is idempotent and leaves no upper-case ASCII letter. */
  lemma LowerIdempotent(s: string)
    ensures Lower(Lower(s)) == Lower(s)
    ensures forall i | 0 <= i < |s| :: !('A' <= Lower(s)[i] <= 'Z')
  {
  }

  /** Text without capital letters is its own lowercase. */
  lemma LowerUnchanged(s: string)
    requires forall i | 0 <= i < |s| :: !('A' <= s[i] <= 'Z')
    ensures Lower(s) == s
  {
  }

  lemma LowerAppend(a: string, b: string)
    ensures Lower(a + b) == Lower(a) + Lower(b)
  {
  }

  // ----- searching -----

  function StartsWith(s: string, prefix: string): bool {
    |prefix| <= |s| && s[..|prefix|] == prefix
  }

  function EndsWith(s: string, suffix: string): bool {
    |suffix| <= |s| && s[|s| - |suffix|..] == suffix
  }

  /** `sub` occurs in `s` at position `i`. */
  predicate MatchAt(s: string, sub: string, i: int) {
    0 <= i && i + |sub| <= |s| && s[i..i + |sub|] == sub
  }

  /** A JavaScript position argument clamped into `0..n`. */
  function Clamp(i: int, n: nat): (r: nat)
    ensures r <= n
    ensures 0 <= i <= n ==> r == i
  {
    if i < 0 then 0 else if i > n then n else i
  }

  /**
   * `s.indexOf(sub, from)`: the first occurrence of `sub` at or after `from` (clamped into the
   * string), or -1 when there is none.
   */
  function IndexOfFrom(s: string, sub: string, from: int): (r: int)
    ensures r == -1 || (Clamp(from, |s|) <= r && MatchAt(s, sub, r))
    ensures forall j | Clamp(from, |s|) <= j && (r == -1 || j < r) :: !MatchAt(s, sub, j)
    decreases |s| - Clamp(from, |s|)
  {
    var start := Clamp(from, |s|);
    if MatchAt(s, sub, start) then start
    else if start == |s| then -1
    else IndexOfFrom(s, sub, start + 1)
  }

  function IndexOf(s: string, sub: string): int {
    IndexOfFrom(s, sub, 0)
  }

  /** `s.includes(sub)`. */
  predicate Contains(s: string, sub: string) {
    IndexOf(s, sub) >= 0
  }

  /** `includes` holds exactly when there is an occurrence somewhere. */
  lemma ContainsIff(s: string, sub: string)
    ensures Contains(s, sub) <==> exists i :: MatchAt(s, sub, i)
  {
    if exists i :: MatchAt(s, sub, i) {
      var i :| MatchAt(s, sub, i);
      assert Clamp(0, |s|) <= i;
    }
  }

  /** `s.lastIndexOf(c)` for one character: the last position holding `c`, or -1. */
  function LastIndexOf(s: string, c: char): (r: int)
    ensures -1 <= r < |s|
    ensures r == -1 <==> c !in s
    ensures r >= 0 ==> s[r] == c && c !in s[r + 1..]
    decreases |s|
  {
    if |s| == 0 then -1
    else if s[|s| - 1] == c then |s| - 1
    else
      var r := LastIndexOf(s[..|s| - 1], c);
      assert s == s[..|s| - 1] + [s[|s| - 1]];
      r
  }

  /** `s.substring(start)`: the start is clamped into the string. */
  function SubstringFrom(s: string, start: int): (r: string)
    ensures 0 <= start <= |s| ==> r == s[start..]
    ensures start < 0 ==> r == s
  {
    s[Clamp(start, |s|)..]
  }

  /** `s.substring(a, b)`: both ends clamped into `0..|s|`, then swapped if out of order. */
  function Substring(s: string, a: int, b: int): (r: string)
    ensures 0 <= a <= b <= |s| ==> r == s[a..b]
    ensures 0 <= b <= a <= |s| ==> r == s[b..a]
    ensures |r| <= |s|
  {
    var x := Clamp(a, |s|);
    var y := Clamp(b, |s|);
    if x <= y then s[x..y] else s[y..x]
  }

  // ----- numbers -----

  function Repeat(c: char, n: nat): (r: string)
    ensures |r| == n
    ensures forall i | 0 <= i < n :: r[i] == c
  {
    if n == 0 then "" else [c] + Repeat(c, n - 1)
  }

  /** `s.padStart(n, c)`: at least `n` long, with `s` kept as the suffix. */
  function PadStart(s: string, n: nat, c: char): (r: string)
    ensures |r| == if |s| >= n then |s| else n
    ensures r[|r| - |s|..] == s
    ensures forall i | 0 <= i < |r| - |s| :: r[i] == c
  {
    if |s| >= n then s else Repeat(c, n - |s|) + s
  }

  function DigitChar(d: nat): char
    requires d < 10
  {
    ('0' as int + d) as char
  }

  predicate IsDigit(c: char) {
    '0' <= c <= '9'
  }

  /** `String(n)` for a natural number: decimal digits, no leading zero. */
  function NatToString(n: nat): (r: string)
    ensures |r| >= 1
    ensures forall i | 0 <= i < |r| :: IsDigit(r[i])
    ensures n < 10 <==> |r| == 1
    ensures n >= 10 ==> r[0] != '0'
    decreases n
  {
    if n < 10 then [DigitChar(n)] else NatToString(n / 10) + [DigitChar(n % 10)]
  }

  /** The value of a string of decimal digits. */
  function DigitsValue(s: string): nat
    requires forall i | 0 <= i < |s| :: IsDigit(s[i])
    decreases |s|
  {
    if |s| == 0 then 0
    else
      assert IsDigit(s[|s| - 1]);
      DigitsValue(s[..|s| - 1]) * 10 + (s[|s| - 1] as int - '0' as int)
  }

  /** Reading the decimal rendering back gives the number: rendering is injective. */
  lemma {:induction false} NatToStringValue(n: nat)
    ensures DigitsValue(NatToString(n)) == n
    decreases n
  {
    if n >= 10 {
      NatToStringValue(n / 10);
      var r := NatToString(n);
      assert r[..|r| - 1] == NatToString(n / 10);
    }
  }

  /** Leading zeros do not change the value of a digit string. */
  lemma {:induction false} DigitsValueZeros(k: nat, s: string)
    requires forall i | 0 <= i < |s| :: IsDigit(s[i])
    ensures var z := Repeat('0', k) + s;
      (forall i | 0 <= i < |z| :: IsDigit(z[i])) && DigitsValue(z) == DigitsValue(s)
    decreases |s|
  {
    var z := Repeat('0', k) + s;
    assert forall i | 0 <= i < |z| :: IsDigit(z[i]) by {
      forall i | 0 <= i < |z| ensures IsDigit(z[i]) {
        if i >= k { assert z[i] == s[i - k]; }
      }
    }
    if |s| == 0 {
      assert z == Repeat('0', k);
      RepeatZeroValue(k);
    } else {
      var s' := s[..|s| - 1];
      DigitsValueZeros(k, s');
      assert z[..|z| - 1] == Repeat('0', k) + s';
    }
  }

  lemma {:induction false} RepeatZeroValue(k: nat)
    ensures DigitsValue(Repeat('0', k)) == 0
    decreases k
  {
    if k > 0 {
      var z := Repeat('0', k);
      assert z[..k - 1] == Repeat('0', k - 1) by {
        assert z == [ '0' ] + Repeat('0', k - 1);
        RepeatSnoc(k - 1);
      }
      RepeatZeroValue(k - 1);
    }
  }

  lemma RepeatSnoc(k: nat)
    ensures Repeat('0', k + 1) == Repeat('0', k) + ['0']
  {
    var a, b := Repeat('0', k + 1), Repeat('0', k) + ['0'];
    assert |a| == |b|;
    forall i | 0 <= i < |a| ensures a[i] == b[i] {
    }
  }

  // ----- String.prototype.replace with a string pattern -----

  /**
   * The replacement-pattern expansion `replace` performs (GetSubstitution in ECMA-262 section
   * 22.1.3.19.1, for a string pattern, which has no capture groups): `$$` is a dollar sign,
   * `$&` the matched text, `` $` `` the text before the match, `$'` the text after it; every
   * other character, including any other `$`, is copied.
   */
  function Substitute(rep: string, matched: string, before: string, after: string): string
    decreases |rep|
  {
    if |rep| == 0 then ""
    else if rep[0] == '$' && |rep| >= 2 && rep[1] == '$' then
      "$" + Substitute(rep[2..], matched, before, after)
    else if rep[0] == '$' && |rep| >= 2 && rep[1] == '&' then
      matched + Substitute(rep[2..], matched, before, after)
    else if rep[0] == '$' && |rep| >= 2 && rep[1] == '`' then
      before + Substitute(rep[2..], matched, before, after)
    else if rep[0] == '$' && |rep| >= 2 && rep[1] == '\'' then
      after + Substitute(rep[2..], matched, before, after)
    else [rep[0]] + Substitute(rep[1..], matched, before, after)
  }

  /** A replacement without `$` is inserted verbatim. */
  lemma {:induction false} SubstituteNoDollar(rep: string, matched: string, before: string, after: string)
    requires '$' !in rep
    ensures Substitute(rep, matched, before, after) == rep
    decreases |rep|
  {
    if |rep| > 0 {
      assert '$' !in rep[1..];
      SubstituteNoDollar(rep[1..], matched, before, after);
      assert [rep[0]] + rep[1..] == rep;
    }
  }

  /** `s.replace(pat, rep)` with a string pattern: only the first occurrence is replaced. */
  function ReplaceFirst(s: string, pat: string, rep: string): (r: string)
    ensures IndexOf(s, pat) == -1 ==> r == s
  {
    var i := IndexOf(s, pat);
    if i == -1 then s
    else s[..i] + Substitute(rep, pat, s[..i], s[i + |pat|..]) + s[i + |pat|..]
  }

  /** Splicing `ins` into `s` in place of the first occurrence of `pat`, with no pattern expansion. */
  function ReplaceFirstLiteral(s: string, pat: string, ins: string): (r: string)
    ensures IndexOf(s, pat) == -1 ==> r == s
    ensures IndexOf(s, pat) >= 0 ==>
      |r| == |s| - |pat| + |ins| && r[..IndexOf(s, pat)] == s[..IndexOf(s, pat)]
  {
    var i := IndexOf(s, pat);
    if i == -1 then s else s[..i] + ins + s[i + |pat|..]
  }

  /** The two agree whenever the replacement holds no `$`. */
  lemma ReplaceFirstLiteralAgrees(s: string, pat: string, rep: string)
    requires '$' !in rep
    ensures ReplaceFirst(s, pat, rep) == ReplaceFirstLiteral(s, pat, rep)
  {
    var i := IndexOf(s, pat);
    if i != -1 {
      SubstituteNoDollar(rep, pat, s[..i], s[i + |pat|..]);
    }
  }
}

=== FILE: user_menu.dfy ===
/**
 * The avatar initials of the user menu (components/workspace/user-menu.tsx): the profile name,
 * else the e-mail address, else `U`, split at spaces; the first character of each piece,
 * uppercased, at most two of them. The account-settings dialog applies the same steps to the
 * name being edited.
 */
module UserMenu {
  import opened Text

  /** `.map(n => n[0]).join('')`: an empty piece gives `undefined`, which `join` prints as nothing. */
  function FirstChars(pieces: seq<string>): (r: string)
    ensures |r| <= |pieces|
    decreases |pieces|
  {
    if |pieces| == 0 then ""
    else (if pieces[0] == "" then "" else [pieces[0][0]]) + FirstChars(pieces[1..])
  }

  /** `name.split(' ').map(n => n[0]).join('').toUpperCase().slice(0, 2)`. */
  function Initials(name: string): (r: string)
    ensures |r| == if |FirstChars(Split(name, ' '))| <= 2 then |FirstChars(Split(name, ' '))| else 2
    ensures forall i | 0 <= i < |r| :: r[i] == UpperChar(FirstChars(Split(name, ' '))[i])
  {
    var all := Upper(FirstChars(Split(name, ' ')));
    if |all| <= 2 then all else all[..2]
  }

  /** `user.user_metadata?.name || user.email || 'U'`. */
  function InitialsSource(metaName: string, email: string): (r: string)
    ensures r != ""
    ensures metaName != "" ==> r == metaName
    ensures metaName == "" && email != "" ==> r == email
  {
    if metaName != "" then metaName else if email != "" then email else "U"
  }

  /** `getInitials` of the menu button. */
  function MenuInitials(metaName: string, email: string): string {
    Initials(InitialsSource(metaName, email))
  }

  /** The account dialog's initials: from the edited name alone. */
  function AccountInitials(name: string): string {
    Initials(name)
  }

  /** Pieces produced by repeated spaces contribute nothing. */
  lemma {:induction false} EmptyPieceIgnored(x: seq<string>, y: seq<string>)
    ensures FirstChars(x + [""] + y) == FirstChars(x) + FirstChars(y)
    decreases |x|
  {
    if |x| == 0 {
      assert x + [""] + y == [""] + y;
      assert ([""] + y)[1..] == y;
    } else {
      assert (x + [""] + y)[1..] == x[1..] + [""] + y;
      EmptyPieceIgnored(x[1..], y);
    }
  }

  /** One word: its first letter, uppercased. */
  lemma OneWord(w: string)
    requires w != "" && ' ' !in w
    ensures Initials(w) == [UpperChar(w[0])]
  {
    SplitNoSep(w, ' ');
    assert [w][1..] == [];
  }

  /** Two words separated by one space give both first letters. */
  lemma TwoWords(a: string, b: string)
    requires a != "" && b != "" && ' ' !in a && ' ' !in b
    ensures Initials(a + " " + b) == [UpperChar(a[0]), UpperChar(b[0])]
  {
    SplitLine(a, ' ', b);
    SplitNoSep(b, ' ');
    assert a + " " + b == a + [' '] + b;
    assert Split(a + " " + b, ' ') == [a, b];
    assert [a, b][1..] == [b];
    assert [b][1..] == [];
    assert FirstChars([b]) == [b[0]];
    assert FirstChars([a, b]) == [a[0], b[0]];
  }

  /** Only the first two pieces count: a third word changes nothing. */
  lemma ThirdWordDropped(a: string, b: string, c: string)
    requires a != "" && b != "" && c != "" && ' ' !in a && ' ' !in b && ' ' !in c
    ensures Initials(a + " " + b + " " + c) == Initials(a + " " + b)
  {
    TwoWords(a, b);
    var s := a + " " + b + " " + c;
    assert s == a + [' '] + (b + [' '] + c);
    SplitLine(a, ' ', b + [' '] + c);
    SplitLine(b, ' ', c);
    SplitNoSep(c, ' ');
    assert Split(s, ' ') == [a, b, c];
    assert [a, b, c][1..] == [b, c];
    assert [b, c][1..] == [c];
    assert [c][1..] == [];
    assert FirstChars([c]) == [c[0]];
    assert FirstChars([b, c]) == [b[0], c[0]];
    assert FirstChars([a, b, c]) == [a[0], b[0], c[0]];
  }

  /** With neither a name nor an e-mail address the menu shows `U`. */
  lemma AnonymousIsU()
    ensures MenuInitials("", "") == "U"
  {
    OneWord("U");
  }

  /** The menu never shows empty initials unless its source starts with a space. */
  lemma MenuInitialsNonEmpty(metaName: string, email: string)
    requires InitialsSource(metaName, email)[0] != ' '
    ensures MenuInitials(metaName, email) != ""
  {
    var s := InitialsSource(metaName, email);
    SplitCons(s[0], s[1..], ' ');
    assert [s[0]] + s[1..] == s;
  }

  /** The account dialog shows no initials while the name is empty. */
  lemma AccountInitialsEmpty()
    ensures AccountInitials("") == ""
  {
    assert Split("", ' ') == [""];
    assert [""][1..] == [];
  }
}

=== FILE: wrappers.dfy ===
/** Failure-compatible Option and Result datatypes shared by every module. */
module Wrappers {

  /** An optional value; `None` stands for JavaScript's `undefined`. */
  datatype Option<+T> = None | Some(value: T) {

    function GetOr(default: T): T {
      match this
      case Some(v) => v
      case None => default
    }
  }

  /** The outcome of an operation that may throw; `Failure` carries the error message. */
  datatype Result<+R> = Success(value: R) | Failure(error: string) {

    predicate IsFailure() {
      Failure?
    }

    function PropagateFailure<U>(): Result<U>
      requires Failure?
    {
      Failure(error)
    }

    function Extract(): R
      requires Success?
    {
      value
    }
  }

  /** A value thrown in JavaScript: an `Error` object with its message, or anything else. */
  datatype Thrown = ErrorObject(message: string) | OtherValue {

    /** `e instanceof Error ? e.message : fallback`. */
    function MessageOr(fallback: string): (r: string)
      ensures OtherValue? ==> r == fallback
      ensures ErrorObject? ==> r == message
    {
      match this
      case ErrorObject(m) => m
      case OtherValue => fallback
    }
  }
}
